=== FILE: README.md ===
# kcrw-feed in Dafny

A functional model of the core of kcrw-feed, a tool that builds a local
catalog of KCRW radio shows, episodes and hosts. It does the following:
- reads the station's robots.txt and sitemaps;
- enriches each music resource from its show page or episode player;
- associates episodes with their shows;
- diffs the local catalog against the live one;
- keeps the catalog in a JSON state file and writes one RSS feed per show.

Every operation is a pure function. A Python exception is an `Err` of the
`Result` type in `wrappers.dfy`, carrying a `PyError` named after the
exception class. A method that mutates an object returns the object as the
call leaves it: the catalog is threaded through `Step` values, and the
updater's calls on the local catalog are recorded as a list of effects.

| file | models |
|---|---|
| `wrappers.dfy`, `lists.dfy`, `dicts.dfy`, `text.dfy` | `Option`/`Result` and Python's exceptions; lists, sets kept as lists without repeats, insertion-ordered dicts, `str` methods |
| `values.dfy`, `json.dfy`, `documents.dfy` | the dict/list trees `json`, `xmltodict` and the microdata reader produce, and `d[k]`, `d.get`, iteration on them |
| `sorting.dfy` | `sorted` and `<` on `@dataclass(order=True)` records: Python's tuple comparison, its TypeErrors, and `reverse=True` |
| `paths.dfy`, `urls.dfy`, `ipaddress.dfy`, `sources.dfy` | `os.path.join`/`normpath`, `urllib.parse` (`urlparse`, `urlunparse`, `urljoin`) with the `ipaddress` check of bracketed hosts, and `kcrw_feed/source_manager.py` |
| `models.dfy` | the records of `kcrw_feed/models.py` and their sort order |
| `utils.dfy` | `kcrw_feed/utils.py`: UUID extraction, dedupe by UUID, lenient date parsing |
| `config.dfy` | `kcrw_feed/config.py`: filter options from the command line |
| `classifiers.dfy` | the fixed URL regular expressions, each as the set of strings it matches |
| `crawl.dfy`, `resources.dfy` | `kcrw_feed/processing/resources.py`: robots.txt, the sitemap walk and the resource map |
| `sitemap_processor.dfy`, `show_gatherer.dfy` | the two older sitemap readers |
| `station_catalog.dfy` | `kcrw_feed/station_catalog.py`: filtered listings, the diff, the two loads |
| `station.dfy` | `kcrw_feed/processing/station.py`: enrichment and association |
| `show_processor.dfy`, `show_index.dfy` | the older enrichment path and its index |
| `updater.dfy` | `kcrw_feed/updater.py`: the update run, checkpointing, merge |
| `persistence.dfy`, `rss.dfy` | `kcrw_feed/persistence/state.py` and `kcrw_feed/persistence/manager.py` |
| `legacy_state.dfy` | `kcrw_feed/state_manager.py`, the older serialiser |

Libraries at the edges are inputs to the model:
- fetching is a partial map from reference to bytes;
- the robots.txt, XML, microdata and JSON parsers are functions passed in, returning parsed trees;
- `datetime.fromisoformat`/`isoformat` are a supplied pair;
- a compiled user regex is a predicate;
- the clock is a parameter.

The repository is mid-refactor, and in several places its code calls
names that no longer exist or raises on every input. Where the source is
evidently wrong, the model has an as-written member that shows the
failure and a corrected member; the rest of the model builds on the
corrected member. "## Findings" lists these pairs.

## Model

| member | source | states |
|---|---|---|
| Sorting.AtomLt | kcrw_feed/models.py:48-90 | two fields compare exactly when they are of one kind (strings, UUIDs, naive or aware datetimes), by Python's order; any other pair raises a TypeError, naive against aware with Python's message |
| Sorting.AtomLtTotal | kcrw_feed/models.py:48-90 | two different fields that compare compare both ways, and exactly one of them is below the other |
| Sorting.TupleCodeOrder | kcrw_feed/models.py:48-90 | for two comparison tuples Python can order, `<` (the first differing field decides, a shorter prefix is smaller) holds exactly when the first tuple's integer code is strictly lexicographically below the second's |
| Sorting.TupleLtRaisesTypeError | kcrw_feed/models.py:48-90 | a tuple comparison that fails raises a TypeError |
| Sorting.ComparableSymmetric | kcrw_feed/models.py:48-90 | whether two tuples can be compared does not depend on which is on the left |
| Sorting.ComparableSelf | kcrw_feed/models.py:48-90 | a tuple can be compared with itself and is not below itself |
| Sorting.Clash | kcrw_feed/processing/station.py:88 | the search for an incomparable pair finds one exactly when the values are not pairwise comparable, and what it finds is the TypeError of some such pair |
| Sorting.SortTuples | kcrw_feed/processing/station.py:232 | `sorted` on dataclass values raises, with the TypeError of some pair, exactly when two values cannot be compared; otherwise it permutes them so that no value is `<` one before it |
| Sorting.SortTuplesDescending | kcrw_feed/persistence/manager.py:181-182 | `sorted(..., reverse=True)` raises exactly when two values cannot be compared; otherwise it permutes them so that no value is `<` one after it |
| Sorting.SortTwo | kcrw_feed/models.py:48-90 | two values one of which is strictly below the other sort into that order from either input order, and into the opposite order with `reverse=True` |
| Utils.ExtractUuid | kcrw_feed/utils.py:15-38 | a UUID is returned exactly when some position matches the 32-hex or 8-4-4-4-12 pattern; it is the literal captured at the leftmost match, and it is a well-formed UUID |
| Utils.ExtractUuidOf | kcrw_feed/utils.py:15-38 | applied to a value read from a document, anything but a string raises, and a string gives what `extract_uuid` gives |
| Utils.CandidateIsLiteral | kcrw_feed/utils.py:31-37 | every capture of the pattern is accepted by `uuid.UUID`, so the `ValueError` branch cannot be taken |
| Utils.UuidFromLiteral | kcrw_feed/utils.py:34 | `uuid.UUID(hex)` raises "badly formed hexadecimal UUID string" unless 32 characters remain after the prefixes, braces and dashes are removed; those 32 are read as `int(hex, 16)` reads them; a success is a valid UUID, and 32 plain hex digits give their lower-case form |
| Utils.UuidOfDigits | kcrw_feed/utils.py:34 | the 32 cleaned characters give a UUID exactly when `int(hex, 16)` reads them and the value is not negative; the UUID is the value's 32 zero-padded lower-case digits; an unreadable text raises "invalid literal for int() with base 16" quoting it, a negative value "int is out of range (need a 128-bit value)" |
| Utils.IntHex | kcrw_feed/utils.py:34 | what `int(hex, 16)` reads, after it allows surrounding white space, a sign, a `0x` prefix and single underscores between digits: a non-empty run of hexadecimal digits no longer than the text |
| Utils.IntHexPlain | kcrw_feed/utils.py:34 | a text of hexadecimal digits only is read as itself, non-negative |
| Utils.LiteralNeverNegative | kcrw_feed/utils.py:34 | dashes are removed before `int` reads the text, so the out-of-range error can never be raised |
| Utils.PrefixedLiteral | kcrw_feed/utils.py:34 | `0x` followed by 30 hex digits is accepted, as the UUID with those digits after two zeros |
| Utils.MinusIsDash | kcrw_feed/utils.py:34 | a minus sign before 31 hex digits is removed with the dashes, so the text is too short and is rejected as badly formed |
| Utils.UuidStrRoundTrip | kcrw_feed/utils.py:34 | the canonical dashed text of a UUID parses back to the same UUID |
| Utils.ExtractUuidIgnoresCase | kcrw_feed/utils.py:26-29 | an input and its lower-case form yield the same UUID, or both none |
| Utils.UniqByUuid | kcrw_feed/utils.py:41-59 | a list mixing entity kinds fails the assertion with its message; otherwise the result is the first-holder dedupe of the list |
| Utils.SameKind | kcrw_feed/utils.py:46-50 | the entry check passes exactly when every element has the first element's kind |
| Utils.DedupeByUuid | kcrw_feed/utils.py:51-59 | the loop with its `seen` set computes the first-holder dedupe |
| Utils.UniqFacts | kcrw_feed/utils.py:51-59 | the dedupe is an order-preserving subsequence with no UUID twice; every UUID-less element is kept; the first holder of each UUID is kept and no later one |
| Utils.UniqOfDistinct | kcrw_feed/utils.py:51-59 | a list whose UUIDs are already distinct comes back unchanged |
| Utils.UniqIdempotent | kcrw_feed/utils.py:41-59 | deduping twice gives the same list as deduping once |
| Utils.ParseDate | kcrw_feed/utils.py:62-70 | a missing or empty string gives None; any other string gives what the ISO parser gives, which is None when the string is malformed |
| Utils.ParseDateRoundTrip | kcrw_feed/utils.py:62-70 | a date written in ISO form reads back as the same date |
| Models.SameAirdateByTitle | kcrw_feed/models.py:67-90 | two episodes on the same airdate with different titles sort by title even when listed the other way round, and by descending title with `reverse=True` |
| Models.MissingAirdateFails | kcrw_feed/models.py:67-90 | an episode without an airdate cannot be sorted together with one that has an airdate, in either order |
| Models.NaiveAwareFails | kcrw_feed/models.py:67-90 | episodes with a naive and an aware airdate cannot be sorted together: the sort raises Python's naive/aware TypeError |
| SourceManager.Rewrite | kcrw_feed/source_manager.py:20 | only a leading `https://www.kcrw.com/` or `http://localhost:8888/` is replaced: putting the prefix back in front of the rest gives the input, and any other URL comes back unchanged |
| SourceManager.RewriteIdempotent | kcrw_feed/source_manager.py:20 | with a replacement that cannot start a site prefix, rewriting twice equals rewriting once |
| SourceManager.NormalizeLocation | kcrw_feed/source_manager.py:44-60 | with a non-HTTP base the result is always a path that `normpath` leaves unchanged |
| SourceManager.NormalizeLocationIgnoresRoot | kcrw_feed/source_manager.py:58-60 | with a non-HTTP base, a leading separator on `loc` makes no difference |
| SourceManager.NormalizeLocationRooted | kcrw_feed/source_manager.py:56-57 | with an http(s) base, an absolute-path `loc` keeps the base's scheme and host and takes `loc`'s path, query and fragment |
| SourceManager.ValidateSourceRoot | kcrw_feed/source_manager.py:89-106 | a root is accepted exactly when its scheme is http or https or the path exists, and otherwise `ValueError` is raised with the message naming the root |
| SourceManager.NewSource | kcrw_feed/source_manager.py:195-199 | building a source succeeds exactly when its root validates, and the source keeps that root |
| SourceManager.CacheRelativePath | kcrw_feed/source_manager.py:272-275 | the local mirror's relative path always starts with `./` and has something after it |
| SourceManager.CacheRelativeIdempotent | kcrw_feed/source_manager.py:272-275 | taking the relative path of a mirror-relative path changes nothing, provided the first result is not rooted after the rewrite |
| SourceManager.CacheRelativeOfSiteUrl | kcrw_feed/source_manager.py:272-275 | for a site URL the mirror path is never rooted, so taking its relative path again changes nothing |
| SourceManager.GetReference | kcrw_feed/source_manager.py:236-241 | fetching a reference gives the stored bytes when the resolved reference is in the store and None otherwise; a reference that cannot be resolved raises |
| SourceManager.CacheReferenceNormal | kcrw_feed/source_manager.py:277-281 | a mirror on a file path always resolves a reference, and the path it reads is already normalised |
| Urls.StripQueryParams | kcrw_feed/source_manager.py:63-66 | stripping fails exactly when `urlparse` raises on the URL: an unbalanced bracket, or a bracketed host that is neither IPv6 nor IPvFuture |
| Urls.ParseUnparse | kcrw_feed/source_manager.py:63-66 | parsing the text that unparsing writes gives back the same parts, for every set of parts the parser can produce |
| Urls.StripQueryKeepsParts | kcrw_feed/source_manager.py:63-66 | for a URL with a host, the stripped URL parses to the same scheme, host, path, parameters and fragment, with an empty query |
| Urls.StripQueryIdempotent | kcrw_feed/source_manager.py:63-66 | for a URL with a host, stripping the query twice gives the same text as stripping it once |
| Urls.BracketedHostError | kcrw_feed/source_manager.py:64 | a bracketed host starting with `v` is accepted exactly when it is an IPvFuture literal; any other is accepted exactly when `ip_address` reads it as IPv6 and not IPv4 |
| Urls.BracketedNameRejected | kcrw_feed/source_manager.py:63-66 | stripping `http://[x]/p?q` raises ValueError, because `x` is not an IP address |
| Urls.BracketedIPv6Accepted | kcrw_feed/source_manager.py:64 | a network location holding a full-form IPv6 address in brackets, with or without a port, passes the bracket checks |
| IpAddress.IpAddress | kcrw_feed/source_manager.py:64 | `ip_address` gives IPv4 exactly for four dotted octets, IPv6 exactly for a valid colon form that is not IPv4, and otherwise raises ValueError naming the text |
| IpAddress.FirstSkip | kcrw_feed/source_manager.py:64 | the position found is the first interior empty part (a `::`) from the start point, and there is none exactly when no such part exists |
| IpAddress.IPv4NotIPv6 | kcrw_feed/source_manager.py:64 | an IPv4 address is never also an IPv6 address |
| IpAddress.FullFormIsIPv6 | kcrw_feed/source_manager.py:64 | eight hextets joined by colons are an IPv6 address |
| IpAddress.LoopbackIsIPv6 | kcrw_feed/source_manager.py:64 | the short form `::1` is an IPv6 address |
| Urls.ResolveSegments | kcrw_feed/source_manager.py:57 | the segment walk of reference resolution never leaves a `.` or `..` segment behind |
| Urls.ResolveWithoutDots | kcrw_feed/source_manager.py:57 | without dot segments, the walk just appends the reference's segments |
| Urls.JoinOtherScheme | kcrw_feed/source_manager.py:57 | a reference with a scheme different from the base's is returned as given |
| Urls.JoinRootedPath | kcrw_feed/source_manager.py:57 | a rooted path with no dot segments replaces the base's path and keeps the base's scheme and host |
| Paths.OsJoin | kcrw_feed/source_manager.py:60 | a relative part is appended to the base with at most one separator between them; an absolute part replaces the base |
| Paths.NormPathIdempotent | kcrw_feed/source_manager.py:60 | `normpath` of a normalised path is the path itself |
| Paths.NormPathDotPrefix | kcrw_feed/source_manager.py:275 | a leading `./` does not change the normal form of a relative path |
| Classifiers.MusicFilterIsRe | kcrw_feed/processing/resources.py:17-18 | the scanner the readers use accepts a URL exactly when the case-insensitive pattern `(/sitemap-shows/music/\|/music/shows/)` matches somewhere in it |
| Classifiers.MusicFilterLength | kcrw_feed/processing/resources.py:17-18 | a URL that passes the music filter is at least as long as the shows section it must contain |
| Classifiers.MusicFilterIgnoresCase | kcrw_feed/processing/resources.py:17-18 | letter case never changes whether a URL passes the music filter |
| Classifiers.MusicFilterOfShowsUrl | kcrw_feed/processing/resources.py:17-18 | any URL holding `/music/shows/` passes, whatever surrounds it |
| Classifiers.SearchSitemapIsRe | kcrw_feed/processing/resources.py:16 | the sitemap-name scanner accepts exactly the strings in which the case-insensitive pattern `sitemap.*\.xml` matches |
| Classifiers.SitemapReOfName | kcrw_feed/processing/resources.py:16 | every name of the form `sitemap<anything on one line>.xml` passes |
| Classifiers.EpisodePathOfSegments | kcrw_feed/processing/station.py:26-28 | a path with two segments below `/music/shows/` is an episode path |
| Classifiers.ShowPathIsNotEpisode | kcrw_feed/processing/station.py:44-53 | a show's own path, with or without its trailing slash, is not an episode path, so it is treated as a show |
| Classifiers.ShowFromEpisode | kcrw_feed/processing/station.py:29-30 | the show URL taken from an episode URL is a prefix of that URL |
| Classifiers.ShowFromEpisodeIdempotent | kcrw_feed/processing/station.py:29-30 | the show URL of a show URL is itself, so taking the parent twice equals taking it once |
| Classifiers.ShowPartIsShow | kcrw_feed/processing/station.py:29-30 | a URL whose show part runs to its end is its own show |
| Classifiers.ShowFromEpisodeOfChild | kcrw_feed/processing/station.py:29-30 | the parent of `<show>/<rest>` is `<show>` whenever `rest` stays on one line |
| Config.WrapMatch | kcrw_feed/config.py:73-76 | a match string without a regex character becomes `.*<match>.*`; one with a regex character is used as given |
| Config.WrapMatchIdempotent | kcrw_feed/config.py:73-76 | the wrapped string always reads as a regex, so wrapping twice equals wrapping once, and it still contains the original match |
| Config.ParseDatetime | kcrw_feed/config.py:51-56 | the result exists exactly when the ISO parser accepts the text; it always carries an offset; an aware value is kept, and a naive one gets the local offset with its wall-clock reading kept |
| Config.ParseDatetimeAware | kcrw_feed/config.py:51-56 | parsing the text of a value that already carries its offset gives that value again |
| Config.GetFilterOptions | kcrw_feed/config.py:59-114 | a bad `--match` raises first, then a bad `--since`, then a bad `--until`, each with its message; otherwise the options carry the match, the compiled wrapped pattern exactly when a match is given, each date exactly when given, and the dry-run flag |
| Config.DateOption | kcrw_feed/config.py:88-98 | an absent date gives None; an unparsable one raises `ValueError` naming the option and the text; otherwise the parsed, offset-carrying value |
| Config.ValidateConfig | kcrw_feed/config.py:32-36 | the configuration is accepted exactly when `source_root` is present and truthy, and otherwise the program exits with status 1 |
| Models.SortShows | kcrw_feed/models.py:48-64 | sorting shows raises a TypeError exactly when two of them have comparison tuples Python cannot order; otherwise it permutes them so that no show is `<` one before it, hence in URL order, the key `__post_init__` sets |
| Models.SortEpisodes | kcrw_feed/models.py:67-90 | sorting episodes raises a TypeError exactly when two comparison tuples cannot be ordered (a missing airdate against a present one, naive against aware); otherwise it permutes them so that no episode is `<` one before it, hence in airdate order |
| Documents.PyGet | kcrw_feed/processing/resources.py:114 | `doc.get(key)` succeeds exactly on a dict and answers the first binding of the key; on anything else it raises the missing-attribute error |
| Documents.Iterate | kcrw_feed/processing/resources.py:128 | iterating a list gives its items, a dict its keys in order, a string its characters, and anything else raises |
| Documents.EntryList | kcrw_feed/processing/resources.py:124-125 | a lone dict entry is wrapped into a one-element list; a list is kept as it is |
| Documents.Entries | kcrw_feed/processing/resources.py:113-125 | a document without a truthy outer element has no entries; an outer element that is not a dict raises on `.get` |
| Documents.EntriesOfSingle | kcrw_feed/processing/resources.py:119-125 | an index holding one non-empty dict entry yields exactly that entry |
| Documents.ExtractLocsComplete | kcrw_feed/sitemap_processor.py:88-106 | a string is among the extracted locations exactly when some dict reached through dicts and lists binds it, as a string, under a key that lower-cases to `loc` |
| Crawl.CollectAsWrittenClosed | kcrw_feed/processing/resources.py:79-95 | when the recursive collection as written returns, its result holds the roots, has no repeats, and names every child of every member |
| Crawl.CollectAsWrittenLeast | kcrw_feed/processing/resources.py:79-95 | when the collection as written returns, it holds nothing outside any child-closed set that contains the roots |
| Crawl.AsWrittenCycleFails | kcrw_feed/processing/resources.py:87-94 | two sitemaps naming each other make the collection as written recurse without end, at every depth bound |
| Crawl.ExploreError | kcrw_feed/processing/resources.py:89 | a failed crawl fails with the error of reading some sitemap |
| Crawl.CollectSitemaps | kcrw_feed/processing/resources.py:79-95 | the corrected collection holds the roots, has no repeats and is closed under children; a failure is the failure of reading some sitemap |
| Crawl.CollectSitemapsLeast | kcrw_feed/processing/resources.py:79-95 | the corrected collection succeeds and stays inside every child-closed set containing the roots, so it is the least such set |
| Crawl.AsWrittenAgrees | kcrw_feed/processing/resources.py:79-95 | whenever the collection as written returns, the corrected one returns the same set of sitemaps |
| Crawl.CorrectedCycleReturns | kcrw_feed/processing/resources.py:87-94 | on two sitemaps naming each other the corrected collection returns both |
| Resources.SitemapsFromRobots | kcrw_feed/processing/resources.py:54-77 | an unreadable robots.txt propagates the read error, a missing or empty one raises FileNotFoundError naming the base source; otherwise the result has no repeats and holds exactly the source-relative forms of the `Sitemap:` URLs that name a sitemap file |
| Resources.RobotsMembers | kcrw_feed/processing/resources.py:70-74 | the filtered list holds exactly the relative forms of the URLs that match `sitemap.*\.xml` |
| Resources.ChildLoc | kcrw_feed/processing/resources.py:128-131 | an index entry reads without error exactly when it is a dict whose set `loc` is a string, and then contributes its stripped `loc` when that is non-empty |
| Resources.ChildLocs | kcrw_feed/processing/resources.py:127-131 | the loop over index entries succeeds exactly when every entry does, and keeps the stripped `loc` of each entry that has one, in order |
| Resources.ChildrenOfDoc | kcrw_feed/processing/resources.py:113-142 | a child is returned exactly when some index entry's stripped `loc` passes the music filter and the child is its source-relative form |
| Resources.ReadChildSitemaps | kcrw_feed/processing/resources.py:97-142 | an error fetching the sitemap propagates; a missing or empty one gives no children; otherwise the result is the children its parsed document names, none when it does not parse |
| Resources.NotIndexNoChildren | kcrw_feed/processing/resources.py:114-117 | a document without a truthy `sitemapindex` names no children |
| Resources.StoredChildrenConfined | kcrw_feed/processing/resources.py:89-94 | every child a crawl can meet lies in a finite set fixed by the roots and the stored documents, which is what bounds the crawl |
| Resources.CollectSitemaps | kcrw_feed/processing/resources.py:79-95 | the sitemaps collected hold the roots, have no repeats and include every child any of them names |
| Resources.ParseLastmod | kcrw_feed/processing/resources.py:181 | a string `lastmod` is parsed as the date parser does (None when it cannot be parsed); anything else raises |
| Resources.DatedSpec | kcrw_feed/processing/resources.py:179-182 | an entry without a set `lastmod` keeps its fields and has no date; a set one must be a string, is parsed, and the parsed value replaces it while every other field stays |
| Resources.EntryResource | kcrw_feed/processing/resources.py:175-191 | an entry that is not a dict raises on `.get`; a resource is made only for a non-empty URL that passes the music filter |
| Resources.ResourceAt | kcrw_feed/processing/resources.py:179-188 | a kept URL yields a resource at that URL, and does so exactly when its `lastmod` parses and the source gives a reference for it |
| Resources.EntryResourceNoLoc | kcrw_feed/processing/resources.py:176 | an entry without a string `loc` raises on `.strip` of whatever `loc` holds |
| Resources.EntryResourceSkipped | kcrw_feed/processing/resources.py:178 | an entry is skipped exactly when its stripped `loc` is empty or not a music URL |
| Resources.EntryResourceKept | kcrw_feed/processing/resources.py:176-188 | a kept entry's resource has the stripped `loc` as URL, the source's reference for it, and the parsed `lastmod` with the updated entry as metadata |
| Resources.EntryResources | kcrw_feed/processing/resources.py:175-191 | every resource the entry loop makes has a non-empty music URL |
| Resources.EntryResourcesOk | kcrw_feed/processing/resources.py:175-191 | the entry loop succeeds exactly when every entry does |
| Resources.EntryResourcesMembers | kcrw_feed/processing/resources.py:175-191 | a resource comes out of the entry loop exactly when some entry makes it |
| Resources.PutAll | kcrw_feed/processing/resources.py:191 | storing resources by URL keeps keys unique, keeps every key already present, and leaves a URL none of them has untouched |
| Resources.PutAllStores | kcrw_feed/processing/resources.py:191 | every stored resource's URL is present afterwards |
| Resources.PutAllLastWins | kcrw_feed/processing/resources.py:191 | a resource that no later one with the same URL replaces is what its URL maps to |
| Resources.PutAllIndexed | kcrw_feed/processing/resources.py:191 | storing music resources keeps the map an index: unique keys, each key the URL of its resource, non-empty and music |
| Resources.SitemapResources | kcrw_feed/processing/resources.py:147-156 | a missing, empty or unparsable sitemap contributes nothing; what it contributes are music resources |
| Resources.ReadSitemapForEntries | kcrw_feed/processing/resources.py:144-191 | reading a sitemap fails exactly when its entries do, changes nothing when it contributes nothing, keeps the map an index and every earlier key, and stores every resource it contributes |
| Resources.ReadAll | kcrw_feed/processing/resources.py:50-51 | reading the sitemaps in turn keeps the map an index and keeps every key already present |
| Resources.ReadAllStores | kcrw_feed/processing/resources.py:50-51 | every resource any of the sitemaps contributes is stored when the loop completes |
| Resources.FetchResources | kcrw_feed/processing/resources.py:35-52 | a robots.txt failure is the result; otherwise the resources map stays an index and keeps what it held |
| Resources.FetchStoresReachable | kcrw_feed/processing/resources.py:35-52 | every resource of every sitemap reachable from robots.txt is in the fetched map |
| SitemapProcessor.LastLower | kcrw_feed/sitemap_processor.py:121 | the key a lower-cased name maps to is the last key of the dict that lower-cases to it, and there is none exactly when no key does |
| SitemapProcessor.Pick | kcrw_feed/sitemap_processor.py:121-123 | a field is picked exactly when some key lower-cases to its name |
| SitemapProcessor.Entry | kcrw_feed/sitemap_processor.py:123-129 | an entry starts with its `loc` and holds nothing but `loc`, `lastmod`, `changefreq` and `priority` |
| SitemapProcessor.EntryOptional | kcrw_feed/sitemap_processor.py:124-129 | each optional field of an entry is the value the data holds under a key lower-casing to that name, and absent when there is none |
| SitemapProcessor.PutShaped | kcrw_feed/sitemap_processor.py:131-132 | storing a music entry under its `loc` keeps the entry map well shaped: unique music keys, each mapped to an entry with that `loc` |
| SitemapProcessor.ExtractEntries | kcrw_feed/sitemap_processor.py:108-139 | the walk never drops a stored key and keeps the entry map well shaped |
| SitemapProcessor.ExtractEntriesOk | kcrw_feed/sitemap_processor.py:118-139 | the walk raises exactly when some entry it reaches has a `loc` that is not a string |
| SitemapProcessor.ExtractEntriesKeys | kcrw_feed/sitemap_processor.py:118-139 | after the walk a key is stored exactly when it was before or it is the music `loc` of an entry reachable without passing through another entry |
| SitemapProcessor.MusicLocInFields | kcrw_feed/sitemap_processor.py:133-136 | a dict that is not an entry holds a reachable music `loc` exactly when one of its values does |
| SitemapProcessor.MusicLocInItems | kcrw_feed/sitemap_processor.py:137-139 | a list holds a reachable music `loc` exactly when one of its items does |
| SitemapProcessor.FindSitemaps | kcrw_feed/sitemap_processor.py:49-70 | the sitemaps found have no repeats and each names a sitemap file |
| SitemapProcessor.FindSitemapsRobots | kcrw_feed/sitemap_processor.py:55-59 | a robots.txt location that cannot be formed propagates its error; a missing or empty robots.txt raises FileNotFoundError naming its location |
| SitemapProcessor.FindSitemapsMembers | kcrw_feed/sitemap_processor.py:55-70 | a URL is found exactly when robots.txt lists it or it is an extra sitemap resolved against the base, and it names a sitemap file |
| SitemapProcessor.ReadSitemap | kcrw_feed/sitemap_processor.py:72-86 | a missing or empty sitemap changes nothing; a parse failure is raised; the walk's guarantees carry over |
| SitemapProcessor.ReadSitemapKeys | kcrw_feed/sitemap_processor.py:72-86 | after reading a sitemap a key is stored exactly when it was before or the sitemap's document holds it as a reachable music `loc` |
| SitemapProcessor.ReadSitemaps | kcrw_feed/sitemap_processor.py:40-41 | reading sitemaps in turn never drops a key and keeps the map well shaped |
| SitemapProcessor.ReadSitemapsKeys | kcrw_feed/sitemap_processor.py:40-41 | after the loop a key is stored exactly when it was before or one of the sitemaps holds it as a reachable music `loc` |
| SitemapProcessor.GatherShows | kcrw_feed/sitemap_processor.py:30-47 | "feed" gives nothing, an unknown source raises ValueError, and the sitemap answer is sorted, without repeats and music URLs only |
| SitemapProcessor.KeysOfShaped | kcrw_feed/sitemap_processor.py:42 | the keys of a well-shaped entry map have no repeats and are all music URLs |
| SitemapProcessor.GatherShowsMembers | kcrw_feed/sitemap_processor.py:38-42 | a show URL is returned exactly when it was already stored or some found sitemap holds it as a reachable music `loc` |
| ShowGatherer.Prefixed | kcrw_feed/show_gatherer.py:68-69 | each configured sitemap file is placed under the source URL, one for one and in order |
| ShowGatherer.FindSitemaps | kcrw_feed/show_gatherer.py:52-78 | a missing robots.txt raises FileNotFoundError with the fixed test-data path whatever the source; the result has no repeats |
| ShowGatherer.FindSitemapsMembers | kcrw_feed/show_gatherer.py:59-75 | a URL is found exactly when it is a listed or configured sitemap that names a sitemap file, with the production site prefix replaced by the source URL |
| ShowGatherer.FindSitemapsAtSite | kcrw_feed/show_gatherer.py:72-75 | when the source is the production site itself the replacement changes nothing and the found URLs are exactly the sitemap-file candidates |
| ShowGatherer.ReadSitemap | kcrw_feed/show_gatherer.py:80-98 | a sitemap that is not there gives nothing, a parse failure is raised, and otherwise the result holds exactly the strings stored under a `loc` key anywhere in the document |
| ShowGatherer.ShowsOf | kcrw_feed/show_gatherer.py:39-44 | every collected URL passes one of the two music patterns |
| ShowGatherer.ShowsOfMembers | kcrw_feed/show_gatherer.py:39-44 | the loop succeeds exactly when every sitemap reads, and a URL is collected exactly when it is a music URL that some sitemap yields |
| ShowGatherer.GatherShows | kcrw_feed/show_gatherer.py:25-50 | "feed" gives nothing, an unknown source raises ValueError, a missing robots.txt raises FileNotFoundError, and only music URLs come back |
| ShowGatherer.GatherShowsMembers | kcrw_feed/show_gatherer.py:36-45 | a URL is returned exactly when it is a music URL that one of the found sitemaps yields |
| StationCatalog.Search | kcrw_feed/station_catalog.py:225 | searching a missing key raises; otherwise the answer is whether the pattern occurs in the key |
| StationCatalog.NotBefore | kcrw_feed/station_catalog.py:231-232 | the start comparison raises exactly when the date cannot be compared with the bound, and keeps exactly the dates at or after the bound, never a missing one |
| StationCatalog.NotAfter | kcrw_feed/station_catalog.py:234-235 | the end comparison raises exactly when the date cannot be compared with the bound, and keeps exactly the dates at or before the bound, never a missing one |
| StationCatalog.MatchStage | kcrw_feed/station_catalog.py:222-227 | the pattern stage raises exactly when a pattern is set and some item has no key, and otherwise keeps exactly the items whose key the pattern matches |
| StationCatalog.StartStage | kcrw_feed/station_catalog.py:229-232 | the start stage raises exactly when some item's date cannot be compared with the start, and otherwise keeps exactly the items dated at or after it |
| StationCatalog.EndStage | kcrw_feed/station_catalog.py:229-235 | the end stage raises exactly when some item's date cannot be compared with the end, and otherwise keeps exactly the items dated at or before it |
| StationCatalog.FilterItems | kcrw_feed/station_catalog.py:197-236 | without options every item is returned; with options the filter raises exactly when some item would make a stage raise, and otherwise keeps exactly the items that pass every stage |
| StationCatalog.FilterItemsSubseq | kcrw_feed/station_catalog.py:219-236 | filtering keeps the surviving items in their original order |
| StationCatalog.MatchStageKeeps | kcrw_feed/station_catalog.py:222-227 | when every item matches, the pattern stage returns the list unchanged |
| StationCatalog.StartStageKeeps | kcrw_feed/station_catalog.py:230-232 | when every item is comparable and not before the start, the start stage returns the list unchanged |
| StationCatalog.EndStageKeeps | kcrw_feed/station_catalog.py:233-235 | when every item is comparable and not after the end, the end stage returns the list unchanged |
| StationCatalog.FilterItemsIdempotent | kcrw_feed/station_catalog.py:197-236 | filtering an already filtered list with the same options changes nothing |
| StationCatalog.ArgsFilter | kcrw_feed/station_catalog.py:219-236 | with options built from arguments that pass validation (config.py:59-114), an item is kept exactly when its text matches the wrapped `--match` pattern if one was given, and its date is on or after `--since` and on or before `--until` where those were given |
| StationCatalog.ListResources | kcrw_feed/station_catalog.py:63-70 | without options all resources are listed; with options exactly those whose URL matches and whose `lastmod` metadata lies in the window |
| StationCatalog.ListShows | kcrw_feed/station_catalog.py:153-160 | shows are listed by URL and last update; a URL pattern with a show lacking a URL raises |
| StationCatalog.ListEpisodes | kcrw_feed/station_catalog.py:162-169 | episodes are listed by URL and last update; a URL pattern with an episode lacking a URL raises |
| StationCatalog.ListHosts | kcrw_feed/station_catalog.py:171-173 | hosts are filtered by name only, never by date; a name pattern with an unnamed host raises |
| StationCatalog.ListResourcesAware | kcrw_feed/station_catalog.py:63-70 | when the window bounds and every `lastmod` carry a time zone (or a resource has none), listing resources never raises |
| StationCatalog.DiffAsWritten | kcrw_feed/station_catalog.py:72-105 | the diff as written can only ever report no changes |
| StationCatalog.AsWrittenSelfDiffFails | kcrw_feed/station_catalog.py:81-82 | the diff as written raises on any catalog holding a resource, because resources are unhashable and cannot go into a set |
| StationCatalog.Urls | kcrw_feed/station_catalog.py:90 | the URLs of a listing, one for one |
| StationCatalog.FirstPerUrl | kcrw_feed/station_catalog.py:81-82 | keeping the first resource per URL keeps every URL once and invents no resource |
| StationCatalog.Modifications | kcrw_feed/station_catalog.py:87-99 | the modification loop raises exactly when a shared URL is missing from either catalog's map, and reports exactly the URLs whose stored resources differ, with both sides |
| StationCatalog.Minus | kcrw_feed/station_catalog.py:83-84 | the difference of listings holds exactly the URLs of the first not in the second, taking resources only from the first |
| StationCatalog.Shared | kcrw_feed/station_catalog.py:85 | the shared URLs are exactly those in both listings |
| StationCatalog.Diff | kcrw_feed/station_catalog.py:72-105 | the corrected diff propagates either listing's error, and never reports a URL as both added and removed |
| StationCatalog.DiffSides | kcrw_feed/station_catalog.py:83-84 | a URL is added exactly when only the other listing has it and removed exactly when only this one has it, and the resources reported come from the matching side |
| StationCatalog.DiffModified | kcrw_feed/station_catalog.py:85-99 | an entry is reported modified exactly when its URL is in both listings and the stored resources differ |
| StationCatalog.DiffSelf | kcrw_feed/station_catalog.py:72-105 | a catalog compared with itself shows no changes |
| StationCatalog.DiffOfIndexed | kcrw_feed/station_catalog.py:72-105 | when both maps file each resource under its own URL and both listings succeed, the diff succeeds |
| StationCatalog.ListedIsStored | kcrw_feed/station_catalog.py:63-70 | a listed resource of a URL-keyed catalog is stored under its URL |
| StationCatalog.DiffExample | kcrw_feed/station_catalog.py:72-105 | a concrete pair of catalogs with one resource changed and one added gives exactly that one addition and that one modification |
| StationCatalog.EpisodeHosts | kcrw_feed/station_catalog.py:133-136 | an episode's host loop raises exactly when a host entry is `None`; it files host records under their own UUID and skips bare UUIDs |
| StationCatalog.ShowHosts | kcrw_feed/station_catalog.py:141-143 | a show's hosts are filed under their own UUID |
| StationCatalog.LoadEpisode | kcrw_feed/station_catalog.py:130-139 | loading an episode raises exactly on a `None` host, leaves the shows alone, adds exactly its UUID to the episodes and its resource's URL to the resources, and keeps every map filed by its own key |
| StationCatalog.LoadEpisodes | kcrw_feed/station_catalog.py:130-139 | the episode loop raises exactly when some episode has a `None` host and adds exactly the episodes' UUIDs and resource URLs |
| StationCatalog.LoadShow | kcrw_feed/station_catalog.py:127-146 | loading a show adds exactly its UUID, its episodes' UUIDs and the URLs of its and its episodes' resources |
| StationCatalog.LoadShows | kcrw_feed/station_catalog.py:127-146 | the show loop adds exactly the UUIDs and resource URLs found in the shows and raises exactly on a `None` host |
| StationCatalog.ShowsCons | kcrw_feed/station_catalog.py:127 | what the shows contribute is what the first contributes together with what the rest contribute |
| StationCatalog.LocalLoad | kcrw_feed/station_catalog.py:117-151 | the local catalog is keyed exactly by the UUIDs of the shows and episodes and the URLs of their resources, every record filed under its own key, and it fails exactly on a `None` host |
| StationCatalog.LiveLoad | kcrw_feed/station_catalog.py:185-194 | the live catalog holds only resources, indexed by their music URLs, and fails when robots.txt does |
| ShowIndex.UsesSitemap | kcrw_feed/show_index.py:55 | reading `uses_sitemap` succeeds, and is true, exactly on the local mirror; on the live source it raises AttributeError |
| ShowIndex.Rewrite | kcrw_feed/show_index.py:58-59 | each gathered URL, one for one, has every live-host prefix replaced by the stand-in host |
| ShowIndex.Normalize | kcrw_feed/show_index.py:62-63 | each selected URL, one for one, loses its trailing slashes |
| ShowIndex.Selection | kcrw_feed/show_index.py:61-64 | with no selection every URL is kept; otherwise exactly the URLs among the normalized selection, in their gathered order |
| ShowIndex.StoreAll | kcrw_feed/show_index.py:70-81 | the fetch loop stops with no exception exactly when every fetch succeeds; otherwise it stops with the first failing fetch's exception; either way the index it leaves keeps its keys unique |
| ShowIndex.Fetched | kcrw_feed/show_index.py:72-73 | the number of URLs fetched before the first failing fetch: all before it succeed, and the one at it, if any, fails |
| ShowIndex.StoreAllKeeps | kcrw_feed/show_index.py:80 | a key that no show fetched before the first failure files under keeps what it held |
| ShowIndex.StoreAllLastWins | kcrw_feed/show_index.py:74-80 | a show fetched before the first failure that no later one before it shares a key with is what its key (UUID, else URL) maps to |
| ShowIndex.StoreAllFiles | kcrw_feed/show_index.py:74-80 | every show fetched before the first failure has its key in the index afterwards, even when a later fetch raises |
| ShowIndex.Update | kcrw_feed/show_index.py:47-82 | a failing `uses_sitemap` or gather is raised with the index untouched; a source without sitemaps counts 0 and changes nothing; otherwise the update raises exactly when a selected fetch does, with the first failing fetch's exception, and else counts every selected URL, repeats included; the index keeps its keys unique |
| ShowIndex.LiveSourceRaises | kcrw_feed/show_index.py:55 | updating from the live source always raises and leaves the index as it was |
| ShowIndex.UpdateFilesSelected | kcrw_feed/show_index.py:58-80 | after an update that succeeds, every gathered URL that survives the selection was fetched and its show is filed in the index |
| ShowIndex.UpdateKeepsEarlier | kcrw_feed/show_index.py:70-80 | when a later fetch raises, the shows fetched before it stay filed in the index |
| ShowIndex.CountIncludesRepeats | kcrw_feed/show_index.py:81-82 | a URL gathered twice counts twice while the index holds its show once |
| ShowIndex.Shows | kcrw_feed/show_index.py:85-87 | the listed shows are exactly the index's values, one per entry |
| ShowIndex.ShowByUuid | kcrw_feed/show_index.py:89-91 | a show is found by UUID exactly when the index has that UUID as a key, and it is the one filed there |
| ShowIndex.UpdateThenShowByUuid | kcrw_feed/show_index.py:70-91 | after an update, the last fetched show with a UUID is what a lookup by that UUID finds |
| ShowIndex.FirstTitled | kcrw_feed/show_index.py:95-97 | the position found is the first whose title equals the name ignoring case, and there is none exactly when no title does |
| ShowIndex.ShowByName | kcrw_feed/show_index.py:93-98 | the show found is the first in index order titled like the name ignoring case, and nothing is found exactly when no show is |
| ShowIndex.Episodes | kcrw_feed/show_index.py:100-105 | an episode is listed exactly when it belongs to some indexed show |
| ShowIndex.EpisodesAppend | kcrw_feed/show_index.py:103-104 | filing one more show appends exactly its episodes |
| ShowIndex.FirstWithUuid | kcrw_feed/show_index.py:110-112 | the position found is the first episode with the UUID, and there is none exactly when no episode has it |
| ShowIndex.EpisodeByUuid | kcrw_feed/show_index.py:107-113 | the episode found has the UUID and is the first such in show order; nothing is found exactly when no episode has it |
| ShowProcessor.FirstWithUrl | kcrw_feed/show_processor.py:40-43 | the value found is a cached one with the URL, and nothing is found only when none has it; without host lists in the cache the scan cannot raise and finds any value with the URL |
| ShowProcessor.ShowByUrl | kcrw_feed/show_processor.py:37-43 | a lookup by URL answers a cached value with that URL, or nothing when no cached value has it |
| ShowProcessor.ShowByUuid | kcrw_feed/show_processor.py:45-48 | a lookup by UUID finds something exactly when the cache has the key, and it is the value filed there |
| ShowProcessor.ShowsOf | kcrw_feed/show_processor.py:53-55 | exactly the shows among the cached values are collected |
| ShowProcessor.EpisodesOf | kcrw_feed/show_processor.py:61-63 | exactly the episodes among the cached values are collected |
| ShowProcessor.Shows | kcrw_feed/show_processor.py:50-56 | the listing raises exactly when the cached shows cannot be ordered; otherwise it holds exactly the cached shows, in URL order |
| ShowProcessor.Episodes | kcrw_feed/show_processor.py:58-64 | the episodes listed are exactly the cached episodes |
| ShowProcessor.PlayerUrl | kcrw_feed/show_processor.py:202 | the player file is the episode URL with `/player.json` appended; a URL that is not a string raises |
| ShowProcessor.FetchEpisodeOf | kcrw_feed/show_processor.py:193-240 | a cached UUID answers from the cache without fetching; otherwise a fetched episode carries the given resource and is cached under its UUID when it has one; the cache only grows |
| ShowProcessor.FetchEpisode | kcrw_feed/show_processor.py:193-240 | a cached UUID answers from the cache; the cache only grows, and is unchanged when no episode results |
| ShowProcessor.CachedEpisodeNoFetch | kcrw_feed/show_processor.py:198-200 | when the UUID is cached the answer does not depend on the pages or the clock |
| ShowProcessor.MissingPlayerNoEpisode | kcrw_feed/show_processor.py:204-214 | an episode whose player file is absent gives nothing and leaves the cache alone |
| ShowProcessor.EpisodeCachedIffUuid | kcrw_feed/show_processor.py:215-236 | a freshly fetched episode is cached under its UUID when it has one, and the cache is unchanged when it has none |
| ShowProcessor.DedupeHosts | kcrw_feed/show_processor.py:268 | deduplicating a host list keeps the first host per UUID; anything else cached under the author's UUID makes it fail |
| ShowProcessor.AuthorEntry | kcrw_feed/show_processor.py:255-265 | a cached author UUID answers the cached value; otherwise one new host is made |
| ShowProcessor.ParseHosts | kcrw_feed/show_processor.py:242-271 | a show without author data has no hosts and leaves the cache alone; the cache only grows; the hosts returned carry distinct UUIDs |
| ShowProcessor.NewShow | kcrw_feed/show_processor.py:131-144 | a new show has the page's UUID, the given resource and last update, no episodes and the radio-series type, and is cached under its UUID |
| ShowProcessor.ReadShowPage | kcrw_feed/show_processor.py:78-98 | a series page holds radio-series data, and there is no page exactly when the show file is absent |
| ShowProcessor.ItemUuid | kcrw_feed/show_processor.py:115-118 | a series item without `id` fails the assertion; otherwise its UUID is the one extracted from the `id` string |
| ShowProcessor.ShowOfItem | kcrw_feed/show_processor.py:114-144 | a cached show UUID answers the cached show unchanged; otherwise a new show with that UUID and resource is cached under it; either way the answer is in the cache |
| ShowProcessor.FetchShow | kcrw_feed/show_processor.py:76-161 | an absent show page gives nothing; a page without radio-series data raises UnboundLocalError for `last_updated`; a series page gives the show its item describes |
| ShowProcessor.CachedShowUnchanged | kcrw_feed/show_processor.py:127-129 | a show whose UUID is cached comes back from the cache whatever resource is passed |
| ShowProcessor.Fetch | kcrw_feed/show_processor.py:68-74 | a show URL is fetched as a show and anything else as an episode without a UUID hint; the cache only grows |
| ShowProcessor.DedupeEntries | kcrw_feed/show_processor.py:191 | deduplication keeps the first value per UUID, fails the assertion on mixed kinds, and fails on host lists |
| ShowProcessor.ParseItem | kcrw_feed/show_processor.py:172-190 | one list item gives at most one truthy value; an item with a URL but no `id` fails the assertion |
| ShowProcessor.ParseItems | kcrw_feed/show_processor.py:172-190 | the item loop gives at most one value per item, all truthy, and nothing at all when no item is a list item |
| ShowProcessor.ParseEpisodes | kcrw_feed/show_processor.py:163-191 | empty episode data gives nothing; the cache only grows; the episodes returned carry distinct UUIDs |
| Station.GetNested | kcrw_feed/processing/station.py:221 | a nested lookup succeeds exactly when the value is a dict and whatever sits under the outer key is a dict or absent; an absent outer key gives nothing |
| Station.ParseDateOf | kcrw_feed/processing/station.py:260 | a missing or falsy date gives nothing, a non-string truthy one raises, and a string is parsed as the date parser does |
| Station.IsEpisodeUrl | kcrw_feed/processing/station.py:44-49 | classifying a URL fails exactly when it cannot be split into its parts |
| Station.IsShowUrl | kcrw_feed/processing/station.py:51-53 | a URL is a show exactly when it is not an episode, and one classification fails exactly when the other does |
| Station.EpisodeUrlOfParts | kcrw_feed/processing/station.py:47-49 | a URL is an episode exactly when the path alone has the episode shape; scheme, host, query and fragment play no part |
| Station.EpisodeShapeIsEpisode | kcrw_feed/processing/station.py:44-53 | a path with a segment after the show under `/music/shows/` is an episode and not a show |
| Station.ShowShapeIsShow | kcrw_feed/processing/station.py:44-53 | the path `/music/shows/<show>`, with or without a trailing slash, is a show and not an episode |
| Station.OtherPathIsShow | kcrw_feed/processing/station.py:51-53 | a path outside `/music/shows/` is taken for a show |
| Station.ResolveParent | kcrw_feed/processing/station.py:95-108 | a show resource is its own parent; an episode's parent is found exactly when its show URL is a catalog resource, and then it is a prefix of the episode URL |
| Station.ParentOfEpisodePage | kcrw_feed/processing/station.py:102-107 | the parent of `<show>/<page>` is whatever the catalog holds under `<show>` |
| Station.FirstWithUrl | kcrw_feed/processing/station.py:114-116 | something is found exactly when some value has the URL, and what is found has it |
| Station.AddHost | kcrw_feed/processing/station.py:308-310 | a host already listed changes nothing; otherwise it is filed under its UUID and no key is lost |
| Station.AddHosts | kcrw_feed/processing/station.py:308-310 | the host loop keeps every map filed by UUID, loses no key, and changes nothing when every host is already listed |
| Station.AddHostsFiles | kcrw_feed/processing/station.py:308-310 | a host that no later one shares a UUID with is what its UUID maps to |
| Station.AddHostsKeeps | kcrw_feed/processing/station.py:308-310 | a UUID none of the hosts has keeps what it held |
| Station.AuthorHost | kcrw_feed/processing/station.py:299-306 | a host is made only from a dict author with a string `id`, and its UUID is the one extracted from that `id` |
| Station.HostsStep | kcrw_feed/processing/station.py:307-310 | one host is returned and filed under its UUID; nothing but the hosts changes, and nothing at all when it was already listed |
| Station.ProcessHosts | kcrw_feed/processing/station.py:286-313 | no author gives no hosts and no change; at most one host results, only the hosts change, and each returned host with a UUID is filed under it |
| Station.FirstItem | kcrw_feed/processing/station.py:263 | indexing `[0]` gives the first item of a non-empty list, and succeeds only on a list or a string |
| Station.StripQueryOf | kcrw_feed/processing/station.py:262-263 | a string media URL loses its query; a missing or falsy non-string one becomes the empty string |
| Station.HostRefOf | kcrw_feed/processing/station.py:266-267 | a host entry reads only from a dict with a string `uuid`, and is a UUID exactly when one can be extracted from it |
| Station.EpisodeFromJson | kcrw_feed/processing/station.py:257-276 | an episode is built only from dict player data; it carries the resource, the UUIDs extracted from `uuid` and `show_uuid`, the `url`, and the first media URL without its query |
| Station.ReadPlayer | kcrw_feed/processing/station.py:243-256 | there is no player exactly when the player file is absent; an episode read from it carries the resource |
| Station.ProcessEpisode | kcrw_feed/processing/station.py:234-284 | a known episode URL answers the catalog's episode; a processed episode belongs to the resource; only the episodes change, and a new episode with a UUID is filed under it |
| Station.CachedIsFiled | kcrw_feed/processing/station.py:238-240 | the first value with a URL in a map filed by key is the one stored under its own key |
| Station.CachedEpisodeNoFetch | kcrw_feed/processing/station.py:238-240 | a known episode URL is answered without reading any page |
| Station.MissingPlayerNoEpisode | kcrw_feed/processing/station.py:246-256 | an unknown episode whose player file is absent gives nothing and changes nothing |
| Station.ItemUrl | kcrw_feed/processing/station.py:220-223 | only list items contribute, and each contributes its truthy string `properties.url` |
| Station.ListItemUrls | kcrw_feed/processing/station.py:216-223 | the collected URLs are exactly those the items contribute, and the loop fails exactly when some item does |
| Station.ProcessEpisodeUrls | kcrw_feed/processing/station.py:225-231 | each listed URL gives at most one episode; only the episodes change; URLs that are not catalog resources give nothing |
| Station.ParseShowEpisodes | kcrw_feed/processing/station.py:206-232 | the episodes come back sorted as `sorted` sorts them, the sort's TypeError raised when they cannot be ordered; only the episodes change |
| Station.ParseShowEpisodesUnlisted | kcrw_feed/processing/station.py:225-231 | a show page none of whose listed URLs is a catalog resource gives no episodes and changes nothing |
| Station.RadioSeriesItem | kcrw_feed/processing/station.py:141-144 | the show data found is a radio-series item of the page, and none is found exactly when the page has none |
| Station.EpisodeListItem | kcrw_feed/processing/station.py:151-154 | the episode list found is an item whose `id` ends in `-episodes`, none is found exactly when there is none, and the scan cannot fail when every dict item's `id` is a string |
| Station.ImageLoc | kcrw_feed/processing/station.py:160-161 | metadata without `image:image` has no image location |
| Station.FetchShowPage | kcrw_feed/processing/station.py:118-125 | a page that is fetched is one of the stored documents |
| Station.ShowPageFirst | kcrw_feed/processing/station.py:118-123 | a non-empty page at `<url>/` is used as it is |
| Station.ShowPageFallback | kcrw_feed/processing/station.py:123-125 | an empty or missing page at `<url>/` falls back to the index file below it |
| Station.ShowFromData | kcrw_feed/processing/station.py:166-186 | the show built is titled by its string `name`, or by the last segment of the resource URL when there is no name; its page URL and description are those of `properties`, its image the checked image location, its date the resource's `lastmod`, its hosts those `_process_hosts` gives; it carries the resource, the episodes, the radio-series type and the UUID extracted from `id`; a missing `id` fails the assertion; only hosts and shows change, and the show is filed under its UUID |
| Station.BuildShow | kcrw_feed/processing/station.py:130-204 | a show is built only from a page with a radio-series item, is titled by that item's string `name` (else the last URL segment), carries the resource and leaves the resources alone |
| Station.ProcessShow | kcrw_feed/processing/station.py:110-204 | a known show URL answers the catalog's show; a new show carries the resource; no show means no change; the resources are never touched |
| Station.CachedShowNoFetch | kcrw_feed/processing/station.py:114-116 | a known show URL is answered without reading any page |
| Station.MissingPageNoShow | kcrw_feed/processing/station.py:126-128 | an unknown show without a page gives nothing and changes nothing |
| Station.ProcessResource | kcrw_feed/processing/station.py:55-61 | an episode URL gives an episode and any other URL a show; a URL that cannot be classified raises; the resources are never touched |
| Station.ParentShow | kcrw_feed/processing/station.py:74-80 | an episode's show is the catalog's show with its show UUID; without one, an episode with no resource or an unknown parent reads `.url` of `None` |
| Station.Attach | kcrw_feed/processing/station.py:83-88 | an episode already in the show changes nothing; otherwise the re-sort raises exactly when the grown list cannot be ordered, and on success the show gains exactly that episode and is refiled under its UUID |
| Station.AssociateEntity | kcrw_feed/processing/station.py:63-93 | the corrected association returns the entity alone and leaves shows and resources alone; for an episode whose show is in the catalog it succeeds exactly when the episode is there already or the show's episodes with it can be ordered |
| Station.AssociateIdempotent | kcrw_feed/processing/station.py:63-93 | once associating an episode succeeds, associating it again changes nothing more |
| Station.AssociateAsWritten | kcrw_feed/processing/station.py:68-93 | the association as written always raises: the set of touched entities cannot hold a Show or an Episode |
| Station.AsWrittenAssociateFails | kcrw_feed/processing/station.py:68-90 | every association the corrected code completes fails as written with TypeError |
| Station.ProcessEpisodeAsWritten | kcrw_feed/processing/station.py:238-284 | with an unreadable player and no cached episode, the code as written raises UnboundLocalError on an empty catalog and otherwise returns the catalog's last episode |
| Station.StaleEpisodeReturned | kcrw_feed/processing/station.py:248-284 | there, the code as written returns an episode of another resource, where the corrected code returns nothing |
| Station.AttachUndatedFails | kcrw_feed/processing/station.py:83-88 | adding an undated episode to a show whose episodes all have airdates raises, since the re-sort cannot order them |
| Updater.StationProcessor | kcrw_feed/updater.py:44 | the updater's processor processes, associates and classifies exactly as the station processor does |
| Updater.StationTouchesOnly | kcrw_feed/processing/station.py:63-93 | associating an entity with the station processor returns only that entity |
| Updater.NewUpdater | kcrw_feed/updater.py:18-26 | a new updater keeps both catalogs and the options, runs dry exactly when the options say so, and has done nothing yet |
| Updater.TakeDiff | kcrw_feed/updater.py:28-36 | the first call answers the diff of the local catalog against the live one and replaces the method by its result; a second call raises because the diff is not callable |
| Updater.DiffOnce | kcrw_feed/updater.py:32 | after one diff, asking again always fails |
| Updater.Absorb | kcrw_feed/updater.py:81-88 | one loop pass records the result, keeps the collected entities exactly the truthy results, and never saves on a dry run |
| Updater.EnrichFrom | kcrw_feed/updater.py:80-88 | the loop records one result per resource until a processing call raises, keeps the saves made before that, collects exactly the truthy results once each, and never saves on a dry run |
| Updater.Enrich | kcrw_feed/updater.py:74-90 | the corrected enrichment collects exactly the truthy results, each once, stops at the first exception with the saves made so far, and never saves on a dry run |
| Updater.AbsorbCounts | kcrw_feed/updater.py:82-88 | each pass keeps the counter in range and ties it to the saves so far and the truthy results |
| Updater.CheckpointSaves | kcrw_feed/updater.py:84-88 | outside a dry run, the saves made, also before an exception, are the truthy results divided by `checkpoint - 1`, rounded down |
| Updater.AsWrittenEnrichFails | kcrw_feed/updater.py:82-83 | as written, the first truthy result raises, because an entity is unhashable |
| Updater.EnrichCollectsOne | kcrw_feed/updater.py:82-83 | on that same input the corrected enrichment completes and collects exactly that one entity |
| Updater.AssociateAll | kcrw_feed/updater.py:96-99 | the association loop collects exactly the entities touched, without repeats |
| Updater.Refreshed | kcrw_feed/updater.py:101-106 | an episode stays as it is; a show is replaced by the live catalog's show under its UUID, or by nothing when there is none |
| Updater.RefreshAll | kcrw_feed/updater.py:101-106 | the refreshed set holds exactly the refreshed forms of the entities, once each, all current in the catalog |
| Updater.AssociateEpisodes | kcrw_feed/updater.py:92-107 | the associated set has no repeats, keeps every episode, and holds only entities current in the live catalog |
| Updater.EntityIsEpisode | kcrw_feed/updater.py:69 | classifying `None` reads `.url` of `None`; an entity without a URL makes the pattern raise; otherwise the entity's URL is classified |
| Updater.MergeOne | kcrw_feed/updater.py:67-72 | an entity is added as an episode exactly when its URL is an episode URL, and as a show exactly when it is not |
| Updater.Merge | kcrw_feed/updater.py:62-72 | the merge adds each entity in order up to the first one that cannot be classified, whose exception ends it; it completes exactly when every entity classifies |
| Updater.Update | kcrw_feed/updater.py:38-60 | an update needs the diff still callable and leaves it taken; a dry run changes nothing local; a completed update makes the checkpoint saves, then the merges, then one save and one feed generation; one that raises keeps the saves and adds made before the exception and generates no feed |
| Updater.UpdateOrder | kcrw_feed/updater.py:46-58 | the effects of a completed real update happen in that order and nothing else happens |
| Updater.UpdateTwiceFails | kcrw_feed/updater.py:32-48 | after one completed update, a second update on the same updater always fails |
| Updater.EnrichFailureKeepsSaves | kcrw_feed/updater.py:80-88 | when processing a resource raises, the update raises that exception, and the checkpoint saves made before it are its only effects |
| Json.Zip | kcrw_feed/persistence/state.py:41 | a record's dict pairs each field name with its value, one for one and in declaration order |
| Json.ZipDistinct | kcrw_feed/persistence/state.py:41 | the dict of a record with distinct field names has distinct keys |
| Json.LookupAt | kcrw_feed/persistence/state.py:56 | in a dict with distinct keys, looking up the key at a position finds the value at that position |
| Json.AssignAt | kcrw_feed/persistence/state.py:124 | assigning to an existing key of a dict with distinct keys replaces that one entry in place |
| Json.Dump | kcrw_feed/persistence/state.py:41-42 | a value that is already JSON-native is written as it is; with a hook that only produces JSON values, whatever is written is JSON-native |
| Json.DumpField | kcrw_feed/persistence/state.py:41-42 | a dict entry keeps its key and is written exactly when its value can be, as that value's dump |
| Json.DumpDict | kcrw_feed/persistence/state.py:41-42 | a dict whose values all dump is written as a dict with the same keys in the same order and each value dumped |
| Json.DumpList | kcrw_feed/persistence/state.py:41-42 | a list whose items all dump is written as a list of the same length with each item dumped |
| Json.DumpTotal | kcrw_feed/persistence/state.py:28-34 | a hook that accepts every datetime and UUID lets every value be written |
| Json.DumpKeepsKeys | kcrw_feed/persistence/state.py:41-42 | a written dict keeps its keys and their order |
| Json.Subscript | kcrw_feed/persistence/state.py:56 | `data[key]` succeeds exactly on a dict holding the key and gives its value; a dict without it raises KeyError, anything else TypeError |
| Json.GetOrDefault | kcrw_feed/persistence/state.py:54 | `data.get(key, default)` succeeds exactly on a dict, giving the value or the default; anything else has no attribute `get` |
| Json.AsStr | kcrw_feed/persistence/state.py:56 | a string field reads exactly from a string |
| Json.AsOptStr | kcrw_feed/persistence/state.py:66 | an optional string reads exactly from null or a string, and writes back to the same value |
| Json.OptStrBack | kcrw_feed/persistence/state.py:66 | an optional string written and read back is unchanged |
| Json.AsOptNum | kcrw_feed/persistence/state.py:70 | an optional number reads exactly from null or a number, and writes back to the same value |
| Json.OptNumBack | kcrw_feed/persistence/state.py:70 | an optional number written and read back is unchanged |
| Json.AsFields | kcrw_feed/persistence/state.py:76 | a metadata dict reads exactly from a dict and is kept as it is |
| Persistence.Chosen | kcrw_feed/persistence/state.py:38 | an explicit non-empty file name wins; an absent or empty one falls back to the persister's own file |
| Persistence.IdText | kcrw_feed/persistence/state.py:32-33 | the text written for a valid UUID parses back to the same UUID |
| Persistence.Default | kcrw_feed/persistence/state.py:28-34 | the serializer hook succeeds exactly on datetimes and UUIDs, producing a string, and otherwise raises the TypeError naming the value's type |
| Persistence.HookTotal | kcrw_feed/persistence/state.py:28-34 | the hook never fails on a datetime or a UUID |
| Persistence.Written | kcrw_feed/persistence/state.py:41-42 | what the JSON dump produces is JSON-native, and a value that already is JSON-native is written unchanged |
| Persistence.WrittenDump | kcrw_feed/persistence/state.py:41-42 | dumping any directory value with the persister's hook succeeds and yields the written document |
| Persistence.Save | kcrw_feed/persistence/state.py:36-42 | the file written is the chosen one and holds the JSON-native dump of the directory's dataclass dict |
| Persistence.ParseDateOf | kcrw_feed/persistence/state.py:57-58 | a falsy stored date reads as None, a string is parsed as an ISO date, and a truthy non-string fails |
| Persistence.ParseUuid | kcrw_feed/persistence/state.py:49-51 | only a string parses, and it gives exactly what `uuid.UUID` gives on it, a valid UUID when it succeeds; None raises TypeError |
| Persistence.ResourceFromDictAsWritten | kcrw_feed/persistence/state.py:114-126 | a falsy resource dict gives the blank resource; a truthy one keeps its metadata with "lastmod" replaced by the parsed date, and fails when metadata or its "lastmod" is missing |
| Persistence.ResourceFromDict | kcrw_feed/persistence/state.py:114-126 | the corrected reader: the same result on every dict that has a "lastmod", and a dict without one keeps its metadata as stored instead of failing |
| Persistence.AsWrittenBlankResourceFails | kcrw_feed/persistence/state.py:114-126 | the blank resource the reader itself produces is saved as a truthy dict whose metadata has no "lastmod", so reading it back raises KeyError |
| Persistence.BlankResourceRoundTrip | kcrw_feed/persistence/state.py:114-126 | with the corrected reader the blank resource reads back as the blank resource, whether stored as null or as its dict |
| Persistence.MetadataRoundTrip | kcrw_feed/persistence/state.py:117-124 | storing metadata and re-parsing its "lastmod" restores the metadata exactly |
| Persistence.ResourceRoundTrip | kcrw_feed/persistence/state.py:114-126 | a saved resource reads back equal to itself |
| Persistence.OptResourceRoundTrip | kcrw_feed/persistence/state.py:54 | an episode's or show's missing resource reads back as the blank resource, a present one as itself |
| Persistence.HostIds | kcrw_feed/persistence/state.py:63-65 | episode hosts are read as host references by UUID, one per stored id, in order |
| Persistence.HostIdsRoundTrip | kcrw_feed/persistence/state.py:63-65 | host references saved as UUID strings read back as the same references |
| Persistence.EpisodeParse | kcrw_feed/persistence/state.py:53-62 | a successful read found the title, url and media_url keys, parsed the airdate with the date rule and read the resource with the resource reader |
| Persistence.EpisodeBuild | kcrw_feed/persistence/state.py:55-77 | the episode built carries the read title, urls, dates, ids and hosts, the stored description and metadata, and the read resource |
| Persistence.EpisodeFromDict | kcrw_feed/persistence/state.py:53-77 | reading an episode requires title, url and media_url, parses its uuid and show_uuid, reads hosts as UUIDs and keeps its metadata |
| Persistence.EpisodeRoundTrip | kcrw_feed/persistence/state.py:36-77 | a storable episode saved and read back equals itself up to the fields the save does not keep |
| Persistence.HostFromDict | kcrw_feed/persistence/manager.py:91-101 | reading a host requires its name, parses its uuid, reads image_url from "image_url", socials defaulting to empty and the metadata |
| Persistence.HostRoundTrip | kcrw_feed/persistence/manager.py:91-101 | a storable host saved and read back equals itself |
| Persistence.ImageOf | kcrw_feed/persistence/state.py:99-103 | the state persister requires an "image" key and asserts it is not "DEADBEEF"; the JSON persister does not read an image |
| Persistence.EpisodesFromDicts | kcrw_feed/persistence/state.py:93-94 | a show's episodes read successfully exactly when each stored episode does, one for one |
| Persistence.ShowMembers | kcrw_feed/persistence/state.py:93-95 | a show's episodes and hosts are each read by their own reader, in stored order |
| Persistence.ShowParse | kcrw_feed/persistence/state.py:92-104 | a successful read found the title and url, the image (state persister only), a parsed uuid, the resource and the last-updated date |
| Persistence.ShowBuild | kcrw_feed/persistence/state.py:100-112 | the show built carries the read members, ids, resource and dates with the stored description, type and metadata |
| Persistence.ShowFromDict | kcrw_feed/persistence/state.py:92-112 | reading a show: with the state persister its image is read and checked, with the JSON persister it stays None |
| Persistence.ShowRoundTrip | kcrw_feed/persistence/state.py:36-112 | a storable show saved and read back equals its reloaded form, episodes and hosts included |
| Persistence.ShowsFromDicts | kcrw_feed/persistence/state.py:129-130 | the directory's shows read successfully exactly when each stored show does, one for one |
| Persistence.DirectoryFromDict | kcrw_feed/persistence/state.py:128-131 | the directory holds one show per item of the stored "shows" list, defaulting to none |
| Persistence.DirectoryRoundTrip | kcrw_feed/persistence/state.py:36-131 | a storable directory's dict read back gives the reloaded directory |
| Persistence.Load | kcrw_feed/persistence/state.py:133-148 | the state persister refuses a non-".json" file name with an AssertionError; a missing file gives an empty directory; otherwise the stored document is read as a directory |
| Persistence.SaveLoad | kcrw_feed/persistence/state.py:36-148 | loading what save wrote gives back the reloaded directory |
| Persistence.SaveLoadKeepsFields | kcrw_feed/persistence/state.py:36-148 | after a save and load every show keeps its title, url, description, metadata, date and number of hosts and episodes, and every episode its title, media url, description and airdate |
| Persistence.ReloadStable | kcrw_feed/persistence/state.py:36-148 | a reloaded directory is storable again and saving and loading it once more changes nothing |
| Persistence.HostFromDictAsWritten | kcrw_feed/persistence/state.py:79-90 | as written, reading a host never succeeds: once the name and uuid are read, building the host raises the TypeError for the keyword `image` |
| Persistence.AsWrittenStateHostFails | kcrw_feed/persistence/state.py:79-90 | every stored host that the corrected decoder reads back fails to read through the decoder as written |
| Rss.NewRssPersister | kcrw_feed/persistence/manager.py:159-160 | the feed directory is "feeds/" joined below the storage root |
| Rss.Dated | kcrw_feed/persistence/manager.py:182 | the episodes kept are exactly those with an airdate, each with its multiplicity |
| Rss.FeedEpisodes | kcrw_feed/persistence/manager.py:181-182 | the feed's sort raises a TypeError exactly when the dated episodes cannot be ordered; otherwise it lists exactly the dated episodes, with multiplicity, none `<` a later one, so newest airdate first |
| Rss.ItemOf | kcrw_feed/persistence/manager.py:184-189 | an item links to the episode's media URL and carries its airdate as the publication date |
| Rss.ShowFeed | kcrw_feed/persistence/manager.py:174-189 | a show's feed fails exactly when its episodes cannot be sorted; otherwise it has the show's title and link, language "en", an empty description when the show has none, and one item per dated episode in non-increasing date order |
| Rss.FeedItemFromEpisode | kcrw_feed/persistence/manager.py:181-189 | every item of a built feed comes from some dated episode of its show |
| Rss.EpisodeHasFeedItem | kcrw_feed/persistence/manager.py:181-189 | every dated episode of a show whose feed builds appears as an item of it |
| Rss.UuidText | kcrw_feed/persistence/manager.py:193 | the UUID text in a file name parses back to the show's UUID |
| Rss.FeedFileName | kcrw_feed/persistence/manager.py:193 | a feed file name ends in ".xml" |
| Rss.FeedFileNameNamesShow | kcrw_feed/persistence/manager.py:193 | the file name without ".xml" is the show's title, or for an untitled show its UUID, or "None" when it has no UUID |
| Rss.ChosenDir | kcrw_feed/persistence/manager.py:170 | an explicit non-empty feed directory wins over the persister's own |
| Rss.Save | kcrw_feed/persistence/manager.py:163-196 | save writes one file per show, in show order, holding that show's feed, named after the show and under the chosen directory unless the name is absolute; it stops at the first show whose feed raises, keeping the files written before |
| Rss.Files | kcrw_feed/persistence/manager.py:194-196 | the files present after a series of writes are exactly the paths written to |
| Rss.LastWriteWins | kcrw_feed/persistence/manager.py:195-196 | a file holds the last feed written to its path |
| Rss.JoinInjective | kcrw_feed/persistence/manager.py:194 | joining two relative names onto the same directory gives the same path only for the same name |
| Rss.SaveKeepsEachFeed | kcrw_feed/persistence/manager.py:163-196 | after a save, a written show whose path no later written show reuses has its own feed on disk |
| Rss.SameTitleOverwrites | kcrw_feed/persistence/manager.py:193-196 | two written shows with the same title write the same file, and the later show's feed is the one left there |
| Rss.Load | kcrw_feed/persistence/manager.py:198-199 | loading RSS feeds always raises NotImplementedError |
| Rss.SameAirdateFeedOrder | kcrw_feed/persistence/manager.py:181-182 | two episodes on the same airdate appear in the feed in descending title order |
| Rss.FeedPath | kcrw_feed/persistence/manager.py:193-194 | a feed path ends with the file name and lies under the directory, unless the file name is absolute, in which case it is that name |
| Rss.WriteEach | kcrw_feed/persistence/manager.py:172-196 | the loop writes each element's feed to its place in order and completes exactly when every feed builds; otherwise it stops at the first element whose feed raises, with that exception |
| Rss.AbsoluteTitleCollides | kcrw_feed/persistence/manager.py:193-194 | a title starting with "/" escapes the feed directory and can land on another show's file |
| LegacyState.Chosen | kcrw_feed/state_manager.py:23 | an explicit non-empty file name wins; otherwise the serializer's own file is used |
| LegacyState.Default | kcrw_feed/state_manager.py:16-20 | the hook succeeds exactly on datetimes, giving ISO text that parses back to the same instant; everything else raises the TypeError naming its type |
| LegacyState.DumpWritten | kcrw_feed/state_manager.py:22-25 | a dump succeeds exactly when the value contains no UUID, and then yields the written document |
| LegacyState.SaveState | kcrw_feed/state_manager.py:22-25 | saving succeeds exactly when the host's dict holds no UUID, writing to the chosen file the JSON-native dump of the host |
| LegacyState.UuidMetadataNotSaved | kcrw_feed/state_manager.py:16-20 | a show whose metadata is a UUID cannot be saved, since this older hook only knows datetimes |
| LegacyState.ParseIso | kcrw_feed/state_manager.py:28-30 | only a string in ISO format parses; a non-string raises TypeError and a malformed string ValueError |
| LegacyState.OptionalDate | kcrw_feed/state_manager.py:35-36 | a missing or falsy date reads as None; a truthy one must parse as ISO |
| LegacyState.EpisodeFromDict | kcrw_feed/state_manager.py:32-39 | an episode reads exactly when "title" and "audio_url" are present and any "pub_date" parses; a missing title raises KeyError("title") |
| LegacyState.ShowFromDict | kcrw_feed/state_manager.py:41-53 | a show read successfully carries the stored title, url, description and metadata and one episode per stored episode, each read by the episode reader |
| LegacyState.HostFromDict | kcrw_feed/state_manager.py:55-60 | a host read successfully carries the stored name and one show per stored show, each read by the show reader |
| LegacyState.LoadState | kcrw_feed/state_manager.py:62-66 | a missing file raises FileNotFoundError; otherwise the stored document is read as a host |
| LegacyState.EpisodeFromDictAsWritten | kcrw_feed/state_manager.py:32-39 | with the present Episode model the call never succeeds: a dict the reader accepts still fails on the unknown keyword pub_date |
| LegacyState.ShowFromDictAsWritten | kcrw_feed/state_manager.py:41-53 | with the present models a show can only be built when it has no episodes |
| LegacyState.HostFromDictAsWritten | kcrw_feed/state_manager.py:55-60 | with the present Host model the call always fails |
| LegacyState.EpisodeRoundTrip | kcrw_feed/state_manager.py:22-39 | a storable episode saved and read back equals itself |
| LegacyState.ShowRoundTrip | kcrw_feed/state_manager.py:22-53 | a storable show saved and read back equals itself |
| LegacyState.HostRoundTrip | kcrw_feed/state_manager.py:22-60 | a storable host saved and read back equals itself |
| LegacyState.SaveLoad | kcrw_feed/state_manager.py:22-66 | saving a storable host succeeds and loading the file gives the host back |
| LegacyState.AsWrittenLoadFails | kcrw_feed/state_manager.py:32-60 | the as-written readers fail on a document the save itself produced, where the records they name would read it back exactly |

## Left out

Corrected halves on the main paths (see "## Findings"):
- Persistence.Load: reads with the corrected decoders `Persistence.ResourceFromDict` and `Persistence.HostFromDict`. As written, `StatePersister.load` raises KeyError (persistence/state.py:117) on a stored resource whose metadata has no "lastmod". It also raises TypeError (persistence/state.py:85) on any stored host. `Persistence.SaveLoad`, `Persistence.SaveLoadKeepsFields` and `Persistence.ReloadStable` state the round trip of the corrected readers.
- Updater.Update: enriches through the corrected `Updater.Enrich` and associates through the corrected `Station.AssociateEntity`. As written, the first truthy enrichment result raises TypeError (updater.py:83).
- Updater.StationProcessor: builds the processor from a catalog and an environment. As written, `StationProcessor.__init__` calls `catalog.get_source()` (processing/station.py:42), which no catalog class defines, so updater.py:44 raises AttributeError.
- Updater.TakeDiff: diffs with the corrected `StationCatalog.Diff`. As written, the diff raises TypeError on any catalog holding a resource.
- Resources.FetchResources: walks the sitemaps with the corrected `Crawl.CollectSitemaps`. As written, two sitemaps naming each other recurse until RecursionError.
- Station.ProcessResource: reads players with the corrected `Station.ProcessEpisode`, which answers None where the code as written returns a stale episode or raises UnboundLocalError.
- Station.AssociateEntity: returns `[entity]`. As written, every call raises TypeError, because `touched` is a set of unhashable records.
- LegacyState.LoadState: reads with the record shapes its own constructor calls name. As written, every non-empty state raises TypeError against the present models.py.

Record shapes:
- Models.Resource: the field `ref` of models.py:24 is modelled as `source`, with an added `lastUpdated`. This is how processing/resources.py:183-188 and both persisters build it. In Python, the keyword calls `Resource(source=..., last_updated=...)` raise TypeError against models.py; the model builds the record.
- Models.Episode and Models.Show: the fields `resource` (Episode and Show) and `image` (Show) are added. processing/station.py:177,184, persistence/state.py:75,103,110 and persistence/manager.py:87,120 pass them, but models.py does not declare them, so those Python constructor calls raise TypeError; the model builds the record.
- Models.Show: `sort_index` is not stored; it is always the URL. The same holds for `Models.Episode` and the airdate.
- Json.AsStr, Json.AsOptStr, Json.AsOptNum, Json.AsFields: a stored value of the wrong JSON type for a record field raises `Json.Mistyped` (a TypeError, json.dfy:220-224). Python stores such a value silently, since dataclasses do not check types. This affects `Persistence.EpisodeBuild`, `Persistence.ShowBuild` and `Persistence.HostFromDict`.
- Station.AsStr, Station.AsNum, Station.AsTime: a microdata or player value of another type is read as None. Python keeps the raw value in the record field.
- Station.ShowFromData: a present "name" that is not a string, such as null, becomes the title in Python (processing/station.py:174). The model's title is a string, so it falls back to the last segment of the resource URL, as for a missing name.
- ShowProcessor.NewShow: a present "name" that is not a string becomes the title in Python (show_processor.py:132). The model's title is a string, so it falls back to the last URL segment, as for a missing name.
- Station.StripQueryOf: for None or another falsy non-string media URL, `urlparse` works on bytes and `strip_query_params` returns b''. The episode then holds bytes, and saving it makes `default_serializer` (persistence/state.py:28-34) raise TypeError. The model gives "", so such an episode saves.
- Models.FilterOptions, Config.GetFilterOptions, StationCatalog.MatchStage, StationCatalog.FilterItems: the record carries `compiledMatch`, the compiled pattern, which models.py:10-18 does not declare. config.py:107-114 passes `compiled_match=`, so in Python every argument set that passes the regex and date checks raises TypeError. station_catalog.py:222 reads `filter_opts.compiled_match` on any options, which raises AttributeError on a models.py FilterOptions. The model builds the record with the field and filters by it, as both config.py and station_catalog.py expect. `StationCatalog.ArgsFilter` states that pairing.
- ShowProcessor.Fetch: the `resource={}` that `_parse_episodes` passes to `_fetch_episode` (show_processor.py:186-188) is given as None, so an episode fetched there holds no resource, where Python keeps the empty dict.

Names the source calls but never defines (the model gives each a working stand-in instead of the AttributeError or TypeError Python raises):
- SitemapProcessor.FindSitemaps: `utils.normalize_location` and `utils.get_file` (sitemap_processor.py:55,57,65) are not in utils.py. The model uses source_manager.py's `normalize_location` (`SourceManager.NormalizeLocation`) and a store lookup (`SourceManager.GetFile`).
- SitemapProcessor.ReadSitemap: `utils.get_file` (sitemap_processor.py:81) is read as a store lookup.
- ShowGatherer.FindSitemaps and ShowGatherer.ReadSitemap: `utils.get_file` (show_gatherer.py:59,91) is read as a store lookup.
- ShowProcessor.Fetch, ShowProcessor.FetchShow, ShowProcessor.FetchEpisode: `source.is_show` and `source.get_resource` (show_processor.py:70,80,204) are defined by no source class. The first is a supplied predicate; the second is a store lookup.
- ShowIndex.Update: show_index.py:29 builds `ShowProcessor()` without its required source, and `gather_entries` (show_index.py:41) does not exist. show_index.py:73 calls `fetch(url)` without the required `resource`. The gathered URLs are a parameter and the fetch is a supplied function.
- Station.CachedShow, Station.CachedEpisode, Station.ShowOf, Station.ResolveParent, Station.ProcessShow, Station.ProcessEpisode, Station.ParseShowEpisodes, Station.ProcessHosts: the catalog methods `get_source`, `get_show`, `get_resource`, `add_show`, `add_episode` and `add_host` (processing/station.py:42,75,107,201,227,278,280,310) are not defined in station_catalog.py. The model uses lookups and insertions on the `Catalog` record's maps.
- Updater.Refreshed: `live_catalog.get_show` (updater.py:106) is a lookup in the catalog's show map by UUID.
- Updater.Merge and Updater.Update: `add_show`, `add_episode`, `save_state` and `generate_feeds` on the local catalog (updater.py:56,58,70,72,87) are not defined. Their calls are recorded as effects, and what they would do to the catalog is not modelled.

Imports:
- StationCatalog.LocalLoad, StationCatalog.LiveLoad and every other StationCatalog member: station_catalog.py:16 imports `SitemapProcessor` from processing/resources.py, which defines only `ResourceProcessor` (processing/resources.py:25). Importing the module raises ImportError, so none of its code can run. The model gives the catalog classes their bodies as written.
- Station.ProcessResource and every other Station member: processing/station.py:16 imports station_catalog.py, so the same ImportError ends its import.
- Updater.NewUpdater, Updater.Update and every other Updater member: updater.py:8 imports `CatalogDiff` from models.py, which does not define it (station_catalog.py:34 does). Importing updater.py raises ImportError, and its import of processing/station.py (updater.py:9) would fail as above.

Unicode:
- Utils.UuidFromLiteral, Utils.IntHex, Persistence.ParseUuid: `int(hex, 16)` also reads non-ASCII decimal digits, such as Arabic-Indic ones, as digits. The model reads only ASCII hexadecimal digits and rejects such a literal.
- Utils.UuidFromLiteral, IpAddress.IpAddress, Urls.BracketedHostError: an error message that quotes the text uses `Text.Quoted`, the text between single quotes. Python's `repr` escapes quotes, backslashes and unprintable characters, and `int()` cuts its quotation at 200 characters.
- Urls.Parse, Urls.StripQueryParams: `urlsplit`'s `_checknetloc` is not modelled. It raises ValueError when a network location with non-ASCII characters gains one of `/?#@:` under NFKC normalization, which needs the Unicode tables.
- Text.LowerStr: `str.lower()` is modelled on ASCII letters only. Other letters are left as they are.
- ShowIndex.ShowByName: inherits this, so a title "CAFÉ" does not match the name "café" in the model, although Python's `lower()` makes them equal (show_index.py:96).
- Classifiers.MusicFilter, Classifiers.SearchSitemap: the `re.IGNORECASE` patterns (sitemap_processor.py:13,16; show_gatherer.py:13-15; processing/resources.py:16-19) fold ASCII letters only.
- Config.GetFilterOptions: the `re.IGNORECASE` compilation of config.py:80 is a supplied predicate, so its case folding is whatever that predicate does.

Set and hash order:
- Lists.Distinct: `list(set(xs))` is modelled as `xs` without repeats in first-occurrence order. Python's order depends on string hashes and varies between runs. This affects `Resources.SitemapsFromRobots` (processing/resources.py:77), `SitemapProcessor.FindSitemaps` (sitemap_processor.py:70) and `ShowGatherer.FindSitemaps` (show_gatherer.py:75). Their contracts state membership and absence of repeats, which hold in any order.
- Station.ParseShowEpisodes: the set `episode_urls` (processing/station.py:212) is walked in first-occurrence order. The episodes are sorted afterwards, but the order of the catalog insertions follows the walk.
- Updater.Enrich, Updater.AssociateEpisodes, Updater.Merge: the sets of updater.py:78,95 are walked in insertion order. Python walks them in hash order.
- Resources.FetchResources: the sitemaps are read in the order `Crawl.CollectSitemaps` collects them, where Python walks the set `all_sitemaps` (processing/resources.py:44,50) in hash order. For a music URL listed in two sitemaps with different entries, the stored resource (processing/resources.py:192) is the one from the sitemap collected last; in Python it is the one from whichever sitemap the set yields last. `Resources.FetchStoresReachable` states only that the URL is stored, which holds in any order.
- Updater.UpdateOrder: the order of the add effects it proves follows the insertion order. So does which of two adds for the same key wins in the local catalog.

Ordering:
- Models.SortShows, Models.SortEpisodes: the comparison tuple stops before `hosts`. It holds the fields up to `description` for shows and up to `show_uuid` for episodes. Records equal on those fields keep their input order. Python would go on to compare host lists, and there it may raise TypeError, since `Host` defines no order.
- Station.Attach: on a sort failure the model returns the exception with the show unchanged. Python has already appended the episode to the show's list in place (processing/station.py:87) before `sorted` raises.

Effects that survive an exception:
- ShowIndex.Update: `self.shows` keeps the shows filed before a fetch raises. The model returns them with the exception (`Updated.shows`). Those filed by the failing call itself are none, since `fetch` raises before `self.shows` is written.
- Updater.Update: when an exception ends the update, the checkpoint saves and adds made before it are kept. The live catalog keeps the changes of the resources processed before the failing one. Changes made inside the failing processing or association call are not kept, since the processor reports only its exception.
- Rss.Save: a title that contains "/" names a subdirectory of the feed directory. `open()` raises FileNotFoundError there unless that directory exists; the model writes the file. `os.makedirs` (manager.py:171) is not modelled.

Libraries and I/O:
- Rss.ShowFeed: the XML of `Rss201rev2Feed.writeString` is not modelled; a feed is the channel fields and the list of `add_item` calls. persistence/feeds.py is not part of this model.
- Persistence.Save: produces the tree `json.dump` serialises. JSON text, `indent=2`, UTF-8 encoding and the file write are not modelled.
- Persistence.Load: takes `stored`, the tree `json.loads` returns, or None for a missing file. JSON syntax errors and decoding errors are not modelled.
- Values.TypeName: every number is named "float"; integers and floats are one number type.
- SourceManager: HTTP fetching, caching, gzip, `random_delay` and the RSS/Atom source stubs are not modelled; contents come from the `Store` map.
- Station.ProcessShow: `extruct.extract` (processing/station.py:131-132) is a supplied function. The BeautifulSoup title fallback (processing/station.py:188-198) is not modelled, because that branch ends in an exception either way.
- SitemapProcessor.GatherShows and ShowGatherer.GatherShows: the "feed" source returns `[]` without reading `parse_feeds`, which is itself a stub.
- Config.ParseDatetime: the local timezone is a parameter. Reading config.yaml with `yaml.safe_load` and the import-time `CONFIG` (config.py:16-39) are not modelled; `Config.ValidateConfig` takes the parsed entries.
- StationCatalog.Diff: DeepDiff's report on a modified resource is modelled as record inequality.
- Logging, `pprint` and the command-line entry point (main.py) are not modelled.

## Findings

| source | as written | input that shows it | evidently intended | confidence | as-written member | corrected member |
|---|---|---|---|---|---|---|
| kcrw_feed/processing/resources.py:87-95 | `_collect_sitemaps` starts a fresh `collected` set on every recursive call, so the "already seen" test never sees the caller's sitemaps | two sitemaps whose indexes name each other: the recursion never ends and raises RecursionError | each sitemap is read once and the result is the set of sitemaps reachable from the roots | not executed | Crawl.CollectAsWritten, Crawl.AsWrittenCycleFails | Crawl.CollectSitemaps, Crawl.CollectSitemapsLeast |
| kcrw_feed/station_catalog.py:81-82 | `diff` builds `set(self.list_resources())`, but `Resource` is a plain `@dataclass` with `eq=True`, so it is unhashable | any catalog holding one resource, diffed against itself: TypeError | resources compared by URL: added, removed and modified listings | not executed | StationCatalog.DiffAsWritten, StationCatalog.AsWrittenSelfDiffFails | StationCatalog.Diff, StationCatalog.DiffSides |
| kcrw_feed/processing/station.py:68-93 | `associate_entity` adds the Show or Episode to the set `touched`; `@dataclass(order=True)` leaves them unhashable | any episode or show passed in: TypeError | return the touched entity as a list, with the episode attached to its show | not executed | Station.AssociateAsWritten, Station.AsWrittenAssociateFails | Station.AssociateEntity |
| kcrw_feed/processing/station.py:238-284 | after the scan of the catalog's episodes for a URL match, the loop variable `episode` is still bound; when the player JSON is unreadable or empty, the function returns it | a catalog holding one episode at another URL, and an episode page whose player JSON is empty: that unrelated episode is returned and added again; with an empty catalog, UnboundLocalError | no episode when the player data is unreadable | not executed | Station.ProcessEpisodeAsWritten, Station.StaleEpisodeReturned | Station.ProcessEpisode |
| kcrw_feed/updater.py:82-83 | `enriched_entities.add(enriched)` puts an unhashable Show or Episode in a set | one resource that processes to a show: TypeError | collect every truthy result, checkpointing every `checkpoint - 1` of them | not executed | Updater.EnrichAsWritten, Updater.AsWrittenEnrichFails | Updater.Enrich, Updater.EnrichCollectsOne |
| kcrw_feed/persistence/state.py:114-126 | `resource_from_dict` reads `metadata["lastmod"]` with a subscript, so metadata without "lastmod" raises | a resource whose metadata lacks "lastmod", such as the blank resource this reader itself builds from `{}`, saved and loaded again: KeyError | a missing "lastmod" reads as None, as the `.get` calls beside it do | not executed | Persistence.ResourceFromDictAsWritten, Persistence.AsWrittenBlankResourceFails | Persistence.ResourceFromDict, Persistence.BlankResourceRoundTrip |
| kcrw_feed/state_manager.py:32-60 | the decoders call `Episode(pub_date=..., audio_url=...)` and `Host(shows=...)`, keywords the models.py records do not have | any stored state holding an episode or a host: TypeError | records of the shape the saver writes, read back unchanged | not executed | LegacyState.EpisodeFromDictAsWritten, LegacyState.AsWrittenLoadFails | LegacyState.EpisodeFromDict, LegacyState.SaveLoad |
| kcrw_feed/persistence/state.py:79-90 | `host_from_dict` calls `Host(image=...)`, but the field is `image_url` | any stored host with a name and a UUID: TypeError | read `image_url` into `Host.image_url`, as persistence/manager.py:91-101 does | not executed | Persistence.HostFromDictAsWritten, Persistence.AsWrittenStateHostFails | Persistence.HostFromDict, Persistence.HostRoundTrip |

=== FILE: classifiers.dfy ===
/** The fixed regular expressions the repository classifies URLs with,
    each stated as the set of strings it finds a match in:
    `SITEMAP_RE` and `MUSIC_FILTER_RE` (kcrw_feed/processing/resources.py,
    kcrw_feed/sitemap_processor.py, kcrw_feed/show_gatherer.py), and
    `EPISODE_URL_REGEX` and `SHOW_FROM_EPISODE`
    (kcrw_feed/processing/station.py). */
module Classifiers {
  import opened Wrappers
  import opened Text

  const MusicSitemapSection: string := "/sitemap-shows/music/"
  const MusicShowsSection: string := "/music/shows/"

  /** `MUSIC_FILTER_RE.search(url)`, as the set it matches: either
      section, in any letter case. Both sections are written in lower case,
      so searching the lower-cased URL for them is the case-insensitive
      search. */
  predicate MusicRe(url: string) {
    Contains(LowerStr(url), MusicSitemapSection) || Contains(LowerStr(url), MusicShowsSection)
  }

  /** A left-to-right scan of the lower-cased text for either section. */
  predicate SectionFrom(l: string, i: nat)
    decreases |l| - i
  {
    if i >= |l| then false
    else OccursAt(l, MusicSitemapSection, i) || OccursAt(l, MusicShowsSection, i) || SectionFrom(l, i + 1)
  }

  /** The music filter the readers apply. */
  predicate MusicFilter(url: string) {
    SectionFrom(LowerStr(url), 0)
  }

  lemma {:induction false} SectionFromIff(l: string, i: nat)
    ensures SectionFrom(l, i) <==>
      exists j :: i <= j && (OccursAt(l, MusicSitemapSection, j) || OccursAt(l, MusicShowsSection, j))
    decreases |l| - i
  {
    if i < |l| {
      SectionFromIff(l, i + 1);
    }
  }

  /** The scan finds exactly the URLs the pattern matches. */
  lemma MusicFilterIsRe(url: string)
    ensures MusicFilter(url) <==> MusicRe(url)
  {
    SectionFromIff(LowerStr(url), 0);
  }

  /** A URL that passes holds a whole section. */
  lemma MusicFilterLength(url: string)
    requires MusicFilter(url)
    ensures |url| >= |MusicShowsSection|
  {
    SectionFromIff(LowerStr(url), 0);
  }

  /** Letter case never changes the verdict of the music filter. */
  lemma MusicFilterIgnoresCase(url: string)
    ensures MusicFilter(LowerStr(url)) == MusicFilter(url)
  {
    LowerStrIdempotent(url);
  }

  /** Any URL holding the shows section, whatever comes around it, passes. */
  lemma MusicFilterOfShowsUrl(pre: string, post: string)
    ensures MusicFilter(pre + MusicShowsSection + post)
  {
    var url := pre + MusicShowsSection + post;
    var a := |pre|;
    assert url[a..a + 13] == MusicShowsSection;
    LowerStrNoUpper(MusicShowsSection);
    LowerStrSlice(url, a, a + 13);
    assert OccursAt(LowerStr(url), LowerStr(MusicShowsSection), a);
    MusicFilterIsRe(url);
  }

  /** One match of `sitemap.*\.xml` in the lower-cased text `l`: `sitemap`
      at `i`, `.xml` at `j`, and no line break in between (`.` does not
      match one). */
  predicate SitemapMatchAt(l: string, i: int, j: int) {
    0 <= i && i + 7 <= j && OccursAt(l, "sitemap", i) && OccursAt(l, ".xml", j)
    && '\n' !in l[i + 7..j]
  }

  /** `SITEMAP_RE.search(url)`, case-insensitively. */
  predicate SitemapRe(url: string) {
    var l := LowerStr(url);
    exists i, j :: 0 <= i <= j <= |l| && SitemapMatchAt(l, i, j)
  }

  /** A scan for `.xml` from `k` on that gives up at the first line break. */
  predicate XmlOnLine(l: string, k: nat)
    decreases |l| - k
  {
    if k >= |l| then false
    else if OccursAt(l, ".xml", k) then true
    else if l[k] == '\n' then false
    else XmlOnLine(l, k + 1)
  }

  /** A left-to-right scan for a `sitemap` followed on its line by `.xml`. */
  predicate SitemapFrom(l: string, i: nat)
    decreases |l| - i
  {
    if i >= |l| then false
    else (OccursAt(l, "sitemap", i) && XmlOnLine(l, i + 7)) || SitemapFrom(l, i + 1)
  }

  /** The scan the filters run. */
  predicate SearchSitemap(url: string) {
    SitemapFrom(LowerStr(url), 0)
  }

  lemma {:induction false} XmlOnLineIff(l: string, k: nat)
    ensures XmlOnLine(l, k) <==>
      exists j :: k <= j && OccursAt(l, ".xml", j) && '\n' !in l[k..j]
    decreases |l| - k
  {
    if k >= |l| {
      forall j | k <= j && OccursAt(l, ".xml", j) ensures false {
      }
    } else if OccursAt(l, ".xml", k) {
      assert l[k..k] == "";
    } else if l[k] == '\n' {
      forall j | k <= j && OccursAt(l, ".xml", j) && '\n' !in l[k..j] ensures false {
      }
    } else {
      XmlOnLineIff(l, k + 1);
      if XmlOnLine(l, k + 1) {
        var j :| k + 1 <= j && OccursAt(l, ".xml", j) && '\n' !in l[k + 1..j];
        assert l[k..j] == [l[k]] + l[k + 1..j];
      }
      forall j | k <= j && OccursAt(l, ".xml", j) && '\n' !in l[k..j]
        ensures XmlOnLine(l, k + 1)
      {
        assert j != k;
        assert l[k + 1..j] == l[k..j][1..];
      }
    }
  }

  lemma {:induction false} SitemapFromIff(l: string, i: nat)
    ensures SitemapFrom(l, i) <==> exists a, j :: i <= a && SitemapMatchAt(l, a, j)
    decreases |l| - i
  {
    if i >= |l| {
      forall a, j | i <= a && SitemapMatchAt(l, a, j) ensures false {
      }
    } else {
      SitemapFromIff(l, i + 1);
      XmlOnLineIff(l, i + 7);
      if OccursAt(l, "sitemap", i) && XmlOnLine(l, i + 7) {
        var j :| i + 7 <= j && OccursAt(l, ".xml", j) && '\n' !in l[i + 7..j];
        assert SitemapMatchAt(l, i, j);
      }
      forall a, j | i <= a && SitemapMatchAt(l, a, j)
        ensures SitemapFrom(l, i)
      {
        if a == i {
          assert XmlOnLine(l, i + 7);
        } else {
          assert SitemapFrom(l, i + 1);
        }
      }
    }
  }

  /** The scan finds exactly the strings the pattern matches in. */
  lemma SearchSitemapIsRe(url: string)
    ensures SearchSitemap(url) <==> SitemapRe(url)
  {
    SitemapFromIff(LowerStr(url), 0);
  }

  /** An occurrence of lower-case text survives lower-casing. */
  lemma OccursLower(s: string, p: string, i: int)
    requires OccursAt(s, p, i)
    requires forall k :: 0 <= k < |p| ==> !IsUpper(p[k])
    ensures OccursAt(LowerStr(s), p, i)
  {
    LowerStrNoUpper(p);
    LowerStrSlice(s, i, i + |p|);
  }

  lemma NoNewlineLower(s: string)
    requires '\n' !in s
    ensures '\n' !in LowerStr(s)
  {
    forall k | 0 <= k < |s| ensures LowerStr(s)[k] != '\n' {
      assert s[k] != '\n';
    }
  }

  /** The usual sitemap file names pass, in any letter case. */
  lemma SitemapReOfName(dir: string, name: string)
    requires '\n' !in name
    ensures SitemapRe(dir + "sitemap" + name + ".xml")
  {
    var url := dir + "sitemap" + name + ".xml";
    var i := |dir|;
    var j := |dir| + 7 + |name|;
    assert OccursAt(url, "sitemap", i);
    assert OccursAt(url, ".xml", j);
    assert url[i + 7..j] == name;
    OccursLower(url, "sitemap", i);
    OccursLower(url, ".xml", j);
    LowerStrSlice(url, i + 7, j);
    NoNewlineLower(name);
    assert SitemapMatchAt(LowerStr(url), i, j);
  }

  /** One match of `/music/shows/[^/]+/[^/]+` in a path: the section at
      `i`, a non-empty segment up to the slash at `j`, and one more
      character that is not a slash. The pattern is case-sensitive. */
  predicate EpisodeMatchAt(path: string, i: int, j: int) {
    OccursAt(path, MusicShowsSection, i) && i + 13 < j && j + 1 < |path|
    && '/' !in path[i + 13..j] && path[j] == '/' && path[j + 1] != '/'
  }

  /** `EPISODE_URL_REGEX.search(path)`. */
  predicate EpisodePath(path: string) {
    exists i, j :: 0 <= i < j < |path| && EpisodeMatchAt(path, i, j)
  }

  /** Two segments below the shows section make an episode path. */
  lemma EpisodePathOfSegments(pre: string, show: string, rest: string)
    requires show != "" && '/' !in show
    requires rest != "" && rest[0] != '/'
    ensures EpisodePath(pre + MusicShowsSection + show + "/" + rest)
  {
    var p := pre + MusicShowsSection + show + "/" + rest;
    var i := |pre|;
    var j := |pre| + 13 + |show|;
    assert p[i..i + 13] == MusicShowsSection;
    assert p[i + 13..j] == show;
    assert p[j] == '/' && p[j + 1] == rest[0];
    assert EpisodeMatchAt(p, i, j);
  }

  /** A show's own path, with or without its trailing slash, is not an
      episode path. */
  lemma ShowPathIsNotEpisode(show: string, trailing: bool)
    requires show != "" && '/' !in show
    ensures !EpisodePath(MusicShowsSection + show + (if trailing then "/" else ""))
  {
    var p := MusicShowsSection + show + (if trailing then "/" else "");
    forall i, j | EpisodeMatchAt(p, i, j) ensures false {
    }
  }

  /** What `(/.*)?$` accepts after the show segment: nothing, or a slash and
      then text whose only line break, if any, is its last character. */
  predicate TailOk(tail: string) {
    tail == "" ||
    (tail[0] == '/' &&
      ('\n' !in tail[1..] || (tail[|tail| - 1] == '\n' && '\n' !in tail[1..|tail| - 1])))
  }

  /** The text after `http://` or `https://`. */
  function AfterHttpScheme(url: string): (r: Option<string>)
    ensures r.Some? ==> |r.value| <= |url| && url[|url| - |r.value|..] == r.value
    ensures r.Some? ==> url[..|url| - |r.value|] in {"http://", "https://"}
  {
    if StartsWith(url, "http://") then Some(url[7..])
    else if StartsWith(url, "https://") then Some(url[8..])
    else None
  }

  /** `[^/]+` at the start of `s`, greedy: the length of the run of
      characters before the first slash. */
  function SegmentRun(s: string): (r: nat)
    ensures r <= |s| && '/' !in s[..r]
    ensures r < |s| ==> s[r] == '/'
  {
    if |s| == 0 || s[0] == '/' then 0
    else
      var r := SegmentRun(s[1..]);
      assert s[..r + 1] == [s[0]] + s[1..][..r];
      r + 1
  }

  /** Where the show part of the text after the scheme ends: `[^/]+` for
      the host, the shows section, `[^/]+` for the show, then `(/.*)?$`. */
  function ShowInRest(rest: string): (r: Option<nat>)
    ensures r.Some? ==> 0 < r.value <= |rest|
  {
    var h := SegmentRun(rest);
    if h == 0 || !OccursAt(rest, MusicShowsSection, h) then None
    else
      var e := SegmentRun(rest[h + 13..]);
      if e == 0 || !TailOk(rest[h + 13 + e..]) then None
      else Some(h + 13 + e)
  }

  /** `SHOW_FROM_EPISODE.match(url).group(1)`: the `scheme://host/music/
      shows/<segment>` prefix of a URL, or `None` when the URL does not have
      that shape. Every quantifier of the pattern is forced: the host and the
      segment run to the next slash. */
  function ShowFromEpisode(url: string): (r: Option<string>)
    ensures r.Some? ==> StartsWith(url, r.value)
  {
    var rest :- AfterHttpScheme(url);
    var n :- ShowInRest(rest);
    Some(url[..|url| - |rest| + n])
  }

  lemma {:induction false} SegmentRunIs(s: string, n: nat)
    requires n <= |s| && '/' !in s[..n]
    requires n < |s| ==> s[n] == '/'
    ensures SegmentRun(s) == n
  {
    if n > 0 {
      assert s[0] == s[..n][0];
      assert s[1..][..n - 1] == s[..n][1..];
      SegmentRunIs(s[1..], n - 1);
    }
  }

  /** The pattern's pieces, located by index in the text after the scheme. */
  lemma ShowInRestAt(rest: string, h: nat, e: nat)
    requires 0 < h && 0 < e && h + 13 + e <= |rest|
    requires '/' !in rest[..h] && rest[h..h + 13] == MusicShowsSection
    requires '/' !in rest[h + 13..h + 13 + e] && TailOk(rest[h + 13 + e..])
    ensures ShowInRest(rest) == Some(h + 13 + e)
  {
    assert rest[h] == MusicShowsSection[0];
    SegmentRunIs(rest, h);
    var t := rest[h + 13..];
    assert t[..e] == rest[h + 13..h + 13 + e];
    assert t[e..] == rest[h + 13 + e..];
    SegmentRunIs(t, e);
  }

  lemma ShowFromEpisodeIs(url: string, rest: string, n: nat)
    requires AfterHttpScheme(url) == Some(rest) && ShowInRest(rest) == Some(n)
    ensures ShowFromEpisode(url) == Some(url[..|url| - |rest| + n])
  {
  }

  /** Cutting the text after the show part off keeps the show part. */
  lemma ShowInRestPrefix(rest: string)
    requires ShowInRest(rest).Some?
    ensures ShowInRest(rest[..ShowInRest(rest).value]) == ShowInRest(rest)
  {
    var m := ShowInRest(rest).value;
    var h := SegmentRun(rest);
    var e := SegmentRun(rest[h + 13..]);
    var p := rest[..m];
    assert p[..h] == rest[..h];
    assert p[h..h + 13] == rest[h..h + 13];
    assert p[h + 13..h + 13 + e] == rest[h + 13..][..e];
    assert p[h + 13 + e..] == "";
    ShowInRestAt(p, h, e);
  }

  /** Appending `/` and one line of text to a bare show part keeps it. */
  lemma ShowInRestExtend(rest: string, x: string)
    requires ShowInRest(rest) == Some(|rest|)
    requires '\n' !in x
    ensures ShowInRest(rest + ("/" + x)) == Some(|rest|)
  {
    var h := SegmentRun(rest);
    var e := SegmentRun(rest[h + 13..]);
    var q := rest + ("/" + x);
    assert q[..h] == rest[..h];
    assert q[h..h + 13] == rest[h..h + 13];
    assert q[h + 13..h + 13 + e] == rest[h + 13..][..e];
    assert q[h + 13 + e..] == "/" + x;
    assert ("/" + x)[1..] == x;
    ShowInRestAt(q, h, e);
  }

  lemma AfterHttpSchemePrefix(url: string, k: nat)
    requires AfterHttpScheme(url).Some?
    requires |url| - |AfterHttpScheme(url).value| < k <= |url|
    ensures AfterHttpScheme(url[..k]) == Some(url[..k][|url| - |AfterHttpScheme(url).value|..])
  {
    var n := |url| - |AfterHttpScheme(url).value|;
    assert url[..k][..n] == url[..n];
    if n == 8 {
      assert url[..k][4] == 's';
    }
  }

  /** Cutting a URL inside the text after its scheme cuts that text. */
  lemma AfterHttpSchemeCut(url: string, k: nat)
    requires AfterHttpScheme(url).Some?
    requires |url| - |AfterHttpScheme(url).value| < k <= |url|
    ensures AfterHttpScheme(url[..k]) == Some(AfterHttpScheme(url).value[..k - (|url| - |AfterHttpScheme(url).value|)])
  {
    var n := |url| - |AfterHttpScheme(url).value|;
    AfterHttpSchemePrefix(url, k);
    assert url[..k][n..] == url[n..][..k - n];
  }

  lemma AfterHttpSchemeExtend(url: string, y: string)
    requires AfterHttpScheme(url).Some?
    ensures AfterHttpScheme(url + y) == Some(AfterHttpScheme(url).value + y)
  {
    var n := |url| - |AfterHttpScheme(url).value|;
    assert (url + y)[..n] == url[..n];
    if n == 8 {
      assert (url + y)[4] == 's';
    }
    assert (url + y)[n..] == url[n..] + y;
  }

  /** A show URL is its own show: the parent of a parent is the parent. */
  lemma ShowFromEpisodeIdempotent(url: string)
    requires ShowFromEpisode(url).Some?
    ensures ShowFromEpisode(ShowFromEpisode(url).value) == ShowFromEpisode(url)
  {
    var rest := AfterHttpScheme(url).value;
    var m := ShowInRest(rest).value;
    ShowFromEpisodeIs(url, rest, m);
    ShowPartOfUrl(url, rest, m);
  }

  /** The show part of a URL is a URL whose show part runs to its end. */
  lemma ShowPartOfUrl(url: string, rest: string, m: nat)
    requires AfterHttpScheme(url) == Some(rest) && ShowInRest(rest) == Some(m)
    ensures ShowFromEpisode(url[..|url| - |rest| + m]) == Some(url[..|url| - |rest| + m])
  {
    var show := url[..|url| - |rest| + m];
    var tail := rest[..m];
    AfterHttpSchemeCut(url, |url| - |rest| + m);
    ShowInRestPrefix(rest);
    ShowPartIsShow(show, tail);
  }

  /** A URL whose show part runs to its end is its own show. */
  lemma ShowPartIsShow(show: string, tail: string)
    requires AfterHttpScheme(show) == Some(tail) && ShowInRest(tail) == Some(|tail|)
    ensures ShowFromEpisode(show) == Some(show)
  {
    ShowFromEpisodeIs(show, tail, |tail|);
    assert show[..|show|] == show;
  }

  /** The parent of `show/<rest>` is `show`, when `rest` stays on one line. */
  lemma ShowFromEpisodeOfChild(show: string, x: string)
    requires ShowFromEpisode(show) == Some(show)
    requires '\n' !in x
    ensures ShowFromEpisode(show + "/" + x) == Some(show)
  {
    var y := "/" + x;
    var u := show + y;
    assert show + "/" + x == u;
    var rest := AfterHttpScheme(show).value;
    var m := ShowInRest(rest).value;
    assert m == |rest| by {
      assert |show[..|show| - |rest| + m]| == |show|;
    }
    AfterHttpSchemeExtend(show, y);
    ShowInRestExtend(rest, x);
    ShowFromEpisodeIs(u, rest + y, m);
    assert u[..|show|] == show;
  }
}

=== FILE: config.dfy ===
/** Command-line filter options (kcrw_feed/config.py). Regex compilation
    and ISO-8601 parsing are supplied from outside. */
module Config {
  import opened Wrappers
  import opened Text
  import opened Values
  import opened Models

  /** The parsed command line: `--match`, `--since`, `--until`, `--dry-run`. */
  datatype Args = Args(matchArg: Option<string>, since: Option<string>, until: Option<string>, dryRun: bool)

  /** What `re.compile(pattern, re.IGNORECASE)` gives: a pattern, or the
      text of the `re.error`. */
  datatype Compiled = Compiled(pattern: Pattern) | RegexError(detail: string)

  /** Characters that make a match string a regular expression. */
  const RegexChars: set<char> := {'[', ']', '(', ')', '?', '*', '+', '|', '^', '$', '\\'}

  predicate Plain(m: string) {
    forall i :: 0 <= i < |m| ==> m[i] !in RegexChars
  }

  /** A plain match string becomes `.*<match>.*`; one with a regex
      character is used as given. */
  function WrapMatch(m: string): (r: string)
    ensures Plain(m) ==> r == ".*" + m + ".*"
    ensures !Plain(m) ==> r == m
  {
    if Plain(m) then ".*" + m + ".*" else m
  }

  /** The result always reads as a regular expression, so wrapping twice is
      wrapping once, and the match string is inside it. */
  lemma WrapMatchIdempotent(m: string)
    ensures !Plain(WrapMatch(m))
    ensures WrapMatch(WrapMatch(m)) == WrapMatch(m)
    ensures Contains(WrapMatch(m), m)
  {
    var r := WrapMatch(m);
    if Plain(m) {
      assert r[1] == '*';
      assert OccursAt(r, m, 2);
    } else {
      assert OccursAt(r, m, 0);
    }
  }

  /** `parse_datetime`: an aware value is kept; a naive one is read as local
      time, which moves its instant by the local offset. */
  function ParseDatetime(parse: string -> Option<DateTime>, localOffset: int, s: string): (r: Option<DateTime>)
    ensures r.Some? <==> parse(s).Some?
    ensures r.Some? ==> r.value.offset.Some?
    ensures r.Some? && parse(s).value.offset.Some? ==> r.value == parse(s).value
    ensures r.Some? && parse(s).value.offset.None? ==>
      r.value.offset == Some(localOffset) && r.value.instant + localOffset == parse(s).value.instant
  {
    match parse(s)
    case None => None
    case Some(dt) =>
      if dt.offset.None? then Some(DateTime(dt.instant - localOffset, Some(localOffset))) else Some(dt)
  }

  /** Parsing a timestamp that already carries its offset changes nothing
      more on a second pass through the local-zone rule. */
  lemma ParseDatetimeAware(parse: string -> Option<DateTime>, localOffset: int, s: string, t: string)
    requires ParseDatetime(parse, localOffset, s).Some?
    requires parse(t) == ParseDatetime(parse, localOffset, s)
    ensures ParseDatetime(parse, localOffset, t) == ParseDatetime(parse, localOffset, s)
  {
  }

  /** Python truthiness of an optional string argument. */
  predicate Given(a: Option<string>) { a.Some? && a.value != "" }

  /** The match string is given and does not compile. */
  predicate MatchFails(args: Args, compile: string -> Compiled) {
    Given(args.matchArg) && compile(WrapMatch(args.matchArg.value)).RegexError?
  }

  /** The timestamp is given and does not parse. */
  predicate DateFails(parse: string -> Option<DateTime>, a: Option<string>) {
    Given(a) && parse(a.value).None?
  }

  /** `get_filter_options(args)`: the match is checked first, then since,
      then until. */
  function GetFilterOptions(args: Args, compile: string -> Compiled, parse: string -> Option<DateTime>,
                            localOffset: int): (r: Result<FilterOptions>)
    ensures MatchFails(args, compile) ==>
      r == Err(ValueError("Invalid regex provided for --match: " + args.matchArg.value + ". Error: " +
        compile(WrapMatch(args.matchArg.value)).detail))
    ensures !MatchFails(args, compile) && DateFails(parse, args.since) ==>
      r == Err(ValueError("Invalid 'since' timestamp: " + args.since.value))
    ensures !MatchFails(args, compile) && !DateFails(parse, args.since) && DateFails(parse, args.until) ==>
      r == Err(ValueError("Invalid 'until' timestamp: " + args.until.value))
    ensures r.Ok? <==> !MatchFails(args, compile) && !DateFails(parse, args.since) && !DateFails(parse, args.until)
    ensures r.Ok? ==> r.value.matchText == args.matchArg && r.value.dryRun == args.dryRun
    ensures r.Ok? ==> r.value.resourceTypes.None?
    ensures r.Ok? ==> (r.value.compiledMatch.Some? <==> Given(args.matchArg))
    ensures r.Ok? && Given(args.matchArg) ==> Compiled(r.value.compiledMatch.value) == compile(WrapMatch(args.matchArg.value))
    ensures r.Ok? ==> (r.value.startDate.None? <==> !Given(args.since))
    ensures r.Ok? ==> (r.value.endDate.None? <==> !Given(args.until))
    ensures r.Ok? && Given(args.since) ==> r.value.startDate == ParseDatetime(parse, localOffset, args.since.value)
    ensures r.Ok? && Given(args.until) ==> r.value.endDate == ParseDatetime(parse, localOffset, args.until.value)
  {
    var compiledMatch :-
      if Given(args.matchArg) then
        match compile(WrapMatch(args.matchArg.value))
        case Compiled(p) => Ok(Some(p))
        case RegexError(e) =>
          Err(ValueError("Invalid regex provided for --match: " + args.matchArg.value + ". Error: " + e))
      else Ok(None);
    var startDate :- DateOption(parse, localOffset, args.since, "Invalid 'since' timestamp: ");
    var endDate :- DateOption(parse, localOffset, args.until, "Invalid 'until' timestamp: ");
    Ok(FilterOptions(args.matchArg, compiledMatch, None, startDate, endDate, args.dryRun))
  }

  /** One of `--since`/`--until`: absent gives None, unparsable raises
      `ValueError` naming the option. */
  function DateOption(parse: string -> Option<DateTime>, localOffset: int, a: Option<string>, complaint: string)
    : (r: Result<Option<DateTime>>)
    ensures !Given(a) ==> r == Ok(None)
    ensures Given(a) && parse(a.value).None? ==> r == Err(ValueError(complaint + a.value))
    ensures Given(a) && parse(a.value).Some? ==> r == Ok(ParseDatetime(parse, localOffset, a.value))
  {
    if !Given(a) then Ok(None)
    else
      match ParseDatetime(parse, localOffset, a.value)
      case None => Err(ValueError(complaint + a.value))
      case Some(d) => Ok(Some(d))
  }

  /** `validate_config(config)`: a missing or empty `source_root` exits
      with status 1. */
  function ValidateConfig(config: seq<Field>): (r: Result<()>)
    ensures r.Ok? <==> Lookup(config, "source_root").Some? && Truthy(Lookup(config, "source_root").value)
    ensures r.Err? ==> r.error == SystemExit(1)
  {
    match Lookup(config, "source_root")
    case Some(v) => if Truthy(v) then Ok(()) else Err(SystemExit(1))
    case None => Err(SystemExit(1))
  }
}

=== FILE: crawl.dfy ===
/** The transitive walk over child sitemaps in `_collect_sitemaps`
    (kcrw_feed/processing/resources.py), both as written, where each
    recursive call starts a fresh `collected` set, and with one visited set
    shared by the whole walk. Sets are kept as lists without repeats. */
module Crawl {
  import opened Wrappers
  import opened Lists

  /** Reading one sitemap: its child sitemaps, or the exception the read
      raises. */
  type Children = string -> Result<seq<string>>

  const RecursionLimit: string := "maximum recursion depth exceeded"

  /** `x` reads without an exception and all its children are in `s`. */
  predicate Expanded(children: Children, x: string, s: set<string>) {
    children(x).Ok? && forall c :: c in children(x).value ==> c in s
  }

  /** Every member of `s` is expanded within `s`: a set closed under the
      child relation. */
  predicate Closed(children: Children, s: set<string>) {
    forall x :: x in s ==> Expanded(children, x, s)
  }

  /** Every member of `s` outside `pending` is expanded within `s`. */
  predicate ClosedBut(children: Children, s: set<string>, pending: set<string>) {
    forall x :: x in s && x !in pending ==> Expanded(children, x, s)
  }

  // ---------------------------------------------------------------------
  // As written
  // ---------------------------------------------------------------------

  /** `_collect_sitemaps(sitemaps)` as written. `depth` is the number of
      nested calls the interpreter still allows; running out raises
      `RecursionError`. */
  function CollectAsWritten(children: Children, sitemaps: seq<string>, depth: nat): Result<seq<string>>
    decreases depth, 2, 0
  {
    if depth == 0 then Err(RecursionError(RecursionLimit))
    else SitemapLoop(children, sitemaps, 0, Distinct(sitemaps), depth)
  }

  /** The outer loop, over the sitemaps given. */
  function SitemapLoop(children: Children, sitemaps: seq<string>, i: nat, collected: seq<string>, depth: nat)
    : Result<seq<string>>
    requires i <= |sitemaps| && depth > 0
    decreases depth, 1, |sitemaps| - i
  {
    if i == |sitemaps| then Ok(collected)
    else
      var kids :- children(sitemaps[i]);
      var c :- ChildLoop(children, kids, 0, collected, depth);
      SitemapLoop(children, sitemaps, i + 1, c, depth)
  }

  /** The inner loop: a child not yet collected is added, and so is all
      that a recursive call on it alone collects. */
  function ChildLoop(children: Children, kids: seq<string>, j: nat, collected: seq<string>, depth: nat)
    : Result<seq<string>>
    requires j <= |kids| && depth > 0
    decreases depth, 0, |kids| - j
  {
    if j == |kids| then Ok(collected)
    else if kids[j] in collected then ChildLoop(children, kids, j + 1, collected, depth)
    else
      var sub :- CollectAsWritten(children, [kids[j]], depth - 1);
      ChildLoop(children, kids, j + 1, AddAll(collected + [kids[j]], sub), depth)
  }

  /** When the walk as written returns, its result holds the sitemaps it
      was given, is closed under the child relation and has no repeats. */
  lemma {:induction false} CollectAsWrittenClosed(children: Children, sitemaps: seq<string>, depth: nat)
    requires CollectAsWritten(children, sitemaps, depth).Ok?
    ensures Elems(sitemaps) <= Elems(CollectAsWritten(children, sitemaps, depth).value)
    ensures Closed(children, Elems(CollectAsWritten(children, sitemaps, depth).value))
    ensures NoDuplicates(CollectAsWritten(children, sitemaps, depth).value)
    decreases depth, 2, 0
  {
    assert sitemaps[0..] == sitemaps;
    SitemapLoopClosed(children, sitemaps, 0, Distinct(sitemaps), depth);
  }

  lemma {:induction false} SitemapLoopClosed(children: Children, sitemaps: seq<string>, i: nat,
                                             collected: seq<string>, depth: nat)
    requires i <= |sitemaps| && depth > 0
    requires SitemapLoop(children, sitemaps, i, collected, depth).Ok?
    requires Elems(sitemaps[i..]) <= Elems(collected) && NoDuplicates(collected)
    requires ClosedBut(children, Elems(collected), Elems(sitemaps[i..]))
    ensures Elems(collected) <= Elems(SitemapLoop(children, sitemaps, i, collected, depth).value)
    ensures Closed(children, Elems(SitemapLoop(children, sitemaps, i, collected, depth).value))
    ensures NoDuplicates(SitemapLoop(children, sitemaps, i, collected, depth).value)
    decreases depth, 1, |sitemaps| - i
  {
    if i < |sitemaps| {
      var x := sitemaps[i];
      var kids := children(x).value;
      var pending := Elems(sitemaps[i..]);
      assert kids[0..] == kids;
      ChildLoopClosed(children, kids, 0, collected, depth, pending);
      var c := ChildLoop(children, kids, 0, collected, depth).value;
      assert sitemaps[i..] == [x] + sitemaps[i + 1..];
      assert Expanded(children, x, Elems(c));
      SitemapLoopClosed(children, sitemaps, i + 1, c, depth);
    }
  }

  lemma {:induction false} ChildLoopClosed(children: Children, kids: seq<string>, j: nat,
                                           collected: seq<string>, depth: nat, pending: set<string>)
    requires j <= |kids| && depth > 0
    requires ChildLoop(children, kids, j, collected, depth).Ok?
    requires ClosedBut(children, Elems(collected), pending) && NoDuplicates(collected)
    ensures Elems(collected) <= Elems(ChildLoop(children, kids, j, collected, depth).value)
    ensures Elems(kids[j..]) <= Elems(ChildLoop(children, kids, j, collected, depth).value)
    ensures ClosedBut(children, Elems(ChildLoop(children, kids, j, collected, depth).value), pending)
    ensures NoDuplicates(ChildLoop(children, kids, j, collected, depth).value)
    decreases depth, 0, |kids| - j
  {
    if j < |kids| {
      assert kids[j..] == [kids[j]] + kids[j + 1..];
      if kids[j] in collected {
        ChildLoopClosed(children, kids, j + 1, collected, depth, pending);
      } else {
        var sub := CollectAsWritten(children, [kids[j]], depth - 1).value;
        CollectAsWrittenClosed(children, [kids[j]], depth - 1);
        var c := AddAll(collected + [kids[j]], sub);
        assert ClosedBut(children, Elems(c), pending) by {
          forall x | x in Elems(c) && x !in pending ensures Expanded(children, x, Elems(c)) {
            if x in collected {
              assert Expanded(children, x, Elems(collected));
            } else {
              assert x in sub;
              assert Expanded(children, x, Elems(sub));
            }
          }
        }
        ChildLoopClosed(children, kids, j + 1, c, depth, pending);
      }
    }
  }

  /** The walk as written collects nothing outside a closed set holding
      the sitemaps it was given. */
  lemma {:induction false} CollectAsWrittenLeast(children: Children, sitemaps: seq<string>, depth: nat,
                                                 bound: set<string>)
    requires CollectAsWritten(children, sitemaps, depth).Ok?
    requires Closed(children, bound) && Elems(sitemaps) <= bound
    ensures Elems(CollectAsWritten(children, sitemaps, depth).value) <= bound
    decreases depth, 2, 0
  {
    SitemapLoopLeast(children, sitemaps, 0, Distinct(sitemaps), depth, bound);
  }

  lemma {:induction false} SitemapLoopLeast(children: Children, sitemaps: seq<string>, i: nat,
                                            collected: seq<string>, depth: nat, bound: set<string>)
    requires i <= |sitemaps| && depth > 0
    requires SitemapLoop(children, sitemaps, i, collected, depth).Ok?
    requires Closed(children, bound) && Elems(sitemaps) <= bound && Elems(collected) <= bound
    ensures Elems(SitemapLoop(children, sitemaps, i, collected, depth).value) <= bound
    decreases depth, 1, |sitemaps| - i
  {
    if i < |sitemaps| {
      var kids := children(sitemaps[i]).value;
      assert Expanded(children, sitemaps[i], bound);
      ChildLoopLeast(children, kids, 0, collected, depth, bound);
      var c := ChildLoop(children, kids, 0, collected, depth).value;
      SitemapLoopLeast(children, sitemaps, i + 1, c, depth, bound);
    }
  }

  lemma {:induction false} ChildLoopLeast(children: Children, kids: seq<string>, j: nat,
                                          collected: seq<string>, depth: nat, bound: set<string>)
    requires j <= |kids| && depth > 0
    requires ChildLoop(children, kids, j, collected, depth).Ok?
    requires Closed(children, bound) && Elems(kids) <= bound && Elems(collected) <= bound
    ensures Elems(ChildLoop(children, kids, j, collected, depth).value) <= bound
    decreases depth, 0, |kids| - j
  {
    if j < |kids| {
      if kids[j] in collected {
        ChildLoopLeast(children, kids, j + 1, collected, depth, bound);
      } else {
        var sub := CollectAsWritten(children, [kids[j]], depth - 1).value;
        CollectAsWrittenLeast(children, [kids[j]], depth - 1, bound);
        var c := AddAll(collected + [kids[j]], sub);
        ChildLoopLeast(children, kids, j + 1, c, depth, bound);
      }
    }
  }

  /** Two sitemap indexes that list each other. */
  function TwoCycle(x: string): Result<seq<string>> {
    if x == "a.xml" then Ok(["b.xml"])
    else if x == "b.xml" then Ok(["a.xml"])
    else Ok([])
  }

  /** On two indexes that list each other, the walk as written recurses
      until the interpreter gives up, however deep it may go: each
      recursive call forgets what the caller collected. */
  lemma {:induction false} AsWrittenCycleFails(depth: nat)
    ensures CollectAsWritten(TwoCycle, ["a.xml"], depth).Err?
    ensures CollectAsWritten(TwoCycle, ["b.xml"], depth).Err?
  {
    if depth > 0 {
      AsWrittenCycleFails(depth - 1);
      assert Distinct(["a.xml"]) == ["a.xml"];
      assert Distinct(["b.xml"]) == ["b.xml"];
      assert "b.xml" !in ["a.xml"] && "a.xml" !in ["b.xml"];
      assert ChildLoop(TwoCycle, ["b.xml"], 0, ["a.xml"], depth).Err?;
      assert ChildLoop(TwoCycle, ["a.xml"], 0, ["b.xml"], depth).Err?;
    }
  }

  // ---------------------------------------------------------------------
  // Corrected: one visited set for the whole walk
  // ---------------------------------------------------------------------

  /** Every child of a member of `universe` that reads cleanly is in
      `universe`: the walk cannot leave it. */
  predicate Confined(children: Children, universe: set<string>) {
    forall x, c :: x in universe && children(x).Ok? && c in children(x).value ==> c in universe
  }

  /** A work-list walk: `visited` holds the sitemaps already read, in the
      order they were read, and `pending` those still to look at. */
  function Explore(children: Children, universe: set<string>, pending: seq<string>, visited: seq<string>)
    : Result<seq<string>>
    requires Elems(pending) <= universe && Elems(visited) <= universe
    requires Confined(children, universe)
    decreases |universe - Elems(visited)|, |pending|
  {
    if |pending| == 0 then Ok(visited)
    else
      var x := pending[0];
      if x in visited then Explore(children, universe, pending[1..], visited)
      else
        var kids :- children(x);
        Visit(universe, visited, x);
        Explore(children, universe, pending[1..] + kids, visited + [x])
  }

  /** Everything `visited` has read has its children among the visited and
      the pending. */
  predicate Frontier(children: Children, visited: seq<string>, pending: seq<string>) {
    forall v :: v in visited ==> Expanded(children, v, Elems(visited) + Elems(pending))
  }

  lemma {:induction false} ExploreClosed(children: Children, universe: set<string>, pending: seq<string>,
                                         visited: seq<string>)
    requires Elems(pending) <= universe && Elems(visited) <= universe
    requires Confined(children, universe)
    requires Explore(children, universe, pending, visited).Ok?
    requires Frontier(children, visited, pending) && NoDuplicates(visited)
    ensures Elems(visited) + Elems(pending) <= Elems(Explore(children, universe, pending, visited).value)
    ensures Closed(children, Elems(Explore(children, universe, pending, visited).value))
    ensures NoDuplicates(Explore(children, universe, pending, visited).value)
    decreases |universe - Elems(visited)|, |pending|
  {
    if |pending| > 0 {
      var x := pending[0];
      if x in visited {
        FrontierSkip(children, visited, pending);
        ExploreClosed(children, universe, pending[1..], visited);
      } else {
        FrontierStep(children, visited, pending);
        Visit(universe, visited, x);
        ExploreClosed(children, universe, pending[1..] + children(x).value, visited + [x]);
      }
    }
  }

  /** Reading a sitemap not read before brings the walk closer to the end. */
  lemma Visit(universe: set<string>, visited: seq<string>, x: string)
    requires Elems(visited) <= universe && x in universe && x !in visited
    ensures Elems(visited + [x]) == Elems(visited) + {x}
    ensures |universe - Elems(visited + [x])| < |universe - Elems(visited)|
  {
    assert universe - Elems(visited + [x]) < universe - Elems(visited);
  }

  /** Skipping a pending sitemap already read keeps the frontier. */
  lemma FrontierSkip(children: Children, visited: seq<string>, pending: seq<string>)
    requires |pending| > 0 && pending[0] in visited
    requires Frontier(children, visited, pending)
    ensures Frontier(children, visited, pending[1..])
    ensures Elems(visited) + Elems(pending) == Elems(visited) + Elems(pending[1..])
  {
    assert Elems(pending) == {pending[0]} + Elems(pending[1..]);
  }

  /** Reading the first pending sitemap keeps the frontier. */
  lemma FrontierStep(children: Children, visited: seq<string>, pending: seq<string>)
    requires |pending| > 0 && children(pending[0]).Ok?
    requires Frontier(children, visited, pending)
    ensures Frontier(children, visited + [pending[0]], pending[1..] + children(pending[0]).value)
  {
    var x := pending[0];
    var v' := visited + [x];
    var p' := pending[1..] + children(x).value;
    assert Elems(pending) == {x} + Elems(pending[1..]);
    assert Elems(v') == Elems(visited) + {x};
    assert Elems(p') == Elems(pending[1..]) + Elems(children(x).value);
    assert Elems(visited) + Elems(pending) <= Elems(v') + Elems(p');
    forall v | v in v' ensures Expanded(children, v, Elems(v') + Elems(p')) {
      if v in visited {
        assert Expanded(children, v, Elems(visited) + Elems(pending));
      }
    }
  }

  /** Inside a closed set that holds the start, the walk returns and
      collects nothing outside that set. */
  lemma {:induction false} ExploreLeast(children: Children, universe: set<string>, pending: seq<string>,
                                        visited: seq<string>, bound: set<string>)
    requires Elems(pending) <= universe && Elems(visited) <= universe
    requires Confined(children, universe)
    requires Closed(children, bound) && Elems(pending) <= bound && Elems(visited) <= bound
    ensures Explore(children, universe, pending, visited).Ok?
    ensures Elems(Explore(children, universe, pending, visited).value) <= bound
    decreases |universe - Elems(visited)|, |pending|
  {
    if |pending| > 0 {
      var x := pending[0];
      if x in visited {
        ExploreLeast(children, universe, pending[1..], visited, bound);
      } else {
        assert Expanded(children, x, bound);
        var kids := children(x).value;
        var v' := visited + [x];
        Visit(universe, visited, x);
        ExploreLeast(children, universe, pending[1..] + kids, v', bound);
      }
    }
  }

  /** A failed walk failed on reading some sitemap of the universe. */
  lemma {:induction false} ExploreError(children: Children, universe: set<string>, pending: seq<string>,
                                        visited: seq<string>)
    requires Elems(pending) <= universe && Elems(visited) <= universe
    requires Confined(children, universe)
    requires Explore(children, universe, pending, visited).Err?
    ensures exists x :: x in universe && children(x) == Err(Explore(children, universe, pending, visited).error)
    decreases |universe - Elems(visited)|, |pending|
  {
    var x := pending[0];
    if x in visited {
      ExploreError(children, universe, pending[1..], visited);
    } else if children(x).Ok? {
      var v' := visited + [x];
      Visit(universe, visited, x);
      ExploreError(children, universe, pending[1..] + children(x).value, v');
    }
  }

  /** `_collect_sitemaps` with one visited set for the whole walk: the
      sitemaps reachable from `roots`, each read once. */
  function CollectSitemaps(children: Children, universe: set<string>, roots: seq<string>): (r: Result<seq<string>>)
    requires Elems(roots) <= universe && Confined(children, universe)
    ensures r.Ok? ==> Elems(roots) <= Elems(r.value) && Closed(children, Elems(r.value)) && NoDuplicates(r.value)
    ensures r.Err? ==> exists x :: x in universe && children(x) == Err(r.error)
  {
    var r := Explore(children, universe, roots, []);
    if r.Ok? then
      ExploreClosed(children, universe, roots, []);
      r
    else
      ExploreError(children, universe, roots, []);
      r
  }

  /** The corrected walk returns whenever some closed set holds the roots,
      and then its result is the least such set. */
  lemma CollectSitemapsLeast(children: Children, universe: set<string>, roots: seq<string>, bound: set<string>)
    requires Elems(roots) <= universe && Confined(children, universe)
    requires Closed(children, bound) && Elems(roots) <= bound
    ensures CollectSitemaps(children, universe, roots).Ok?
    ensures Elems(CollectSitemaps(children, universe, roots).value) <= bound
  {
    ExploreLeast(children, universe, roots, [], bound);
  }

  /** Wherever the walk as written returns, the corrected walk returns the
      same set of sitemaps. */
  lemma AsWrittenAgrees(children: Children, universe: set<string>, roots: seq<string>, depth: nat)
    requires Elems(roots) <= universe && Confined(children, universe)
    requires CollectAsWritten(children, roots, depth).Ok?
    ensures CollectSitemaps(children, universe, roots).Ok?
    ensures Elems(CollectSitemaps(children, universe, roots).value)
         == Elems(CollectAsWritten(children, roots, depth).value)
  {
    var w := Elems(CollectAsWritten(children, roots, depth).value);
    CollectAsWrittenClosed(children, roots, depth);
    CollectSitemapsLeast(children, universe, roots, w);
    var c := Elems(CollectSitemaps(children, universe, roots).value);
    CollectAsWrittenLeast(children, roots, depth, c);
  }

  /** On the two indexes that list each other, the corrected walk reads
      both and stops. */
  lemma CorrectedCycleReturns()
    ensures CollectSitemaps(TwoCycle, {"a.xml", "b.xml"}, ["a.xml"]).Ok?
    ensures Elems(CollectSitemaps(TwoCycle, {"a.xml", "b.xml"}, ["a.xml"]).value) == {"a.xml", "b.xml"}
  {
    var u := {"a.xml", "b.xml"};
    assert Closed(TwoCycle, u);
    CollectSitemapsLeast(TwoCycle, u, ["a.xml"], u);
    var r := CollectSitemaps(TwoCycle, u, ["a.xml"]).value;
    assert Expanded(TwoCycle, "a.xml", Elems(r));
    assert "b.xml" in TwoCycle("a.xml").value;
  }
}

=== FILE: dicts.dfy ===
/** Python dicts keyed by hashable values: insertion-ordered, one entry per
    key, assignment to an existing key keeping its position. */
module Dicts {
  import opened Wrappers

  type PyDict<K, V> = seq<(K, V)>

  predicate KeysUnique<K(==), V>(d: PyDict<K, V>) {
    forall i, j :: 0 <= i < j < |d| ==> d[i].0 != d[j].0
  }

  predicate HasKey<K(==), V>(d: PyDict<K, V>, k: K) {
    exists i :: 0 <= i < |d| && d[i].0 == k
  }

  /** Position of key `k`; keys being unique, the first is the only one. */
  function FindKey<K(==), V>(d: PyDict<K, V>, k: K): (r: Option<nat>)
    ensures r.None? <==> !HasKey(d, k)
    ensures r.Some? ==> r.value < |d| && d[r.value].0 == k
    ensures r.Some? ==> forall j :: 0 <= j < r.value ==> d[j].0 != k
  {
    if |d| == 0 then None
    else if d[0].0 == k then Some(0)
    else
      match FindKey(d[1..], k)
      case None =>
        assert forall i :: 1 <= i < |d| ==> d[i] == d[1..][i - 1];
        None
      case Some(i) => Some(i + 1)
  }

  lemma FindKeyIs<K, V>(d: PyDict<K, V>, k: K, i: nat)
    requires i < |d| && d[i].0 == k
    requires forall j :: 0 <= j < i ==> d[j].0 != k
    ensures FindKey(d, k) == Some(i)
  {
    assert HasKey(d, k);
  }

  /** `d.get(k)`. */
  function Get<K(==), V>(d: PyDict<K, V>, k: K): (r: Option<V>)
    ensures r.Some? <==> HasKey(d, k)
    ensures r.Some? ==> (k, r.value) in d
  {
    match FindKey(d, k)
    case None => None
    case Some(i) => Some(d[i].1)
  }

  /** `d[k] = v`. */
  function Put<K(==,!new), V>(d: PyDict<K, V>, k: K, v: V): (r: PyDict<K, V>)
    ensures Get(r, k) == Some(v)
    ensures forall k' :: k' != k ==> Get(r, k') == Get(d, k')
    ensures KeysUnique(d) ==> KeysUnique(r)
    ensures HasKey(d, k) ==> |r| == |d|
    ensures !HasKey(d, k) ==> r == d + [(k, v)]
  {
    var r := match FindKey(d, k)
      case Some(i) => d[i := (k, v)]
      case None => d + [(k, v)];
    PutFacts(d, k, v, r);
    r
  }

  lemma PutFacts<K(!new), V>(d: PyDict<K, V>, k: K, v: V, r: PyDict<K, V>)
    requires r == match FindKey(d, k)
      case Some(i) => d[i := (k, v)]
      case None => d + [(k, v)]
    ensures Get(r, k) == Some(v)
    ensures forall k' :: k' != k ==> Get(r, k') == Get(d, k')
    ensures KeysUnique(d) ==> KeysUnique(r)
  {
    match FindKey(d, k)
    case Some(i) =>
      FindKeyIs(r, k, i);
      forall k' | k' != k ensures Get(r, k') == Get(d, k') {
        match FindKey(d, k')
        case None =>
        case Some(j) => FindKeyIs(r, k', j);
      }
    case None =>
      FindKeyIs(r, k, |d|);
      forall k' | k' != k ensures Get(r, k') == Get(d, k') {
        match FindKey(d, k')
        case None =>
        case Some(j) => FindKeyIs(r, k', j);
      }
  }

  /** Every pair after `d[k] = v` is the new one or an old one. */
  lemma PutPairs<K(!new), V>(d: PyDict<K, V>, k: K, v: V)
    ensures forall p :: p in Put(d, k, v) ==> p == (k, v) || p in d
  {
    match FindKey(d, k)
    case Some(i) =>
      forall p | p in d[i := (k, v)] ensures p == (k, v) || p in d {
        var j :| 0 <= j < |d| && d[i := (k, v)][j] == p;
        if j != i {
          assert p == d[j];
        }
      }
    case None =>
  }

  /** Every value is filed under the key it names, once. */
  predicate FiledBy<K(==), V>(d: PyDict<K, V>, key: V -> Option<K>) {
    KeysUnique(d) && forall i :: 0 <= i < |d| ==> key(d[i].1) == Some(d[i].0)
  }

  lemma PutFiled<K(!new), V>(d: PyDict<K, V>, k: K, v: V, key: V -> Option<K>)
    requires FiledBy(d, key) && key(v) == Some(k)
    ensures FiledBy(Put(d, k, v), key)
  {
    var r := Put(d, k, v);
    PutPairs(d, k, v);
    forall i | 0 <= i < |r| ensures key(r[i].1) == Some(r[i].0) {
      assert r[i] in r;
    }
  }

  /** `if key(v): d[key(v)] = v`: a record filed under the key it names,
      if it names one. */
  function PutKeyed<K(==,!new), V>(d: PyDict<K, V>, v: V, key: V -> Option<K>): (r: PyDict<K, V>)
    ensures forall k :: HasKey(r, k) <==> HasKey(d, k) || key(v) == Some(k)
    ensures FiledBy(d, key) ==> FiledBy(r, key)
  {
    match key(v)
    case None => d
    case Some(k) =>
      var r := Put(d, k, v);
      assert forall k' :: HasKey(r, k') <==> Get(r, k').Some?;
      assert forall k' :: HasKey(d, k') <==> Get(d, k').Some?;
      if FiledBy(d, key) then PutFiled(d, k, v, key); r else r
  }

  /** `d.values()`, in insertion order. */
  function Values<K, V>(d: PyDict<K, V>): (r: seq<V>)
    ensures |r| == |d|
    ensures forall i :: 0 <= i < |d| ==> r[i] == d[i].1
  {
    if |d| == 0 then [] else [d[0].1] + Values(d[1..])
  }

  /** `d.keys()`, in insertion order. */
  function Keys<K, V>(d: PyDict<K, V>): (r: seq<K>)
    ensures |r| == |d|
    ensures forall i :: 0 <= i < |d| ==> r[i] == d[i].0
  {
    if |d| == 0 then [] else [d[0].0] + Keys(d[1..])
  }
}

=== FILE: documents.dfy ===
/** Parsed documents as the sitemap readers see them: the robots.txt and
    XML parsers are supplied from outside, and the code walks the
    dict/list trees xmltodict produces. */
module Documents {
  import opened Wrappers
  import opened Text
  import opened Values

  /** The foreign parsers. `robots` decodes the bytes as UTF-8 and returns
      `RobotFileParser.site_maps() or []`; `xml` decodes and runs
      `xmltodict.parse`, whose result is always a dict. Each gives the
      exception it raises instead. */
  datatype Readers = Readers(
    robots: Bytes -> Result<seq<string>>,
    xml: Bytes -> Result<seq<Field>>)

  /** `not contents`: nothing read, or empty contents. */
  predicate Missing(b: Option<Bytes>) {
    b.None? || |b.value| == 0
  }

  function NoAttribute(v: Value, name: string): PyError {
    AttributeError("'" + TypeName(v) + "' object has no attribute '" + name + "'")
  }

  /** `v.get(key)`: only a dict has the method. */
  function PyGet(v: Value, key: string): (r: Result<Option<Value>>)
    ensures r.Ok? <==> v.Dict?
    ensures r.Ok? ==> r.value == Lookup(v.fields, key)
    ensures r.Err? ==> r.error == NoAttribute(v, "get")
  {
    if v.Dict? then Ok(Lookup(v.fields, key)) else Err(NoAttribute(v, "get"))
  }

  /** `v.strip()`: only a string has the method. */
  function PyStrip(v: Value): (r: Result<string>)
    ensures r.Ok? <==> v.Str?
    ensures r.Ok? ==> r.value == Strip(v.s)
    ensures r.Err? ==> r.error == NoAttribute(v, "strip")
  {
    if v.Str? then Ok(Strip(v.s)) else Err(NoAttribute(v, "strip"))
  }

  /** Iterating a string yields its characters, each a one-character string. */
  function Chars(s: string): (r: seq<Value>)
    ensures |r| == |s|
    ensures forall i :: 0 <= i < |s| ==> r[i] == Str([s[i]])
  {
    seq(|s|, i requires 0 <= i < |s| => Str([s[i]]))
  }

  /** `for x in v`: a list yields its items, a dict its keys, a string its
      characters; anything else raises. */
  function Iterate(v: Value): (r: Result<seq<Value>>)
    ensures v.List? ==> r == Ok(v.items)
    ensures v.Dict? ==> r.Ok? && |r.value| == |v.fields| && forall i :: 0 <= i < |v.fields| ==> r.value[i] == Str(v.fields[i].key)
    ensures v.Str? ==> r == Ok(Chars(v.s))
    ensures r.Err? <==> !(v.Dict? || v.List? || v.Str?)
  {
    match v
    case List(items) => Ok(items)
    case Dict(fields) => Ok(seq(|fields|, i requires 0 <= i < |fields| => Str(fields[i].key)))
    case Str(s) => Ok(Chars(s))
    case _ => Err(TypeError("'" + TypeName(v) + "' object is not iterable"))
  }

  /** What a `for` loop visits after `if isinstance(v, dict): v = [v]`: a
      lone dict counts as a one-element list. */
  function EntryList(v: Value): (r: Result<seq<Value>>)
    ensures v.Dict? ==> r == Ok([v])
    ensures v.List? ==> r == Ok(v.items)
    ensures r.Err? <==> !(v.Dict? || v.List? || v.Str?)
  {
    match v
    case Dict(_) => Ok([v])
    case List(items) => Ok(items)
    case Str(s) => Ok(Chars(s))
    case _ => Err(TypeError("'" + TypeName(v) + "' object is not iterable"))
  }

  /** The entries under `doc[outer][inner]`, read the way the sitemap
      readers do: a missing or empty level means no entries, and the
      middle level must be a dict. */
  function Entries(doc: seq<Field>, outer: string, inner: string): (r: Result<seq<Value>>)
    ensures (Lookup(doc, outer).None? || !Truthy(Lookup(doc, outer).value)) ==> r == Ok([])
    ensures Lookup(doc, outer).Some? && Truthy(Lookup(doc, outer).value) && !Lookup(doc, outer).value.Dict?
      ==> r == Err(NoAttribute(Lookup(doc, outer).value, "get"))
  {
    var top := Lookup(doc, outer);
    if top.None? || !Truthy(top.value) then Ok([])
    else
      var items :- PyGet(top.value, inner);
      if items.None? || !Truthy(items.value) then Ok([])
      else EntryList(items.value)
  }

  /** A lone dict under the inner key is read as a list of one entry. */
  lemma EntriesOfSingle(doc: seq<Field>, outer: string, inner: string, fields: seq<Field>, e: Value)
    requires Lookup(doc, outer) == Some(Dict(fields)) && Lookup(fields, inner) == Some(e)
    requires e.Dict? && e.fields != []
    ensures Entries(doc, outer, inner) == Ok([e])
  {
  }

  /** A key equal to `loc` once lower-cased. Python's `str.lower` maps
      more than ASCII, but no other character lowers to a letter of `loc`. */
  predicate IsLocKey(key: string) {
    LowerStr(key) == "loc"
  }

  /** `_extract_locs(data)`: every string value under a `loc` key, in the
      order a depth-first walk over dicts and lists meets them. */
  function ExtractLocs(v: Value): seq<string>
    decreases v
  {
    match v
    case Dict(fields) => FieldLocs(fields)
    case List(items) => ItemLocs(items)
    case _ => []
  }

  function FieldLocs(fields: seq<Field>): seq<string>
    decreases fields
  {
    if |fields| == 0 then []
    else
      var f := fields[0];
      (if IsLocKey(f.key) && f.val.Str? then [f.val.s] else ExtractLocs(f.val)) + FieldLocs(fields[1..])
  }

  function ItemLocs(items: seq<Value>): seq<string>
    decreases items
  {
    if |items| == 0 then [] else ExtractLocs(items[0]) + ItemLocs(items[1..])
  }

  /** `s` is the string value of a `loc` key somewhere in `v`. */
  predicate LocIn(v: Value, s: string)
    decreases v
  {
    match v
    case Dict(fields) =>
      exists i :: 0 <= i < |fields| && ((IsLocKey(fields[i].key) && fields[i].val == Str(s)) || LocIn(fields[i].val, s))
    case List(items) => exists i :: 0 <= i < |items| && LocIn(items[i], s)
    case _ => false
  }

  /** The walk finds exactly the `loc` strings of the tree. */
  lemma {:induction false} ExtractLocsComplete(v: Value, s: string)
    ensures s in ExtractLocs(v) <==> LocIn(v, s)
    decreases v, 1, 0
  {
    match v
    case Dict(fields) => FieldLocsComplete(v, 0, s);
    case List(items) => ItemLocsComplete(v, 0, s);
    case _ =>
  }

  lemma {:induction false} FieldLocsComplete(v: Value, k: nat, s: string)
    requires v.Dict? && k <= |v.fields|
    ensures s in FieldLocs(v.fields[k..]) <==>
      exists i :: k <= i < |v.fields| && ((IsLocKey(v.fields[i].key) && v.fields[i].val == Str(s)) || LocIn(v.fields[i].val, s))
    decreases v, 0, |v.fields| - k
  {
    if k < |v.fields| {
      var f := v.fields[k];
      assert v.fields[k..][0] == f && v.fields[k..][1..] == v.fields[k + 1..];
      ExtractLocsComplete(f.val, s);
      FieldLocsComplete(v, k + 1, s);
      if f.val.Str? {
        assert !LocIn(f.val, s);
      }
    }
  }

  lemma {:induction false} ItemLocsComplete(v: Value, k: nat, s: string)
    requires v.List? && k <= |v.items|
    ensures s in ItemLocs(v.items[k..]) <==> exists i :: k <= i < |v.items| && LocIn(v.items[i], s)
    decreases v, 0, |v.items| - k
  {
    if k < |v.items| {
      assert v.items[k..][0] == v.items[k] && v.items[k..][1..] == v.items[k + 1..];
      ExtractLocsComplete(v.items[k], s);
      ItemLocsComplete(v, k + 1, s);
    }
  }
}

=== FILE: ipaddress.dfy ===
/** The textual rules of `ipaddress.ip_address`, CPython 3.12, that
    `urlsplit` applies to a host written in brackets: which strings are
    IPv4 addresses, which are IPv6 addresses, and which are neither. */
module IpAddress {
  import opened Wrappers
  import opened Text

  predicate IsDigit(c: char) { '0' <= c <= '9' }

  /** `_HEX_DIGITS`. */
  predicate IsHexDigit(c: char) {
    '0' <= c <= '9' || 'a' <= c <= 'f' || 'A' <= c <= 'F'
  }

  predicate AllDigits(s: string) {
    forall k :: 0 <= k < |s| ==> IsDigit(s[k])
  }

  /** The value of a string of decimal digits. */
  function DecimalValue(s: string): (r: nat)
    requires AllDigits(s)
    decreases |s|
  {
    if |s| == 0 then 0
    else DecimalValue(s[..|s| - 1]) * 10 + (s[|s| - 1] as int - '0' as int)
  }

  /** `_parse_octet`: one to three ASCII digits, no leading zero except in
      "0" itself, and a value of at most 255. */
  predicate Octet(s: string) {
    0 < |s| <= 3 && AllDigits(s) && (s == "0" || s[0] != '0') && DecimalValue(s) <= 255
  }

  /** `IPv4Address(s)` accepts `s`: no `/`, and four octets between dots. */
  predicate IsIPv4(s: string) {
    '/' !in s && |Split(s, '.')| == 4 && forall i :: 0 <= i < 4 ==> Octet(Split(s, '.')[i])
  }

  /** `_parse_hextet`: one to four hexadecimal digits. */
  predicate Hextet(s: string) {
    0 < |s| <= 4 && forall k :: 0 <= k < |s| ==> IsHexDigit(s[k])
  }

  /** The parts `_ip_int_from_string` goes on with: an IPv4 suffix is
      replaced by the two hextets it stands for (always well formed, so
      any two do). None when the suffix is not an IPv4 address. */
  function Hextets(parts: seq<string>): (r: Option<seq<string>>)
    requires |parts| > 0
    ensures r.Some? && '.' !in parts[|parts| - 1] ==> r.value == parts
    ensures r.Some? && '.' in parts[|parts| - 1] ==> |r.value| == |parts| + 1
  {
    var last := parts[|parts| - 1];
    if '.' !in last then Some(parts)
    else if IsIPv4(last) then Some(parts[..|parts| - 1] + ["0", "0"])
    else None
  }

  /** The interior empty parts: each stands for a skipped run of zeros. */
  predicate SkipAt(parts: seq<string>, i: int) {
    0 < i < |parts| - 1 && parts[i] == ""
  }

  /** The first interior empty part at or after `from`. */
  function FirstSkip(parts: seq<string>, from: nat): (r: Option<nat>)
    ensures r.Some? ==> from <= r.value && SkipAt(parts, r.value)
    ensures r.Some? ==> forall i :: from <= i < r.value ==> !SkipAt(parts, i)
    ensures r.None? ==> forall i :: from <= i ==> !SkipAt(parts, i)
    decreases |parts| - from
  {
    if from == 0 then FirstSkip(parts, 1)
    else if from >= |parts| - 1 then None
    else if parts[from] == "" then Some(from)
    else FirstSkip(parts, from + 1)
  }

  /** `_ip_int_from_string` once the suffix is converted: at most nine
      parts, at most one `::`, a leading or trailing empty part only as
      half of a `::` at that end, and every remaining part a hextet; with a
      `::` it stands for at least one hextet, without one there are eight. */
  predicate HextetsOk(parts: seq<string>) {
    && |parts| <= 9
    && match FirstSkip(parts, 1)
       case None => |parts| == 8 && forall i :: 0 <= i < 8 ==> Hextet(parts[i])
       case Some(s) => FirstSkip(parts, s + 1).None? && SkippedOk(parts, s)
  }

  /** The parts before and after the `::` at `s`: an empty first part must
      be the `::` itself, and so must an empty last part. */
  predicate SkippedOk(parts: seq<string>, s: int)
    requires SkipAt(parts, s)
  {
    var hi := if parts[0] == "" then s - 1 else s;
    var lo := if parts[|parts| - 1] == "" then |parts| - s - 2 else |parts| - s - 1;
    && (parts[0] == "" ==> hi == 0)
    && (parts[|parts| - 1] == "" ==> lo == 0)
    && hi + lo <= 7
    && (forall i :: 0 <= i < hi ==> Hextet(parts[i]))
    && (forall i :: |parts| - lo <= i < |parts| ==> Hextet(parts[i]))
  }

  /** `IPv6Address._ip_int_from_string` accepts the address part. */
  predicate AddressOk(a: string) {
    var parts := Split(a, ':');
    |parts| >= 3 && Hextets(parts).Some? && HextetsOk(Hextets(parts).value)
  }

  /** `_split_scope_id`: the address before the first `%`, and a scope
      after it that is not empty and holds no further `%`. */
  predicate ScopeOk(s: string) {
    '%' in s ==> SplitFirst(s, '%').1 != "" && '%' !in SplitFirst(s, '%').1
  }

  /** `IPv6Address(s)` accepts `s`. */
  predicate IsIPv6(s: string) {
    '/' !in s && ScopeOk(s) && AddressOk(SplitFirst(s, '%').0)
  }

  /** What `ip_address(s)` makes of `s`. */
  datatype Kind = V4 | V6

  /** `ip_address(s)`: IPv4 is tried first, then IPv6. */
  function IpAddress(s: string): (r: Result<Kind>)
    ensures r == Ok(V4) <==> IsIPv4(s)
    ensures r == Ok(V6) <==> !IsIPv4(s) && IsIPv6(s)
    ensures r.Err? ==> r.error == ValueError(Quoted(s) + " does not appear to be an IPv4 or IPv6 address")
  {
    if IsIPv4(s) then Ok(V4)
    else if IsIPv6(s) then Ok(V6)
    else Err(ValueError(Quoted(s) + " does not appear to be an IPv4 or IPv6 address"))
  }

  /** An IPv4 address has no colon, so it is never read as IPv6. */
  lemma IPv4NotIPv6(s: string)
    requires IsIPv4(s)
    ensures !IsIPv6(s)
  {
    assert forall i :: 0 <= i < 4 ==> ':' !in Split(s, '.')[i];
    assert ':' !in s by {
      SplitJoin(Split(s, '.'), '.');
      JoinAvoids(Split(s, '.'), '.', ':');
    }
    var a := SplitFirst(s, '%').0;
    assert ':' !in a by {
      if '%' in s {
        assert s == a + ['%'] + SplitFirst(s, '%').1;
        assert forall k :: 0 <= k < |a| ==> a[k] == s[k];
      }
    }
    assert Split(a, ':') == [a];
  }

  /** A character that is neither in the parts nor the separator is not
      in their join. */
  lemma {:induction false} JoinAvoids(parts: seq<string>, sep: char, c: char)
    requires c != sep && forall i :: 0 <= i < |parts| ==> c !in parts[i]
    ensures c !in Join(parts, sep)
    decreases |parts|
  {
    if |parts| > 1 {
      JoinAvoids(parts[1..], sep, c);
      assert Join(parts, sep) == parts[0] + [sep] + Join(parts[1..], sep);
    }
  }

  /** Eight hextets joined by colons, the full form, are an IPv6 address. */
  lemma FullFormIsIPv6(hs: seq<string>)
    requires |hs| == 8 && forall i :: 0 <= i < 8 ==> Hextet(hs[i])
    ensures IsIPv6(Join(hs, ':'))
  {
    assert forall i :: 0 <= i < 8 ==> ':' !in hs[i] && '.' !in hs[i] && '%' !in hs[i] && '/' !in hs[i];
    SplitJoin(hs, ':');
    JoinAvoids(hs, ':', '%');
    JoinAvoids(hs, ':', '/');
    var a := Join(hs, ':');
    assert SplitFirst(a, '%').0 == a;
    assert FirstSkip(hs, 1).None?;
  }

  /** The loopback address written short, `::1`. */
  lemma LoopbackIsIPv6()
    ensures IsIPv6("::1")
  {
    assert SplitFirst("::1", '%').0 == "::1";
    LoopbackParts();
    LoopbackHextets(["", "", "1"]);
  }

  lemma LoopbackParts()
    ensures Split("::1", ':') == ["", "", "1"]
  {
    SplitAfter("", ':', ":1");
    assert "" + [':'] + ":1" == "::1";
    SplitAfter("", ':', "1");
    assert "" + [':'] + "1" == ":1";
    assert Split("1", ':') == ["1"];
  }

  lemma LoopbackHextets(parts: seq<string>)
    requires parts == ["", "", "1"]
    ensures Hextets(parts) == Some(parts) && HextetsOk(parts)
  {
    assert '.' !in parts[2];
    assert FirstSkip(parts, 1) == Some(1);
    assert FirstSkip(parts, 2).None?;
    assert Hextet(parts[2]);
    assert SkippedOk(parts, 1);
  }
}

=== FILE: json.dfy ===
/** The dict/list trees `json.dump` writes and `json.load` reads back, and the
    Python operations the persistence code applies to them: `d[key]` and
    `d.get(key, default)`; iteration is `Documents.Iterate`. The JSON text
    itself is not modelled: a document is the tree `json.loads` returns. */
module Json {
  import opened Wrappers
  import opened Values

  /** A Python dict never holds a key twice. */
  predicate DistinctKeys(fields: seq<Field>) {
    forall i, j :: 0 <= i < j < |fields| ==> fields[i].key != fields[j].key
  }

  /** A dict built from distinct keys and their values, in order. */
  function Zip(keys: seq<string>, vals: seq<Value>): (r: seq<Field>)
    requires |keys| == |vals|
    ensures |r| == |keys| && forall i :: 0 <= i < |keys| ==> r[i] == Field(keys[i], vals[i])
  {
    seq(|keys|, i requires 0 <= i < |keys| => Field(keys[i], vals[i]))
  }

  predicate NoDuplicateKeys(keys: seq<string>) {
    forall i, j :: 0 <= i < j < |keys| ==> keys[i] != keys[j]
  }

  lemma ZipDistinct(keys: seq<string>, vals: seq<Value>)
    requires |keys| == |vals| && NoDuplicateKeys(keys)
    ensures DistinctKeys(Zip(keys, vals))
  {
  }

  /** In a dict, a key finds the value stored under it. */
  lemma LookupAt(fields: seq<Field>, i: nat)
    requires DistinctKeys(fields) && i < |fields|
    ensures Lookup(fields, fields[i].key) == Some(fields[i].val)
  {
  }

  /** Assigning to a key a dict already holds rewrites that entry in place. */
  lemma {:induction false} AssignAt(fields: seq<Field>, i: nat, val: Value)
    requires DistinctKeys(fields) && i < |fields|
    ensures Assign(fields, fields[i].key, val) == fields[i := Field(fields[i].key, val)]
  {
    if i > 0 {
      AssignAt(fields[1..], i - 1, val);
    }
  }

  /** A `default` hook that hands json a value it can write. */
  ghost predicate Writes(hook: Value -> Result<Value>) {
    forall x :: hook(x).Ok? ==> JsonNative(hook(x).value)
  }

  /** `json.dump(v, default=hook)`: values json writes natively are kept,
      every datetime or UUID is replaced by what the hook returns, and the
      first exception the hook raises ends the dump. */
  function Dump(hook: Value -> Result<Value>, v: Value): (r: Result<Value>)
    ensures JsonNative(v) ==> r == Ok(v)
    ensures r.Ok? && Writes(hook) ==> JsonNative(r.value)
    decreases v, 1
  {
    match v
    case Time(_) => hook(v)
    case Id(_) => hook(v)
    case List(items) =>
      var xs :- MapResult(items, (x: Value) => if x in items then Dump(hook, x) else Ok(x));
      assert JsonNative(v) ==> xs == items by {
        if JsonNative(v) {
          forall i | 0 <= i < |items| ensures xs[i] == items[i] {
            assert items[i] in items;
          }
        }
      }
      assert Writes(hook) ==> JsonNative(List(xs)) by {
        if Writes(hook) {
          forall i | 0 <= i < |xs| ensures JsonNative(xs[i]) {
            assert items[i] in items;
          }
        }
      }
      Ok(List(xs))
    case Dict(fields) =>
      var fs :- MapResult(fields, (f: Field) => if f in fields then DumpField(hook, fields, f) else Ok(f));
      assert JsonNative(v) ==> fs == fields by {
        if JsonNative(v) {
          forall i | 0 <= i < |fields| ensures fs[i] == fields[i] {
            assert fields[i] in fields;
          }
        }
      }
      assert Writes(hook) ==> JsonNative(Dict(fs)) by {
        if Writes(hook) {
          forall i | 0 <= i < |fs| ensures JsonNative(fs[i].val) {
            assert fields[i] in fields;
          }
        }
      }
      Ok(Dict(fs))
    case _ => Ok(v)
  }

  /** One entry of a dict being dumped: its key is kept and its value dumped. */
  function DumpField(hook: Value -> Result<Value>, fields: seq<Field>, f: Field): (r: Result<Field>)
    requires f in fields
    decreases Dict(fields), 0
    ensures r.Ok? ==> r.value.key == f.key
    ensures r.Ok? <==> Dump(hook, f.val).Ok?
    ensures r.Ok? ==> r.value.val == Dump(hook, f.val).value
  {
    var w :- Dump(hook, f.val);
    Ok(Field(f.key, w))
  }

  /** Dumping a dict keeps its keys in order and dumps every value. */
  lemma DumpDict(hook: Value -> Result<Value>, fields: seq<Field>)
    requires forall i :: 0 <= i < |fields| ==> Dump(hook, fields[i].val).Ok?
    ensures Dump(hook, Dict(fields)).Ok?
    ensures Dump(hook, Dict(fields)).value.Dict?
    ensures |Dump(hook, Dict(fields)).value.fields| == |fields|
    ensures forall i :: 0 <= i < |fields| ==>
      Dump(hook, Dict(fields)).value.fields[i] == Field(fields[i].key, Dump(hook, fields[i].val).value)
  {
    assert forall i :: 0 <= i < |fields| ==> fields[i] in fields;
  }

  /** Dumping a list dumps every item in place. */
  lemma DumpList(hook: Value -> Result<Value>, items: seq<Value>)
    requires forall i :: 0 <= i < |items| ==> Dump(hook, items[i]).Ok?
    ensures Dump(hook, List(items)).Ok?
    ensures Dump(hook, List(items)).value.List?
    ensures |Dump(hook, List(items)).value.items| == |items|
    ensures forall i :: 0 <= i < |items| ==> Dump(hook, List(items)).value.items[i] == Dump(hook, items[i]).value
  {
    assert forall i :: 0 <= i < |items| ==> items[i] in items;
  }

  /** A hook that accepts every datetime and UUID lets any tree be dumped. */
  lemma {:induction false} DumpTotal(hook: Value -> Result<Value>, v: Value)
    requires forall x: Value :: (x.Time? || x.Id?) ==> hook(x).Ok?
    ensures Dump(hook, v).Ok?
  {
    match v
    case List(items) =>
      forall i | 0 <= i < |items| ensures Dump(hook, items[i]).Ok? {
        DumpTotal(hook, items[i]);
      }
      DumpList(hook, items);
    case Dict(fields) =>
      forall i | 0 <= i < |fields| ensures Dump(hook, fields[i].val).Ok? {
        DumpTotal(hook, fields[i].val);
      }
      DumpDict(hook, fields);
    case _ =>
  }

  /** Dumping a dict keeps it a dict with the same keys. */
  lemma DumpKeepsKeys(hook: Value -> Result<Value>, fields: seq<Field>)
    requires Dump(hook, Dict(fields)).Ok?
    ensures Dump(hook, Dict(fields)).value.Dict?
    ensures |Dump(hook, Dict(fields)).value.fields| == |fields|
    ensures forall i :: 0 <= i < |fields| ==> Dump(hook, Dict(fields)).value.fields[i].key == fields[i].key
  {
    assert forall i :: 0 <= i < |fields| ==> fields[i] in fields;
  }

  /** `v[key]`: a dict gives the value or raises `KeyError`; anything else
      raises the `TypeError` Python gives for its type. */
  function Subscript(v: Value, key: string): (r: Result<Value>)
    ensures r.Ok? <==> v.Dict? && Lookup(v.fields, key).Some?
    ensures r.Ok? ==> r.value == Lookup(v.fields, key).value
    ensures v.Dict? && r.Err? ==> r.error == KeyError(key)
    ensures !v.Dict? ==> r.Err? && r.error.TypeError?
  {
    match v
    case Dict(fields) =>
      if Lookup(fields, key).Some? then Ok(Lookup(fields, key).value) else Err(KeyError(key))
    case Null => Err(TypeError("'NoneType' object is not subscriptable"))
    case List(_) => Err(TypeError("list indices must be integers or slices, not str"))
    case Str(_) => Err(TypeError("string indices must be integers, not 'str'"))
    case _ => Err(TypeError("'" + TypeName(v) + "' object is not subscriptable"))
  }

  /** `v.get(key, default)`: only a dict has `get`. */
  function GetOrDefault(v: Value, key: string, default: Value): (r: Result<Value>)
    ensures r.Ok? <==> v.Dict?
    ensures v.Dict? ==> r.value == Values.GetOr(v, key, default)
    ensures !v.Dict? ==> r.error == AttributeError("'" + TypeName(v) + "' object has no attribute 'get'")
  {
    if v.Dict? then Ok(Lookup(v.fields, key).GetOr(default))
    else Err(AttributeError("'" + TypeName(v) + "' object has no attribute 'get'"))
  }

  /** The exception the model raises where Python would store a value of
      the wrong JSON type in a typed record field without complaint. */
  function Mistyped(field: string): PyError {
    TypeError(field + ": value of a type the record field cannot hold")
  }

  /** A required string field. */
  function AsStr(field: string, v: Value): (r: Result<string>)
    ensures r.Ok? <==> v.Str?
    ensures v.Str? ==> r == Ok(v.s)
  {
    if v.Str? then Ok(v.s) else Err(Mistyped(field))
  }

  /** The JSON form of an optional string: `null` or the string. */
  function OptStrValue(o: Option<string>): (r: Value)
    ensures r.Null? <==> o.None?
  {
    if o.Some? then Str(o.value) else Null
  }

  /** An optional string field: `None` or a string. */
  function AsOptStr(field: string, v: Value): (r: Result<Option<string>>)
    ensures r.Ok? <==> v.Null? || v.Str?
    ensures r.Ok? ==> OptStrValue(r.value) == v
  {
    match v
    case Null => Ok(None)
    case Str(s) => Ok(Some(s))
    case _ => Err(Mistyped(field))
  }

  /** An optional string reads back as itself. */
  lemma OptStrBack(field: string, o: Option<string>)
    ensures AsOptStr(field, OptStrValue(o)) == Ok(o)
  {
  }

  /** The JSON form of an optional number. */
  function OptNumValue(o: Option<real>): (r: Value)
    ensures r.Null? <==> o.None?
  {
    if o.Some? then Num(o.value) else Null
  }

  /** An optional number field. */
  function AsOptNum(field: string, v: Value): (r: Result<Option<real>>)
    ensures r.Ok? <==> v.Null? || v.Num?
    ensures r.Ok? ==> OptNumValue(r.value) == v
  {
    match v
    case Null => Ok(None)
    case Num(n) => Ok(Some(n))
    case _ => Err(Mistyped(field))
  }

  lemma OptNumBack(field: string, o: Option<real>)
    ensures AsOptNum(field, OptNumValue(o)) == Ok(o)
  {
  }

  /** A dict-valued field. */
  function AsFields(field: string, v: Value): (r: Result<seq<Field>>)
    ensures r.Ok? <==> v.Dict?
    ensures r.Ok? ==> Dict(r.value) == v
  {
    if v.Dict? then Ok(v.fields) else Err(Mistyped(field))
  }
}

=== FILE: legacy_state.dfy ===
/** The older JSON serialiser (kcrw_feed/state_manager.py, class `Json`):
    a host owning shows owning episodes, written with `asdict` and read
    back by one decoder per record. The records are the ones its
    constructor calls name (`pub_date`, `audio_url`, a host's `shows`),
    which the present models.py no longer has; the as-written decoders
    below show what that mismatch does. */
module LegacyState {
  import opened Wrappers
  import opened Values
  import opened Json
  import opened Documents
  import Persistence

  const DefaultFilename: string := "kcrw_feed.json"

  datatype LegacyJson = LegacyJson(filename: string)

  /** Field values are whatever the document held: the decoders do not
      check types. */
  datatype LegacyEpisode = LegacyEpisode(title: Value, pubDate: Option<DateTime>, audioUrl: Value, description: Value)

  datatype LegacyShow = LegacyShow(
    title: Value,
    url: Value,
    description: Value,
    episodes: seq<LegacyEpisode>,
    lastUpdated: Option<DateTime>,
    metadata: Value)

  datatype LegacyHost = LegacyHost(name: Value, shows: seq<LegacyShow>)

  /** `filename or self.filename`. */
  function Chosen(p: LegacyJson, filename: Option<string>): (r: string)
    ensures filename.Some? && filename.value != "" ==> r == filename.value
    ensures filename.None? || filename.value == "" ==> r == p.filename
  {
    if filename.Some? && filename.value != "" then filename.value else p.filename
  }

  // ---------------------------------------------------------------------
  // Serialisation

  /** `default_serializer(obj)`: only datetimes have a text form; a UUID,
      like anything else json cannot write, raises `TypeError`. */
  function Default(iso: Iso, v: Value): (r: Result<Value>)
    ensures r.Ok? <==> v.Time?
    ensures r.Ok? && Faithful(iso) ==> r.value.Str? && iso.parse(r.value.s) == Some(v.t)
    ensures r.Err? ==> r.error == TypeError("Type <class '" + TypeName(v) + "'> not serializable")
  {
    if v.Time? then Ok(Str(iso.format(v.t)))
    else Err(TypeError("Type <class '" + TypeName(v) + "'> not serializable"))
  }

  function Hook(iso: Iso): Value -> Result<Value> {
    (x: Value) => Default(iso, x)
  }

  /** No UUID anywhere in the tree. */
  predicate NoIds(v: Value)
    decreases v
  {
    match v
    case Id(_) => false
    case List(items) => forall i :: 0 <= i < |items| ==> NoIds(items[i])
    case Dict(fields) => forall i :: 0 <= i < |fields| ==> NoIds(fields[i].val)
    case _ => true
  }

  /** `json.dump` with this hook succeeds exactly on trees without a UUID,
      and then writes every datetime as its ISO text. */
  lemma {:induction false} DumpWritten(iso: Iso, v: Value)
    ensures Dump(Hook(iso), v).Ok? <==> NoIds(v)
    ensures NoIds(v) ==> Dump(Hook(iso), v) == Ok(Persistence.Written(iso, v))
    decreases v
  {
    match v
    case List(items) =>
      forall i | 0 <= i < |items|
        ensures Dump(Hook(iso), items[i]).Ok? <==> NoIds(items[i])
        ensures NoIds(items[i]) ==> Dump(Hook(iso), items[i]) == Ok(Persistence.Written(iso, items[i]))
      {
        DumpWritten(iso, items[i]);
      }
      if NoIds(v) {
        DumpList(Hook(iso), items);
        assert Dump(Hook(iso), v).value.items == Persistence.Written(iso, v).items;
      } else {
        var i :| 0 <= i < |items| && !NoIds(items[i]);
        assert items[i] in items;
      }
    case Dict(fields) =>
      forall i | 0 <= i < |fields|
        ensures Dump(Hook(iso), fields[i].val).Ok? <==> NoIds(fields[i].val)
        ensures NoIds(fields[i].val) ==> Dump(Hook(iso), fields[i].val) == Ok(Persistence.Written(iso, fields[i].val))
      {
        DumpWritten(iso, fields[i].val);
      }
      if NoIds(v) {
        DumpDict(Hook(iso), fields);
        assert Dump(Hook(iso), v).value.fields == Persistence.Written(iso, v).fields;
      } else {
        var i :| 0 <= i < |fields| && !NoIds(fields[i].val);
        assert fields[i] in fields;
      }
    case _ =>
  }

  /** A tree json writes natively holds no UUID. */
  lemma {:induction false} NativeNoIds(v: Value)
    requires JsonNative(v)
    ensures NoIds(v)
    decreases v
  {
    match v
    case List(items) =>
      forall i | 0 <= i < |items| ensures NoIds(items[i]) {
        NativeNoIds(items[i]);
      }
    case Dict(fields) =>
      forall i | 0 <= i < |fields| ensures NoIds(fields[i].val) {
        NativeNoIds(fields[i].val);
      }
    case _ =>
  }

  const EpisodeKeys: seq<string> := ["title", "pub_date", "audio_url", "description"]

  function EpisodeVals(e: LegacyEpisode): seq<Value> {
    [e.title, DateValue(e.pubDate), e.audioUrl, e.description]
  }

  /** `asdict(episode)`. */
  function EpisodeValue(e: LegacyEpisode): Value {
    Dict(Zip(EpisodeKeys, EpisodeVals(e)))
  }

  const ShowKeys: seq<string> := ["title", "url", "description", "episodes", "last_updated", "metadata"]

  function ShowVals(s: LegacyShow): seq<Value> {
    [s.title, s.url, s.description, EpisodesValue(s.episodes), DateValue(s.lastUpdated), s.metadata]
  }

  function EpisodesValue(episodes: seq<LegacyEpisode>): Value {
    List(seq(|episodes|, i requires 0 <= i < |episodes| => EpisodeValue(episodes[i])))
  }

  function ShowValue(s: LegacyShow): Value {
    Dict(Zip(ShowKeys, ShowVals(s)))
  }

  const HostKeys: seq<string> := ["name", "shows"]

  function ShowsValue(shows: seq<LegacyShow>): Value {
    List(seq(|shows|, i requires 0 <= i < |shows| => ShowValue(shows[i])))
  }

  /** `asdict(dj)`. */
  function HostValue(h: LegacyHost): Value {
    Dict(Zip(HostKeys, [h.name, ShowsValue(h.shows)]))
  }

  /** `save_state(dj, filename)`: fails with the hook's `TypeError` when a
      UUID sits anywhere in the record (only free-form values such as
      metadata can hold one); otherwise the file holds the record with its
      datetimes as text. */
  function SaveState(p: LegacyJson, iso: Iso, h: LegacyHost, filename: Option<string>): (r: Result<Persistence.Stored>)
    ensures r.Ok? <==> NoIds(HostValue(h))
    ensures r.Ok? ==> r.value.filename == Chosen(p, filename) && JsonNative(r.value.document)
    ensures r.Ok? ==> r.value.document == Persistence.Written(iso, HostValue(h))
  {
    DumpWritten(iso, HostValue(h));
    var doc :- Dump(Hook(iso), HostValue(h));
    Ok(Persistence.Stored(Chosen(p, filename), doc))
  }

  /** A UUID in a show's metadata makes the save fail. */
  lemma {:induction false} UuidMetadataNotSaved(p: LegacyJson, iso: Iso, name: Value, s: LegacyShow, u: Uuid, filename: Option<string>)
    requires s.metadata == Id(u)
    ensures SaveState(p, iso, LegacyHost(name, [s]), filename).Err?
  {
    var h := LegacyHost(name, [s]);
    assert !NoIds(ShowVals(s)[5]);
    assert Zip(ShowKeys, ShowVals(s))[5].val == ShowVals(s)[5];
    assert !NoIds(ShowValue(s));
    assert ShowsValue(h.shows).items[0] == ShowValue(s);
    assert !NoIds(ShowsValue(h.shows));
    assert Zip(HostKeys, [h.name, ShowsValue(h.shows)])[1].val == ShowsValue(h.shows);
  }

  // ---------------------------------------------------------------------
  // Deserialisation

  /** `datetime.fromisoformat(v)`. */
  function ParseIso(iso: Iso, v: Value): (r: Result<DateTime>)
    ensures r.Ok? <==> v.Str? && iso.parse(v.s).Some?
    ensures r.Ok? ==> r.value == iso.parse(v.s).value
    ensures !v.Str? ==> r.Err? && r.error.TypeError?
    ensures v.Str? && r.Err? ==> r.error.ValueError?
  {
    if !v.Str? then Err(TypeError("fromisoformat: argument must be str"))
    else if iso.parse(v.s).None? then Err(ValueError("Invalid isoformat string: '" + v.s + "'"))
    else Ok(iso.parse(v.s).value)
  }

  /** `parse(data[key]) if data.get(key) else None`. */
  function OptionalDate(iso: Iso, v: Value, key: string): (r: Result<Option<DateTime>>)
    ensures !v.Dict? ==> r.Err?
    ensures v.Dict? && !Truthy(Values.GetOr(v, key, Null)) ==> r == Ok(None)
    ensures v.Dict? && Truthy(Values.GetOr(v, key, Null)) ==>
      (r.Ok? <==> ParseIso(iso, Values.GetOr(v, key, Null)).Ok?)
    ensures r.Ok? && r.value.Some? ==> ParseIso(iso, Values.GetOr(v, key, Null)) == Ok(r.value.value)
  {
    var x :- GetOrDefault(v, key, Null);
    if Truthy(x) then
      var d :- ParseIso(iso, x);
      Ok(Some(d))
    else Ok(None)
  }

  /** `episode_from_dict(data)`, building the record its keywords name. */
  function EpisodeFromDict(iso: Iso, v: Value): (r: Result<LegacyEpisode>)
    ensures r.Ok? <==> v.Dict? && Lookup(v.fields, "title").Some? && Lookup(v.fields, "audio_url").Some?
                        && OptionalDate(iso, v, "pub_date").Ok?
    ensures v.Dict? && Lookup(v.fields, "title").None? ==> r == Err(KeyError("title"))
    ensures r.Ok? ==> r.value.title == Lookup(v.fields, "title").value
                      && r.value.audioUrl == Lookup(v.fields, "audio_url").value
                      && r.value.description == Values.GetOr(v, "description", Null)
    ensures r.Ok? && Lookup(v.fields, "pub_date").None? ==> r.value.pubDate.None?
  {
    var title :- Subscript(v, "title");
    var pubDate :- OptionalDate(iso, v, "pub_date");
    var audio :- Subscript(v, "audio_url");
    var description := Values.GetOr(v, "description", Null);
    Ok(LegacyEpisode(title, pubDate, audio, description))
  }

  function EpisodeDecoder(iso: Iso): Value -> Result<LegacyEpisode> {
    (x: Value) => EpisodeFromDict(iso, x)
  }

  /** `show_from_dict(data)`: episodes first, in document order, then the
      show's own fields; no `metadata` gives `{}`. */
  function ShowFromDict(iso: Iso, v: Value): (r: Result<LegacyShow>)
    ensures r.Ok? ==> v.Dict? && Lookup(v.fields, "title").Some? && Lookup(v.fields, "url").Some?
    ensures r.Ok? ==> r.value.title == Lookup(v.fields, "title").value && r.value.url == Lookup(v.fields, "url").value
    ensures r.Ok? ==> r.value.description == Values.GetOr(v, "description", Null)
    ensures r.Ok? ==> r.value.metadata == Values.GetOr(v, "metadata", Dict([]))
    ensures r.Ok? && Lookup(v.fields, "last_updated").None? ==> r.value.lastUpdated.None?
    ensures r.Ok? && Lookup(v.fields, "episodes").None? ==> r.value.episodes == []
    ensures r.Ok? ==>
      var items := Iterate(Values.GetOr(v, "episodes", List([])));
      && items.Ok? && |r.value.episodes| == |items.value|
      && forall i :: 0 <= i < |items.value| ==> EpisodeFromDict(iso, items.value[i]) == Ok(r.value.episodes[i])
  {
    var episodesValue :- GetOrDefault(v, "episodes", List([]));
    var items :- Iterate(episodesValue);
    var episodes :- MapResult(items, EpisodeDecoder(iso));
    var lastUpdated :- OptionalDate(iso, v, "last_updated");
    var title :- Subscript(v, "title");
    var url :- Subscript(v, "url");
    var description := Values.GetOr(v, "description", Null);
    var metadata := Values.GetOr(v, "metadata", Dict([]));
    Ok(LegacyShow(title, url, description, episodes, lastUpdated, metadata))
  }

  function ShowDecoder(iso: Iso): Value -> Result<LegacyShow> {
    (x: Value) => ShowFromDict(iso, x)
  }

  /** `host_from_dict(data)`: the shows in document order, then the name. */
  function HostFromDict(iso: Iso, v: Value): (r: Result<LegacyHost>)
    ensures r.Ok? ==> v.Dict? && Lookup(v.fields, "name") == Some(r.value.name)
    ensures r.Ok? && Lookup(v.fields, "shows").None? ==> r.value.shows == []
    ensures r.Ok? ==>
      var items := Iterate(Values.GetOr(v, "shows", List([])));
      && items.Ok? && |r.value.shows| == |items.value|
      && forall i :: 0 <= i < |items.value| ==> ShowFromDict(iso, items.value[i]) == Ok(r.value.shows[i])
  {
    var showsValue :- GetOrDefault(v, "shows", List([]));
    var items :- Iterate(showsValue);
    var shows :- MapResult(items, ShowDecoder(iso));
    var name :- Subscript(v, "name");
    Ok(LegacyHost(name, shows))
  }

  /** `load_state(filename)`: a missing file raises `FileNotFoundError`;
      otherwise its document is decoded as a host. */
  function LoadState(p: LegacyJson, iso: Iso, filename: Option<string>, stored: Option<Value>): (r: Result<LegacyHost>)
    ensures stored.None? ==> r.Err? && r.error.FileNotFoundError?
    ensures stored.Some? ==> r == HostFromDict(iso, stored.value)
  {
    match stored
    case None => Err(FileNotFoundError("[Errno 2] No such file or directory: '" + Chosen(p, filename) + "'"))
    case Some(doc) => HostFromDict(iso, doc)
  }

  // ---------------------------------------------------------------------
  // As written against the present models.py

  const EpisodeKeywordError: PyError := TypeError("Episode.__init__() got an unexpected keyword argument 'pub_date'")
  const HostKeywordError: PyError := TypeError("Host.__init__() got an unexpected keyword argument 'shows'")

  /** `episode_from_dict` as it runs against today's `Episode`, which has
      no `pub_date` keyword: the reads happen, then the constructor call
      raises. */
  function EpisodeFromDictAsWritten(iso: Iso, v: Value): (r: Result<LegacyEpisode>)
    ensures r.Err?
    ensures EpisodeFromDict(iso, v).Ok? ==> r.error == EpisodeKeywordError
    ensures EpisodeFromDict(iso, v).Err? ==> r.error == EpisodeFromDict(iso, v).error
  {
    var _ :- Subscript(v, "title");
    var _ :- OptionalDate(iso, v, "pub_date");
    var _ :- Subscript(v, "audio_url");
    Err(EpisodeKeywordError)
  }

  /** `show_from_dict` as it runs today: `Show` accepts all its keywords,
      but every episode goes through the failing episode decoder. */
  function ShowFromDictAsWritten(iso: Iso, v: Value): (r: Result<LegacyShow>)
    ensures r.Ok? ==> r.value.episodes == []
  {
    var episodesValue :- GetOrDefault(v, "episodes", List([]));
    var items :- Iterate(episodesValue);
    var episodes :- MapResult(items, (x: Value) => EpisodeFromDictAsWritten(iso, x));
    var lastUpdated :- OptionalDate(iso, v, "last_updated");
    var title :- Subscript(v, "title");
    var url :- Subscript(v, "url");
    var description := Values.GetOr(v, "description", Null);
    var metadata := Values.GetOr(v, "metadata", Dict([]));
    Ok(LegacyShow(title, url, description, episodes, lastUpdated, metadata))
  }

  /** `host_from_dict` as it runs today: today's `Host` has no `shows`
      keyword, so no document loads. */
  function HostFromDictAsWritten(iso: Iso, v: Value): (r: Result<LegacyHost>)
    ensures r.Err?
  {
    var showsValue :- GetOrDefault(v, "shows", List([]));
    var items :- Iterate(showsValue);
    var _ :- MapResult(items, (x: Value) => ShowFromDictAsWritten(iso, x));
    var _ :- Subscript(v, "name");
    Err(HostKeywordError)
  }

  // ---------------------------------------------------------------------
  // Round trip

  /** Values json writes natively in every free-form field. */
  predicate StorableEpisode(e: LegacyEpisode) {
    JsonNative(e.title) && JsonNative(e.audioUrl) && JsonNative(e.description)
  }

  predicate StorableShow(s: LegacyShow) {
    && JsonNative(s.title) && JsonNative(s.url) && JsonNative(s.description) && JsonNative(s.metadata)
    && forall i :: 0 <= i < |s.episodes| ==> StorableEpisode(s.episodes[i])
  }

  predicate StorableHost(h: LegacyHost) {
    JsonNative(h.name) && forall i :: 0 <= i < |h.shows| ==> StorableShow(h.shows[i])
  }

  lemma EpisodeKeysDistinct()
    ensures NoDuplicateKeys(EpisodeKeys)
  {
  }

  lemma ShowKeysDistinct()
    ensures NoDuplicateKeys(ShowKeys)
  {
  }

  /** A written optional date reads back through `parse(...) if get(...)`. */
  lemma {:induction false} DateBack(iso: Iso, v: Value, key: string, o: Option<DateTime>)
    requires Faithful(iso) && v.Dict? && Lookup(v.fields, key) == Some(Persistence.Written(iso, DateValue(o)))
    ensures OptionalDate(iso, v, key) == Ok(o)
  {
    Persistence.GetOrFound(v, key, Persistence.Written(iso, DateValue(o)), Null);
    if o.Some? {
      assert iso.parse(iso.format(o.value)) == Some(o.value) && iso.format(o.value) != "";
    }
  }

  /** What a written episode holds under its `i`-th key. */
  lemma {:induction false} EpisodeDocAt(iso: Iso, e: LegacyEpisode, i: nat)
    requires i < |EpisodeKeys|
    ensures Lookup(Persistence.Written(iso, EpisodeValue(e)).fields, EpisodeKeys[i]) == Some(Persistence.Written(iso, EpisodeVals(e)[i]))
  {
    EpisodeKeysDistinct();
    Persistence.DocAt(iso, EpisodeKeys, EpisodeVals(e), i);
  }

  /** A saved episode loads as itself. */
  lemma {:induction false} EpisodeRoundTrip(iso: Iso, e: LegacyEpisode)
    requires Faithful(iso) && StorableEpisode(e)
    ensures EpisodeFromDict(iso, Persistence.Written(iso, EpisodeValue(e))) == Ok(e)
  {
    var v := Persistence.Written(iso, EpisodeValue(e));
    EpisodeDocAt(iso, e, 0);
    EpisodeDocAt(iso, e, 1);
    EpisodeDocAt(iso, e, 2);
    EpisodeDocAt(iso, e, 3);
    DateBack(iso, v, "pub_date", e.pubDate);
    Persistence.GetOrFound(v, "description", e.description, Null);
  }

  /** What a written show holds under its `i`-th key. */
  lemma {:induction false} ShowDocAt(iso: Iso, s: LegacyShow, i: nat)
    requires i < |ShowKeys|
    ensures Lookup(Persistence.Written(iso, ShowValue(s)).fields, ShowKeys[i]) == Some(Persistence.Written(iso, ShowVals(s)[i]))
  {
    ShowKeysDistinct();
    Persistence.DocAt(iso, ShowKeys, ShowVals(s), i);
  }

  /** Written episodes read back, in order. */
  lemma {:induction false} EpisodesBack(iso: Iso, episodes: seq<LegacyEpisode>)
    requires Faithful(iso) && forall i :: 0 <= i < |episodes| ==> StorableEpisode(episodes[i])
    ensures Iterate(Persistence.Written(iso, EpisodesValue(episodes))).Ok?
    ensures MapResult(Iterate(Persistence.Written(iso, EpisodesValue(episodes))).value, EpisodeDecoder(iso)) == Ok(episodes)
  {
    var items := Persistence.Written(iso, EpisodesValue(episodes)).items;
    assert Iterate(Persistence.Written(iso, EpisodesValue(episodes))) == Ok(items);
    forall i | 0 <= i < |items| ensures EpisodeDecoder(iso)(items[i]) == Ok(episodes[i]) {
      assert items[i] == Persistence.Written(iso, EpisodeValue(episodes[i]));
      EpisodeRoundTrip(iso, episodes[i]);
    }
    MapResultAll(items, EpisodeDecoder(iso), episodes);
  }

  /** What a show's document must hold for `show_from_dict` to give `s`. */
  predicate ShowDocOf(iso: Iso, v: Value, s: LegacyShow) {
    && v.Dict?
    && Iterate(Values.GetOr(v, "episodes", List([]))).Ok?
    && MapResult(Iterate(Values.GetOr(v, "episodes", List([]))).value, EpisodeDecoder(iso)) == Ok(s.episodes)
    && OptionalDate(iso, v, "last_updated") == Ok(s.lastUpdated)
    && Lookup(v.fields, "title") == Some(s.title)
    && Lookup(v.fields, "url") == Some(s.url)
    && Values.GetOr(v, "description", Null) == s.description
    && Values.GetOr(v, "metadata", Dict([])) == s.metadata
  }

  lemma {:induction false} ShowDecodes(iso: Iso, v: Value, s: LegacyShow)
    requires ShowDocOf(iso, v, s)
    ensures ShowFromDict(iso, v) == Ok(s)
  {
  }

  /** A written show's document holds what `show_from_dict` needs. */
  lemma {:induction false} ShowDoc(iso: Iso, s: LegacyShow)
    requires Faithful(iso) && StorableShow(s)
    ensures ShowDocOf(iso, Persistence.Written(iso, ShowValue(s)), s)
  {
    ShowDocEpisodes(iso, s);
    ShowDocFields(iso, s);
  }

  /** A written show's episodes read back. */
  lemma {:induction false} ShowDocEpisodes(iso: Iso, s: LegacyShow)
    requires Faithful(iso) && StorableShow(s)
    ensures Iterate(Values.GetOr(Persistence.Written(iso, ShowValue(s)), "episodes", List([]))).Ok?
    ensures MapResult(Iterate(Values.GetOr(Persistence.Written(iso, ShowValue(s)), "episodes", List([]))).value, EpisodeDecoder(iso)) == Ok(s.episodes)
  {
    var v := Persistence.Written(iso, ShowValue(s));
    ShowDocAt(iso, s, 3);
    Persistence.GetOrFound(v, "episodes", Persistence.Written(iso, EpisodesValue(s.episodes)), List([]));
    EpisodesBack(iso, s.episodes);
  }

  /** A written show's other fields read back. */
  lemma {:induction false} ShowDocFields(iso: Iso, s: LegacyShow)
    requires Faithful(iso) && StorableShow(s)
    ensures OptionalDate(iso, Persistence.Written(iso, ShowValue(s)), "last_updated") == Ok(s.lastUpdated)
    ensures Lookup(Persistence.Written(iso, ShowValue(s)).fields, "title") == Some(s.title)
    ensures Lookup(Persistence.Written(iso, ShowValue(s)).fields, "url") == Some(s.url)
    ensures Values.GetOr(Persistence.Written(iso, ShowValue(s)), "description", Null) == s.description
    ensures Values.GetOr(Persistence.Written(iso, ShowValue(s)), "metadata", Dict([])) == s.metadata
  {
    var v := Persistence.Written(iso, ShowValue(s));
    ShowDocAt(iso, s, 0);
    ShowDocAt(iso, s, 1);
    ShowDocAt(iso, s, 2);
    ShowDocAt(iso, s, 4);
    ShowDocAt(iso, s, 5);
    DateBack(iso, v, "last_updated", s.lastUpdated);
    Persistence.GetOrFound(v, "description", s.description, Null);
    Persistence.GetOrFound(v, "metadata", s.metadata, Dict([]));
  }

  /** A saved show loads as itself. */
  lemma {:induction false} ShowRoundTrip(iso: Iso, s: LegacyShow)
    requires Faithful(iso) && StorableShow(s)
    ensures ShowFromDict(iso, Persistence.Written(iso, ShowValue(s))) == Ok(s)
  {
    ShowDoc(iso, s);
    ShowDecodes(iso, Persistence.Written(iso, ShowValue(s)), s);
  }

  /** Written shows read back, in order. */
  lemma {:induction false} ShowsBack(iso: Iso, shows: seq<LegacyShow>)
    requires Faithful(iso) && forall i :: 0 <= i < |shows| ==> StorableShow(shows[i])
    ensures Iterate(Persistence.Written(iso, ShowsValue(shows))).Ok?
    ensures MapResult(Iterate(Persistence.Written(iso, ShowsValue(shows))).value, ShowDecoder(iso)) == Ok(shows)
  {
    var items := Persistence.Written(iso, ShowsValue(shows)).items;
    assert Iterate(Persistence.Written(iso, ShowsValue(shows))) == Ok(items);
    forall i | 0 <= i < |items| ensures ShowDecoder(iso)(items[i]) == Ok(shows[i]) {
      assert items[i] == Persistence.Written(iso, ShowValue(shows[i]));
      ShowRoundTrip(iso, shows[i]);
    }
    MapResultAll(items, ShowDecoder(iso), shows);
  }

  /** A saved host loads as itself. */
  lemma {:induction false} HostRoundTrip(iso: Iso, h: LegacyHost)
    requires Faithful(iso) && StorableHost(h)
    ensures HostFromDict(iso, Persistence.Written(iso, HostValue(h))) == Ok(h)
  {
    var v := Persistence.Written(iso, HostValue(h));
    var fields := Zip(HostKeys, [h.name, ShowsValue(h.shows)]);
    Persistence.DocLookup(iso, fields, 0);
    Persistence.DocLookup(iso, fields, 1);
    Persistence.GetOrFound(v, "shows", Persistence.Written(iso, ShowsValue(h.shows)), List([]));
    ShowsBack(iso, h.shows);
  }

  /** A storable host holds no UUID, so saving it succeeds. */
  lemma {:induction false} StorableNoIds(h: LegacyHost)
    requires StorableHost(h)
    ensures NoIds(HostValue(h))
  {
    NativeNoIds(h.name);
    forall k | 0 <= k < |h.shows| ensures NoIds(ShowValue(h.shows[k])) {
      var s := h.shows[k];
      NativeNoIds(s.title);
      NativeNoIds(s.url);
      NativeNoIds(s.description);
      NativeNoIds(s.metadata);
      forall j | 0 <= j < |s.episodes| ensures NoIds(EpisodeValue(s.episodes[j])) {
        var e := s.episodes[j];
        NativeNoIds(e.title);
        NativeNoIds(e.audioUrl);
        NativeNoIds(e.description);
        assert forall i :: 0 <= i < 4 ==> NoIds(EpisodeVals(e)[i]);
      }
      assert forall i :: 0 <= i < 6 ==> NoIds(ShowVals(s)[i]);
    }
  }

  /** Saving a storable host and loading the file gives the host back. */
  lemma {:induction false} SaveLoad(p: LegacyJson, iso: Iso, h: LegacyHost, filename: Option<string>)
    requires Faithful(iso) && StorableHost(h)
    ensures SaveState(p, iso, h, filename).Ok?
    ensures LoadState(p, iso, filename, Some(SaveState(p, iso, h, filename).value.document)) == Ok(h)
  {
    StorableNoIds(h);
    HostRoundTrip(iso, h);
  }

  /** The decoders as written load nothing: the document a save writes
      gives `TypeError` for a host, and for an episode, where the
      corrected decoders give the record back. */
  lemma {:induction false} AsWrittenLoadFails(iso: Iso, h: LegacyHost, e: LegacyEpisode)
    requires Faithful(iso) && StorableHost(h) && StorableEpisode(e)
    ensures HostFromDictAsWritten(iso, Persistence.Written(iso, HostValue(h))).Err?
    ensures HostFromDict(iso, Persistence.Written(iso, HostValue(h))) == Ok(h)
    ensures EpisodeFromDictAsWritten(iso, Persistence.Written(iso, EpisodeValue(e))) == Err(EpisodeKeywordError)
    ensures EpisodeFromDict(iso, Persistence.Written(iso, EpisodeValue(e))) == Ok(e)
  {
    HostRoundTrip(iso, h);
    EpisodeRoundTrip(iso, e);
  }
}

=== FILE: lists.dfy ===
/** List comprehensions and `list(set(xs))`. */
module Lists {
  import opened Wrappers

  /** The elements of a list, as a set. */
  function Elems<T(!new)>(xs: seq<T>): (r: set<T>)
    ensures forall x :: x in r <==> x in xs
  {
    set x | x in xs
  }

  /** `[f(x) for x in xs if keep(x)]`. That every element of the result
      comes from a kept element is `FilterMapSound`, kept apart so that
      chained comprehensions do not feed each other's contracts. */
  function FilterMap<T, U>(xs: seq<T>, keep: T -> bool, f: T -> U): (r: seq<U>)
    ensures |r| <= |xs|
    ensures forall i :: 0 <= i < |xs| && keep(xs[i]) ==> f(xs[i]) in r
  {
    if |xs| == 0 then []
    else
      var t := FilterMap(xs[1..], keep, f);
      assert forall i :: 1 <= i < |xs| ==> xs[i] == xs[1..][i - 1];
      if keep(xs[0]) then [f(xs[0])] + t else t
  }

  /** Each element of a comprehension is the image of a kept element. */
  lemma {:induction false} FilterMapSound<T, U>(xs: seq<T>, keep: T -> bool, f: T -> U, y: U)
    requires y in FilterMap(xs, keep, f)
    ensures exists i :: 0 <= i < |xs| && keep(xs[i]) && f(xs[i]) == y
  {
    if keep(xs[0]) && y == f(xs[0]) {
    } else {
      FilterMapSound(xs[1..], keep, f, y);
      var i :| 0 <= i < |xs[1..]| && keep(xs[1..][i]) && f(xs[1..][i]) == y;
      assert xs[i + 1] == xs[1..][i];
    }
  }

  /** `[x for x in xs if keep(x)]`. */
  function Filter<T(!new)>(xs: seq<T>, keep: T -> bool): (r: seq<T>)
    ensures |r| <= |xs|
    ensures forall x :: x in r <==> x in xs && keep(x)
  {
    if |xs| == 0 then []
    else
      var t := Filter(xs[1..], keep);
      assert forall x :: x in xs <==> x == xs[0] || x in xs[1..];
      if keep(xs[0]) then [xs[0]] + t else t
  }

  predicate NoDuplicates<T(==)>(xs: seq<T>) {
    forall i, j :: 0 <= i < j < |xs| ==> xs[i] != xs[j]
  }

  /** `list(set(xs))`. A set's iteration order is not specified; the model
      keeps first occurrences in list order. */
  function Distinct<T(==,!new)>(xs: seq<T>): (r: seq<T>)
    ensures forall x :: x in r <==> x in xs
    ensures NoDuplicates(r)
    ensures |r| <= |xs|
  {
    if |xs| == 0 then []
    else
      var init := xs[..|xs| - 1];
      var last := xs[|xs| - 1];
      var t := Distinct(init);
      assert forall x :: x in xs <==> x in init || x == last;
      if last in t then t else t + [last]
  }

  /** A list without repeats is its own `Distinct`. */
  lemma {:induction false} DistinctOfNoDuplicates<T(!new)>(xs: seq<T>)
    requires NoDuplicates(xs)
    ensures Distinct(xs) == xs
  {
    if |xs| > 0 {
      var init := xs[..|xs| - 1];
      assert NoDuplicates(init);
      DistinctOfNoDuplicates(init);
      assert xs[|xs| - 1] !in init;
      assert init + [xs[|xs| - 1]] == xs;
    }
  }

  lemma DistinctIdempotent<T(!new)>(xs: seq<T>)
    ensures Distinct(Distinct(xs)) == Distinct(xs)
  {
    DistinctOfNoDuplicates(Distinct(xs));
  }

  /** Reordering keeps the elements. */
  lemma PermMembers<T>(xs: seq<T>, ys: seq<T>)
    requires multiset(xs) == multiset(ys)
    ensures forall x :: x in xs <==> x in ys
  {
    forall x ensures x in xs <==> x in ys {
      assert x in xs <==> x in multiset(xs);
      assert x in ys <==> x in multiset(ys);
    }
  }

  /** A list without repeats holds each value at most once. */
  lemma {:induction false} NoDuplicatesCount<T>(xs: seq<T>, x: T)
    requires NoDuplicates(xs)
    ensures multiset(xs)[x] <= 1
  {
    if |xs| > 0 {
      assert xs == [xs[0]] + xs[1..];
      assert forall i :: 1 <= i < |xs| ==> xs[i] == xs[1..][i - 1];
      NoDuplicatesCount(xs[1..], x);
      assert xs[0] !in xs[1..];
    }
  }

  lemma TwoOccurrences<T>(ys: seq<T>, i: nat, j: nat)
    requires i < j < |ys|
    ensures ys[i] == ys[j] ==> multiset(ys)[ys[i]] >= 2
  {
    assert ys == ys[..i] + [ys[i]] + ys[i + 1..j] + [ys[j]] + ys[j + 1..];
  }

  /** Reordering a list without repeats gives a list without repeats. */
  lemma NoDuplicatesPerm<T>(xs: seq<T>, ys: seq<T>)
    requires NoDuplicates(xs) && multiset(xs) == multiset(ys)
    ensures NoDuplicates(ys)
  {
    forall i, j | 0 <= i < j < |ys| ensures ys[i] != ys[j] {
      NoDuplicatesCount(xs, ys[i]);
      TwoOccurrences(ys, i, j);
    }
  }

  /** `a.update(b)` on a set kept as a list: the elements of `b` not yet in
      `a` are appended in order. */
  function AddAll<T(==,!new)>(a: seq<T>, b: seq<T>): (r: seq<T>)
    ensures forall x :: x in r <==> x in a || x in b
    ensures NoDuplicates(a) ==> NoDuplicates(r)
    ensures |a| <= |r| && r[..|a|] == a
    decreases |b|
  {
    if |b| == 0 then a
    else if b[0] in a then AddAll(a, b[1..])
    else
      var r := AddAll(a + [b[0]], b[1..]);
      assert (a + [b[0]])[..|a|] == a;
      assert forall x :: x in b <==> x == b[0] || x in b[1..];
      r
  }
  /** `a` is `b` with some elements left out, order kept. */
  predicate SubseqOf<T(==)>(a: seq<T>, b: seq<T>)
    decreases |b|
  {
    if |a| == 0 then true
    else if |b| == 0 then false
    else (a[0] == b[0] && SubseqOf(a[1..], b[1..])) || SubseqOf(a, b[1..])
  }

  lemma SubseqOfTail<T>(a: seq<T>, b: seq<T>)
    requires |b| > 0 && SubseqOf(a, b[1..])
    ensures SubseqOf(a, b)
  {
  }

  /** Every element of a subsequence is an element of the whole. */
  lemma {:induction false} SubseqOfMembers<T>(a: seq<T>, b: seq<T>)
    requires SubseqOf(a, b)
    ensures forall x :: x in a ==> x in b
    decreases |b|
  {
    if |a| > 0 && |b| > 0 {
      if a[0] == b[0] && SubseqOf(a[1..], b[1..]) {
        SubseqOfMembers(a[1..], b[1..]);
        assert forall x :: x in a ==> x == a[0] || x in a[1..];
      } else {
        SubseqOfMembers(a, b[1..]);
      }
    }
  }

  lemma {:induction false} SubseqOfSelf<T>(xs: seq<T>)
    ensures SubseqOf(xs, xs)
  {
    if |xs| > 0 {
      SubseqOfSelf(xs[1..]);
    }
  }

  lemma {:induction false} SubseqOfTrans<T>(a: seq<T>, b: seq<T>, c: seq<T>)
    requires SubseqOf(a, b) && SubseqOf(b, c)
    ensures SubseqOf(a, c)
    decreases |c|
  {
    if |a| > 0 && |b| > 0 && |c| > 0 {
      if SubseqOf(b, c[1..]) {
        SubseqOfTrans(a, b, c[1..]);
      } else if a[0] == b[0] && SubseqOf(a[1..], b[1..]) {
        SubseqOfTrans(a[1..], b[1..], c[1..]);
      } else {
        SubseqOfTrans(a, b[1..], c[1..]);
      }
    }
  }

  /** A comprehension keeps order and invents nothing. */
  lemma {:induction false} FilterSubseq<T(!new)>(xs: seq<T>, keep: T -> bool)
    ensures SubseqOf(Filter(xs, keep), xs)
  {
    if |xs| > 0 {
      FilterSubseq(xs[1..], keep);
      if !keep(xs[0]) {
        SubseqOfTail(Filter(xs, keep), xs);
      }
    }
  }

  /** A comprehension whose condition holds throughout keeps everything. */
  lemma {:induction false} FilterAll<T(!new)>(xs: seq<T>, keep: T -> bool)
    requires forall i :: 0 <= i < |xs| ==> keep(xs[i])
    ensures Filter(xs, keep) == xs
  {
    if |xs| > 0 {
      assert forall i :: 1 <= i < |xs| ==> xs[i] == xs[1..][i - 1];
      FilterAll(xs[1..], keep);
    }
  }

  /** `[x for x in xs if test(x)]` where the test may raise: the first
      exception propagates. */
  function FilterResult<T(!new)>(xs: seq<T>, test: T -> Result<bool>): (r: Result<seq<T>>)
    ensures r.Ok? <==> forall i :: 0 <= i < |xs| ==> test(xs[i]).Ok?
    ensures r.Ok? ==> forall x :: x in r.value <==> x in xs && test(x) == Ok(true)
  {
    if |xs| == 0 then Ok([])
    else
      assert forall i :: 1 <= i < |xs| ==> xs[i] == xs[1..][i - 1];
      assert forall x :: x in xs <==> x == xs[0] || x in xs[1..];
      var keep :- test(xs[0]);
      var rest :- FilterResult(xs[1..], test);
      Ok(if keep then [xs[0]] + rest else rest)
  }

  lemma {:induction false} FilterResultSubseq<T(!new)>(xs: seq<T>, test: T -> Result<bool>)
    requires FilterResult(xs, test).Ok?
    ensures SubseqOf(FilterResult(xs, test).value, xs)
  {
    if |xs| > 0 {
      FilterResultSubseq(xs[1..], test);
      if test(xs[0]) == Ok(false) {
        SubseqOfTail(FilterResult(xs, test).value, xs);
      }
    }
  }

  lemma {:induction false} FilterResultAll<T(!new)>(xs: seq<T>, test: T -> Result<bool>)
    requires forall i :: 0 <= i < |xs| ==> test(xs[i]) == Ok(true)
    ensures FilterResult(xs, test) == Ok(xs)
  {
    if |xs| > 0 {
      assert forall i :: 1 <= i < |xs| ==> xs[i] == xs[1..][i - 1];
      FilterResultAll(xs[1..], test);
      assert test(xs[0]) == Ok(true);
      assert [xs[0]] + xs[1..] == xs;
    }
  }
}

=== FILE: models.dfy ===
/** The record types of the catalog (kcrw_feed/models.py), with the fields
    the rest of the code actually reads and writes. */
module Models {
  import opened Wrappers
  import opened Values
  import Sorting

  /** A sitemap entry: its canonical URL, where it was read from, its
      `lastmod` as parsed, and the raw sitemap fields. */
  datatype Resource = Resource(
    url: string,
    source: string,
    lastUpdated: Option<DateTime>,
    metadata: seq<Field>)

  datatype Host = Host(
    name: Option<string>,
    uuid: Option<Uuid>,
    title: Option<string>,
    url: Option<string>,
    imageUrl: Option<string>,
    socials: Value,
    description: Option<string>,
    kind: Option<string>,
    metadata: seq<Field>)

  /** An episode's host list holds host records, bare UUIDs (as read back
      from the state file), or `None` (an unmatched `extract_uuid`). */
  datatype HostRef = HostObj(host: Host) | HostId(id: Uuid) | NoHost

  datatype Episode = Episode(
    title: string,
    airdate: Option<DateTime>,
    url: Option<string>,
    mediaUrl: string,
    uuid: Option<Uuid>,
    showUuid: Option<Uuid>,
    hosts: seq<HostRef>,
    description: Option<string>,
    songlist: Option<string>,
    image: Option<string>,
    kind: Option<string>,
    duration: Option<real>,
    ending: Option<DateTime>,
    lastUpdated: Option<DateTime>,
    sourceMetadata: seq<Field>,
    metadata: seq<Field>,
    resource: Option<Resource>)

  datatype Show = Show(
    title: string,
    url: Option<string>,
    uuid: Option<Uuid>,
    description: Option<string>,
    hosts: seq<Host>,
    episodes: seq<Episode>,
    kind: Option<string>,
    lastUpdated: Option<DateTime>,
    sourceMetadata: seq<Field>,
    metadata: seq<Field>,
    image: Option<string>,
    resource: Option<Resource>)

  /** What the processors produce: `Union[Show, Episode]`. */
  datatype Entity = ShowEntity(show: Show) | EpisodeEntity(episode: Episode)
  {
    function Url(): Option<string> {
      match this
      case ShowEntity(s) => s.url
      case EpisodeEntity(e) => e.url
    }

    function Uuid(): Option<Uuid> {
      match this
      case ShowEntity(s) => s.uuid
      case EpisodeEntity(e) => e.uuid
    }
  }

  /** A user-supplied regular expression, compiled elsewhere: `Search(s)`
      says whether it matches somewhere in `s`. */
  type Pattern = string -> bool

  datatype FilterOptions = FilterOptions(
    matchText: Option<string>,
    compiledMatch: Option<Pattern>,
    resourceTypes: Option<seq<string>>,
    startDate: Option<DateTime>,
    endDate: Option<DateTime>,
    dryRun: bool)

  datatype ShowDirectory = ShowDirectory(shows: seq<Show>)

  /** `FilterOptions()` with every field defaulted. */
  function DefaultFilterOptions(): (r: FilterOptions)
    ensures r.matchText.None? && r.compiledMatch.None? && r.resourceTypes.None?
    ensures r.startDate.None? && r.endDate.None? && !r.dryRun
  {
    FilterOptions(None, None, None, None, None, false)
  }

  /** `Host(name=...)`. */
  function NewHost(name: Option<string>): (r: Host)
    ensures r.name == name && r.uuid.None?
    ensures r.socials == List([]) && r.metadata == []
  {
    Host(name, None, None, None, None, List([]), None, None, [])
  }

  /** `Show(title=..., url=...)`. */
  function NewShow(title: string, url: Option<string>): (r: Show)
    ensures r.title == title && r.url == url && r.uuid.None?
    ensures r.hosts == [] && r.episodes == [] && r.sourceMetadata == [] && r.metadata == []
  {
    Show(title, url, None, None, [], [], None, None, [], [], None, None)
  }

  /** `Episode(title=..., airdate=..., url=..., media_url=...)`. */
  function NewEpisode(title: string, airdate: Option<DateTime>, url: Option<string>, mediaUrl: string): (r: Episode)
    ensures r.title == title && r.airdate == airdate && r.url == url && r.mediaUrl == mediaUrl
    ensures r.hosts == [] && r.sourceMetadata == [] && r.metadata == [] && r.uuid.None?
  {
    Episode(title, airdate, url, mediaUrl, None, None, [], None, None, None, None, None, None, None, [], [], None)
  }

  // ---------------------------------------------------------------------
  // Ordering: `@dataclass(order=True)` compares the fields as a tuple

  function DateAtom(d: Option<DateTime>): Sorting.Atom {
    match d
    case None => Sorting.NoneAtom
    case Some(t) => if t.offset.None? then Sorting.NaiveAtom(t.instant) else Sorting.AwareAtom(t.instant)
  }

  function OptStrAtom(s: Option<string>): Sorting.Atom {
    match s
    case None => Sorting.NoneAtom
    case Some(x) => Sorting.StrAtom(x)
  }

  function OptIdAtom(u: Option<Uuid>): Sorting.Atom {
    match u
    case None => Sorting.NoneAtom
    case Some(id) => Sorting.IdAtom(id.hex)
  }

  /** A show's comparison tuple, in declaration order: `sort_index` (the
      URL, set by `__post_init__`), `title`, `url`, `uuid`,
      `description`; the fields after these hold lists and dicts. */
  function ShowTuple(s: Show): seq<Sorting.Atom> {
    [OptStrAtom(s.url), Sorting.StrAtom(s.title), OptStrAtom(s.url), OptIdAtom(s.uuid), OptStrAtom(s.description)]
  }

  /** An episode's comparison tuple, in declaration order: `sort_index`
      (the airdate), `title`, `airdate`, `url`, `media_url`, `uuid`,
      `show_uuid`; the next field, `hosts`, is a list. */
  function EpisodeTuple(e: Episode): seq<Sorting.Atom> {
    [DateAtom(e.airdate), Sorting.StrAtom(e.title), DateAtom(e.airdate), OptStrAtom(e.url),
     Sorting.StrAtom(e.mediaUrl), OptIdAtom(e.uuid), OptIdAtom(e.showUuid)]
  }

  /** What the first field of two tuples says once neither tuple is `<`
      the other in the wrong direction: both `None`, or both strings in
      order. */
  lemma FirstStrField(a: seq<Sorting.Atom>, b: seq<Sorting.Atom>, x: Option<string>, y: Option<string>)
    requires |a| > 0 && |b| > 0 && a[0] == OptStrAtom(x) && b[0] == OptStrAtom(y)
    requires Sorting.Comparable(a, b) && Sorting.TupleLt(b, a) == Ok(false)
    ensures x.Some? <==> y.Some?
    ensures x.Some? ==> Sorting.StrLe(x.value, y.value)
  {
    if x.Some? && y.Some? {
      if x.value != y.value {
        Sorting.StrLeTotal(x.value, y.value);
      } else {
        Sorting.StrLeRefl(x.value);
      }
    }
  }

  /** The same for a date field: both `None`, or both of one awareness and
      in order. */
  lemma FirstDateField(a: seq<Sorting.Atom>, b: seq<Sorting.Atom>, x: Option<DateTime>, y: Option<DateTime>)
    requires |a| > 0 && |b| > 0 && a[0] == DateAtom(x) && b[0] == DateAtom(y)
    requires Sorting.Comparable(a, b) && Sorting.TupleLt(b, a) == Ok(false)
    ensures x.Some? <==> y.Some?
    ensures x.Some? ==> (x.value.offset.None? <==> y.value.offset.None?) && TimeLe(x.value, y.value)
  {
  }

  /** Shows sorted by their tuples are sorted by URL. */
  lemma ShowsByUrl(shows: seq<Show>, r: seq<Show>)
    requires Sorting.Orderable(shows, ShowTuple) && multiset(r) == multiset(shows)
    requires forall i, j :: 0 <= i < j < |r| ==> Sorting.TupleLt(ShowTuple(r[j]), ShowTuple(r[i])) == Ok(false)
    ensures forall i, j :: 0 <= i < j < |r| ==>
      (r[i].url.Some? <==> r[j].url.Some?) && Sorting.StrLe(r[i].url.GetOr(""), r[j].url.GetOr(""))
  {
    forall i, j | 0 <= i < j < |r|
      ensures (r[i].url.Some? <==> r[j].url.Some?) && Sorting.StrLe(r[i].url.GetOr(""), r[j].url.GetOr(""))
    {
      assert r[i] in multiset(shows) && r[j] in multiset(shows);
      Sorting.MembersComparable(shows, ShowTuple, r[i], r[j]);
      FirstStrField(ShowTuple(r[i]), ShowTuple(r[j]), r[i].url, r[j].url);
      if r[i].url.None? {
        assert r[j].url.None?;
        Sorting.StrLeRefl("");
      }
    }
  }

  /** Episodes sorted by their tuples are sorted by airdate. */
  lemma EpisodesByAirdate(episodes: seq<Episode>, r: seq<Episode>)
    requires Sorting.Orderable(episodes, EpisodeTuple) && multiset(r) == multiset(episodes)
    requires forall i, j :: 0 <= i < j < |r| ==> Sorting.TupleLt(EpisodeTuple(r[j]), EpisodeTuple(r[i])) == Ok(false)
    ensures forall i, j :: 0 <= i < j < |r| && r[i].airdate.Some? ==>
      r[j].airdate.Some? && TimeLe(r[i].airdate.value, r[j].airdate.value)
  {
    forall i, j | 0 <= i < j < |r| && r[i].airdate.Some?
      ensures r[j].airdate.Some? && TimeLe(r[i].airdate.value, r[j].airdate.value)
    {
      assert r[i] in multiset(episodes) && r[j] in multiset(episodes);
      Sorting.MembersComparable(episodes, EpisodeTuple, r[i], r[j]);
      FirstDateField(EpisodeTuple(r[i]), EpisodeTuple(r[j]), r[i].airdate, r[j].airdate);
    }
  }

  /** `sorted(shows)`: a TypeError when two shows cannot be ordered (a
      `None` URL against a string one, say), else the shows by URL, with
      ties broken by the later fields. */
  function SortShows(shows: seq<Show>): (r: Result<seq<Show>>)
    ensures r.Err? <==> !Sorting.Orderable(shows, ShowTuple)
    ensures r.Err? ==> r.error.TypeError?
    ensures r.Ok? ==> multiset(r.value) == multiset(shows)
    ensures r.Ok? ==> forall i, j :: 0 <= i < j < |r.value| ==>
      Sorting.TupleLt(ShowTuple(r.value[j]), ShowTuple(r.value[i])) == Ok(false)
    ensures r.Ok? ==> forall i, j :: 0 <= i < j < |r.value| ==>
      (r.value[i].url.Some? <==> r.value[j].url.Some?) && Sorting.StrLe(r.value[i].url.GetOr(""), r.value[j].url.GetOr(""))
  {
    var r :- Sorting.SortTuples(shows, ShowTuple);
    ShowsByUrl(shows, r);
    Ok(r)
  }

  /** `sorted(episodes)`: a TypeError when two episodes cannot be ordered
      (a missing airdate against a present one, a naive against an aware
      one), else the episodes by airdate, ties broken by title and then
      the later fields. */
  function SortEpisodes(episodes: seq<Episode>): (r: Result<seq<Episode>>)
    ensures r.Err? <==> !Sorting.Orderable(episodes, EpisodeTuple)
    ensures r.Err? ==> r.error.TypeError?
    ensures r.Ok? ==> multiset(r.value) == multiset(episodes)
    ensures r.Ok? ==> forall i, j :: 0 <= i < j < |r.value| ==>
      Sorting.TupleLt(EpisodeTuple(r.value[j]), EpisodeTuple(r.value[i])) == Ok(false)
    ensures r.Ok? ==> forall i, j :: 0 <= i < j < |r.value| && r.value[i].airdate.Some? ==>
      r.value[j].airdate.Some? && TimeLe(r.value[i].airdate.value, r.value[j].airdate.value)
  {
    var r :- Sorting.SortTuples(episodes, EpisodeTuple);
    EpisodesByAirdate(episodes, r);
    Ok(r)
  }

  /** Two episodes on the same airdate are ordered by title, in either
      direction of the sort. */
  lemma SameAirdateByTitle(a: Episode, b: Episode)
    requires a.airdate.Some? && a.airdate == b.airdate
    requires a.title != b.title && Sorting.StrLe(a.title, b.title)
    ensures SortEpisodes([b, a]) == Ok([a, b])
    ensures Sorting.SortTuplesDescending([a, b], EpisodeTuple) == Ok([b, a])
  {
    var (ta, tb) := (EpisodeTuple(a), EpisodeTuple(b));
    assert ta[1..][0] != tb[1..][0];
    assert Sorting.TupleLt(ta, tb) == Sorting.TupleLt(ta[1..], tb[1..]);
    Sorting.SortTwo(a, b, EpisodeTuple);
  }

  /** An episode without an airdate cannot be sorted with one that has
      one: Python cannot order `None` against a `datetime`. */
  lemma MissingAirdateFails(a: Episode, b: Episode)
    requires a.airdate.None? && b.airdate.Some?
    ensures SortEpisodes([a, b]).Err? && SortEpisodes([b, a]).Err?
  {
    assert !Sorting.Comparable(EpisodeTuple(a), EpisodeTuple(b));
    assert !Sorting.Comparable(EpisodeTuple(b), EpisodeTuple(a));
  }

  /** Nor can a naive airdate be sorted with an aware one. */
  lemma NaiveAwareFails(a: Episode, b: Episode)
    requires a.airdate.Some? && a.airdate.value.offset.None?
    requires b.airdate.Some? && b.airdate.value.offset.Some?
    ensures SortEpisodes([a, b]) == Err(TypeError("can't compare offset-naive and offset-aware datetimes"))
  {
    assert !Sorting.Comparable(EpisodeTuple(a), EpisodeTuple(b));
    assert Sorting.TupleLt(EpisodeTuple(a), EpisodeTuple(b)) == Err(TypeError("can't compare offset-naive and offset-aware datetimes"));
  }
}

=== FILE: paths.dfy ===
/** The POSIX `os.path` operations the repository uses on local sources:
    `normpath` and two-argument `join`. */
module Paths {
  import opened Text

  /** `os.path.join(base, rel)`: an absolute `rel` replaces `base`;
      otherwise `rel` is appended after one separator. */
  function OsJoin(base: string, rel: string): (r: string)
    ensures StartsWith(rel, "/") ==> r == rel
    ensures !StartsWith(rel, "/") ==> EndsWith(r, rel) && StartsWith(r, base)
    ensures !StartsWith(rel, "/") ==> |r| == |base| + |rel| || |r| == |base| + |rel| + 1
  {
    if StartsWith(rel, "/") then rel
    else if base == "" || base[|base| - 1] == '/' then base + rel else base + "/" + rel
  }

  /** Leading slashes `normpath` keeps: two exactly when the path starts
      with exactly two, otherwise one for a rooted path. */
  function InitialSlashes(path: string): (r: nat)
    ensures r <= 2 && (r > 0 <==> StartsWith(path, "/"))
  {
    if !StartsWith(path, "/") then 0
    else if StartsWith(path, "//") && !StartsWith(path, "///") then 2
    else 1
  }

  function Slashes(n: nat): (r: string)
    requires n <= 2
    ensures |r| == n && forall i :: 0 <= i < n ==> r[i] == '/'
  {
    if n == 0 then "" else if n == 1 then "/" else "//"
  }

  /** Components already in `normpath`'s normal form: no empty or `.`
      component, `..` only as a leading run, and none at all under a root. */
  predicate NormalComps(comps: seq<string>, rooted: bool) {
    && (forall i :: 0 <= i < |comps| ==> comps[i] != "" && comps[i] != "." && '/' !in comps[i])
    && (forall i, j :: 0 <= i < j < |comps| && comps[j] == ".." ==> comps[i] == "..")
    && (rooted ==> forall i :: 0 <= i < |comps| ==> comps[i] != "..")
  }

  /** `normpath`'s component walk onto the stack `acc`. */
  function Normalize(acc: seq<string>, comps: seq<string>, rooted: bool): (r: seq<string>)
    requires NormalComps(acc, rooted)
    requires forall i :: 0 <= i < |comps| ==> '/' !in comps[i]
    ensures NormalComps(r, rooted)
    decreases |comps|
  {
    if |comps| == 0 then acc
    else
      var c := comps[0];
      if c == "" || c == "." then Normalize(acc, comps[1..], rooted)
      else if c != ".." || (!rooted && |acc| == 0) || (|acc| > 0 && acc[|acc| - 1] == "..") then
        assert NormalComps(acc + [c], rooted) by {
          if c == ".." {
            assert forall i :: 0 <= i < |acc| ==> acc[i] == ".." by {
              if |acc| > 0 {
                forall i | 0 <= i < |acc| ensures acc[i] == ".." {
                  if i < |acc| - 1 { assert acc[|acc| - 1] == ".."; }
                }
              }
            }
          }
        }
        Normalize(acc + [c], comps[1..], rooted)
      else if |acc| > 0 then Normalize(acc[..|acc| - 1], comps[1..], rooted)
      else Normalize(acc, comps[1..], rooted)
  }

  /** `os.path.normpath(path)` on POSIX. */
  function NormPath(path: string): (r: string)
    ensures r != ""
  {
    if path == "" then "."
    else
      var n := InitialSlashes(path);
      var comps := Normalize([], Split(path, '/'), n > 0);
      var r := Slashes(n) + Join(comps, '/');
      if r == "" then "." else r
  }

  /** The walk leaves normal components as they are. */
  lemma {:induction false} NormalizeFixed(acc: seq<string>, comps: seq<string>, rooted: bool)
    requires NormalComps(acc + comps, rooted)
    ensures NormalComps(acc, rooted)
    ensures forall i :: 0 <= i < |comps| ==> '/' !in comps[i]
    ensures Normalize(acc, comps, rooted) == acc + comps
    decreases |comps|
  {
    var all := acc + comps;
    assert forall i :: 0 <= i < |acc| ==> acc[i] == all[i];
    assert forall i :: 0 <= i < |comps| ==> comps[i] == all[|acc| + i];
    if |comps| > 0 {
      var c := comps[0];
      assert acc + [c] + comps[1..] == all;
      if c == ".." {
        assert !rooted;
        if |acc| > 0 {
          assert all[|acc| - 1] == "..";
        }
      }
      NormalizeFixed(acc + [c], comps[1..], rooted);
    }
  }

  /** An empty component (a doubled or leading slash) is skipped. */
  lemma NormalizeSkipsEmpty(comps: seq<string>, rooted: bool)
    requires forall i :: 0 <= i < |comps| ==> '/' !in comps[i]
    ensures Normalize([], [""] + comps, rooted) == Normalize([], comps, rooted)
  {
    assert ([""] + comps)[1..] == comps;
  }

  lemma SplitSlash(y: string)
    ensures Split("/" + y, '/') == [""] + Split(y, '/')
  {
    assert "/" + y == "" + ['/'] + y;
    SplitAfter("", '/', y);
  }

  /** A join of normal components starts with the first one's first letter. */
  lemma JoinHead(comps: seq<string>)
    requires |comps| > 0 && comps[0] != ""
    ensures |Join(comps, '/')| > 0 && Join(comps, '/')[0] == comps[0][0]
  {
  }

  /** The root `normpath` wrote is the root it reads back. */
  lemma InitialOfNormal(n: nat, comps: seq<string>)
    requires n <= 2 && NormalComps(comps, n > 0)
    requires Slashes(n) + Join(comps, '/') != ""
    ensures InitialSlashes(Slashes(n) + Join(comps, '/')) == n
  {
    var j := Join(comps, '/');
    var r := Slashes(n) + j;
    if |comps| > 0 {
      JoinHead(comps);
      assert j[0] != '/';
      assert r[n] == j[0];
    } else {
      assert j == "";
    }
  }

  lemma CompsOfJoin(comps: seq<string>, rooted: bool)
    requires NormalComps(comps, rooted)
    ensures Normalize([], Split(Join(comps, '/'), '/'), rooted) == comps
  {
    if |comps| > 0 {
      SplitJoin(comps, '/');
      NormalizeFixed([], comps, rooted);
      assert [] + comps == comps;
    } else {
      assert Split("", '/') == [""];
    }
  }

  /** The components `normpath` wrote are the components it reads back. */
  lemma CompsOfNormal(n: nat, comps: seq<string>)
    requires n <= 2 && NormalComps(comps, n > 0)
    ensures Normalize([], Split(Slashes(n) + Join(comps, '/'), '/'), n > 0) == comps
  {
    var j := Join(comps, '/');
    CompsOfJoin(comps, n > 0);
    if n == 1 {
      SplitSlash(j);
      NormalizeSkipsEmpty(Split(j, '/'), true);
    } else if n == 2 {
      CompsOfRootedTwice(j, comps);
    } else {
      assert Slashes(n) + j == j;
    }
  }

  lemma CompsOfRootedTwice(j: string, comps: seq<string>)
    requires Normalize([], Split(j, '/'), true) == comps
    ensures Normalize([], Split("//" + j, '/'), true) == comps
  {
    var tail := Split(j, '/');
    assert "//" + j == "/" + ("/" + j);
    SplitSlash("/" + j);
    SplitSlash(j);
    assert [""] + ([""] + tail) == [""] + [""] + tail;
    NormalizeSkipsEmpty([""] + tail, true);
    NormalizeSkipsEmpty(tail, true);
  }

  lemma NormPathOfNormal(n: nat, comps: seq<string>)
    requires n <= 2 && NormalComps(comps, n > 0)
    requires Slashes(n) + Join(comps, '/') != ""
    ensures NormPath(Slashes(n) + Join(comps, '/')) == Slashes(n) + Join(comps, '/')
  {
    InitialOfNormal(n, comps);
    CompsOfNormal(n, comps);
  }

  /** `normpath` is idempotent: its results are already normal. */
  lemma NormPathIdempotent(path: string)
    ensures NormPath(NormPath(path)) == NormPath(path)
  {
    var r := NormPath(path);
    if r == "." {
      assert Split(".", '/') == ["."];
      assert InitialSlashes(".") == 0;
      assert Normalize([], ["."], false) == [];
    } else {
      var n := InitialSlashes(path);
      var comps := Normalize([], Split(path, '/'), n > 0);
      NormPathOfNormal(n, comps);
    }
  }

  /** A leading `./` does not change a relative path's normal form. */
  lemma NormPathDotPrefix(path: string)
    requires !StartsWith(path, "/")
    ensures NormPath("./" + path) == NormPath(path)
  {
    assert "./" + path == "." + ['/'] + path;
    SplitAfter(".", '/', path);
    var tail := Split(path, '/');
    assert (["."] + tail)[1..] == tail;
    assert Normalize([], ["."] + tail, false) == Normalize([], tail, false);
    assert InitialSlashes("./" + path) == 0 && InitialSlashes(path) == 0;
    if path == "" {
      assert tail == [""];
      assert Normalize([], [""], false) == [];
      assert Join([], '/') == "";
    }
  }
}

=== FILE: persistence.dfy ===
/** kcrw_feed/persistence/state.py (`StatePersister`) and the JSON half of
    kcrw_feed/persistence/manager.py (`JsonPersister`): saving a show
    directory as the tree `json.dump(asdict(directory), default=...)`
    writes, and reading one back through the `*_from_dict` decoders. The
    decoders below are shared by both persisters, except that only
    `StatePersister` makes `show_from_dict` read (and check) the show's
    `image` key and makes `load` insist on a `.json` name. Its
    `host_from_dict` passes the stored `image_url` as `image=`, a keyword
    `Host` does not accept, so as written it cannot read any host
    (`HostFromDictAsWritten`); the shared `HostFromDict` is the decoder
    with the keyword `image_url=` that `JsonPersister` uses. */
module Persistence {
  import opened Wrappers
  import opened Values
  import opened Models
  import opened Json
  import opened Documents
  import Utils
  import Text

  /** A persister and the file it uses when `save` or `load` is given none. */
  datatype Persister = StatePersister(filename: string) | JsonPersister(filename: string)

  /** `filename or self.filename`. */
  function Chosen(p: Persister, filename: Option<string>): (r: string)
    ensures filename.Some? && filename.value != "" ==> r == filename.value
    ensures filename.None? || filename.value == "" ==> r == p.filename
  {
    if filename.Some? && filename.value != "" then filename.value else p.filename
  }

  // ---------------------------------------------------------------------
  // Serialisation

  /** `str(u)`. A `uuid.UUID` always holds 32 hexadecimal digits; a model
      value that does not is written as its raw digits. */
  function IdText(u: Uuid): (r: string)
    ensures Utils.ValidUuid(u) ==> Utils.UuidFromLiteral(r) == Ok(u)
  {
    if Utils.ValidUuid(u) then
      Utils.UuidStrRoundTrip(u);
      Utils.UuidStr(u)
    else u.hex
  }

  /** `default_serializer(obj)`: the hook json calls for what it cannot
      write itself. */
  function Default(iso: Iso, v: Value): (r: Result<Value>)
    ensures r.Ok? <==> v.Time? || v.Id?
    ensures r.Ok? ==> r.value.Str?
    ensures r.Err? ==> r.error == TypeError("Type <class '" + TypeName(v) + "'> not serializable")
  {
    match v
    case Time(t) => Ok(Str(iso.format(t)))
    case Id(u) => Ok(Str(IdText(u)))
    case _ => Err(TypeError("Type <class '" + TypeName(v) + "'> not serializable"))
  }

  function Hook(iso: Iso): Value -> Result<Value> {
    (x: Value) => Default(iso, x)
  }

  /** The JSON form of an optional datetime before the hook runs. */
  function OptIdValue(o: Option<Uuid>): Value {
    if o.Some? then Id(o.value) else Null
  }

  /** `asdict(resource)`. */
  function ResourceValue(r: Resource): Value {
    Dict(ResourceFields(r))
  }

  const ResourceKeys: seq<string> := ["url", "source", "last_updated", "metadata"]

  function ResourceFields(r: Resource): seq<Field> {
    Zip(ResourceKeys, ResourceVals(r))
  }

  function ResourceVals(r: Resource): seq<Value> {
    [Str(r.url),
     Str(r.source),
     DateValue(r.lastUpdated),
     Dict(r.metadata)]
  }

  function OptResourceValue(o: Option<Resource>): Value {
    if o.Some? then ResourceValue(o.value) else Null
  }

  /** `asdict(host)`. */
  function HostValue(h: Host): Value {
    Dict(HostFields(h))
  }

  const HostKeys: seq<string> := ["name", "uuid", "title", "url", "image_url", "socials", "description", "type", "metadata"]

  function HostFields(h: Host): seq<Field> {
    Zip(HostKeys, HostVals(h))
  }

  function HostVals(h: Host): seq<Value> {
    [OptStrValue(h.name),
     OptIdValue(h.uuid),
     OptStrValue(h.title),
     OptStrValue(h.url),
     OptStrValue(h.imageUrl),
     h.socials,
     OptStrValue(h.description),
     OptStrValue(h.kind),
     Dict(h.metadata)]
  }

  /** An episode's host entry as `asdict` leaves it. */
  function HostRefValue(h: HostRef): Value {
    match h
    case HostObj(x) => HostValue(x)
    case HostId(u) => Id(u)
    case NoHost => Null
  }

  function HostRefsValue(hosts: seq<HostRef>): Value {
    List(seq(|hosts|, i requires 0 <= i < |hosts| => HostRefValue(hosts[i])))
  }

  /** `asdict(episode)`, with the `sort_index` the dataclass copies from
      the airdate. */
  function EpisodeValue(e: Episode): Value {
    Dict(EpisodeFields(e))
  }

  const EpisodeKeys: seq<string> := ["sort_index", "title", "airdate", "url", "media_url", "uuid", "show_uuid", "hosts", "description", "songlist", "image", "type", "duration", "ending", "last_updated", "source_metadata", "metadata", "resource"]

  function EpisodeFields(e: Episode): seq<Field> {
    Zip(EpisodeKeys, EpisodeVals(e))
  }

  function EpisodeVals(e: Episode): seq<Value> {
    [DateValue(e.airdate),
     Str(e.title),
     DateValue(e.airdate),
     OptStrValue(e.url),
     Str(e.mediaUrl),
     OptIdValue(e.uuid),
     OptIdValue(e.showUuid),
     HostRefsValue(e.hosts),
     OptStrValue(e.description),
     OptStrValue(e.songlist),
     OptStrValue(e.image),
     OptStrValue(e.kind),
     OptNumValue(e.duration),
     DateValue(e.ending),
     DateValue(e.lastUpdated),
     Dict(e.sourceMetadata),
     Dict(e.metadata),
     OptResourceValue(e.resource)]
  }

  /** `asdict(show)`, with the `sort_index` the dataclass copies from the URL. */
  function ShowValue(s: Show): Value {
    Dict(ShowFields(s))
  }

  const ShowKeys: seq<string> := ["sort_index", "title", "url", "uuid", "description", "hosts", "episodes", "type", "last_updated", "source_metadata", "metadata", "image", "resource"]

  function ShowFields(s: Show): seq<Field> {
    Zip(ShowKeys, ShowVals(s))
  }

  function ShowVals(s: Show): seq<Value> {
    [OptStrValue(s.url),
     Str(s.title),
     OptStrValue(s.url),
     OptIdValue(s.uuid),
     OptStrValue(s.description),
     HostsValue(s.hosts),
     EpisodesValue(s.episodes),
     OptStrValue(s.kind),
     DateValue(s.lastUpdated),
     Dict(s.sourceMetadata),
     Dict(s.metadata),
     OptStrValue(s.image),
     OptResourceValue(s.resource)]
  }

  function HostsValue(hosts: seq<Host>): Value {
    List(seq(|hosts|, i requires 0 <= i < |hosts| => HostValue(hosts[i])))
  }

  function EpisodesValue(episodes: seq<Episode>): Value {
    List(seq(|episodes|, i requires 0 <= i < |episodes| => EpisodeValue(episodes[i])))
  }

  /** `asdict(directory)`. */
  function DirectoryValue(d: ShowDirectory): Value {
    Dict([Field("shows", List(seq(|d.shows|, i requires 0 <= i < |d.shows| => ShowValue(d.shows[i]))))])
  }

  /** A written state file: its name and its document. */
  datatype Stored = Stored(filename: string, document: Value)

  /** What `json.dump(..., default=default_serializer)` writes for `v`:
      datetimes and UUIDs become their text, lists and dicts are written
      item by item, everything else as it is. */
  function Written(iso: Iso, v: Value): (r: Value)
    ensures JsonNative(r)
    ensures JsonNative(v) ==> r == v
    decreases v
  {
    match v
    case Time(t) => Str(iso.format(t))
    case Id(u) => Str(IdText(u))
    case List(items) =>
      var ws := seq(|items|, i requires 0 <= i < |items| => Written(iso, items[i]));
      assert JsonNative(v) ==> ws == items;
      List(ws)
    case Dict(fields) =>
      var ws := seq(|fields|, i requires 0 <= i < |fields| => Field(fields[i].key, Written(iso, fields[i].val)));
      assert JsonNative(v) ==> ws == fields;
      Dict(ws)
    case _ => v
  }

  /** `save(directory, filename)`: the document holds only values json
      writes natively, every datetime and UUID having gone through
      `default_serializer`. */
  function Save(p: Persister, iso: Iso, d: ShowDirectory, filename: Option<string>): (r: Stored)
    ensures r.filename == Chosen(p, filename)
    ensures JsonNative(r.document)
    ensures Dump(Hook(iso), DirectoryValue(d)) == Ok(r.document)
  {
    WrittenDump(iso, DirectoryValue(d));
    Stored(Chosen(p, filename), Written(iso, DirectoryValue(d)))
  }

  // ---------------------------------------------------------------------
  // Deserialisation

  /** `data.get(key)` on a dict already known to be one. */
  function At(fields: seq<Field>, key: string): Value {
    Lookup(fields, key).GetOr(Null)
  }

  /** `utils.parse_date(v)`: a falsy value gives None, a string is parsed
      (None when it is malformed), and any other value makes
      `fromisoformat` raise `TypeError`. */
  function ParseDateOf(iso: Iso, v: Value): (r: Result<Option<DateTime>>)
    ensures !Truthy(v) ==> r == Ok(None)
    ensures v.Str? ==> r == Ok(Utils.ParseDate(iso, Some(v.s)))
    ensures r.Err? <==> Truthy(v) && !v.Str?
  {
    if !Truthy(v) then Ok(None)
    else if v.Str? then Ok(Utils.ParseDate(iso, Some(v.s)))
    else Err(TypeError("fromisoformat: argument must be str"))
  }

  /** `uuid.UUID(v)`: `None` is no argument at all, a string must be a UUID
      literal, and anything else has no `replace`. */
  function ParseUuid(v: Value): (r: Result<Uuid>)
    ensures r.Ok? ==> v.Str? && Utils.ValidUuid(r.value)
    ensures v.Str? ==> r == Utils.UuidFromLiteral(v.s)
    ensures v.Null? ==> r.Err? && r.error.TypeError?
  {
    match v
    case Null => Err(TypeError("one of the hex, bytes, bytes_le, fields, or int arguments must be given"))
    case Str(s) => Utils.UuidFromLiteral(s)
    case _ => Err(AttributeError("'" + TypeName(v) + "' object has no attribute 'replace'"))
  }

  /** `Resource(url="", source="", metadata={})`. */
  const BlankResource := Resource("", "", None, [])

  /** `resource_from_dict(data)` as written: a falsy value gives the blank
      resource; otherwise the resource's `metadata` must hold `lastmod`,
      whose parsed value replaces it. */
  function ResourceFromDictAsWritten(iso: Iso, v: Value): (r: Result<Resource>)
    ensures !Truthy(v) ==> r == Ok(BlankResource)
    ensures Truthy(v) && r.Ok? ==> v.Dict? && Subscript(At(v.fields, "metadata"), "lastmod").Ok?
    ensures Truthy(v) && r.Ok? ==>
      var meta := At(v.fields, "metadata");
      && ParseDateOf(iso, Subscript(meta, "lastmod").value).Ok?
      && Lookup(r.value.metadata, "lastmod") == Some(DateValue(ParseDateOf(iso, Subscript(meta, "lastmod").value).value))
      && (forall k :: k != "lastmod" ==> Lookup(r.value.metadata, k) == Lookup(meta.fields, k))
  {
    if !Truthy(v) then Ok(BlankResource)
    else
      var lastRaw :- GetOrDefault(v, "last_updated", Null);
      var lastUpdated :- ParseDateOf(iso, lastRaw);
      var meta := At(v.fields, "metadata");
      var raw :- Subscript(meta, "lastmod");
      var lastmod :- ParseDateOf(iso, raw);
      var url :- Subscript(v, "url");
      var u :- AsStr("url", url);
      var src :- AsStr("source", Values.GetOr(v, "source", Str("")));
      Ok(Resource(u, src, lastUpdated, Assign(meta.fields, "lastmod", DateValue(lastmod))))
  }

  /** `resource_from_dict(data)` as evidently intended: `lastmod` is parsed
      back when the metadata holds it and left out when it does not, so the
      blank resource reads back as itself. */
  function ResourceFromDict(iso: Iso, v: Value): (r: Result<Resource>)
    ensures !Truthy(v) ==> r == Ok(BlankResource)
    ensures Truthy(v) && r.Ok? ==> v.Dict?
    ensures Truthy(v) && r.Ok? ==> Values.GetOr(v, "metadata", Dict([])).Dict?
    ensures Truthy(v) && r.Ok? ==>
      var meta := Values.GetOr(v, "metadata", Dict([])).fields;
      && (Lookup(meta, "lastmod").None? ==> r.value.metadata == meta)
      && (Lookup(meta, "lastmod").Some? ==>
            && ParseDateOf(iso, Lookup(meta, "lastmod").value).Ok?
            && Lookup(r.value.metadata, "lastmod") == Some(DateValue(ParseDateOf(iso, Lookup(meta, "lastmod").value).value)))
      && (forall k :: k != "lastmod" ==> Lookup(r.value.metadata, k) == Lookup(meta, k))
  {
    if !Truthy(v) then Ok(BlankResource)
    else
      var lastRaw :- GetOrDefault(v, "last_updated", Null);
      var lastUpdated :- ParseDateOf(iso, lastRaw);
      var fields :- AsFields("metadata", Values.GetOr(v, "metadata", Dict([])));
      var lastmod :- if Lookup(fields, "lastmod").Some? then ParseDateOf(iso, Lookup(fields, "lastmod").value) else Ok(None);
      var url :- Subscript(v, "url");
      var u :- AsStr("url", url);
      var src :- AsStr("source", Values.GetOr(v, "source", Str("")));
      var m := if Lookup(fields, "lastmod").Some? then Assign(fields, "lastmod", DateValue(lastmod)) else fields;
      Ok(Resource(u, src, lastUpdated, m))
  }

  /** `[self._parse_uuid(h) for h in ...]` as an episode's host list. */
  function HostIds(ids: seq<Uuid>): (r: seq<HostRef>)
    ensures |r| == |ids| && forall i :: 0 <= i < |ids| ==> r[i] == HostId(ids[i])
  {
    seq(|ids|, i requires 0 <= i < |ids| => HostId(ids[i]))
  }

  /** The raw reads of `episode_from_dict`, in the order it makes them:
      values that are only stored are kept as read, dates and UUIDs are
      parsed. */
  datatype EpisodeReads = EpisodeReads(
    resource: Resource, title: Value, airdate: Option<DateTime>, url: Value, mediaUrl: Value,
    id: Uuid, showId: Uuid, hostIds: seq<Uuid>, ending: Option<DateTime>, lastUpdated: Option<DateTime>)

  /** The lookups and parses of `episode_from_dict(data)`: the resource is
      decoded first; `title`, `url` and `media_url` are required; dates are
      parsed when truthy and None otherwise; the uuid, the show uuid and
      every host are parsed as UUIDs. */
  function EpisodeParse(iso: Iso, v: Value): (r: Result<EpisodeReads>)
    ensures r.Ok? ==> v.Dict?
    ensures r.Ok? ==> Subscript(v, "title") == Ok(r.value.title)
    ensures r.Ok? ==> Subscript(v, "url") == Ok(r.value.url)
    ensures r.Ok? ==> Subscript(v, "media_url") == Ok(r.value.mediaUrl)
    ensures r.Ok? ==> Ok(r.value.airdate) == ParseDateOf(iso, At(v.fields, "airdate"))
    ensures r.Ok? ==> ResourceFromDict(iso, Values.GetOr(v, "resource", Dict([]))) == Ok(r.value.resource)
  {
    var resourceRaw :- GetOrDefault(v, "resource", Dict([]));
    var resource :- ResourceFromDict(iso, resourceRaw);
    var d := v.fields;
    var title :- Subscript(v, "title");
    var airdate :- ParseDateOf(iso, At(d, "airdate"));
    var url :- Subscript(v, "url");
    var mediaUrl :- Subscript(v, "media_url");
    var id :- ParseUuid(At(d, "uuid"));
    var showId :- ParseUuid(At(d, "show_uuid"));
    var hostItems :- Iterate(Values.GetOr(v, "hosts", List([])));
    var hostIds :- MapResult(hostItems, ParseUuid);
    var ending :- ParseDateOf(iso, At(d, "ending"));
    var lastUpdated :- ParseDateOf(iso, At(d, "last_updated"));
    Ok(EpisodeReads(resource, title, airdate, url, mediaUrl, id, showId, hostIds, ending, lastUpdated))
  }

  /** The episode `episode_from_dict` builds from its reads: the stored
      values must have the types the record fields hold, `metadata`
      defaults to `{}` and `source_metadata` is not read. */
  function EpisodeBuild(v: Value, parts: EpisodeReads): (r: Result<Episode>)
    requires v.Dict?
    ensures r.Ok? ==> parts.title == Str(r.value.title) && parts.url == OptStrValue(r.value.url)
    ensures r.Ok? ==> parts.mediaUrl == Str(r.value.mediaUrl)
    ensures r.Ok? ==> OptStrValue(r.value.description) == At(v.fields, "description")
    ensures r.Ok? ==> r.value.airdate == parts.airdate
    ensures r.Ok? ==> r.value.uuid == Some(parts.id) && r.value.showUuid == Some(parts.showId)
    ensures r.Ok? ==> r.value.hosts == HostIds(parts.hostIds)
    ensures r.Ok? ==> Values.GetOr(v, "metadata", Dict([])) == Dict(r.value.metadata)
    ensures r.Ok? ==> r.value.sourceMetadata == [] && r.value.resource == Some(parts.resource)
  {
    var d := v.fields;
    var t :- AsStr("title", parts.title);
    var u :- AsOptStr("url", parts.url);
    var m :- AsStr("media_url", parts.mediaUrl);
    var description :- AsOptStr("description", At(d, "description"));
    var songlist :- AsOptStr("songlist", At(d, "songlist"));
    var image :- AsOptStr("image", At(d, "image"));
    var kind :- AsOptStr("type", At(d, "type"));
    var duration :- AsOptNum("duration", At(d, "duration"));
    var metadata :- AsFields("metadata", Values.GetOr(v, "metadata", Dict([])));
    Ok(Episode(t, parts.airdate, u, m, Some(parts.id), Some(parts.showId), HostIds(parts.hostIds), description, songlist,
               image, kind, duration, parts.ending, parts.lastUpdated, [], metadata, Some(parts.resource)))
  }

  /** `episode_from_dict(data)`: every read, then the record. */
  function EpisodeFromDict(iso: Iso, v: Value): (r: Result<Episode>)
    ensures r.Ok? ==> v.Dict?
    ensures r.Ok? ==> Subscript(v, "title") == Ok(Str(r.value.title))
    ensures r.Ok? ==> Subscript(v, "url") == Ok(OptStrValue(r.value.url))
    ensures r.Ok? ==> Subscript(v, "media_url") == Ok(Str(r.value.mediaUrl))
    ensures r.Ok? ==> OptStrValue(r.value.description) == At(v.fields, "description")
    ensures r.Ok? ==> Ok(r.value.airdate) == ParseDateOf(iso, At(v.fields, "airdate"))
    ensures r.Ok? ==> !Truthy(At(v.fields, "airdate")) ==> r.value.airdate.None?
    ensures r.Ok? ==> r.value.uuid.Some? && r.value.showUuid.Some?
    ensures r.Ok? ==> forall i :: 0 <= i < |r.value.hosts| ==> r.value.hosts[i].HostId?
    ensures r.Ok? ==> Values.GetOr(v, "metadata", Dict([])) == Dict(r.value.metadata)
    ensures r.Ok? ==> r.value.sourceMetadata == [] && r.value.resource.Some?
  {
    var parts :- EpisodeParse(iso, v);
    EpisodeBuild(v, parts)
  }

  /** `host_from_dict(data)`: `name` is required, the uuid is parsed, the
      image comes from `image_url`, `socials` defaults to `[]` and
      `metadata` to `{}`. */
  function HostFromDict(v: Value): (r: Result<Host>)
    ensures r.Ok? ==> v.Dict? && Lookup(v.fields, "name").Some?
    ensures r.Ok? ==> OptStrValue(r.value.name) == Lookup(v.fields, "name").value
    ensures r.Ok? ==> r.value.uuid.Some? && ParseUuid(At(v.fields, "uuid")) == Ok(r.value.uuid.value)
    ensures r.Ok? ==> OptStrValue(r.value.imageUrl) == At(v.fields, "image_url")
    ensures r.Ok? ==> r.value.socials == Values.GetOr(v, "socials", List([]))
    ensures r.Ok? ==> Values.GetOr(v, "metadata", Dict([])) == Dict(r.value.metadata)
  {
    var name :- Subscript(v, "name");
    var d := v.fields;
    var id :- ParseUuid(At(d, "uuid"));
    var n :- AsOptStr("name", name);
    var title :- AsOptStr("title", At(d, "title"));
    var url :- AsOptStr("url", At(d, "url"));
    var image :- AsOptStr("image_url", At(d, "image_url"));
    var description :- AsOptStr("description", At(d, "description"));
    var kind :- AsOptStr("type", At(d, "type"));
    var metadata :- AsFields("metadata", Values.GetOr(v, "metadata", Dict([])));
    Ok(Host(n, Some(id), title, url, image, Values.GetOr(v, "socials", List([])), description, kind, metadata))
  }

  /** `StatePersister.host_from_dict(data)` as written: the arguments are
      evaluated (`name` is required, the uuid parsed), and then the call
      `Host(..., image=...)` raises, since `Host` has no field `image`. */
  function HostFromDictAsWritten(v: Value): (r: Result<Host>)
    ensures r.Err?
    ensures Subscript(v, "name").Ok? && ParseUuid(At(v.fields, "uuid")).Ok? ==>
      r == Err(TypeError("Host.__init__() got an unexpected keyword argument 'image'"))
  {
    var name :- Subscript(v, "name");
    var id :- ParseUuid(At(v.fields, "uuid"));
    Err(TypeError("Host.__init__() got an unexpected keyword argument 'image'"))
  }

  /** `StatePersister` reads a show's `image` key and refuses the
      placeholder `"DEADBEEF"`; `JsonPersister` reads no image. */
  function ImageOf(p: Persister, v: Value): (r: Result<Value>)
    ensures p.JsonPersister? ==> r == Ok(Null)
    ensures p.StatePersister? && r.Ok? ==> Subscript(v, "image") == r && r.value != Str("DEADBEEF")
    ensures p.StatePersister? && Subscript(v, "image").Ok? && Subscript(v, "image").value == Str("DEADBEEF") ==>
      r == Err(AssertionError(""))
  {
    if p.JsonPersister? then Ok(Null)
    else
      var image :- Subscript(v, "image");
      if image == Str("DEADBEEF") then Err(AssertionError("")) else Ok(image)
  }

  /** A show's episodes and hosts. */
  datatype Members = Members(episodes: seq<Episode>, hosts: seq<Host>)

  function EpisodeItems(v: Value): Result<seq<Value>> {
    Iterate(Values.GetOr(v, "episodes", List([])))
  }

  function HostItems(v: Value): Result<seq<Value>> {
    Iterate(Values.GetOr(v, "hosts", List([])))
  }

  /** `[self.episode_from_dict(e) for e in ...]`: the first failure is
      raised, otherwise every entry is decoded. */
  function EpisodesFromDicts(iso: Iso, items: seq<Value>): (r: Result<seq<Episode>>)
    ensures r.Ok? <==> forall i :: 0 <= i < |items| ==> EpisodeFromDict(iso, items[i]).Ok?
    ensures r.Ok? ==> |r.value| == |items| && forall i :: 0 <= i < |items| ==> EpisodeFromDict(iso, items[i]) == Ok(r.value[i])
  {
    MapResult(items, EpisodeDecoder(iso))
  }

  function EpisodeDecoder(iso: Iso): Value -> Result<Episode> {
    (e: Value) => EpisodeFromDict(iso, e)
  }

  /** The first half of `show_from_dict(data)`: every entry of `episodes`,
      then every entry of `hosts`, decoded in order. */
  function ShowMembers(iso: Iso, v: Value): (r: Result<Members>)
    ensures r.Ok? ==> v.Dict? && EpisodeItems(v).Ok? && HostItems(v).Ok?
    ensures r.Ok? ==> |r.value.episodes| == |EpisodeItems(v).value|
    ensures r.Ok? ==> forall i :: 0 <= i < |r.value.episodes| ==>
      EpisodeFromDict(iso, EpisodeItems(v).value[i]) == Ok(r.value.episodes[i])
    ensures r.Ok? ==> |r.value.hosts| == |HostItems(v).value|
    ensures r.Ok? ==> forall i :: 0 <= i < |r.value.hosts| ==>
      HostFromDict(HostItems(v).value[i]) == Ok(r.value.hosts[i])
  {
    var episodesRaw :- GetOrDefault(v, "episodes", List([]));
    var episodeItems :- Iterate(episodesRaw);
    var episodes :- EpisodesFromDicts(iso, episodeItems);
    var hostItems :- HostItems(v);
    var hosts :- MapResult(hostItems, HostFromDict);
    Ok(Members(episodes, hosts))
  }

  /** The raw reads of `show_from_dict`, in the order it makes them. */
  datatype ShowReads = ShowReads(
    members: Members, resource: Resource, lastUpdated: Option<DateTime>, image: Value,
    title: Value, url: Value, id: Uuid)

  /** The lookups and parses of `show_from_dict(data)`: episodes, hosts,
      the resource and the date are decoded in that order, then the image
      is checked, then `title` and `url` are required and the uuid parsed. */
  function ShowParse(p: Persister, iso: Iso, v: Value): (r: Result<ShowReads>)
    ensures r.Ok? ==> v.Dict?
    ensures r.Ok? ==> ShowMembers(iso, v) == Ok(r.value.members)
    ensures r.Ok? ==> Subscript(v, "title") == Ok(r.value.title)
    ensures r.Ok? ==> Subscript(v, "url") == Ok(r.value.url)
    ensures r.Ok? ==> Ok(r.value.lastUpdated) == ParseDateOf(iso, At(v.fields, "last_updated"))
    ensures r.Ok? ==> ImageOf(p, v) == Ok(r.value.image)
  {
    var members :- ShowMembers(iso, v);
    var d := v.fields;
    var resource :- ResourceFromDict(iso, Values.GetOr(v, "resource", Dict([])));
    var lastUpdated :- ParseDateOf(iso, At(d, "last_updated"));
    var image :- ImageOf(p, v);
    var title :- Subscript(v, "title");
    var url :- Subscript(v, "url");
    var id :- ParseUuid(At(d, "uuid"));
    Ok(ShowReads(members, resource, lastUpdated, image, title, url, id))
  }

  /** The show `show_from_dict` builds from its reads: the stored values
      must have the types the record fields hold, `metadata` defaults to
      `{}` and `source_metadata` is not read. */
  function ShowBuild(v: Value, parts: ShowReads): (r: Result<Show>)
    requires v.Dict?
    ensures r.Ok? ==> parts.title == Str(r.value.title) && parts.url == OptStrValue(r.value.url)
    ensures r.Ok? ==> parts.image == OptStrValue(r.value.image)
    ensures r.Ok? ==> OptStrValue(r.value.description) == At(v.fields, "description")
    ensures r.Ok? ==> r.value.episodes == parts.members.episodes && r.value.hosts == parts.members.hosts
    ensures r.Ok? ==> r.value.lastUpdated == parts.lastUpdated && r.value.uuid == Some(parts.id)
    ensures r.Ok? ==> Values.GetOr(v, "metadata", Dict([])) == Dict(r.value.metadata)
    ensures r.Ok? ==> r.value.sourceMetadata == [] && r.value.resource == Some(parts.resource)
  {
    var d := v.fields;
    var t :- AsStr("title", parts.title);
    var u :- AsOptStr("url", parts.url);
    var image :- AsOptStr("image", parts.image);
    var description :- AsOptStr("description", At(d, "description"));
    var kind :- AsOptStr("type", At(d, "type"));
    var metadata :- AsFields("metadata", Values.GetOr(v, "metadata", Dict([])));
    Ok(Show(t, u, Some(parts.id), description, parts.members.hosts, parts.members.episodes, kind,
            parts.lastUpdated, [], metadata, image, Some(parts.resource)))
  }

  /** `show_from_dict(data)`: every read, then the record. */
  function ShowFromDict(p: Persister, iso: Iso, v: Value): (r: Result<Show>)
    ensures r.Ok? ==> v.Dict?
    ensures r.Ok? ==> ShowMembers(iso, v) == Ok(Members(r.value.episodes, r.value.hosts))
    ensures r.Ok? ==> Subscript(v, "title") == Ok(Str(r.value.title))
    ensures r.Ok? ==> Subscript(v, "url") == Ok(OptStrValue(r.value.url))
    ensures r.Ok? ==> OptStrValue(r.value.description) == At(v.fields, "description")
    ensures r.Ok? ==> Ok(r.value.lastUpdated) == ParseDateOf(iso, At(v.fields, "last_updated"))
    ensures r.Ok? ==> Values.GetOr(v, "metadata", Dict([])) == Dict(r.value.metadata)
    ensures r.Ok? && p.StatePersister? ==> Subscript(v, "image") == Ok(OptStrValue(r.value.image))
    ensures r.Ok? && p.JsonPersister? ==> r.value.image.None?
  {
    var parts :- ShowParse(p, iso, v);
    ShowBuild(v, parts)
  }

  /** `[self.show_from_dict(s) for s in ...]`. */
  function ShowsFromDicts(p: Persister, iso: Iso, items: seq<Value>): (r: Result<seq<Show>>)
    ensures r.Ok? <==> forall i :: 0 <= i < |items| ==> ShowFromDict(p, iso, items[i]).Ok?
    ensures r.Ok? ==> |r.value| == |items| && forall i :: 0 <= i < |items| ==> ShowFromDict(p, iso, items[i]) == Ok(r.value[i])
  {
    MapResult(items, ShowDecoder(p, iso))
  }

  function ShowDecoder(p: Persister, iso: Iso): Value -> Result<Show> {
    (s: Value) => ShowFromDict(p, iso, s)
  }

  /** `directory_from_dict(data)`: one show per entry of `shows`, in order. */
  function DirectoryFromDict(p: Persister, iso: Iso, v: Value): (r: Result<ShowDirectory>)
    ensures r.Ok? ==> v.Dict? && Iterate(Values.GetOr(v, "shows", List([]))).Ok?
    ensures r.Ok? ==> |r.value.shows| == |Iterate(Values.GetOr(v, "shows", List([]))).value|
    ensures r.Ok? ==> forall i :: 0 <= i < |r.value.shows| ==>
      ShowFromDict(p, iso, Iterate(Values.GetOr(v, "shows", List([]))).value[i]) == Ok(r.value.shows[i])
  {
    var raw :- GetOrDefault(v, "shows", List([]));
    var items :- Iterate(raw);
    var shows :- ShowsFromDicts(p, iso, items);
    Ok(ShowDirectory(shows))
  }

  /** `load(filename)`: `StatePersister` first insists on a `.json` name
      (its message is a plain string, not an f-string); a missing file is
      an empty directory; otherwise the parsed document is decoded.
      `stored` is the file's parsed contents, or None when it does not
      exist. */
  function Load(p: Persister, iso: Iso, filename: Option<string>, stored: Option<Value>): (r: Result<ShowDirectory>)
    ensures p.StatePersister? && !Text.EndsWith(Chosen(p, filename), ".json") ==>
      r == Err(AssertionError("State file must be JSON: {filename}"))
    ensures (p.JsonPersister? || Text.EndsWith(Chosen(p, filename), ".json")) && stored.None? ==>
      r == Ok(ShowDirectory([]))
    ensures (p.JsonPersister? || Text.EndsWith(Chosen(p, filename), ".json")) && stored.Some? ==>
      r == DirectoryFromDict(p, iso, stored.value)
  {
    var name := Chosen(p, filename);
    if p.StatePersister? && !Text.EndsWith(name, ".json") then Err(AssertionError("State file must be JSON: {filename}"))
    else if stored.None? then Ok(ShowDirectory([]))
    else DirectoryFromDict(p, iso, stored.value)
  }

  // ---------------------------------------------------------------------
  // Saving and loading again

  /** Resource metadata that survives a save and a load: a dict whose
      `lastmod`, if any, is a datetime or `None` and whose other values are
      plain JSON. */
  predicate StorableMetadata(m: seq<Field>) {
    && DistinctKeys(m)
    && forall i :: 0 <= i < |m| ==>
         if m[i].key == "lastmod" then m[i].val.Time? || m[i].val.Null? else JsonNative(m[i].val)
  }

  predicate StorableResource(o: Option<Resource>) {
    o.Some? ==> StorableMetadata(o.value.metadata)
  }

  /** The decoders parse every uuid they read, so it must be present. */
  predicate StorableId(o: Option<Uuid>) {
    o.Some? && Utils.ValidUuid(o.value)
  }

  predicate StorableHost(h: Host) {
    StorableId(h.uuid) && JsonNative(h.socials) && JsonNative(Dict(h.metadata))
  }

  /** An episode's hosts are read back as UUIDs, so they must be stored as
      UUIDs. */
  predicate StorableEpisode(e: Episode) {
    && StorableId(e.uuid) && StorableId(e.showUuid)
    && (forall i :: 0 <= i < |e.hosts| ==> e.hosts[i].HostId? && Utils.ValidUuid(e.hosts[i].id))
    && JsonNative(Dict(e.metadata))
    && StorableResource(e.resource)
  }

  predicate StorableShow(p: Persister, s: Show) {
    && StorableId(s.uuid)
    && (p.StatePersister? ==> s.image != Some("DEADBEEF"))
    && JsonNative(Dict(s.metadata))
    && StorableResource(s.resource)
    && (forall i :: 0 <= i < |s.hosts| ==> StorableHost(s.hosts[i]))
    && (forall i :: 0 <= i < |s.episodes| ==> StorableEpisode(s.episodes[i]))
  }

  predicate Storable(p: Persister, d: ShowDirectory) {
    forall i :: 0 <= i < |d.shows| ==> StorableShow(p, d.shows[i])
  }

  /** What a resource reads back as: an absent one becomes the blank one. */
  function ReloadedResource(o: Option<Resource>): Resource {
    if o.Some? then o.value else BlankResource
  }

  /** What an episode reads back as: `source_metadata` is not read, and the
      resource is always present. */
  function ReloadedEpisode(e: Episode): Episode {
    e.(sourceMetadata := [], resource := Some(ReloadedResource(e.resource)))
  }

  function ReloadedEpisodes(episodes: seq<Episode>): seq<Episode> {
    seq(|episodes|, i requires 0 <= i < |episodes| => ReloadedEpisode(episodes[i]))
  }

  /** What a show reads back as; `JsonPersister` drops the image. */
  function ReloadedShow(p: Persister, s: Show): Show {
    s.(sourceMetadata := [],
       episodes := ReloadedEpisodes(s.episodes),
       resource := Some(ReloadedResource(s.resource)),
       image := if p.StatePersister? then s.image else None)
  }

  function ReloadedShows(p: Persister, shows: seq<Show>): seq<Show> {
    seq(|shows|, i requires 0 <= i < |shows| => ReloadedShow(p, shows[i]))
  }

  function Reloaded(p: Persister, d: ShowDirectory): ShowDirectory {
    ShowDirectory(ReloadedShows(p, d.shows))
  }

  /** `default_serializer` accepts every datetime and UUID. */
  lemma HookTotal(iso: Iso)
    ensures forall x: Value :: (x.Time? || x.Id?) ==> Hook(iso)(x).Ok?
  {
  }

  /** `json.dump` with `default_serializer` writes what `Written` says. */
  lemma {:induction false} WrittenDump(iso: Iso, v: Value)
    ensures Dump(Hook(iso), v) == Ok(Written(iso, v))
    decreases v
  {
    match v
    case List(items) =>
      forall i | 0 <= i < |items| ensures Dump(Hook(iso), items[i]) == Ok(Written(iso, items[i])) {
        WrittenDump(iso, items[i]);
      }
      DumpList(Hook(iso), items);
      assert Dump(Hook(iso), v).value.items == Written(iso, v).items;
    case Dict(fields) =>
      forall i | 0 <= i < |fields| ensures Dump(Hook(iso), fields[i].val) == Ok(Written(iso, fields[i].val)) {
        WrittenDump(iso, fields[i].val);
      }
      DumpDict(Hook(iso), fields);
      assert Dump(Hook(iso), v).value.fields == Written(iso, v).fields;
    case _ =>
  }

  /** Looking a key up in a written dict finds the written value. */
  lemma {:induction false} DocLookup(iso: Iso, fields: seq<Field>, i: nat)
    requires DistinctKeys(fields) && i < |fields|
    ensures Lookup(Written(iso, Dict(fields)).fields, fields[i].key) == Some(Written(iso, fields[i].val))
  {
    LookupAt(Written(iso, Dict(fields)).fields, i);
  }

  /** `data.get(key, default)` finds what the dict holds under `key`. */
  lemma GetOrFound(v: Value, key: string, x: Value, default: Value)
    requires v.Dict? && Lookup(v.fields, key) == Some(x)
    ensures Values.GetOr(v, key, default) == x
  {
  }

  /** The same for a record written as a list of keys and a list of values. */
  lemma {:induction false} DocAt(iso: Iso, keys: seq<string>, vals: seq<Value>, i: nat)
    requires |keys| == |vals| && NoDuplicateKeys(keys) && i < |keys|
    ensures Lookup(Written(iso, Dict(Zip(keys, vals))).fields, keys[i]) == Some(Written(iso, vals[i]))
  {
    ZipDistinct(keys, vals);
    DocLookup(iso, Zip(keys, vals), i);
  }

  /** A datetime is written by `default_serializer` and read back by
      `parse_date`; `None` is written as `null` and read back as None. */
  lemma DateDoc(iso: Iso, o: Option<DateTime>)
    requires Faithful(iso)
    ensures ParseDateOf(iso, Written(iso, DateValue(o))) == Ok(o)
  {
  }

  /** A UUID is written as `str(u)` and read back by `uuid.UUID`. */
  lemma IdDoc(iso: Iso, u: Uuid)
    requires Utils.ValidUuid(u)
    ensures ParseUuid(Written(iso, Id(u))) == Ok(u)
  {
  }

  lemma ResourceKeysDistinct()
    ensures NoDuplicateKeys(ResourceKeys)
  {
  }

  lemma HostKeysDistinct()
    ensures NoDuplicateKeys(HostKeys)
  {
  }

  lemma EpisodeKeysDistinct()
    ensures NoDuplicateKeys(EpisodeKeys)
  {
    var k := EpisodeKeys;
    forall i, j | 0 <= i < j < |k| ensures k[i] != k[j] {
      assert |k[i]| != |k[j]| || k[i][0] != k[j][0] || k[i][1] != k[j][1] || k[i][|k[i]| - 1] != k[j][|k[j]| - 1];
    }
  }

  lemma ShowKeysDistinct()
    ensures NoDuplicateKeys(ShowKeys)
  {
  }

  /** Resource metadata is written key by key, every value but `lastmod`
      unchanged. */
  lemma {:induction false} MetadataWritten(iso: Iso, m: seq<Field>)
    requires StorableMetadata(m)
    ensures |Written(iso, Dict(m)).fields| == |m| && DistinctKeys(Written(iso, Dict(m)).fields)
    ensures forall j :: 0 <= j < |m| ==> Written(iso, Dict(m)).fields[j].key == m[j].key
    ensures forall j :: 0 <= j < |m| && m[j].key != "lastmod" ==> Written(iso, Dict(m)).fields[j] == m[j]
    ensures forall j :: 0 <= j < |m| ==> Written(iso, Dict(m)).fields[j].val == Written(iso, m[j].val)
  {
  }

  /** Resource metadata reads back as itself: `lastmod` is written as text
      and parsed back, every other value is plain JSON. */
  lemma {:induction false} MetadataRoundTrip(iso: Iso, m: seq<Field>)
    requires Faithful(iso) && StorableMetadata(m)
    ensures
      var dm := Written(iso, Dict(m)).fields;
      if Lookup(dm, "lastmod").Some? then
        && ParseDateOf(iso, Lookup(dm, "lastmod").value).Ok?
        && Assign(dm, "lastmod", DateValue(ParseDateOf(iso, Lookup(dm, "lastmod").value).value)) == m
      else dm == m
  {
    var dm := Written(iso, Dict(m)).fields;
    MetadataWritten(iso, m);
    if i :| 0 <= i < |m| && m[i].key == "lastmod" {
      LookupAt(dm, i);
      var o := if m[i].val.Time? then Some(m[i].val.t) else None;
      assert m[i].val == DateValue(o);
      DateDoc(iso, o);
      AssignAt(dm, i, m[i].val);
      assert Assign(dm, "lastmod", m[i].val) == m;
    } else {
      assert dm == m;
    }
  }

  /** What a resource writes under the `i`-th key. */
  lemma {:induction false} ResourceDocAt(iso: Iso, r: Resource, i: nat, key: string, val: Value)
    requires i < |ResourceKeys| && ResourceKeys[i] == key && ResourceVals(r)[i] == val
    ensures Lookup(Written(iso, ResourceValue(r)).fields, key) == Some(Written(iso, val))
  {
    ResourceKeysDistinct();
    DocAt(iso, ResourceKeys, ResourceVals(r), i);
  }

  /** A stored resource is written as a non-empty dict holding its URL,
      its source, its date and its metadata. */
  lemma {:induction false} ResourceDoc(iso: Iso, r: Resource)
    ensures Truthy(Written(iso, ResourceValue(r)))
    ensures Lookup(Written(iso, ResourceValue(r)).fields, "url") == Some(Str(r.url))
    ensures Lookup(Written(iso, ResourceValue(r)).fields, "source") == Some(Str(r.source))
    ensures Lookup(Written(iso, ResourceValue(r)).fields, "last_updated") == Some(Written(iso, DateValue(r.lastUpdated)))
    ensures Lookup(Written(iso, ResourceValue(r)).fields, "metadata") == Some(Written(iso, Dict(r.metadata)))
  {
    ResourceDocAt(iso, r, 0, "url", Str(r.url));
    ResourceDocAt(iso, r, 1, "source", Str(r.source));
    ResourceDocAt(iso, r, 2, "last_updated", DateValue(r.lastUpdated));
    ResourceDocAt(iso, r, 3, "metadata", Dict(r.metadata));
  }

  /** A stored resource reads back as itself. */
  lemma {:induction false} ResourceRoundTrip(iso: Iso, r: Resource)
    requires Faithful(iso) && StorableMetadata(r.metadata)
    ensures ResourceFromDict(iso, Written(iso, ResourceValue(r))) == Ok(r)
  {
    ResourceDoc(iso, r);
    DateDoc(iso, r.lastUpdated);
    MetadataRoundTrip(iso, r.metadata);
  }

  /** An optional resource: an absent one reads back as the blank one. */
  lemma {:induction false} OptResourceRoundTrip(iso: Iso, o: Option<Resource>)
    requires Faithful(iso) && StorableResource(o)
    ensures ResourceFromDict(iso, Written(iso, OptResourceValue(o))) == Ok(ReloadedResource(o))
  {
    if o.Some? {
      ResourceRoundTrip(iso, o.value);
    }
  }

  /** As written, a missing resource loads as the blank one, which is
      saved as a dict whose metadata has no `lastmod`; loading that raises
      `KeyError`. */
  lemma AsWrittenBlankResourceFails(iso: Iso)
    ensures ResourceFromDictAsWritten(iso, Null) == Ok(BlankResource)
    ensures ResourceFromDictAsWritten(iso, Written(iso, ResourceValue(BlankResource))) == Err(KeyError("lastmod"))
  {
    var doc := Written(iso, ResourceValue(BlankResource));
    ResourceDoc(iso, BlankResource);
    assert GetOrDefault(doc, "last_updated", Null) == Ok(Null);
    assert At(doc.fields, "metadata") == Dict([]);
    assert Subscript(Dict([]), "lastmod") == Err(KeyError("lastmod"));
  }

  /** The corrected decoder reads the blank resource back as itself. */
  lemma BlankResourceRoundTrip(iso: Iso)
    requires Faithful(iso)
    ensures ResourceFromDict(iso, Null) == Ok(BlankResource)
    ensures ResourceFromDict(iso, Written(iso, ResourceValue(BlankResource))) == Ok(BlankResource)
  {
    ResourceRoundTrip(iso, BlankResource);
  }

  /** An episode's host UUIDs are written as their text. */
  lemma {:induction false} HostIdsDoc(iso: Iso, hosts: seq<HostRef>)
    requires forall i :: 0 <= i < |hosts| ==> hosts[i].HostId?
    ensures Written(iso, HostRefsValue(hosts)).List?
    ensures |Written(iso, HostRefsValue(hosts)).items| == |hosts|
    ensures forall i :: 0 <= i < |hosts| ==> Written(iso, HostRefsValue(hosts)).items[i] == Str(IdText(hosts[i].id))
  {
    var items := HostRefsValue(hosts).items;
    assert forall i :: 0 <= i < |items| ==> items[i] == Id(hosts[i].id);
  }

  /** Parsing the written host UUIDs gives the host list back. */
  lemma {:induction false} HostIdsBack(items: seq<Value>, hosts: seq<HostRef>)
    requires |items| == |hosts|
    requires forall i :: 0 <= i < |hosts| ==> hosts[i].HostId? && Utils.ValidUuid(hosts[i].id)
    requires forall i :: 0 <= i < |hosts| ==> items[i] == Str(IdText(hosts[i].id))
    ensures MapResult(items, ParseUuid).Ok? && HostIds(MapResult(items, ParseUuid).value) == hosts
  {
    forall i | 0 <= i < |hosts| ensures ParseUuid(items[i]) == Ok(hosts[i].id) {
      assert Utils.UuidFromLiteral(IdText(hosts[i].id)) == Ok(hosts[i].id);
    }
    var ids := MapResult(items, ParseUuid);
    assert HostIds(ids.value) == hosts;
  }

  /** An episode's host list reads back as itself. */
  lemma {:induction false} HostIdsRoundTrip(iso: Iso, hosts: seq<HostRef>)
    requires forall i :: 0 <= i < |hosts| ==> hosts[i].HostId? && Utils.ValidUuid(hosts[i].id)
    ensures Iterate(Written(iso, HostRefsValue(hosts))).Ok?
    ensures MapResult(Iterate(Written(iso, HostRefsValue(hosts))).value, ParseUuid).Ok?
    ensures HostIds(MapResult(Iterate(Written(iso, HostRefsValue(hosts))).value, ParseUuid).value) == hosts
  {
    var w := Written(iso, HostRefsValue(hosts));
    HostIdsDoc(iso, hosts);
    assert Iterate(w) == Ok(w.items);
    HostIdsBack(w.items, hosts);
  }

  /** Where a document holds what a host wrote, `host_from_dict` gives
      the host back. */
  lemma {:induction false} HostDecodes(v: Value, h: Host)
    requires v.Dict? && h.uuid.Some?
    requires Lookup(v.fields, "name") == Some(OptStrValue(h.name))
    requires ParseUuid(At(v.fields, "uuid")) == Ok(h.uuid.value)
    requires At(v.fields, "title") == OptStrValue(h.title) && At(v.fields, "url") == OptStrValue(h.url)
    requires At(v.fields, "image_url") == OptStrValue(h.imageUrl)
    requires Lookup(v.fields, "socials") == Some(h.socials)
    requires At(v.fields, "description") == OptStrValue(h.description) && At(v.fields, "type") == OptStrValue(h.kind)
    requires Lookup(v.fields, "metadata") == Some(Dict(h.metadata))
    ensures HostFromDict(v) == Ok(h)
  {
    OptStrBack("name", h.name);
    OptStrBack("title", h.title);
    OptStrBack("url", h.url);
    OptStrBack("image_url", h.imageUrl);
    OptStrBack("description", h.description);
    OptStrBack("type", h.kind);
  }

  /** What a host writes under each key. */
  lemma {:induction false} HostDocAt(iso: Iso, h: Host, i: nat)
    requires i < |HostKeys|
    ensures Lookup(Written(iso, HostValue(h)).fields, HostKeys[i]) == Some(Written(iso, HostVals(h)[i]))
  {
    HostKeysDistinct();
    DocAt(iso, HostKeys, HostVals(h), i);
  }

  /** A stored host reads back as itself. */
  lemma {:induction false} HostRoundTrip(iso: Iso, h: Host)
    requires StorableHost(h)
    ensures HostFromDict(Written(iso, HostValue(h))) == Ok(h)
  {
    HostDocAt(iso, h, 0);
    HostDocAt(iso, h, 1);
    HostDocAt(iso, h, 2);
    HostDocAt(iso, h, 3);
    HostDocAt(iso, h, 4);
    HostDocAt(iso, h, 5);
    HostDocAt(iso, h, 6);
    HostDocAt(iso, h, 7);
    HostDocAt(iso, h, 8);
    IdDoc(iso, h.uuid.value);
    HostDecodes(Written(iso, HostValue(h)), h);
  }

  /** Every host a state file stores fails to read back through
      `StatePersister.host_from_dict` as written, where the corrected
      decoder gives the host back. */
  lemma AsWrittenStateHostFails(iso: Iso, h: Host)
    requires StorableHost(h)
    ensures HostFromDict(Written(iso, HostValue(h))) == Ok(h)
    ensures HostFromDictAsWritten(Written(iso, HostValue(h))) ==
      Err(TypeError("Host.__init__() got an unexpected keyword argument 'image'"))
  {
    HostRoundTrip(iso, h);
  }

  /** What an episode's document must hold for the reads of
      `episode_from_dict` to succeed with `e`'s values and resource `res`. */
  predicate EpisodeParsesTo(iso: Iso, v: Value, e: Episode, res: Resource) {
    && v.Dict?
    && ResourceFromDict(iso, Values.GetOr(v, "resource", Dict([]))) == Ok(res)
    && Lookup(v.fields, "title") == Some(Str(e.title))
    && ParseDateOf(iso, At(v.fields, "airdate")) == Ok(e.airdate)
    && Lookup(v.fields, "url") == Some(OptStrValue(e.url))
    && Lookup(v.fields, "media_url") == Some(Str(e.mediaUrl))
    && e.uuid.Some? && ParseUuid(At(v.fields, "uuid")) == Ok(e.uuid.value)
    && e.showUuid.Some? && ParseUuid(At(v.fields, "show_uuid")) == Ok(e.showUuid.value)
    && Iterate(Values.GetOr(v, "hosts", List([]))).Ok?
    && MapResult(Iterate(Values.GetOr(v, "hosts", List([]))).value, ParseUuid).Ok?
    && HostIds(MapResult(Iterate(Values.GetOr(v, "hosts", List([]))).value, ParseUuid).value) == e.hosts
    && ParseDateOf(iso, At(v.fields, "ending")) == Ok(e.ending)
    && ParseDateOf(iso, At(v.fields, "last_updated")) == Ok(e.lastUpdated)
  }

  /** What an episode's document must hold for the record built from its
      reads to carry `e`'s remaining values. */
  predicate EpisodeBuildsTo(v: Value, e: Episode) {
    && v.Dict?
    && At(v.fields, "description") == OptStrValue(e.description)
    && At(v.fields, "songlist") == OptStrValue(e.songlist)
    && At(v.fields, "image") == OptStrValue(e.image)
    && At(v.fields, "type") == OptStrValue(e.kind)
    && At(v.fields, "duration") == OptNumValue(e.duration)
    && Lookup(v.fields, "metadata") == Some(Dict(e.metadata))
  }

  /** The reads `episode_from_dict` makes of a document holding `e`. */
  function ReadsOf(e: Episode, res: Resource, ids: seq<Uuid>): EpisodeReads
    requires e.uuid.Some? && e.showUuid.Some?
  {
    EpisodeReads(res, Str(e.title), e.airdate, OptStrValue(e.url), Str(e.mediaUrl),
                 e.uuid.value, e.showUuid.value, ids, e.ending, e.lastUpdated)
  }

  lemma {:induction false} EpisodeParseDecodes(iso: Iso, v: Value, e: Episode, res: Resource)
    requires EpisodeParsesTo(iso, v, e, res)
    ensures EpisodeParse(iso, v).Ok?
    ensures EpisodeParse(iso, v).value == ReadsOf(e, res, EpisodeParse(iso, v).value.hostIds)
    ensures HostIds(EpisodeParse(iso, v).value.hostIds) == e.hosts
  {
  }

  lemma {:induction false} EpisodeBuildDecodes(v: Value, e: Episode, res: Resource, ids: seq<Uuid>)
    requires EpisodeBuildsTo(v, e) && e.uuid.Some? && e.showUuid.Some? && HostIds(ids) == e.hosts
    ensures EpisodeBuild(v, ReadsOf(e, res, ids)) == Ok(e.(sourceMetadata := [], resource := Some(res)))
  {
    OptStrBack("url", e.url);
    OptStrBack("description", e.description);
    OptStrBack("songlist", e.songlist);
    OptStrBack("image", e.image);
    OptStrBack("type", e.kind);
    OptNumBack("duration", e.duration);
  }

  /** What an episode writes under the `i`-th key. */
  lemma {:induction false} EpisodeDocAt(iso: Iso, e: Episode, i: nat, key: string, val: Value)
    requires i < |EpisodeKeys| && EpisodeKeys[i] == key && EpisodeVals(e)[i] == val
    ensures Lookup(Written(iso, EpisodeValue(e)).fields, key) == Some(Written(iso, val))
  {
    EpisodeKeysDistinct();
    DocAt(iso, EpisodeKeys, EpisodeVals(e), i);
  }

  lemma {:induction false} EpisodeWritesTitle(iso: Iso, e: Episode)
    ensures Lookup(Written(iso, EpisodeValue(e)).fields, "title") == Some(Str(e.title))
  {
    EpisodeDocAt(iso, e, 1, "title", Str(e.title));
  }

  lemma {:induction false} EpisodeWritesAirdate(iso: Iso, e: Episode)
    requires Faithful(iso)
    ensures ParseDateOf(iso, At(Written(iso, EpisodeValue(e)).fields, "airdate")) == Ok(e.airdate)
  {
    EpisodeDocAt(iso, e, 2, "airdate", DateValue(e.airdate));
    DateDoc(iso, e.airdate);
  }

  lemma {:induction false} EpisodeWritesUrl(iso: Iso, e: Episode)
    ensures Lookup(Written(iso, EpisodeValue(e)).fields, "url") == Some(OptStrValue(e.url))
  {
    EpisodeDocAt(iso, e, 3, "url", OptStrValue(e.url));
  }

  lemma {:induction false} EpisodeWritesMediaUrl(iso: Iso, e: Episode)
    ensures Lookup(Written(iso, EpisodeValue(e)).fields, "media_url") == Some(Str(e.mediaUrl))
  {
    EpisodeDocAt(iso, e, 4, "media_url", Str(e.mediaUrl));
  }

  lemma {:induction false} EpisodeWritesUuid(iso: Iso, e: Episode)
    requires StorableId(e.uuid)
    ensures ParseUuid(At(Written(iso, EpisodeValue(e)).fields, "uuid")) == Ok(e.uuid.value)
  {
    EpisodeDocAt(iso, e, 5, "uuid", OptIdValue(e.uuid));
    IdDoc(iso, e.uuid.value);
  }

  lemma {:induction false} EpisodeWritesShowUuid(iso: Iso, e: Episode)
    requires StorableId(e.showUuid)
    ensures ParseUuid(At(Written(iso, EpisodeValue(e)).fields, "show_uuid")) == Ok(e.showUuid.value)
  {
    EpisodeDocAt(iso, e, 6, "show_uuid", OptIdValue(e.showUuid));
    IdDoc(iso, e.showUuid.value);
  }

  lemma {:induction false} EpisodeWritesHosts(iso: Iso, e: Episode)
    requires forall i :: 0 <= i < |e.hosts| ==> e.hosts[i].HostId? && Utils.ValidUuid(e.hosts[i].id)
    ensures Iterate(Values.GetOr(Written(iso, EpisodeValue(e)), "hosts", List([]))).Ok?
    ensures MapResult(Iterate(Values.GetOr(Written(iso, EpisodeValue(e)), "hosts", List([]))).value, ParseUuid).Ok?
    ensures HostIds(MapResult(Iterate(Values.GetOr(Written(iso, EpisodeValue(e)), "hosts", List([]))).value, ParseUuid).value) == e.hosts
  {
    EpisodeDocAt(iso, e, 7, "hosts", HostRefsValue(e.hosts));
    GetOrFound(Written(iso, EpisodeValue(e)), "hosts", Written(iso, HostRefsValue(e.hosts)), List([]));
    HostIdsRoundTrip(iso, e.hosts);
  }

  lemma {:induction false} EpisodeWritesDescription(iso: Iso, e: Episode)
    ensures At(Written(iso, EpisodeValue(e)).fields, "description") == OptStrValue(e.description)
  {
    EpisodeDocAt(iso, e, 8, "description", OptStrValue(e.description));
  }

  lemma {:induction false} EpisodeWritesSonglist(iso: Iso, e: Episode)
    ensures At(Written(iso, EpisodeValue(e)).fields, "songlist") == OptStrValue(e.songlist)
  {
    EpisodeDocAt(iso, e, 9, "songlist", OptStrValue(e.songlist));
  }

  lemma {:induction false} EpisodeWritesImage(iso: Iso, e: Episode)
    ensures At(Written(iso, EpisodeValue(e)).fields, "image") == OptStrValue(e.image)
  {
    EpisodeDocAt(iso, e, 10, "image", OptStrValue(e.image));
  }

  lemma {:induction false} EpisodeWritesType(iso: Iso, e: Episode)
    ensures At(Written(iso, EpisodeValue(e)).fields, "type") == OptStrValue(e.kind)
  {
    EpisodeDocAt(iso, e, 11, "type", OptStrValue(e.kind));
  }

  lemma {:induction false} EpisodeWritesDuration(iso: Iso, e: Episode)
    ensures At(Written(iso, EpisodeValue(e)).fields, "duration") == OptNumValue(e.duration)
  {
    EpisodeDocAt(iso, e, 12, "duration", OptNumValue(e.duration));
  }

  lemma {:induction false} EpisodeWritesEnding(iso: Iso, e: Episode)
    requires Faithful(iso)
    ensures ParseDateOf(iso, At(Written(iso, EpisodeValue(e)).fields, "ending")) == Ok(e.ending)
  {
    EpisodeDocAt(iso, e, 13, "ending", DateValue(e.ending));
    DateDoc(iso, e.ending);
  }

  lemma {:induction false} EpisodeWritesLastUpdated(iso: Iso, e: Episode)
    requires Faithful(iso)
    ensures ParseDateOf(iso, At(Written(iso, EpisodeValue(e)).fields, "last_updated")) == Ok(e.lastUpdated)
  {
    EpisodeDocAt(iso, e, 14, "last_updated", DateValue(e.lastUpdated));
    DateDoc(iso, e.lastUpdated);
  }

  lemma {:induction false} EpisodeWritesMetadata(iso: Iso, e: Episode)
    requires JsonNative(Dict(e.metadata))
    ensures Lookup(Written(iso, EpisodeValue(e)).fields, "metadata") == Some(Dict(e.metadata))
  {
    EpisodeDocAt(iso, e, 16, "metadata", Dict(e.metadata));
  }

  lemma {:induction false} EpisodeWritesResource(iso: Iso, e: Episode)
    requires Faithful(iso) && StorableResource(e.resource)
    ensures ResourceFromDict(iso, Values.GetOr(Written(iso, EpisodeValue(e)), "resource", Dict([]))) == Ok(ReloadedResource(e.resource))
  {
    EpisodeDocAt(iso, e, 17, "resource", OptResourceValue(e.resource));
    GetOrFound(Written(iso, EpisodeValue(e)), "resource", Written(iso, OptResourceValue(e.resource)), Dict([]));
    OptResourceRoundTrip(iso, e.resource);
  }

  /** What an episode writes under the keys the reads look at. */
  lemma {:induction false} EpisodeDocParses(iso: Iso, e: Episode)
    requires Faithful(iso) && StorableEpisode(e)
    ensures EpisodeParsesTo(iso, Written(iso, EpisodeValue(e)), e, ReloadedResource(e.resource))
  {
    EpisodeWritesTitle(iso, e);
    EpisodeWritesAirdate(iso, e);
    EpisodeWritesUrl(iso, e);
    EpisodeWritesMediaUrl(iso, e);
    EpisodeWritesUuid(iso, e);
    EpisodeWritesShowUuid(iso, e);
    EpisodeWritesHosts(iso, e);
    EpisodeWritesEnding(iso, e);
    EpisodeWritesLastUpdated(iso, e);
    EpisodeWritesResource(iso, e);
  }

  /** What an episode writes under the keys the record is built from. */
  lemma {:induction false} EpisodeDocBuilds(iso: Iso, e: Episode)
    requires StorableEpisode(e)
    ensures EpisodeBuildsTo(Written(iso, EpisodeValue(e)), e)
  {
    EpisodeWritesDescription(iso, e);
    EpisodeWritesSonglist(iso, e);
    EpisodeWritesImage(iso, e);
    EpisodeWritesType(iso, e);
    EpisodeWritesDuration(iso, e);
    EpisodeWritesMetadata(iso, e);
  }

  /** A stored episode reads back with `source_metadata` cleared and its
      resource present. */
  lemma {:induction false} EpisodeRoundTrip(iso: Iso, e: Episode)
    requires Faithful(iso) && StorableEpisode(e)
    ensures EpisodeFromDict(iso, Written(iso, EpisodeValue(e))) == Ok(ReloadedEpisode(e))
  {
    var doc := Written(iso, EpisodeValue(e));
    var res := ReloadedResource(e.resource);
    EpisodeDocParses(iso, e);
    EpisodeDocBuilds(iso, e);
    EpisodeParseDecodes(iso, doc, e, res);
    EpisodeBuildDecodes(doc, e, res, EpisodeParse(iso, doc).value.hostIds);
  }

  /** A show's episodes are written one document each. */
  lemma {:induction false} EpisodesWritten(iso: Iso, episodes: seq<Episode>)
    ensures Iterate(Written(iso, EpisodesValue(episodes))) == Ok(Written(iso, EpisodesValue(episodes)).items)
    ensures |Written(iso, EpisodesValue(episodes)).items| == |episodes|
    ensures forall i :: 0 <= i < |episodes| ==> Written(iso, EpisodesValue(episodes)).items[i] == Written(iso, EpisodeValue(episodes[i]))
  {
  }

  /** A show's hosts are written one document each. */
  lemma {:induction false} HostsWritten(iso: Iso, hosts: seq<Host>)
    ensures Iterate(Written(iso, HostsValue(hosts))) == Ok(Written(iso, HostsValue(hosts)).items)
    ensures |Written(iso, HostsValue(hosts)).items| == |hosts|
    ensures forall i :: 0 <= i < |hosts| ==> Written(iso, HostsValue(hosts)).items[i] == Written(iso, HostValue(hosts[i]))
  {
  }

  /** What a show writes under the `i`-th key. */
  lemma {:induction false} ShowDocAt(iso: Iso, s: Show, i: nat, key: string, val: Value)
    requires i < |ShowKeys| && ShowKeys[i] == key && ShowVals(s)[i] == val
    ensures Lookup(Written(iso, ShowValue(s)).fields, key) == Some(Written(iso, val))
  {
    ShowKeysDistinct();
    DocAt(iso, ShowKeys, ShowVals(s), i);
  }

  lemma {:induction false} ShowWritesTitle(iso: Iso, s: Show)
    ensures Lookup(Written(iso, ShowValue(s)).fields, "title") == Some(Str(s.title))
  {
    ShowDocAt(iso, s, 1, "title", Str(s.title));
  }

  lemma {:induction false} ShowWritesUrl(iso: Iso, s: Show)
    ensures Lookup(Written(iso, ShowValue(s)).fields, "url") == Some(OptStrValue(s.url))
  {
    ShowDocAt(iso, s, 2, "url", OptStrValue(s.url));
  }

  lemma {:induction false} ShowWritesUuid(iso: Iso, s: Show)
    requires StorableId(s.uuid)
    ensures ParseUuid(At(Written(iso, ShowValue(s)).fields, "uuid")) == Ok(s.uuid.value)
  {
    ShowDocAt(iso, s, 3, "uuid", OptIdValue(s.uuid));
    IdDoc(iso, s.uuid.value);
  }

  lemma {:induction false} ShowWritesDescription(iso: Iso, s: Show)
    ensures At(Written(iso, ShowValue(s)).fields, "description") == OptStrValue(s.description)
  {
    ShowDocAt(iso, s, 4, "description", OptStrValue(s.description));
  }

  lemma {:induction false} ShowWritesHosts(iso: Iso, s: Show)
    ensures HostItems(Written(iso, ShowValue(s))) == Ok(Written(iso, HostsValue(s.hosts)).items)
    ensures |Written(iso, HostsValue(s.hosts)).items| == |s.hosts|
    ensures forall i :: 0 <= i < |s.hosts| ==> Written(iso, HostsValue(s.hosts)).items[i] == Written(iso, HostValue(s.hosts[i]))
  {
    ShowDocAt(iso, s, 5, "hosts", HostsValue(s.hosts));
    GetOrFound(Written(iso, ShowValue(s)), "hosts", Written(iso, HostsValue(s.hosts)), List([]));
    HostsWritten(iso, s.hosts);
  }

  lemma {:induction false} ShowWritesEpisodes(iso: Iso, s: Show)
    ensures EpisodeItems(Written(iso, ShowValue(s))) == Ok(Written(iso, EpisodesValue(s.episodes)).items)
    ensures |Written(iso, EpisodesValue(s.episodes)).items| == |s.episodes|
    ensures forall i :: 0 <= i < |s.episodes| ==> Written(iso, EpisodesValue(s.episodes)).items[i] == Written(iso, EpisodeValue(s.episodes[i]))
  {
    ShowDocAt(iso, s, 6, "episodes", EpisodesValue(s.episodes));
    GetOrFound(Written(iso, ShowValue(s)), "episodes", Written(iso, EpisodesValue(s.episodes)), List([]));
    EpisodesWritten(iso, s.episodes);
  }

  lemma {:induction false} ShowWritesType(iso: Iso, s: Show)
    ensures At(Written(iso, ShowValue(s)).fields, "type") == OptStrValue(s.kind)
  {
    ShowDocAt(iso, s, 7, "type", OptStrValue(s.kind));
  }

  lemma {:induction false} ShowWritesLastUpdated(iso: Iso, s: Show)
    requires Faithful(iso)
    ensures ParseDateOf(iso, At(Written(iso, ShowValue(s)).fields, "last_updated")) == Ok(s.lastUpdated)
  {
    ShowDocAt(iso, s, 8, "last_updated", DateValue(s.lastUpdated));
    DateDoc(iso, s.lastUpdated);
  }

  lemma {:induction false} ShowWritesMetadata(iso: Iso, s: Show)
    requires JsonNative(Dict(s.metadata))
    ensures Lookup(Written(iso, ShowValue(s)).fields, "metadata") == Some(Dict(s.metadata))
  {
    ShowDocAt(iso, s, 10, "metadata", Dict(s.metadata));
  }

  lemma {:induction false} ShowWritesImage(iso: Iso, s: Show)
    ensures Lookup(Written(iso, ShowValue(s)).fields, "image") == Some(OptStrValue(s.image))
  {
    ShowDocAt(iso, s, 11, "image", OptStrValue(s.image));
  }

  lemma {:induction false} ShowWritesResource(iso: Iso, s: Show)
    requires Faithful(iso) && StorableResource(s.resource)
    ensures ResourceFromDict(iso, Values.GetOr(Written(iso, ShowValue(s)), "resource", Dict([]))) == Ok(ReloadedResource(s.resource))
  {
    ShowDocAt(iso, s, 12, "resource", OptResourceValue(s.resource));
    GetOrFound(Written(iso, ShowValue(s)), "resource", Written(iso, OptResourceValue(s.resource)), Dict([]));
    OptResourceRoundTrip(iso, s.resource);
  }

  /** Written episodes read back, in order. */
  lemma {:induction false} EpisodesBack(iso: Iso, items: seq<Value>, episodes: seq<Episode>)
    requires Faithful(iso) && |items| == |episodes|
    requires forall i :: 0 <= i < |episodes| ==> StorableEpisode(episodes[i])
    requires forall i :: 0 <= i < |episodes| ==> items[i] == Written(iso, EpisodeValue(episodes[i]))
    ensures EpisodesFromDicts(iso, items) == Ok(ReloadedEpisodes(episodes))
  {
    forall i | 0 <= i < |items| ensures EpisodeFromDict(iso, items[i]) == Ok(ReloadedEpisode(episodes[i])) {
      EpisodeRoundTrip(iso, episodes[i]);
    }
    MapResultAll(items, EpisodeDecoder(iso), ReloadedEpisodes(episodes));
  }

  /** Written hosts read back, in order. */
  lemma {:induction false} HostsBack(iso: Iso, items: seq<Value>, hosts: seq<Host>)
    requires |items| == |hosts|
    requires forall i :: 0 <= i < |hosts| ==> StorableHost(hosts[i])
    requires forall i :: 0 <= i < |hosts| ==> items[i] == Written(iso, HostValue(hosts[i]))
    ensures MapResult(items, HostFromDict) == Ok(hosts)
  {
    forall i | 0 <= i < |items| ensures HostFromDict(items[i]) == Ok(hosts[i]) {
      HostRoundTrip(iso, hosts[i]);
    }
    MapResultAll(items, HostFromDict, hosts);
  }

  /** The episodes and hosts a show writes read back, in order. */
  lemma {:induction false} ShowMembersBack(iso: Iso, v: Value, s: Show)
    requires Faithful(iso) && v.Dict?
    requires forall i :: 0 <= i < |s.episodes| ==> StorableEpisode(s.episodes[i])
    requires forall i :: 0 <= i < |s.hosts| ==> StorableHost(s.hosts[i])
    requires EpisodeItems(v).Ok? && |EpisodeItems(v).value| == |s.episodes|
    requires forall i :: 0 <= i < |s.episodes| ==> EpisodeItems(v).value[i] == Written(iso, EpisodeValue(s.episodes[i]))
    requires HostItems(v).Ok? && |HostItems(v).value| == |s.hosts|
    requires forall i :: 0 <= i < |s.hosts| ==> HostItems(v).value[i] == Written(iso, HostValue(s.hosts[i]))
    ensures ShowMembers(iso, v) == Ok(Members(ReloadedEpisodes(s.episodes), s.hosts))
  {
    EpisodesBack(iso, EpisodeItems(v).value, s.episodes);
    HostsBack(iso, HostItems(v).value, s.hosts);
  }

  /** What a show's document must hold for `show_from_dict` to give `t`. */
  predicate ShowDocOf(p: Persister, iso: Iso, v: Value, t: Show) {
    && v.Dict? && t.uuid.Some? && t.resource.Some? && t.sourceMetadata == []
    && ShowMembers(iso, v) == Ok(Members(t.episodes, t.hosts))
    && ResourceFromDict(iso, Values.GetOr(v, "resource", Dict([]))) == Ok(t.resource.value)
    && ParseDateOf(iso, At(v.fields, "last_updated")) == Ok(t.lastUpdated)
    && ImageOf(p, v) == Ok(OptStrValue(t.image))
    && Lookup(v.fields, "title") == Some(Str(t.title))
    && Lookup(v.fields, "url") == Some(OptStrValue(t.url))
    && ParseUuid(At(v.fields, "uuid")) == Ok(t.uuid.value)
    && At(v.fields, "description") == OptStrValue(t.description)
    && At(v.fields, "type") == OptStrValue(t.kind)
    && Lookup(v.fields, "metadata") == Some(Dict(t.metadata))
  }

  lemma {:induction false} ShowParseDecodes(p: Persister, iso: Iso, v: Value, t: Show)
    requires ShowDocOf(p, iso, v, t)
    ensures ShowParse(p, iso, v) == Ok(ShowReads(Members(t.episodes, t.hosts), t.resource.value, t.lastUpdated,
                                                 OptStrValue(t.image), Str(t.title), OptStrValue(t.url), t.uuid.value))
  {
  }

  lemma {:induction false} ShowBuildDecodes(v: Value, t: Show)
    requires v.Dict? && t.uuid.Some? && t.resource.Some? && t.sourceMetadata == []
    requires At(v.fields, "description") == OptStrValue(t.description)
    requires At(v.fields, "type") == OptStrValue(t.kind)
    requires Lookup(v.fields, "metadata") == Some(Dict(t.metadata))
    ensures ShowBuild(v, ShowReads(Members(t.episodes, t.hosts), t.resource.value, t.lastUpdated,
                                   OptStrValue(t.image), Str(t.title), OptStrValue(t.url), t.uuid.value)) == Ok(t)
  {
    OptStrBack("url", t.url);
    OptStrBack("image", t.image);
    OptStrBack("description", t.description);
    OptStrBack("type", t.kind);
  }

  lemma {:induction false} ShowDecodes(p: Persister, iso: Iso, v: Value, t: Show)
    requires ShowDocOf(p, iso, v, t)
    ensures ShowFromDict(p, iso, v) == Ok(t)
  {
    ShowParseDecodes(p, iso, v, t);
    ShowBuildDecodes(v, t);
  }

  /** `StatePersister` reads back the image it wrote; `JsonPersister`
      reads none. */
  lemma {:induction false} ShowImageBack(p: Persister, iso: Iso, s: Show)
    requires p.StatePersister? ==> s.image != Some("DEADBEEF")
    ensures ImageOf(p, Written(iso, ShowValue(s))) == Ok(OptStrValue(ReloadedShow(p, s).image))
  {
    ShowWritesImage(iso, s);
  }

  /** What a show writes under every key `show_from_dict` reads. */
  lemma {:induction false} ShowDoc(p: Persister, iso: Iso, s: Show)
    requires Faithful(iso) && StorableShow(p, s)
    ensures ShowDocOf(p, iso, Written(iso, ShowValue(s)), ReloadedShow(p, s))
  {
    var v := Written(iso, ShowValue(s));
    ShowWritesEpisodes(iso, s);
    ShowWritesHosts(iso, s);
    ShowMembersBack(iso, v, s);
    ShowWritesResource(iso, s);
    ShowWritesLastUpdated(iso, s);
    ShowImageBack(p, iso, s);
    ShowWritesTitle(iso, s);
    ShowWritesUrl(iso, s);
    ShowWritesUuid(iso, s);
    ShowWritesDescription(iso, s);
    ShowWritesType(iso, s);
    ShowWritesMetadata(iso, s);
  }

  /** A stored show reads back with its episodes reloaded, its resource
      present, `source_metadata` cleared and, under `JsonPersister`, no
      image. */
  lemma {:induction false} ShowRoundTrip(p: Persister, iso: Iso, s: Show)
    requires Faithful(iso) && StorableShow(p, s)
    ensures ShowFromDict(p, iso, Written(iso, ShowValue(s))) == Ok(ReloadedShow(p, s))
  {
    ShowDoc(p, iso, s);
    ShowDecodes(p, iso, Written(iso, ShowValue(s)), ReloadedShow(p, s));
  }

  /** A directory is written as `{"shows": [...]}`, one document per show. */
  lemma {:induction false} DirectoryDoc(iso: Iso, d: ShowDirectory)
    ensures Written(iso, DirectoryValue(d)).Dict?
    ensures Iterate(Values.GetOr(Written(iso, DirectoryValue(d)), "shows", List([]))).Ok?
    ensures |Iterate(Values.GetOr(Written(iso, DirectoryValue(d)), "shows", List([]))).value| == |d.shows|
    ensures forall i :: 0 <= i < |d.shows| ==>
      Iterate(Values.GetOr(Written(iso, DirectoryValue(d)), "shows", List([]))).value[i] == Written(iso, ShowValue(d.shows[i]))
  {
    var shows := DirectoryValue(d).fields[0].val;
    assert Values.GetOr(Written(iso, DirectoryValue(d)), "shows", List([])) == Written(iso, shows);
  }

  /** Written shows read back, in order. */
  lemma {:induction false} ShowsBack(p: Persister, iso: Iso, items: seq<Value>, shows: seq<Show>)
    requires Faithful(iso) && |items| == |shows|
    requires forall i :: 0 <= i < |shows| ==> StorableShow(p, shows[i])
    requires forall i :: 0 <= i < |shows| ==> items[i] == Written(iso, ShowValue(shows[i]))
    ensures ShowsFromDicts(p, iso, items) == Ok(ReloadedShows(p, shows))
  {
    forall i | 0 <= i < |items| ensures ShowFromDict(p, iso, items[i]) == Ok(ReloadedShow(p, shows[i])) {
      ShowRoundTrip(p, iso, shows[i]);
    }
    MapResultAll(items, ShowDecoder(p, iso), ReloadedShows(p, shows));
  }

  /** A stored directory reads back show by show. */
  lemma {:induction false} DirectoryRoundTrip(p: Persister, iso: Iso, d: ShowDirectory)
    requires Faithful(iso) && Storable(p, d)
    ensures DirectoryFromDict(p, iso, Written(iso, DirectoryValue(d))) == Ok(Reloaded(p, d))
  {
    DirectoryDoc(iso, d);
    ShowsBack(p, iso, Iterate(Values.GetOr(Written(iso, DirectoryValue(d)), "shows", List([]))).value, d.shows);
  }

  /** `save` followed by `load` of the same file gives the directory back,
      up to what the persister does not keep: `source_metadata`, a missing
      resource (read back blank) and, for `JsonPersister`, show images. */
  lemma {:induction false} SaveLoad(p: Persister, iso: Iso, d: ShowDirectory, filename: Option<string>)
    requires Faithful(iso) && Storable(p, d)
    requires p.JsonPersister? || Text.EndsWith(Chosen(p, filename), ".json")
    ensures Load(p, iso, filename, Some(Save(p, iso, d, filename).document)) == Ok(Reloaded(p, d))
  {
    DirectoryRoundTrip(p, iso, d);
  }

  /** What the round trip keeps that the tests look at: every show's
      title, URL, description, metadata, date and host count, and every
      episode's title, media URL, description and airdate. */
  lemma {:induction false} SaveLoadKeepsFields(p: Persister, iso: Iso, d: ShowDirectory, filename: Option<string>)
    requires Faithful(iso) && Storable(p, d)
    requires p.JsonPersister? || Text.EndsWith(Chosen(p, filename), ".json")
    ensures Load(p, iso, filename, Some(Save(p, iso, d, filename).document)).Ok?
    ensures
      var r := Load(p, iso, filename, Some(Save(p, iso, d, filename).document)).value;
      && |r.shows| == |d.shows|
      && forall i :: 0 <= i < |d.shows| ==>
           var (a, b) := (r.shows[i], d.shows[i]);
           && a.title == b.title && a.url == b.url && a.description == b.description
           && a.metadata == b.metadata && a.lastUpdated == b.lastUpdated
           && |a.hosts| == |b.hosts| && |a.episodes| == |b.episodes|
           && forall j :: 0 <= j < |b.episodes| ==>
                && a.episodes[j].title == b.episodes[j].title
                && a.episodes[j].mediaUrl == b.episodes[j].mediaUrl
                && a.episodes[j].description == b.episodes[j].description
                && a.episodes[j].airdate == b.episodes[j].airdate
  {
    SaveLoad(p, iso, d, filename);
    ReloadedKeepsFields(p, d);
  }

  /** The fields `SaveLoadKeepsFields` names survive `Reloaded`. */
  lemma ReloadedKeepsFields(p: Persister, d: ShowDirectory)
    ensures
      var r := Reloaded(p, d);
      && |r.shows| == |d.shows|
      && forall i :: 0 <= i < |d.shows| ==>
           var (a, b) := (r.shows[i], d.shows[i]);
           && a.title == b.title && a.url == b.url && a.description == b.description
           && a.metadata == b.metadata && a.lastUpdated == b.lastUpdated
           && |a.hosts| == |b.hosts| && |a.episodes| == |b.episodes|
           && forall j :: 0 <= j < |b.episodes| ==>
                && a.episodes[j].title == b.episodes[j].title
                && a.episodes[j].mediaUrl == b.episodes[j].mediaUrl
                && a.episodes[j].description == b.episodes[j].description
                && a.episodes[j].airdate == b.episodes[j].airdate
  {
  }

  /** A reloaded episode is storable and reloads as itself. */
  lemma ReloadedEpisodeStable(e: Episode)
    requires StorableEpisode(e)
    ensures StorableEpisode(ReloadedEpisode(e)) && ReloadedEpisode(ReloadedEpisode(e)) == ReloadedEpisode(e)
  {
  }

  lemma {:induction false} ReloadedShowStable(p: Persister, s: Show)
    requires StorableShow(p, s)
    ensures StorableShow(p, ReloadedShow(p, s)) && ReloadedShow(p, ReloadedShow(p, s)) == ReloadedShow(p, s)
  {
    forall i | 0 <= i < |s.episodes| ensures StorableEpisode(ReloadedEpisode(s.episodes[i]))
      && ReloadedEpisode(ReloadedEpisode(s.episodes[i])) == ReloadedEpisode(s.episodes[i]) {
      ReloadedEpisodeStable(s.episodes[i]);
    }
    assert ReloadedEpisodes(ReloadedEpisodes(s.episodes)) == ReloadedEpisodes(s.episodes);
  }

  /** Saving and loading a second time changes nothing more: what one
      round trip gives back is storable and is its own reload. */
  lemma {:induction false} ReloadStable(p: Persister, d: ShowDirectory)
    requires Storable(p, d)
    ensures Storable(p, Reloaded(p, d)) && Reloaded(p, Reloaded(p, d)) == Reloaded(p, d)
  {
    forall i | 0 <= i < |d.shows| ensures StorableShow(p, ReloadedShow(p, d.shows[i]))
      && ReloadedShow(p, ReloadedShow(p, d.shows[i])) == ReloadedShow(p, d.shows[i]) {
      ReloadedShowStable(p, d.shows[i]);
    }
    assert ReloadedShows(p, ReloadedShows(p, d.shows)) == ReloadedShows(p, d.shows);
  }
}

=== FILE: resources.dfy ===
/** `ResourceProcessor` (kcrw_feed/processing/resources.py): sitemap URLs
    from robots.txt, the walk over sitemap indexes, and the `<url>` entries
    of the music sitemaps collected into a map from URL to `Resource`. */
module Resources {
  import opened Wrappers
  import opened Text
  import opened Values
  import opened Dicts
  import opened Lists
  import opened Models
  import opened SourceManager
  import opened Classifiers
  import opened Documents
  import Utils
  import Crawl

  const RobotsFile: string := "robots.txt"

  /** The map the processor fills: URL to resource. */
  type ResourceMap = PyDict<string, Resource>

  /** Every stored resource sits under its own URL, which is a music URL,
      and no URL is stored twice. */
  predicate Indexed(d: ResourceMap) {
    KeysUnique(d) && forall i :: 0 <= i < |d| ==> d[i].1.url == d[i].0 && d[i].0 != "" && MusicFilter(d[i].0)
  }

  // ---------------------------------------------------------------------
  // robots.txt
  // ---------------------------------------------------------------------

  /** `_sitemaps_from_robots`: the `Sitemap:` lines of robots.txt whose URL
      names a sitemap file, made relative to the source, without repeats. */
  function SitemapsFromRobots(src: Source, store: Store, readers: Readers): (r: Result<seq<string>>)
    ensures GetReference(src, store, RobotsFile).Err? ==> r == Err(GetReference(src, store, RobotsFile).error)
    ensures GetReference(src, store, RobotsFile).Ok? && Missing(GetReference(src, store, RobotsFile).value)
      ==> r == Err(FileNotFoundError("robots.txt not found at " + src.base))
    ensures r.Ok? ==> NoDuplicates(r.value)
    ensures r.Ok? ==>
      var urls := readers.robots(GetReference(src, store, RobotsFile).value.value);
      urls.Ok? && forall y :: y in r.value <==> exists i :: 0 <= i < |urls.value| && SitemapRe(urls.value[i]) && y == RelativePath(src, urls.value[i])
  {
    var b :- GetReference(src, store, RobotsFile);
    if Missing(b) then Err(FileNotFoundError("robots.txt not found at " + src.base))
    else
      var urls :- readers.robots(b.value);
      var kept := FilterMap(urls, SearchSitemap, u => RelativePath(src, u));
      RobotsMembers(src, urls, kept);
      Ok(Distinct(kept))
  }

  lemma RobotsMembers(src: Source, urls: seq<string>, kept: seq<string>)
    requires kept == FilterMap(urls, SearchSitemap, u => RelativePath(src, u))
    ensures forall y :: y in kept <==> exists i :: 0 <= i < |urls| && SitemapRe(urls[i]) && y == RelativePath(src, urls[i])
  {
    SearchSitemapAll(urls);
    forall y | y in kept ensures exists i :: 0 <= i < |urls| && SitemapRe(urls[i]) && y == RelativePath(src, urls[i]) {
      FilterMapSound(urls, SearchSitemap, u => RelativePath(src, u), y);
    }
  }

  /** The search used on robots.txt URLs decides the sitemap pattern. */
  lemma SearchSitemapAll(urls: seq<string>)
    ensures forall i :: 0 <= i < |urls| ==> (SearchSitemap(urls[i]) <==> SitemapRe(urls[i]))
  {
    forall i | 0 <= i < |urls| ensures SearchSitemap(urls[i]) <==> SitemapRe(urls[i]) {
      SearchSitemapIsRe(urls[i]);
    }
  }

  // ---------------------------------------------------------------------
  // Sitemap indexes
  // ---------------------------------------------------------------------

  /** The non-empty string under an entry's `loc` key. */
  function RawLoc(e: Value): Option<string> {
    if e.Dict? then
      match Lookup(e.fields, "loc")
      case Some(Str(s)) => if s != "" then Some(s) else None
      case _ => None
    else None
  }

  /** An index entry the loop reads without an exception: a dict whose
      `loc`, when set, is a string. */
  predicate ChildEntryOk(e: Value) {
    e.Dict? && (Lookup(e.fields, "loc").None? || !Truthy(Lookup(e.fields, "loc").value) || Lookup(e.fields, "loc").value.Str?)
  }

  predicate HasRawLoc(e: Value) {
    RawLoc(e).Some?
  }

  function StrippedLoc(e: Value): string {
    Strip(RawLoc(e).GetOr(""))
  }

  /** One index entry: its `loc`, stripped, when set. */
  function ChildLoc(e: Value): (r: Result<seq<string>>)
    ensures r.Ok? <==> ChildEntryOk(e)
    ensures r.Ok? ==> r.value == if HasRawLoc(e) then [StrippedLoc(e)] else []
  {
    var loc :- PyGet(e, "loc");
    if loc.Some? && Truthy(loc.value) then
      var s :- PyStrip(loc.value);
      Ok([s])
    else Ok([])
  }

  /** The loop over index entries: the set `loc`s, stripped, in order. */
  function ChildLocs(entries: seq<Value>): (r: Result<seq<string>>)
    ensures r.Ok? <==> forall i :: 0 <= i < |entries| ==> ChildEntryOk(entries[i])
    ensures r.Ok? ==> r.value == FilterMap(entries, HasRawLoc, StrippedLoc)
  {
    if |entries| == 0 then Ok([])
    else
      match ChildLoc(entries[0])
      case Err(e) => Err(e)
      case Ok(head) =>
        match ChildLocs(entries[1..])
        case Err(e) =>
          assert forall i :: 1 <= i < |entries| ==> entries[i] == entries[1..][i - 1];
          Err(e)
        case Ok(tail) =>
          assert forall i :: 1 <= i < |entries| ==> entries[i] == entries[1..][i - 1];
          Ok(head + tail)
  }

  /** A music child of the entries: the relative path of a set `loc`
      that passes the music filter. */
  predicate ChildOf(src: Source, entries: seq<Value>, c: string) {
    exists i :: 0 <= i < |entries| && HasRawLoc(entries[i]) && MusicFilter(StrippedLoc(entries[i]))
      && c == RelativePath(src, StrippedLoc(entries[i]))
  }

  /** The child sitemaps a parsed document names: the music ones among
      the `loc`s of `sitemapindex`/`sitemap`, made relative to the source. */
  function ChildrenOfDoc(src: Source, doc: seq<Field>): (r: Result<seq<string>>)
    ensures Documents.Entries(doc, "sitemapindex", "sitemap").Err? ==> r.Err?
    ensures r.Ok? ==> forall c :: c in r.value <==> ChildOf(src, Documents.Entries(doc, "sitemapindex", "sitemap").value, c)
  {
    var entries :- Documents.Entries(doc, "sitemapindex", "sitemap");
    var locs :- ChildLocs(entries);
    var kids := FilterMap(locs, MusicFilter, u => RelativePath(src, u));
    ChildrenMembers(src, entries, locs, kids);
    Ok(kids)
  }

  lemma ChildrenMembers(src: Source, entries: seq<Value>, locs: seq<string>, kids: seq<string>)
    requires locs == FilterMap(entries, HasRawLoc, StrippedLoc)
    requires kids == FilterMap(locs, MusicFilter, u => RelativePath(src, u))
    ensures forall c :: c in kids <==> ChildOf(src, entries, c)
  {
    forall c ensures c in kids <==> ChildOf(src, entries, c) {
      if c in kids {
        FilterMapSound(locs, MusicFilter, u => RelativePath(src, u), c);
        var j :| 0 <= j < |locs| && MusicFilter(locs[j]) && RelativePath(src, locs[j]) == c;
        FilterMapSound(entries, HasRawLoc, StrippedLoc, locs[j]);
        var i :| 0 <= i < |entries| && HasRawLoc(entries[i]) && StrippedLoc(entries[i]) == locs[j];
      }
      if ChildOf(src, entries, c) {
        var i :| 0 <= i < |entries| && HasRawLoc(entries[i]) && MusicFilter(StrippedLoc(entries[i]))
          && c == RelativePath(src, StrippedLoc(entries[i]));
        var u := StrippedLoc(entries[i]);
        assert u in locs;
        var j :| 0 <= j < |locs| && locs[j] == u;
      }
    }
  }

  /** Contents that fail to parse name no children. */
  function ChildrenOfBytes(src: Source, readers: Readers, b: Bytes): Result<seq<string>> {
    match readers.xml(b)
    case Err(_) => Ok([])
    case Ok(doc) => ChildrenOfDoc(src, doc)
  }

  /** `_read_sitemap_for_child_sitemaps`. */
  function ReadChildSitemaps(src: Source, store: Store, readers: Readers, sitemap: string): (r: Result<seq<string>>)
    ensures GetReference(src, store, sitemap).Err? ==> r.Err?
    ensures GetReference(src, store, sitemap).Ok? && Missing(GetReference(src, store, sitemap).value) ==> r == Ok([])
    ensures GetReference(src, store, sitemap).Ok? && !Missing(GetReference(src, store, sitemap).value)
      ==> r == ChildrenOfBytes(src, readers, GetReference(src, store, sitemap).value.value)
  {
    var b :- GetReference(src, store, sitemap);
    if Missing(b) then Ok([]) else ChildrenOfBytes(src, readers, b.value)
  }

  /** A document that is not an index names no children. */
  lemma NotIndexNoChildren(src: Source, doc: seq<Field>)
    requires Lookup(doc, "sitemapindex").None? || !Truthy(Lookup(doc, "sitemapindex").value)
    ensures ChildrenOfDoc(src, doc) == Ok([])
  {
  }

  // ---------------------------------------------------------------------
  // The walk
  // ---------------------------------------------------------------------

  function SitemapChildren(src: Source, store: Store, readers: Readers): Crawl.Children {
    s => ReadChildSitemaps(src, store, readers, s)
  }

  /** Every child any stored document can name. */
  function StoredChildren(src: Source, store: Store, readers: Readers): (r: set<string>)
    ensures forall b, c :: b in store.Values && ChildrenOfBytes(src, readers, b).Ok? && c in ChildrenOfBytes(src, readers, b).value ==> c in r
  {
    set b, c | b in store.Values && ChildrenOfBytes(src, readers, b).Ok? && c in ChildrenOfBytes(src, readers, b).value :: c
  }

  /** The walk cannot leave the roots and the stored children. */
  lemma StoredChildrenConfined(src: Source, store: Store, readers: Readers, roots: seq<string>)
    ensures Crawl.Confined(SitemapChildren(src, store, readers), Elems(roots) + StoredChildren(src, store, readers))
  {
    var children := SitemapChildren(src, store, readers);
    var universe := Elems(roots) + StoredChildren(src, store, readers);
    forall x, c | x in universe && children(x).Ok? && c in children(x).value ensures c in universe {
      var g := GetReference(src, store, x);
      var b := g.value.value;
      assert b in store.Values;
    }
  }

  /** All sitemaps reachable from the roots, each read once. */
  function CollectSitemaps(src: Source, store: Store, readers: Readers, roots: seq<string>): (r: Result<seq<string>>)
    ensures r.Ok? ==> Elems(roots) <= Elems(r.value) && NoDuplicates(r.value)
    ensures r.Ok? ==> Crawl.Closed(SitemapChildren(src, store, readers), Elems(r.value))
  {
    StoredChildrenConfined(src, store, readers, roots);
    Crawl.CollectSitemaps(SitemapChildren(src, store, readers), Elems(roots) + StoredChildren(src, store, readers), roots)
  }

  // ---------------------------------------------------------------------
  // URL sitemaps
  // ---------------------------------------------------------------------

  /** `parse_date(entry["lastmod"])` on a set value: a string goes to
      `fromisoformat`, anything else makes it raise `TypeError`. */
  function ParseLastmod(iso: Iso, v: Value): (r: Result<Option<DateTime>>)
    ensures r.Ok? <==> v.Str?
    ensures v.Str? ==> r == Ok(Utils.ParseDate(iso, Some(v.s)))
  {
    if v.Str? then Ok(Utils.ParseDate(iso, Some(v.s)))
    else Err(TypeError("fromisoformat: argument must be str"))
  }

  /** The source's `reference`: where a catalog URL is read from. */
  type Refer = string -> Result<string>

  /** The string under an entry's `loc` key. */
  function LocStr(entry: Value): Option<string> {
    if entry.Dict? then
      match Lookup(entry.fields, "loc")
      case Some(Str(s)) => Some(s)
      case _ => None
    else None
  }

  /** The parsed `lastmod` of an entry and its fields after the parsed
      value is written back (`DatedSpec`). */
  function Dated(iso: Iso, fields: seq<Field>): Result<(Option<DateTime>, seq<Field>)> {
    var lastmod := Lookup(fields, "lastmod");
    if lastmod.Some? && Truthy(lastmod.value) then
      var d :- ParseLastmod(iso, lastmod.value);
      Ok((d, Assign(fields, "lastmod", DateValue(d))))
    else Ok((None, fields))
  }

  /** An entry without a set `lastmod` keeps its fields and has no date; a
      string `lastmod` is parsed and the result replaces it, every other
      field staying as it was; any other `lastmod` raises. */
  lemma DatedSpec(iso: Iso, fields: seq<Field>)
    ensures (Lookup(fields, "lastmod").None? || !Truthy(Lookup(fields, "lastmod").value)) ==> Dated(iso, fields) == Ok((None, fields))
    ensures Lookup(fields, "lastmod").Some? && Truthy(Lookup(fields, "lastmod").value) ==>
      (Dated(iso, fields).Ok? <==> Lookup(fields, "lastmod").value.Str?)
    ensures Dated(iso, fields).Ok? && Lookup(fields, "lastmod").Some? && Truthy(Lookup(fields, "lastmod").value) ==>
      var r := Dated(iso, fields).value;
      r.0 == Utils.ParseDate(iso, Some(Lookup(fields, "lastmod").value.s))
      && Lookup(r.1, "lastmod") == Some(DateValue(r.0))
      && forall k :: k != "lastmod" ==> Lookup(r.1, k) == Lookup(fields, k)
  {
  }

  /** A URL the entry loop keeps: non-empty and in a music section. */
  predicate Kept(url: string) {
    url != "" && MusicFilter(url)
  }

  /** One `<url>` entry: a resource for a music URL, nothing for any other.
      What the resource holds is `EntryResourceKept`. */
  function EntryResource(refer: Refer, iso: Iso, entry: Value): (r: Result<Option<Resource>>)
    ensures !entry.Dict? ==> r == Err(NoAttribute(entry, "get"))
    ensures r.Ok? && r.value.Some? ==> Kept(r.value.value.url)
  {
    var loc :- PyGet(entry, "loc");
    var url :- PyStrip(loc.GetOr(Null));
    if !Kept(url) then Ok(None)
    else
      var res :- ResourceAt(refer, iso, entry.fields, url);
      Ok(Some(res))
  }

  /** The resource for a kept URL: the source's reference for it and the
      entry's dated fields. */
  function ResourceAt(refer: Refer, iso: Iso, fields: seq<Field>, url: string): (r: Result<Resource>)
    ensures r.Ok? ==> r.value.url == url
    ensures r.Ok? <==> Dated(iso, fields).Ok? && refer(url).Ok?
  {
    var dated :- Dated(iso, fields);
    var source :- refer(url);
    Ok(Resource(url, source, dated.0, dated.1))
  }

  /** A missing or non-string `loc` raises `AttributeError`. */
  lemma EntryResourceNoLoc(refer: Refer, iso: Iso, entry: Value)
    requires entry.Dict? && LocStr(entry).None?
    ensures EntryResource(refer, iso, entry) == Err(NoAttribute(Lookup(entry.fields, "loc").GetOr(Null), "strip"))
  {
  }

  /** An entry is skipped exactly when its stripped `loc` is not kept. */
  lemma EntryResourceSkipped(refer: Refer, iso: Iso, entry: Value)
    requires entry.Dict? && LocStr(entry).Some?
    ensures EntryResource(refer, iso, entry) == Ok(None) <==> !Kept(Strip(LocStr(entry).value))
  {
    LocStripped(entry);
    SkippedOf(refer, iso, entry, Lookup(entry.fields, "loc"), Strip(LocStr(entry).value));
  }

  /** The entry is skipped exactly when the stripped `loc` it reads is not
      kept. */
  lemma SkippedOf(refer: Refer, iso: Iso, entry: Value, loc: Option<Value>, url: string)
    requires PyGet(entry, "loc") == Ok(loc) && PyStrip(loc.GetOr(Null)) == Ok(url)
    ensures EntryResource(refer, iso, entry) == Ok(None) <==> !Kept(url)
  {
    var r := EntryResource(refer, iso, entry);
    if Kept(url) {
      assert r.Err? || r.value.Some?;
    }
  }

  /** The stripped `loc` of an entry whose `loc` is a string. */
  lemma LocStripped(entry: Value)
    requires entry.Dict? && LocStr(entry).Some?
    ensures PyGet(entry, "loc") == Ok(Lookup(entry.fields, "loc"))
    ensures PyStrip(Lookup(entry.fields, "loc").GetOr(Null)) == Ok(Strip(LocStr(entry).value))
  {
  }

  /** A kept entry's resource: the stripped `loc`, read from the source's
      reference for it, with the entry's dated fields. */
  lemma EntryResourceKept(refer: Refer, iso: Iso, entry: Value)
    requires EntryResource(refer, iso, entry).Ok? && EntryResource(refer, iso, entry).value.Some?
    ensures var res := EntryResource(refer, iso, entry).value.value;
      LocStr(entry).Some? && res.url == Strip(LocStr(entry).value)
      && refer(res.url) == Ok(res.source)
      && Dated(iso, entry.fields) == Ok((res.lastUpdated, res.metadata))
  {
    assert entry.Dict?;
    var loc := Lookup(entry.fields, "loc");
    assert PyGet(entry, "loc") == Ok(loc);
    assert LocStr(entry).Some?;
    var url := Strip(LocStr(entry).value);
    assert PyStrip(loc.GetOr(Null)) == Ok(url);
    var dated := Dated(iso, entry.fields);
    assert dated.Ok? && refer(url).Ok?;
    assert EntryResource(refer, iso, entry) == Ok(Some(Resource(url, refer(url).value, dated.value.0, dated.value.1)));
  }

  /** Resources stored under music URLs only. */
  predicate MusicUrls(rs: seq<Resource>) {
    forall j :: 0 <= j < |rs| ==> Kept(rs[j].url)
  }

  /** The loop over `<url>` entries: the resources made, in entry order. */
  function EntryResources(refer: Refer, iso: Iso, entries: seq<Value>): (r: Result<seq<Resource>>)
    ensures r.Ok? ==> MusicUrls(r.value)
  {
    if |entries| == 0 then Ok([])
    else
      match EntryResource(refer, iso, entries[0])
      case Err(e) => Err(e)
      case Ok(head) =>
        match EntryResources(refer, iso, entries[1..])
        case Err(e) =>
          assert forall i :: 1 <= i < |entries| ==> entries[i] == entries[1..][i - 1];
          Err(e)
        case Ok(tail) =>
          assert forall i :: 1 <= i < |entries| ==> entries[i] == entries[1..][i - 1];
          var made := if head.Some? then [head.value] else [];
          MusicUrlsAppend(made, tail);
          Ok(made + tail)
  }

  lemma MusicUrlsAppend(a: seq<Resource>, b: seq<Resource>)
    requires MusicUrls(a) && MusicUrls(b)
    ensures MusicUrls(a + b)
  {
    forall j | 0 <= j < |a + b| ensures Kept((a + b)[j].url) {
      if j >= |a| {
        assert (a + b)[j] == b[j - |a|];
      }
    }
  }

  /** The loop raises exactly when some entry does. */
  lemma {:induction false} EntryResourcesOk(refer: Refer, iso: Iso, entries: seq<Value>)
    ensures EntryResources(refer, iso, entries).Ok? <==> forall i :: 0 <= i < |entries| ==> EntryResource(refer, iso, entries[i]).Ok?
  {
    if |entries| > 0 {
      EntryResourcesOk(refer, iso, entries[1..]);
      assert forall i :: 1 <= i < |entries| ==> entries[i] == entries[1..][i - 1];
    }
  }

  /** The loop keeps exactly the resources its entries make. */
  lemma {:induction false} EntryResourcesMembers(refer: Refer, iso: Iso, entries: seq<Value>, res: Resource)
    requires EntryResources(refer, iso, entries).Ok?
    ensures res in EntryResources(refer, iso, entries).value <==>
      exists i :: 0 <= i < |entries| && EntryResource(refer, iso, entries[i]) == Ok(Some(res))
  {
    if |entries| > 0 {
      EntryResourcesMembers(refer, iso, entries[1..], res);
      assert forall i :: 1 <= i < |entries| ==> entries[i] == entries[1..][i - 1];
    }
  }

  /** `self._resources[url] = resource` for each resource in turn. */
  function PutAll(d: ResourceMap, rs: seq<Resource>): (r: ResourceMap)
    ensures KeysUnique(d) ==> KeysUnique(r)
    ensures forall k :: Dicts.Get(d, k).Some? ==> Dicts.Get(r, k).Some?
    ensures forall k :: (forall j :: 0 <= j < |rs| ==> rs[j].url != k) ==> Dicts.Get(r, k) == Dicts.Get(d, k)
  {
    if |rs| == 0 then d
    else
      var last := rs[|rs| - 1];
      Put(PutAll(d, rs[..|rs| - 1]), last.url, last)
  }

  /** Every URL stored is present afterwards. */
  lemma {:induction false} PutAllStores(d: ResourceMap, rs: seq<Resource>, j: nat)
    requires j < |rs|
    ensures Dicts.Get(PutAll(d, rs), rs[j].url).Some?
  {
    if j < |rs| - 1 {
      PutAllStores(d, rs[..|rs| - 1], j);
    }
  }

  /** A URL given twice keeps the later resource. */
  lemma {:induction false} PutAllLastWins(d: ResourceMap, rs: seq<Resource>, i: nat)
    requires i < |rs| && forall j :: i < j < |rs| ==> rs[j].url != rs[i].url
    ensures Dicts.Get(PutAll(d, rs), rs[i].url) == Some(rs[i])
  {
    if i < |rs| - 1 {
      PutAllLastWins(d, rs[..|rs| - 1], i);
    }
  }

  /** Storing resources under their URLs keeps the map indexed. */
  lemma {:induction false} PutAllIndexed(d: ResourceMap, rs: seq<Resource>)
    ensures Indexed(d) && MusicUrls(rs) ==> Indexed(PutAll(d, rs))
  {
    if |rs| > 0 && Indexed(d) && MusicUrls(rs) {
      var init := PutAll(d, rs[..|rs| - 1]);
      PutAllIndexed(d, rs[..|rs| - 1]);
      PutIndexed(init, rs[|rs| - 1]);
    }
  }

  lemma PutIndexed(d: ResourceMap, res: Resource)
    requires Indexed(d) && res.url != "" && MusicFilter(res.url)
    ensures Indexed(Put(d, res.url, res))
  {
    var r := Put(d, res.url, res);
    forall i | 0 <= i < |r| ensures r[i].1.url == r[i].0 && r[i].0 != "" && MusicFilter(r[i].0) {
      var k := r[i].0;
      FindKeyIs(r, k, i);
      if k != res.url {
        var j := FindKey(d, k).value;
        assert d[j].0 == k;
      }
    }
  }

  /** The resources one sitemap yields, in entry order: none when it
      cannot be read, cannot be parsed or is not a URL set. */
  function SitemapResources(src: Source, store: Store, readers: Readers, iso: Iso, sitemap: string)
    : (r: Result<seq<Resource>>)
    ensures GetReference(src, store, sitemap).Ok? && Missing(GetReference(src, store, sitemap).value) ==> r == Ok([])
    ensures (GetReference(src, store, sitemap).Ok? && !Missing(GetReference(src, store, sitemap).value)
      && readers.xml(GetReference(src, store, sitemap).value.value).Err?) ==> r == Ok([])
    ensures r.Ok? ==> MusicUrls(r.value)
  {
    var b :- GetReference(src, store, sitemap);
    if Missing(b) then Ok([])
    else
      match readers.xml(b.value)
      case Err(_) => Ok([])
      case Ok(doc) =>
        var entries :- Documents.Entries(doc, "urlset", "url");
        EntryResources(u => Reference(src, u), iso, entries)
  }

  /** `_read_sitemap_for_entries`: each resource the sitemap yields is
      stored under its URL, a later one replacing an earlier. */
  function ReadSitemapForEntries(src: Source, store: Store, readers: Readers, iso: Iso, sitemap: string, d: ResourceMap)
    : (r: Result<ResourceMap>)
    ensures r.Ok? <==> SitemapResources(src, store, readers, iso, sitemap).Ok?
    ensures SitemapResources(src, store, readers, iso, sitemap) == Ok([]) ==> r == Ok(d)
    ensures r.Ok? && Indexed(d) ==> Indexed(r.value)
    ensures r.Ok? ==> forall k :: Dicts.Get(d, k).Some? ==> Dicts.Get(r.value, k).Some?
    ensures r.Ok? ==> forall res :: res in SitemapResources(src, store, readers, iso, sitemap).value ==> Dicts.Get(r.value, res.url).Some?
  {
    var rs :- SitemapResources(src, store, readers, iso, sitemap);
    PutAllIndexed(d, rs);
    PutAllStoresAll(d, rs);
    Ok(PutAll(d, rs))
  }

  lemma PutAllStoresAll(d: ResourceMap, rs: seq<Resource>)
    ensures forall res :: res in rs ==> Dicts.Get(PutAll(d, rs), res.url).Some?
  {
    forall res | res in rs ensures Dicts.Get(PutAll(d, rs), res.url).Some? {
      var j :| 0 <= j < |rs| && rs[j] == res;
      PutAllStores(d, rs, j);
    }
  }

  /** What reading each sitemap yields. */
  type Yields = string -> Result<seq<Resource>>

  /** `for sitemap in all_sitemaps: self._read_sitemap_for_entries(sitemap)`,
      each sitemap's resources stored in turn. */
  function ReadAll(sitemapRead: Yields, sitemaps: seq<string>, d: ResourceMap): (r: Result<ResourceMap>)
    ensures r.Ok? && Indexed(d) && (forall s :: sitemapRead(s).Ok? ==> MusicUrls(sitemapRead(s).value)) ==> Indexed(r.value)
    ensures r.Ok? ==> forall k :: Dicts.Get(d, k).Some? ==> Dicts.Get(r.value, k).Some?
  {
    if |sitemaps| == 0 then Ok(d)
    else
      var rs :- sitemapRead(sitemaps[0]);
      PutAllIndexed(d, rs);
      ReadAll(sitemapRead, sitemaps[1..], PutAll(d, rs))
  }

  /** Every resource any of the sitemaps yields ends up stored. */
  lemma {:induction false} ReadAllStores(sitemapRead: Yields, sitemaps: seq<string>, d: ResourceMap, i: nat, res: Resource)
    requires ReadAll(sitemapRead, sitemaps, d).Ok? && i < |sitemaps|
    requires sitemapRead(sitemaps[i]).Ok? && res in sitemapRead(sitemaps[i]).value
    ensures Dicts.Get(ReadAll(sitemapRead, sitemaps, d).value, res.url).Some?
  {
    var rs := sitemapRead(sitemaps[0]).value;
    var d' := PutAll(d, rs);
    var rest := ReadAll(sitemapRead, sitemaps[1..], d');
    assert ReadAll(sitemapRead, sitemaps, d) == rest;
    if i == 0 {
      PutAllStoresAll(d, rs);
      assert Dicts.Get(d', res.url).Some?;
    } else {
      assert sitemaps[1..][i - 1] == sitemaps[i];
      ReadAllStores(sitemapRead, sitemaps[1..], d', i - 1, res);
    }
  }

  /** The resources of each sitemap, as `_read_sitemap_for_entries` reads them. */
  function SitemapYields(src: Source, store: Store, readers: Readers, iso: Iso): (y: Yields)
    ensures forall s :: y(s).Ok? ==> MusicUrls(y(s).value)
  {
    s => SitemapResources(src, store, readers, iso, s)
  }

  /** `fetch_resources`: the root sitemaps from robots.txt, every sitemap
      reachable from them through sitemap indexes, and the resources of all
      of them added to the map. */
  function FetchResources(src: Source, store: Store, readers: Readers, iso: Iso, d: ResourceMap)
    : (r: Result<ResourceMap>)
    ensures SitemapsFromRobots(src, store, readers).Err? ==> r == Err(SitemapsFromRobots(src, store, readers).error)
    ensures r.Ok? && Indexed(d) ==> Indexed(r.value)
    ensures r.Ok? ==> forall k :: Dicts.Get(d, k).Some? ==> Dicts.Get(r.value, k).Some?
  {
    var roots :- SitemapsFromRobots(src, store, readers);
    var all :- CollectSitemaps(src, store, readers, roots);
    ReadAll(SitemapYields(src, store, readers, iso), all, d)
  }

  /** A resource of a sitemap reachable from robots.txt is stored. */
  lemma FetchStoresReachable(src: Source, store: Store, readers: Readers, iso: Iso, d: ResourceMap, sitemap: string, res: Resource)
    requires FetchResources(src, store, readers, iso, d).Ok?
    requires sitemap in CollectSitemaps(src, store, readers, SitemapsFromRobots(src, store, readers).value).value
    requires SitemapResources(src, store, readers, iso, sitemap).Ok?
    requires res in SitemapResources(src, store, readers, iso, sitemap).value
    ensures Dicts.Get(FetchResources(src, store, readers, iso, d).value, res.url).Some?
  {
    var all := CollectSitemaps(src, store, readers, SitemapsFromRobots(src, store, readers).value).value;
    var i :| 0 <= i < |all| && all[i] == sitemap;
    ReadAllStores(SitemapYields(src, store, readers, iso), all, d, i, res);
  }
}

=== FILE: rss.dfy ===
/** The RSS side of persistence (kcrw_feed/persistence/manager.py,
    `RssPersister`): one feed per show, listing the show's dated episodes
    newest first, written to a file named after the show. The XML text
    itself is produced by a feed library and is represented here by the
    feed record handed to it. */
module Rss {
  import opened Wrappers
  import opened Values
  import opened Models
  import Sorting
  import Paths
  import Text
  import Utils
  import Persistence

  const FeedDirectory: string := "feeds/"

  datatype RssPersister = RssPersister(feedDir: string)

  /** One `add_item` call. */
  datatype Item = Item(title: string, link: string, description: string, pubdate: DateTime)

  /** The channel of one feed and its items in insertion order. */
  datatype Feed = Feed(title: string, link: Option<string>, description: string, language: string, items: seq<Item>)

  /** One file write: where, and which feed. */
  datatype FeedFile = FeedFile(path: string, feed: Feed)

  /** `RssPersister(storage_root)`: feeds go under `feeds/` below the root. */
  function NewRssPersister(storageRoot: string): (r: RssPersister)
    ensures Text.StartsWith(r.feedDir, storageRoot) && Text.EndsWith(r.feedDir, FeedDirectory)
  {
    assert !Text.StartsWith(FeedDirectory, "/") by {
      assert FeedDirectory[..1] == "f";
    }
    RssPersister(Paths.OsJoin(storageRoot, FeedDirectory))
  }

  /** The episodes that have an airdate, in their original order. */
  function Dated(eps: seq<Episode>): (r: seq<Episode>)
    ensures forall e :: multiset(r)[e] == if e.airdate.Some? then multiset(eps)[e] else 0
    decreases |eps|
  {
    if |eps| == 0 then []
    else
      assert eps == [eps[0]] + eps[1..];
      var rest := Dated(eps[1..]);
      if eps[0].airdate.Some? then [eps[0]] + rest else rest
  }

  /** The episodes a show's feed lists: `sorted(..., reverse=True)` on
      the dated ones, which raises when two of them cannot be ordered (a
      naive airdate against an aware one); otherwise exactly the dated
      episodes, with their multiplicities, newest first, and no episode
      `<` a later one. */
  function FeedEpisodes(eps: seq<Episode>): (r: Result<seq<Episode>>)
    ensures r.Err? <==> !Sorting.Orderable(Dated(eps), EpisodeTuple)
    ensures r.Err? ==> r.error.TypeError?
    ensures r.Ok? ==> forall e :: multiset(r.value)[e] == if e.airdate.Some? then multiset(eps)[e] else 0
    ensures r.Ok? ==> forall i :: 0 <= i < |r.value| ==> r.value[i].airdate.Some?
    ensures r.Ok? ==> forall i, j :: 0 <= i < j < |r.value| ==>
      Sorting.TupleLt(EpisodeTuple(r.value[i]), EpisodeTuple(r.value[j])) == Ok(false)
    ensures r.Ok? ==> forall i, j :: 0 <= i < j < |r.value| ==> TimeLe(r.value[j].airdate.value, r.value[i].airdate.value)
  {
    var dated := Dated(eps);
    var r :- Sorting.SortTuplesDescending(dated, EpisodeTuple);
    NewestFirst(dated, r);
    Ok(r)
  }

  /** A descending sort of dated episodes is by airdate, newest first. */
  lemma NewestFirst(dated: seq<Episode>, r: seq<Episode>)
    requires Sorting.Orderable(dated, EpisodeTuple) && multiset(r) == multiset(dated)
    requires forall i :: 0 <= i < |dated| ==> dated[i].airdate.Some?
    requires forall i, j :: 0 <= i < j < |r| ==> Sorting.TupleLt(EpisodeTuple(r[i]), EpisodeTuple(r[j])) == Ok(false)
    ensures forall i :: 0 <= i < |r| ==> r[i].airdate.Some?
    ensures forall i, j :: 0 <= i < j < |r| ==> TimeLe(r[j].airdate.value, r[i].airdate.value)
  {
    forall i | 0 <= i < |r| ensures r[i].airdate.Some? {
      assert r[i] in multiset(dated);
    }
    forall i, j | 0 <= i < j < |r| ensures TimeLe(r[j].airdate.value, r[i].airdate.value) {
      assert r[i] in multiset(dated) && r[j] in multiset(dated);
      Sorting.MembersComparable(dated, EpisodeTuple, r[j], r[i]);
      FirstDateField(EpisodeTuple(r[j]), EpisodeTuple(r[i]), r[j].airdate, r[i].airdate);
    }
  }

  /** Two episodes on the same airdate appear in the feed in descending
      title order, whatever order the show lists them in. */
  lemma SameAirdateFeedOrder(a: Episode, b: Episode)
    requires a.airdate.Some? && a.airdate == b.airdate
    requires a.title != b.title && Sorting.StrLe(a.title, b.title)
    ensures FeedEpisodes([a, b]) == Ok([b, a])
  {
    DatedPair(a, b);
    SameAirdateByTitle(a, b);
    FeedOfDated([a, b], [b, a]);
  }

  /** Two dated episodes are both kept. */
  lemma DatedPair(a: Episode, b: Episode)
    requires a.airdate.Some? && b.airdate.Some?
    ensures Dated([a, b]) == [a, b]
  {
    assert Dated([b]) == [b];
    assert [a, b][1..] == [b];
  }

  /** For dated episodes the feed order is the descending sort's. */
  lemma FeedOfDated(eps: seq<Episode>, r: seq<Episode>)
    requires Dated(eps) == eps && Sorting.SortTuplesDescending(eps, EpisodeTuple) == Ok(r)
    ensures FeedEpisodes(eps) == Ok(r)
  {
  }

  /** `feed.add_item(...)` for one episode. */
  function ItemOf(e: Episode): (r: Item)
    requires e.airdate.Some?
    ensures r.pubdate == e.airdate.value && r.link == e.mediaUrl
    ensures r.title == e.title && (e.description.Some? ==> r.description == e.description.value)
  {
    Item(e.title, e.mediaUrl, e.description.GetOr(""), e.airdate.value)
  }

  /** The feed for one show: channel fields from the show, language "en",
      one item per dated episode, newest first; the sort's TypeError when
      the dated episodes cannot be ordered. */
  function ShowFeed(s: Show): (r: Result<Feed>)
    ensures r.Err? <==> FeedEpisodes(s.episodes).Err?
    ensures r.Ok? ==> r.value.title == s.title && r.value.link == s.url && r.value.language == "en"
    ensures r.Ok? && s.description.None? ==> r.value.description == ""
    ensures r.Ok? ==> |r.value.items| == |FeedEpisodes(s.episodes).value|
    ensures r.Ok? ==> forall i, j :: 0 <= i < j < |r.value.items| ==> TimeLe(r.value.items[j].pubdate, r.value.items[i].pubdate)
  {
    var eps :- FeedEpisodes(s.episodes);
    Ok(Feed(s.title, s.url, s.description.GetOr(""), "en",
            seq(|eps|, i requires 0 <= i < |eps| => ItemOf(eps[i]))))
  }

  /** Each item of a feed comes from a dated episode of the show. */
  lemma {:induction false} FeedItemFromEpisode(s: Show, i: nat)
    requires ShowFeed(s).Ok? && i < |ShowFeed(s).value.items|
    ensures exists k :: 0 <= k < |s.episodes| && s.episodes[k].airdate.Some? && ShowFeed(s).value.items[i] == ItemOf(s.episodes[k])
  {
    var eps := FeedEpisodes(s.episodes).value;
    assert eps[i] in multiset(eps);
    assert eps[i] in multiset(s.episodes);
    var k :| 0 <= k < |s.episodes| && s.episodes[k] == eps[i];
    assert ShowFeed(s).value.items[i] == ItemOf(s.episodes[k]);
  }

  /** Each dated episode of a show gives an item of its feed. */
  lemma {:induction false} EpisodeHasFeedItem(s: Show, k: nat)
    requires ShowFeed(s).Ok? && k < |s.episodes| && s.episodes[k].airdate.Some?
    ensures exists i :: 0 <= i < |ShowFeed(s).value.items| && ShowFeed(s).value.items[i] == ItemOf(s.episodes[k])
  {
    var eps := FeedEpisodes(s.episodes).value;
    assert s.episodes[k] in multiset(s.episodes);
    assert s.episodes[k] in multiset(eps);
    var i :| 0 <= i < |eps| && eps[i] == s.episodes[k];
    assert ShowFeed(s).value.items[i] == ItemOf(s.episodes[k]);
  }

  /** `f"{show.uuid}"`: the canonical text, or "None". */
  function UuidText(u: Option<Uuid>): (r: string)
    ensures u.Some? && Utils.ValidUuid(u.value) ==> Utils.UuidFromLiteral(r) == Ok(u.value)
  {
    match u
    case None => "None"
    case Some(id) => Persistence.IdText(id)
  }

  /** The feed file of a show: its title when it has one, else its UUID. */
  function FeedFileName(s: Show): (r: string)
    ensures Text.EndsWith(r, ".xml")
  {
    (if s.title != "" then s.title else UuidText(s.uuid)) + ".xml"
  }

  /** The file name names its show: stripping ".xml" gives back the title,
      or, for an untitled show, its UUID ("None" when it has none). */
  lemma FeedFileNameNamesShow(s: Show)
    ensures var stem := FeedFileName(s)[..|FeedFileName(s)| - 4];
      && (s.title != "" ==> stem == s.title)
      && (s.title == "" && s.uuid.None? ==> stem == "None")
      && (s.title == "" && s.uuid.Some? && Utils.ValidUuid(s.uuid.value) ==> Utils.UuidFromLiteral(stem) == Ok(s.uuid.value))
  {
    var name := if s.title != "" then s.title else UuidText(s.uuid);
    assert FeedFileName(s)[..|FeedFileName(s)| - 4] == name;
  }

  /** `feed_dir or self.feed_dir`. */
  function ChosenDir(p: RssPersister, feedDir: Option<string>): (r: string)
    ensures feedDir.Some? && feedDir.value != "" ==> r == feedDir.value
    ensures feedDir.None? || feedDir.value == "" ==> r == p.feedDir
  {
    if feedDir.Some? && feedDir.value != "" then feedDir.value else p.feedDir
  }

  /** Where a show's feed is written: the file name joined to the
      directory, which a title starting with "/" replaces. */
  function FeedPath(dir: string, s: Show): (r: string)
    ensures Text.EndsWith(r, FeedFileName(s))
    ensures !Text.StartsWith(FeedFileName(s), "/") ==> Text.StartsWith(r, dir)
    ensures Text.StartsWith(FeedFileName(s), "/") ==> r == FeedFileName(s)
  {
    Paths.OsJoin(dir, FeedFileName(s))
  }

  /** What a save did: the files written, in order, and the exception that
      stopped it, if any. */
  datatype SaveRun = SaveRun(writes: seq<FeedFile>, error: Option<PyError>)

  /** The loop of `save` over the shows, for any way of building a feed
      and of placing its file: one write per element until a feed cannot be
      built, whose exception ends the loop. */
  function WriteEach<S>(xs: seq<S>, build: S -> Result<Feed>, place: S -> string): (r: SaveRun)
    ensures |r.writes| <= |xs|
    ensures r.error.None? <==> AllOk(xs, build)
    ensures r.error.None? ==> |r.writes| == |xs|
    ensures r.error.Some? ==> |r.writes| < |xs| && build(xs[|r.writes|]) == Err(r.error.value)
    ensures forall i :: 0 <= i < |r.writes| ==>
      r.writes[i].path == place(xs[i]) && build(xs[i]) == Ok(r.writes[i].feed)
    decreases |xs|
  {
    if |xs| == 0 then SaveRun([], None)
    else
      match build(xs[0])
      case Err(e) =>
        AllOkStep(xs, build);
        SaveRun([], Some(e))
      case Ok(feed) =>
        var rest := WriteEach(xs[1..], build, place);
        AllOkStep(xs, build);
        WriteStep(xs, build, place, feed, rest.writes);
        assert rest.error.Some? ==> xs[1..][|rest.writes|] == xs[|rest.writes| + 1];
        SaveRun([FeedFile(place(xs[0]), feed)] + rest.writes, rest.error)
  }

  /** `f` succeeds on every element. */
  predicate AllOk<T, U>(xs: seq<T>, f: T -> Result<U>) {
    forall i :: 0 <= i < |xs| ==> f(xs[i]).Ok?
  }

  /** `f` succeeds on every element exactly when it does on the first and
      on every later one. */
  lemma AllOkStep<T, U>(xs: seq<T>, f: T -> Result<U>)
    requires |xs| > 0
    ensures AllOk(xs, f) <==> f(xs[0]).Ok? && AllOk(xs[1..], f)
  {
    if f(xs[0]).Ok? && AllOk(xs[1..], f) {
      forall i | 0 <= i < |xs| ensures f(xs[i]).Ok? {
        if i > 0 { assert xs[1..][i - 1] == xs[i]; }
      }
    }
  }

  /** One element written in front of the writes for the rest keeps each
      write at its own element's index. */
  lemma WriteStep<S>(xs: seq<S>, build: S -> Result<Feed>, place: S -> string, feed: Feed, rest: seq<FeedFile>)
    requires |xs| > 0 && build(xs[0]) == Ok(feed)
    requires |rest| <= |xs| - 1
    requires forall i :: 0 <= i < |rest| ==>
      rest[i].path == place(xs[1..][i]) && build(xs[1..][i]) == Ok(rest[i].feed)
    ensures var ws := [FeedFile(place(xs[0]), feed)] + rest;
      forall i :: 0 <= i < |ws| ==> ws[i].path == place(xs[i]) && build(xs[i]) == Ok(ws[i].feed)
  {
    var ws := [FeedFile(place(xs[0]), feed)] + rest;
    forall i | 0 <= i < |ws| ensures ws[i].path == place(xs[i]) && build(xs[i]) == Ok(ws[i].feed) {
      if i > 0 { assert ws[i] == rest[i - 1] && xs[1..][i - 1] == xs[i]; }
    }
  }

  /** `save(directory, feed_dir)`: the shows' feeds written in order under
      the chosen directory, one file per show, as far as the first show
      whose episodes cannot be sorted; the files written before it stay. */
  function Save(p: RssPersister, d: ShowDirectory, feedDir: Option<string>): (r: SaveRun)
    ensures r.error.None? <==> AllOk(d.shows, ShowFeed)
    ensures r.error.None? ==> |r.writes| == |d.shows|
    ensures r.error.Some? ==> |r.writes| < |d.shows| && ShowFeed(d.shows[|r.writes|]) == Err(r.error.value)
    ensures forall i :: 0 <= i < |r.writes| ==> ShowFeed(d.shows[i]) == Ok(r.writes[i].feed)
    ensures forall i :: 0 <= i < |r.writes| ==> r.writes[i].path == FeedPath(ChosenDir(p, feedDir), d.shows[i])
    ensures forall i :: 0 <= i < |r.writes| ==>
      Text.EndsWith(r.writes[i].path, FeedFileName(d.shows[i]))
      && (!Text.StartsWith(FeedFileName(d.shows[i]), "/") ==> Text.StartsWith(r.writes[i].path, ChosenDir(p, feedDir)))
  {
    var dir := ChosenDir(p, feedDir);
    var r := WriteEach(d.shows, ShowFeed, s => FeedPath(dir, s));
    PlacedUnder(dir, d.shows, r.writes);
    r
  }

  /** Files placed at their shows' feed paths end in the file names and,
      for relative names, lie under the directory. */
  lemma PlacedUnder(dir: string, shows: seq<Show>, ws: seq<FeedFile>)
    requires |ws| <= |shows|
    requires forall i :: 0 <= i < |ws| ==> ws[i].path == FeedPath(dir, shows[i])
    ensures forall i :: 0 <= i < |ws| ==>
      Text.EndsWith(ws[i].path, FeedFileName(shows[i]))
      && (!Text.StartsWith(FeedFileName(shows[i]), "/") ==> Text.StartsWith(ws[i].path, dir))
  {
  }

  /** The files on disk after a sequence of writes: a later write to the
      same path replaces an earlier one. */
  function Files(ws: seq<FeedFile>): (r: map<string, Feed>)
    ensures forall path :: path in r <==> exists i :: 0 <= i < |ws| && ws[i].path == path
    decreases |ws|
  {
    if |ws| == 0 then map[]
    else
      var init := Files(ws[..|ws| - 1]);
      assert forall i :: 0 <= i < |ws| - 1 ==> ws[..|ws| - 1][i] == ws[i];
      init[ws[|ws| - 1].path := ws[|ws| - 1].feed]
  }

  /** A write that no later write shadows is what the file holds. */
  lemma {:induction false} LastWriteWins(ws: seq<FeedFile>, i: nat)
    requires i < |ws|
    requires forall j :: i < j < |ws| ==> ws[j].path != ws[i].path
    ensures ws[i].path in Files(ws) && Files(ws)[ws[i].path] == ws[i].feed
    decreases |ws|
  {
    if i < |ws| - 1 {
      var init := ws[..|ws| - 1];
      assert init[i] == ws[i];
      forall j | i < j < |init| ensures init[j].path != init[i].path {
        assert init[j] == ws[j];
      }
      LastWriteWins(init, i);
    }
  }

  /** Joining relative names to one directory keeps distinct names
      distinct. */
  lemma JoinInjective(dir: string, a: string, b: string)
    requires !Text.StartsWith(a, "/") && !Text.StartsWith(b, "/")
    requires Paths.OsJoin(dir, a) == Paths.OsJoin(dir, b)
    ensures a == b
  {
    var sep := if dir == "" || dir[|dir| - 1] == '/' then dir else dir + "/";
    assert Paths.OsJoin(dir, a) == sep + a && Paths.OsJoin(dir, b) == sep + b;
    assert a == (sep + a)[|sep|..];
    assert b == (sep + b)[|sep|..];
  }

  /** An absolute name escapes the directory: a show titled "/d/x" and
      one titled "x" share a file when the directory is "/d". */
  lemma AbsoluteTitleCollides(a: Show, b: Show)
    requires a.title == "/d/x" && b.title == "x"
    ensures FeedPath("/d", a) == FeedPath("/d", b) == "/d/x.xml"
  {
    assert FeedFileName(a) == "/d/x.xml" && FeedFileName(b) == "x.xml";
    assert Text.StartsWith("/d/x.xml", "/");
    assert !Text.StartsWith("x.xml", "/") by {
      assert "x.xml"[..1] == "x";
    }
  }

  /** After a save, each show written whose path no later written show
      reuses has its own feed on disk. */
  lemma {:induction false} SaveKeepsEachFeed(p: RssPersister, d: ShowDirectory, feedDir: Option<string>, i: nat)
    requires i < |Save(p, d, feedDir).writes|
    requires forall j :: i < j < |Save(p, d, feedDir).writes| ==>
      FeedPath(ChosenDir(p, feedDir), d.shows[j]) != FeedPath(ChosenDir(p, feedDir), d.shows[i])
    ensures var path := FeedPath(ChosenDir(p, feedDir), d.shows[i]);
      path in Files(Save(p, d, feedDir).writes) && Ok(Files(Save(p, d, feedDir).writes)[path]) == ShowFeed(d.shows[i])
  {
    var dir := ChosenDir(p, feedDir);
    WrittenKept(d.shows, ShowFeed, s => FeedPath(dir, s), Save(p, d, feedDir).writes, i);
  }

  /** A write whose place no later write reuses survives on disk, for any
      builder and placing of the files. */
  lemma WrittenKept<S>(xs: seq<S>, build: S -> Result<Feed>, place: S -> string, ws: seq<FeedFile>, i: nat)
    requires i < |ws| <= |xs|
    requires forall k :: 0 <= k < |ws| ==> ws[k].path == place(xs[k]) && build(xs[k]) == Ok(ws[k].feed)
    requires forall j :: i < j < |ws| ==> place(xs[j]) != place(xs[i])
    ensures place(xs[i]) in Files(ws) && Ok(Files(ws)[place(xs[i])]) == build(xs[i])
  {
    LastWriteWins(ws, i);
  }

  /** Two written shows with the same title share a file, and the later
      one's feed is what remains there. */
  lemma {:induction false} SameTitleOverwrites(p: RssPersister, d: ShowDirectory, feedDir: Option<string>, i: nat, j: nat)
    requires i < j < |Save(p, d, feedDir).writes| && d.shows[i].title == d.shows[j].title != ""
    requires forall k :: j < k < |Save(p, d, feedDir).writes| ==>
      FeedPath(ChosenDir(p, feedDir), d.shows[k]) != FeedPath(ChosenDir(p, feedDir), d.shows[j])
    ensures var path := FeedPath(ChosenDir(p, feedDir), d.shows[i]);
      path in Files(Save(p, d, feedDir).writes) && Ok(Files(Save(p, d, feedDir).writes)[path]) == ShowFeed(d.shows[j])
  {
    assert FeedFileName(d.shows[i]) == FeedFileName(d.shows[j]);
    SaveKeepsEachFeed(p, d, feedDir, j);
  }

  /** `load`: reading feeds back is not supported. */
  function Load(p: RssPersister, filename: string): (r: Result<ShowDirectory>)
    ensures r.Err? && r.error.NotImplementedError?
  {
    Err(NotImplementedError)
  }
}

=== FILE: show_gatherer.dfy ===
/** `ShowIndex` (kcrw_feed/show_gatherer.py), the first generation of the
    sitemap reader: every `loc` string of every sitemap named in robots.txt
    or configured, kept when it is a music URL. */
module ShowGatherer {
  import opened Wrappers
  import opened Text
  import opened Values
  import opened Lists
  import opened SourceManager
  import opened Classifiers
  import opened Documents

  const RobotsFile: string := "robots.txt"

  /** `[source_url + f for f in files]`, appended one by one in the source. */
  function Prefixed(sourceUrl: string, files: seq<string>): (r: seq<string>)
    ensures |r| == |files| && forall i :: 0 <= i < |files| ==> r[i] == sourceUrl + files[i]
  {
    seq(|files|, i requires 0 <= i < |files| => sourceUrl + files[i])
  }

  /** The live site's prefix replaced by the configured source URL. */
  function Relocate(sourceUrl: string): string -> string {
    u => ReplaceAll(u, KcrwPrefix, sourceUrl)
  }

  /** `find_sitemaps`: the robots.txt sitemaps and the configured files
      under the source URL, those naming a sitemap file, relocated to the
      source URL, without repeats. Only a missing robots.txt raises; its
      message names a fixed path whatever the source. */
  function FindSitemaps(sourceUrl: string, files: seq<string>, store: Store, readers: Readers): (r: Result<seq<string>>)
    ensures GetFile(store, sourceUrl + RobotsFile).None? ==>
      r == Err(FileNotFoundError("robots.txt not found at ./tests/data/robots.txt"))
    ensures r.Ok? ==> NoDuplicates(r.value)
  {
    var b := GetFile(store, sourceUrl + RobotsFile);
    if b.None? then Err(FileNotFoundError("robots.txt not found at ./tests/data/robots.txt"))
    else
      var listed :- readers.robots(b.value);
      Ok(Distinct(FilterMap(listed + Prefixed(sourceUrl, files), SearchSitemap, Relocate(sourceUrl))))
  }

  /** The sitemaps found are the relocated sitemap-file URLs among those
      listed and configured. */
  lemma FindSitemapsMembers(sourceUrl: string, files: seq<string>, store: Store, readers: Readers, y: string)
    requires FindSitemaps(sourceUrl, files, store, readers).Ok?
    ensures sourceUrl + RobotsFile in store && readers.robots(store[sourceUrl + RobotsFile]).Ok?
    ensures var all := readers.robots(store[sourceUrl + RobotsFile]).value + Prefixed(sourceUrl, files);
      y in FindSitemaps(sourceUrl, files, store, readers).value <==>
        exists i :: 0 <= i < |all| && SitemapRe(all[i]) && y == ReplaceAll(all[i], KcrwPrefix, sourceUrl)
  {
    var all := readers.robots(store[sourceUrl + RobotsFile]).value + Prefixed(sourceUrl, files);
    var kept := FilterMap(all, SearchSitemap, Relocate(sourceUrl));
    if y in kept {
      FilterMapSound(all, SearchSitemap, Relocate(sourceUrl), y);
      var i :| 0 <= i < |all| && SearchSitemap(all[i]) && Relocate(sourceUrl)(all[i]) == y;
      SearchSitemapIsRe(all[i]);
    }
    forall i | 0 <= i < |all| && SitemapRe(all[i]) ensures ReplaceAll(all[i], KcrwPrefix, sourceUrl) in kept {
      SearchSitemapIsRe(all[i]);
    }
  }

  /** With the live site as source URL nothing is relocated. */
  lemma FindSitemapsAtSite(files: seq<string>, store: Store, readers: Readers, y: string)
    requires FindSitemaps(KcrwPrefix, files, store, readers).Ok?
    ensures var all := readers.robots(store[KcrwPrefix + RobotsFile]).value + Prefixed(KcrwPrefix, files);
      y in FindSitemaps(KcrwPrefix, files, store, readers).value <==> y in all && SitemapRe(y)
  {
    FindSitemapsMembers(KcrwPrefix, files, store, readers, y);
    var all := readers.robots(store[KcrwPrefix + RobotsFile]).value + Prefixed(KcrwPrefix, files);
    forall i | 0 <= i < |all| ensures ReplaceAll(all[i], KcrwPrefix, KcrwPrefix) == all[i] {
      ReplaceAllSelf(all[i], KcrwPrefix);
    }
  }

  /** `read_sitemap`: every `loc` string of the parsed document; a missing
      file gives none, and a parser error propagates. */
  function ReadSitemap(store: Store, readers: Readers, sitemap: string): (r: Result<seq<string>>)
    ensures sitemap !in store ==> r == Ok([])
    ensures sitemap in store ==> r.Err? == readers.xml(store[sitemap]).Err?
    ensures r.Ok? && sitemap in store ==>
      forall s :: s in r.value <==> LocIn(Dict(readers.xml(store[sitemap]).value), s)
  {
    match GetFile(store, sitemap)
    case None => Ok([])
    case Some(b) =>
      var doc :- readers.xml(b);
      forall s ensures s in ExtractLocs(Dict(doc)) <==> LocIn(Dict(doc), s) {
        ExtractLocsComplete(Dict(doc), s);
      }
      Ok(ExtractLocs(Dict(doc)))
  }

  /** The loop of `gather_shows`: the music URLs of each sitemap in turn. */
  function ShowsOf(store: Store, readers: Readers, sitemaps: seq<string>): (r: Result<seq<string>>)
    ensures r.Ok? ==> forall u :: u in r.value ==> MusicFilter(u)
  {
    if |sitemaps| == 0 then Ok([])
    else
      var urls :- ReadSitemap(store, readers, sitemaps[0]);
      var rest :- ShowsOf(store, readers, sitemaps[1..]);
      Ok(Filter(urls, MusicFilter) + rest)
  }

  /** The loop raises exactly when some sitemap cannot be parsed, and
      otherwise keeps exactly the music URLs of the sitemaps. */
  lemma {:induction false} ShowsOfMembers(store: Store, readers: Readers, sitemaps: seq<string>, u: string)
    ensures ShowsOf(store, readers, sitemaps).Ok? <==>
      forall i :: 0 <= i < |sitemaps| ==> ReadSitemap(store, readers, sitemaps[i]).Ok?
    ensures ShowsOf(store, readers, sitemaps).Ok? ==>
      (u in ShowsOf(store, readers, sitemaps).value <==>
        MusicFilter(u) && exists i :: 0 <= i < |sitemaps| && ReadSitemap(store, readers, sitemaps[i]).Ok? && u in ReadSitemap(store, readers, sitemaps[i]).value)
  {
    if |sitemaps| > 0 {
      ShowsOfMembers(store, readers, sitemaps[1..], u);
      assert forall i :: 1 <= i < |sitemaps| ==> sitemaps[i] == sitemaps[1..][i - 1];
    }
  }

  /** `gather_shows(source)`: for `"sitemap"` the music URLs of every
      sitemap found; `"feed"` is a placeholder returning nothing; any
      other source raises `ValueError`. */
  function GatherShows(source: string, sourceUrl: string, files: seq<string>, store: Store, readers: Readers)
    : (r: Result<seq<string>>)
    ensures source == "feed" ==> r == Ok([])
    ensures source != "sitemap" && source != "feed" ==> r == Err(ValueError("Unknown source type"))
    ensures source == "sitemap" && GetFile(store, sourceUrl + RobotsFile).None? ==>
      r == Err(FileNotFoundError("robots.txt not found at ./tests/data/robots.txt"))
    ensures r.Ok? ==> forall u :: u in r.value ==> MusicFilter(u)
  {
    if source == "sitemap" then
      var sitemaps :- FindSitemaps(sourceUrl, files, store, readers);
      ShowsOf(store, readers, sitemaps)
    else if source == "feed" then Ok([])
    else Err(ValueError("Unknown source type"))
  }

  /** A gathered show is a music URL under a `loc` of a sitemap found. */
  lemma GatherShowsMembers(sourceUrl: string, files: seq<string>, store: Store, readers: Readers, u: string)
    requires GatherShows("sitemap", sourceUrl, files, store, readers).Ok?
    ensures FindSitemaps(sourceUrl, files, store, readers).Ok?
    ensures var sitemaps := FindSitemaps(sourceUrl, files, store, readers).value;
      u in GatherShows("sitemap", sourceUrl, files, store, readers).value <==>
        MusicFilter(u) && exists i :: 0 <= i < |sitemaps| && ReadSitemap(store, readers, sitemaps[i]).Ok? && u in ReadSitemap(store, readers, sitemaps[i]).value
  {
    ShowsOfMembers(store, readers, FindSitemaps(sourceUrl, files, store, readers).value, u);
  }
}

=== FILE: show_index.dfy ===
/** `ShowIndex` (kcrw_feed/show_index.py): the index that fetches every
    gathered show page through the show processor and files each show by
    its uuid, or by its url when it has none. */
module ShowIndex {
  import opened Wrappers
  import opened Text
  import opened Values
  import opened Lists
  import opened Dicts
  import opened Models
  import opened SourceManager

  /** `update` points every gathered URL at a stand-in host. */
  const LivePrefix: string := "https://www.kcrw.com"
  const StandInPrefix: string := "https://www.example.com"

  /** The keys of `self.shows`: a show's uuid, or its url (possibly None)
      when it has no uuid. */
  datatype Key = ByUuid(uuid: Uuid) | ByUrl(url: Option<string>)

  type Index = PyDict<Key, Show>

  /** What `update` leaves behind: its count, or the exception it raises
      instead, and the index, which keeps every show filed before it. */
  datatype Updated = Updated(count: Result<nat>, shows: Index)

  /** `source.uses_sitemap`: only the local mirror sets the attribute, so
      reading it on the live source raises. */
  function UsesSitemap(src: Source): (r: Result<bool>)
    ensures r.Ok? <==> src.CacheSource?
    ensures r.Ok? ==> r.value
    ensures r.Err? ==> r.error == AttributeError("'HttpsSource' object has no attribute 'uses_sitemap'")
  {
    match src
    case CacheSource(_) => Ok(true)
    case HttpsSource(_) => Err(AttributeError("'HttpsSource' object has no attribute 'uses_sitemap'"))
  }

  /** `show.uuid` when set (a UUID is always truthy), else `show.url`. */
  function KeyOf(s: Show): Key {
    if s.uuid.Some? then ByUuid(s.uuid.value) else ByUrl(s.url)
  }

  /** Every gathered URL moved from the live host to the stand-in. */
  function Rewrite(urls: seq<string>): (r: seq<string>)
    ensures |r| == |urls|
    ensures forall i :: 0 <= i < |urls| ==> r[i] == ReplaceAll(urls[i], LivePrefix, StandInPrefix)
  {
    seq(|urls|, i requires 0 <= i < |urls| => ReplaceAll(urls[i], LivePrefix, StandInPrefix))
  }

  /** The selected URLs with trailing slashes removed. */
  function Normalize(selected: seq<string>): (r: seq<string>)
    ensures |r| == |selected|
    ensures forall i :: 0 <= i < |selected| ==> r[i] == RStrip(selected[i], {'/'})
  {
    seq(|selected|, i requires 0 <= i < |selected| => RStrip(selected[i], {'/'}))
  }

  /** The URLs `update` fetches: an empty selection keeps them all; a
      non-empty one keeps, in gathered order and with repeats, those equal
      to a selected URL once its trailing slashes are gone. */
  function Selection(urls: seq<string>, selected: seq<string>): (r: seq<string>)
    ensures |selected| == 0 ==> r == urls
    ensures |selected| > 0 ==> forall u :: u in r <==> u in urls && u in Normalize(selected)
    ensures SubseqOf(r, urls)
  {
    if |selected| == 0 then SubseqOfSelf(urls); urls
    else
      var sel := Normalize(selected);
      FilterSubseq(urls, u => u in sel);
      Filter(urls, u => u in sel)
  }

  /** How many URLs are fetched before the first one whose fetch raises
      (all of them when none does). */
  function Fetched(fetch: string -> Result<Show>, urls: seq<string>): (n: nat)
    ensures n <= |urls|
    ensures forall i :: 0 <= i < n ==> fetch(urls[i]).Ok?
    ensures n < |urls| ==> fetch(urls[n]).Err?
    decreases |urls|
  {
    if |urls| == 0 || fetch(urls[0]).Err? then 0
    else
      assert forall i :: 1 <= i < |urls| ==> urls[i] == urls[1..][i - 1];
      1 + Fetched(fetch, urls[1..])
  }

  /** The loop of `update`: fetch each URL in turn and file the show under
      its key. The first exception ends the loop, and the shows filed
      before it stay in the index. */
  function StoreAll(fetch: string -> Result<Show>, index: Index, urls: seq<string>): (r: Stopped<Index>)
    ensures r.error.None? <==> forall i :: 0 <= i < |urls| ==> fetch(urls[i]).Ok?
    ensures r.error.Some? ==> Fetched(fetch, urls) < |urls| && fetch(urls[Fetched(fetch, urls)]) == Err(r.error.value)
    ensures KeysUnique(index) ==> KeysUnique(r.state)
    decreases |urls|
  {
    if |urls| == 0 then Stopped(index, None)
    else
      assert forall i :: 1 <= i < |urls| ==> urls[i] == urls[1..][i - 1];
      match fetch(urls[0])
      case Err(e) => Stopped(index, Some(e))
      case Ok(show) => StoreAll(fetch, Put(index, KeyOf(show), show), urls[1..])
  }

  /** A key no show fetched before the first failure names keeps its old
      entry. */
  lemma {:induction false} StoreAllKeeps(fetch: string -> Result<Show>, index: Index, urls: seq<string>, k: Key)
    requires forall i :: 0 <= i < Fetched(fetch, urls) ==> KeyOf(fetch(urls[i]).value) != k
    ensures Dicts.Get(StoreAll(fetch, index, urls).state, k) == Dicts.Get(index, k)
    decreases |urls|
  {
    if |urls| > 0 && fetch(urls[0]).Ok? {
      var show := fetch(urls[0]).value;
      assert forall i :: 1 <= i < |urls| ==> urls[i] == urls[1..][i - 1];
      assert KeyOf(show) != k;
      StoreAllKeeps(fetch, Put(index, KeyOf(show), show), urls[1..], k);
    }
  }

  /** The show fetched for a URL before the first failure is filed under
      its key unless a later URL, still before the failure, yields a show
      with the same key, which then replaces it. */
  lemma {:induction false} StoreAllLastWins(fetch: string -> Result<Show>, index: Index, urls: seq<string>, i: nat)
    requires i < Fetched(fetch, urls)
    requires forall j :: i < j < Fetched(fetch, urls) ==> KeyOf(fetch(urls[j]).value) != KeyOf(fetch(urls[i]).value)
    ensures Dicts.Get(StoreAll(fetch, index, urls).state, KeyOf(fetch(urls[i]).value)) == Some(fetch(urls[i]).value)
    decreases |urls|
  {
    var show := fetch(urls[0]).value;
    var next := Put(index, KeyOf(show), show);
    assert forall j :: 1 <= j < |urls| ==> urls[j] == urls[1..][j - 1];
    if i == 0 {
      StoreAllKeeps(fetch, next, urls[1..], KeyOf(show));
    } else {
      StoreAllLastWins(fetch, next, urls[1..], i - 1);
    }
  }

  /** Every show fetched before the first failure leaves an entry under
      its key, whether or not a later fetch raises. */
  lemma {:induction false} StoreAllFiles(fetch: string -> Result<Show>, index: Index, urls: seq<string>, i: nat)
    requires i < Fetched(fetch, urls)
    ensures HasKey(StoreAll(fetch, index, urls).state, KeyOf(fetch(urls[i]).value))
    decreases Fetched(fetch, urls) - i
  {
    var k := KeyOf(fetch(urls[i]).value);
    if forall j :: i < j < Fetched(fetch, urls) ==> KeyOf(fetch(urls[j]).value) != k {
      StoreAllLastWins(fetch, index, urls, i);
    } else {
      var j :| i < j < Fetched(fetch, urls) && KeyOf(fetch(urls[j]).value) == k;
      StoreAllFiles(fetch, index, urls, j);
    }
  }

  /** `update(selected_urls)`. `flag` is what reading `source.uses_sitemap`
      gives and `gathered` what `gather()` gives; only a source that uses a
      sitemap gathers anything. The count is the number of URLs fetched,
      not the number of new entries; when a fetch raises, the exception
      replaces the count and the shows filed before it remain. */
  function Update(flag: Result<bool>, gathered: Result<seq<string>>, selected: seq<string>,
                  fetch: string -> Result<Show>, index: Index): (r: Updated)
    ensures flag.Err? ==> r == Updated(Err(flag.error), index)
    ensures flag == Ok(false) ==> r == Updated(Ok(0), index)
    ensures flag == Ok(true) && gathered.Err? ==> r == Updated(Err(gathered.error), index)
    ensures flag == Ok(true) && gathered.Ok? ==>
      var urls := Selection(Rewrite(gathered.value), selected);
      (r.count.Ok? <==> forall i :: 0 <= i < |urls| ==> fetch(urls[i]).Ok?) &&
      (r.count.Ok? ==> r.count.value == |urls|) &&
      (r.count.Err? ==> fetch(urls[Fetched(fetch, urls)]) == Err(r.count.error))
    ensures KeysUnique(index) ==> KeysUnique(r.shows)
  {
    match flag
    case Err(e) => Updated(Err(e), index)
    case Ok(uses) =>
      if !uses then Updated(Ok(0), index)
      else
        match gathered
        case Err(e) => Updated(Err(e), index)
        case Ok(all) =>
          var urls := Selection(Rewrite(all), selected);
          var run := StoreAll(fetch, index, urls);
          Updated(if run.error.None? then Ok(|urls|) else Err(run.error.value), run.state)
  }

  /** The live source cannot be updated: it has no `uses_sitemap`, and
      the index is left as it was. */
  lemma LiveSourceRaises(base: string, gathered: Result<seq<string>>, selected: seq<string>,
                         fetch: string -> Result<Show>, index: Index)
    ensures Update(UsesSitemap(HttpsSource(base)), gathered, selected, fetch, index).count.Err?
    ensures Update(UsesSitemap(HttpsSource(base)), gathered, selected, fetch, index).shows == index
  {
  }

  /** After an update from the mirror that succeeds, every selected
      gathered URL was fetched and its show is filed. */
  lemma {:induction false} UpdateFilesSelected(gathered: seq<string>, selected: seq<string>,
                                               fetch: string -> Result<Show>, index: Index, i: nat)
    requires i < |gathered|
    requires |selected| == 0 || Rewrite(gathered)[i] in Normalize(selected)
    requires Update(Ok(true), Ok(gathered), selected, fetch, index).count.Ok?
    ensures fetch(Rewrite(gathered)[i]).Ok?
    ensures HasKey(Update(Ok(true), Ok(gathered), selected, fetch, index).shows,
                   KeyOf(fetch(Rewrite(gathered)[i]).value))
  {
    var urls := Selection(Rewrite(gathered), selected);
    var u := Rewrite(gathered)[i];
    assert u in urls;
    var j :| 0 <= j < |urls| && urls[j] == u;
    StoreAllFiles(fetch, index, urls, j);
  }

  /** An update that raises part-way keeps every show it fetched before
      the failure. */
  lemma UpdateKeepsEarlier(gathered: seq<string>, selected: seq<string>,
                           fetch: string -> Result<Show>, index: Index, i: nat)
    requires i < Fetched(fetch, Selection(Rewrite(gathered), selected))
    ensures HasKey(Update(Ok(true), Ok(gathered), selected, fetch, index).shows,
                   KeyOf(fetch(Selection(Rewrite(gathered), selected)[i]).value))
  {
    StoreAllFiles(fetch, index, Selection(Rewrite(gathered), selected), i);
  }

  /** Two gathered copies of one URL are fetched twice and counted twice,
      but leave one entry. */
  lemma CountIncludesRepeats(fetch: string -> Result<Show>)
    requires fetch("x").Ok?
    ensures var s := fetch("x").value;
      Update(Ok(true), Ok(["x", "x"]), [], fetch, []) == Updated(Ok(2), [(KeyOf(s), s)])
  {
    var s := fetch("x").value;
    assert Rewrite(["x", "x"]) == ["x", "x"];
    assert Put([], KeyOf(s), s) == [(KeyOf(s), s)];
    assert Put([(KeyOf(s), s)], KeyOf(s), s) == [(KeyOf(s), s)];
  }

  /** `get_shows()`: the filed shows, in insertion order. */
  function Shows(index: Index): (r: seq<Show>)
    ensures |r| == |index|
    ensures forall s :: s in r <==> exists k :: (k, s) in index
  {
    var r := Dicts.Values(index);
    assert forall s :: s in r ==> exists i :: 0 <= i < |index| && index[i].1 == s;
    assert forall k, s :: (k, s) in index ==> exists i :: 0 <= i < |index| && index[i] == (k, s);
    r
  }

  /** `get_show_by_uuid(uuid)`: the entry under the uuid, if any. A show
      without a uuid is filed under its url and is not found this way. */
  function ShowByUuid(index: Index, u: Uuid): (r: Option<Show>)
    ensures r.Some? <==> HasKey(index, ByUuid(u))
    ensures r.Some? ==> (ByUuid(u), r.value) in index
  {
    Dicts.Get(index, ByUuid(u))
  }

  /** A show with a uuid, fetched last among those with that uuid, is
      found by its uuid after the update. */
  lemma UpdateThenShowByUuid(gathered: seq<string>, fetch: string -> Result<Show>, index: Index, i: nat, u: Uuid)
    requires Update(Ok(true), Ok(gathered), [], fetch, index).count.Ok?
    requires i < |gathered|
    requires fetch(Rewrite(gathered)[i]).Ok? && fetch(Rewrite(gathered)[i]).value.uuid == Some(u)
    requires forall j :: i < j < |gathered| ==> fetch(Rewrite(gathered)[j]).value.uuid != Some(u)
    ensures ShowByUuid(Update(Ok(true), Ok(gathered), [], fetch, index).shows, u)
      == Some(fetch(Rewrite(gathered)[i]).value)
  {
    var urls := Rewrite(gathered);
    StoreAllLastWins(fetch, index, urls, i);
  }

  /** `show.title.lower() == name.lower()`. */
  predicate Titled(s: Show, name: string) {
    LowerStr(s.title) == LowerStr(name)
  }

  /** Position of the first show titled `name`, ignoring case. */
  function FirstTitled(shows: seq<Show>, name: string): (r: Option<nat>)
    ensures r.Some? ==> r.value < |shows| && Titled(shows[r.value], name)
    ensures r.Some? ==> forall j :: 0 <= j < r.value ==> !Titled(shows[j], name)
    ensures r.None? <==> forall j :: 0 <= j < |shows| ==> !Titled(shows[j], name)
  {
    if |shows| == 0 then None
    else if Titled(shows[0], name) then Some(0)
    else
      assert forall j :: 1 <= j < |shows| ==> shows[j] == shows[1..][j - 1];
      match FirstTitled(shows[1..], name)
      case None => None
      case Some(i) => Some(i + 1)
  }

  /** `get_show_by_name(name)`: the first show, in insertion order, whose
      title matches ignoring case; None when no title does. */
  function ShowByName(index: Index, name: string): (r: Option<Show>)
    ensures r.Some? ==> r.value in Shows(index) && Titled(r.value, name)
    ensures r.Some? ==> exists i :: (0 <= i < |index| && index[i].1 == r.value &&
      forall j :: 0 <= j < i ==> !Titled(index[j].1, name))
    ensures r.None? <==> forall s :: s in Shows(index) ==> !Titled(s, name)
  {
    var shows := Shows(index);
    match FirstTitled(shows, name)
    case None => None
    case Some(i) => Some(shows[i])
  }

  /** `get_episodes()`: every show's episodes, shows in insertion order. */
  function Episodes(index: Index): (r: seq<Episode>)
    ensures forall e :: e in r <==> exists i :: 0 <= i < |index| && e in index[i].1.episodes
  {
    if |index| == 0 then []
    else
      var rest := Episodes(index[1..]);
      assert forall i :: 1 <= i < |index| ==> index[i] == index[1..][i - 1];
      index[0].1.episodes + rest
  }

  /** Filing a new show adds its episodes at the end. */
  lemma {:induction false} EpisodesAppend(index: Index, k: Key, s: Show)
    ensures Episodes(index + [(k, s)]) == Episodes(index) + s.episodes
    decreases |index|
  {
    if |index| > 0 {
      assert (index + [(k, s)])[1..] == index[1..] + [(k, s)];
      EpisodesAppend(index[1..], k, s);
    } else {
      assert [(k, s)][1..] == [];
    }
  }

  /** Position of the first episode with the given uuid. */
  function FirstWithUuid(eps: seq<Episode>, u: Option<Uuid>): (r: Option<nat>)
    ensures r.Some? ==> r.value < |eps| && eps[r.value].uuid == u
    ensures r.Some? ==> forall j :: 0 <= j < r.value ==> eps[j].uuid != u
    ensures r.None? <==> forall j :: 0 <= j < |eps| ==> eps[j].uuid != u
  {
    if |eps| == 0 then None
    else if eps[0].uuid == u then Some(0)
    else
      assert forall j :: 1 <= j < |eps| ==> eps[j] == eps[1..][j - 1];
      match FirstWithUuid(eps[1..], u)
      case None => None
      case Some(i) => Some(i + 1)
  }

  /** `get_episode_by_uuid(uuid)`: the first episode, shows in insertion
      order, whose uuid equals the argument. */
  function EpisodeByUuid(index: Index, u: Option<Uuid>): (r: Option<Episode>)
    ensures r.Some? ==> r.value.uuid == u && r.value in Episodes(index)
    ensures r.None? <==> forall e :: e in Episodes(index) ==> e.uuid != u
    ensures r.Some? ==> exists i :: (0 <= i < |Episodes(index)| && Episodes(index)[i] == r.value &&
      forall j :: 0 <= j < i ==> Episodes(index)[j].uuid != u)
  {
    var eps := Episodes(index);
    match FirstWithUuid(eps, u)
    case None => None
    case Some(i) => Some(eps[i])
  }
}

=== FILE: show_processor.dfy ===
/** The older enrichment path, `ShowProcessor`: shows and episodes are read
    from their pages and kept in a model cache keyed by UUID, where a
    show's host list is cached under the author's UUID as well. The page
    store, the microdata and JSON readers and `source.is_show` are supplied
    from outside, and so is the clock `datetime.now()` reads. */
module ShowProcessor {
  import opened Wrappers
  import opened Text
  import opened Values
  import opened Dicts
  import opened Models
  import opened Documents
  import opened SourceManager
  import Station
  import Utils
  import StationCatalog
  import Sorting

  const ShowFile := "/index.html"
  const EpisodeFile := "/player.json"

  /** What the model cache holds: a show, an episode, or the host list of
      an author. */
  datatype Cached = ShowItem(show: Show) | EpisodeItem(episode: Episode) | HostsItem(hosts: seq<Host>)

  /** `_model_cache`: a `None` UUID is a key like any other. */
  type Cache = PyDict<Option<Uuid>, Cached>

  /** The foreign parts of a processor: the page store and parsers, the
      source's `is_show`, and the time `datetime.now()` returns. */
  datatype Processor = Processor(env: Station.Env, isShow: string -> bool, now: DateTime)

  /** A result together with the cache after the call. */
  datatype Fetched<T> = Fetched(out: T, cache: Cache)

  /** Python truth of a cached value: a host list is false when empty. */
  predicate CachedTruthy(c: Cached) {
    !c.HostsItem? || |c.hosts| > 0
  }

  /** The cache only gains keys. */
  ghost predicate Grows(c: Cache, c': Cache) {
    forall k :: HasKey(c, k) ==> HasKey(c', k)
  }

  // ---------------------------------------------------------------------
  // Accessors
  // ---------------------------------------------------------------------

  /** `entity.url` of a cached value: a host list has no attribute `url`. */
  function UrlOf(c: Cached): Result<Option<string>> {
    match c
    case ShowItem(s) => Ok(s.url)
    case EpisodeItem(e) => Ok(e.url)
    case HostsItem(_) => Err(AttributeError("'list' object has no attribute 'url'"))
  }

  /** The first cached value, in insertion order, whose URL is `url`. */
  function FirstWithUrl(xs: seq<Cached>, url: string): (r: Result<Option<Cached>>)
    ensures r.Ok? && r.value.Some? ==> r.value.value in xs && UrlOf(r.value.value) == Ok(Some(url))
    ensures r.Ok? && r.value.None? ==> forall i :: 0 <= i < |xs| ==> UrlOf(xs[i]) != Ok(Some(url))
    ensures (forall i :: 0 <= i < |xs| ==> !xs[i].HostsItem?) ==> r.Ok?
    ensures (exists i :: 0 <= i < |xs| && UrlOf(xs[i]) == Ok(Some(url))) && (forall i :: 0 <= i < |xs| ==> !xs[i].HostsItem?)
      ==> r.Ok? && r.value.Some?
  {
    if |xs| == 0 then Ok(None)
    else
      assert forall i :: 1 <= i < |xs| ==> xs[i] == xs[1..][i - 1];
      var u :- UrlOf(xs[0]);
      if u == Some(url) then Ok(Some(xs[0])) else FirstWithUrl(xs[1..], url)
  }

  /** `get_show_by_url`: despite its name it returns whatever cached value
      has the URL, show or episode. */
  function ShowByUrl(cache: Cache, url: string): (r: Result<Option<Cached>>)
    ensures r.Ok? && r.value.Some? ==> r.value.value in Dicts.Values(cache) && UrlOf(r.value.value) == Ok(Some(url))
    ensures r.Ok? && r.value.None? ==> forall c :: c in Dicts.Values(cache) ==> UrlOf(c) != Ok(Some(url))
  {
    FirstWithUrl(Dicts.Values(cache), url)
  }

  /** `get_show_by_uuid`: the cache entry, or `None`. */
  function ShowByUuid(cache: Cache, u: Option<Uuid>): (r: Option<Cached>)
    ensures r.Some? <==> HasKey(cache, u)
    ensures r.Some? ==> (u, r.value) in cache
  {
    Dicts.Get(cache, u)
  }

  /** The shows among cached values, in order. */
  function ShowsOf(xs: seq<Cached>): (r: seq<Show>)
    ensures |r| <= |xs|
    ensures forall s :: s in r <==> ShowItem(s) in xs
  {
    if |xs| == 0 then []
    else
      assert forall i :: 1 <= i < |xs| ==> xs[i] == xs[1..][i - 1];
      (if xs[0].ShowItem? then [xs[0].show] else []) + ShowsOf(xs[1..])
  }

  /** The episodes among cached values, in order. */
  function EpisodesOf(xs: seq<Cached>): (r: seq<Episode>)
    ensures |r| <= |xs|
    ensures forall e :: e in r <==> EpisodeItem(e) in xs
  {
    if |xs| == 0 then []
    else
      assert forall i :: 1 <= i < |xs| ==> xs[i] == xs[1..][i - 1];
      (if xs[0].EpisodeItem? then [xs[0].episode] else []) + EpisodesOf(xs[1..])
  }

  /** `get_shows`: the cached shows, sorted, which orders them by URL;
      a TypeError when two of them cannot be ordered. */
  function Shows(cache: Cache): (r: Result<seq<Show>>)
    ensures r.Err? <==> !Sorting.Orderable(ShowsOf(Dicts.Values(cache)), ShowTuple)
    ensures r.Ok? ==> forall s :: s in r.value <==> ShowItem(s) in Dicts.Values(cache)
    ensures r.Ok? ==> forall i, j :: 0 <= i < j < |r.value| ==> Sorting.StrLe(r.value[i].url.GetOr(""), r.value[j].url.GetOr(""))
  {
    var shows := ShowsOf(Dicts.Values(cache));
    var r :- SortShows(shows);
    assert forall s :: s in r <==> s in multiset(r);
    Ok(r)
  }

  /** `get_episodes`: the cached episodes, in cache order. */
  function Episodes(cache: Cache): (r: seq<Episode>)
    ensures forall e :: e in r <==> EpisodeItem(e) in Dicts.Values(cache)
    ensures |r| <= |cache|
  {
    EpisodesOf(Dicts.Values(cache))
  }

  /** Caching a value under a new key keeps the other entries. */
  lemma PutGrows(cache: Cache, k: Option<Uuid>, v: Cached)
    ensures Grows(cache, Put(cache, k, v))
  {
    forall k' | HasKey(cache, k') ensures HasKey(Put(cache, k, v), k') {
      if k' != k {
        assert Dicts.Get(cache, k').Some?;
      }
    }
  }

  // ---------------------------------------------------------------------
  // _fetch_episode
  // ---------------------------------------------------------------------

  /** `url + "/player.json"`: only a string concatenates with a string. */
  function PlayerUrl(url: Option<Value>): (r: Result<string>)
    ensures r.Ok? <==> url.Some? && url.value.Str?
    ensures r.Ok? ==> r.value == url.value.s + EpisodeFile
  {
    match url
    case Some(Str(s)) => Ok(s + EpisodeFile)
    case Some(List(_)) => Err(TypeError("can only concatenate list (not \"str\") to list"))
    case Some(v) => Err(TypeError("unsupported operand type(s) for +: '" + TypeName(v) + "' and 'str'"))
    case None => Err(TypeError("unsupported operand type(s) for +: 'NoneType' and 'str'"))
  }

  /** `_fetch_episode(url, resource, uuid)` for a URL value: a cached UUID
      is answered from the cache; otherwise the player file is read, no
      file gives `None`, and data that is not truthy leaves `episode`
      unbound. An episode is cached only when it has a UUID. */
  function FetchEpisodeOf(p: Processor, cache: Cache, url: Option<Value>, res: Option<Resource>, uuid: Option<Uuid>)
    : (r: Result<Fetched<Option<Cached>>>)
    ensures uuid.Some? && HasKey(cache, uuid) ==> r == Ok(Fetched(Dicts.Get(cache, uuid), cache))
    ensures r.Ok? ==> Grows(cache, r.value.cache)
    ensures r.Ok? && r.value.out.None? ==> r.value.cache == cache
    ensures r.Ok? && !(uuid.Some? && HasKey(cache, uuid)) && r.value.out.Some? ==>
      r.value.out.value.EpisodeItem? && r.value.out.value.episode.resource == res
    ensures r.Ok? && !(uuid.Some? && HasKey(cache, uuid)) && r.value.out.Some? ==>
      (if r.value.out.value.episode.uuid.Some?
       then r.value.cache == Put(cache, r.value.out.value.episode.uuid, r.value.out.value)
       else r.value.cache == cache)
  {
    if uuid.Some? && HasKey(cache, uuid) then Ok(Fetched(Dicts.Get(cache, uuid), cache))
    else
      var path :- PlayerUrl(url);
      var env := p.env;
      var bytes :- GetReference(env.src, env.store, RelativePath(env.src, path));
      if bytes.None? then Ok(Fetched(None, cache))
      else
        var data :- env.json(bytes.value);
        if data.None? || !Truthy(data.value) then Err(UnboundLocalError("episode"))
        else
          var e :- Station.EpisodeFromJson(env.iso, data.value, res);
          if e.uuid.Some? then
            PutGrows(cache, e.uuid, EpisodeItem(e));
            Ok(Fetched(Some(EpisodeItem(e)), Put(cache, e.uuid, EpisodeItem(e))))
          else Ok(Fetched(Some(EpisodeItem(e)), cache))
  }

  /** `_fetch_episode` called with a string URL. */
  function FetchEpisode(p: Processor, cache: Cache, url: string, res: Option<Resource>, uuid: Option<Uuid>)
    : (r: Result<Fetched<Option<Cached>>>)
    ensures uuid.Some? && HasKey(cache, uuid) ==> r == Ok(Fetched(Dicts.Get(cache, uuid), cache))
    ensures r.Ok? ==> Grows(cache, r.value.cache)
    ensures r.Ok? && r.value.out.None? ==> r.value.cache == cache
  {
    FetchEpisodeOf(p, cache, Some(Str(url)), res, uuid)
  }

  /** A cached UUID is answered whatever the store holds: nothing is
      fetched. */
  lemma CachedEpisodeNoFetch(p: Processor, p': Processor, cache: Cache, url: string, res: Option<Resource>, uuid: Option<Uuid>)
    requires uuid.Some? && HasKey(cache, uuid)
    ensures FetchEpisode(p, cache, url, res, uuid) == FetchEpisode(p', cache, url, res, uuid)
  {
  }

  /** Without a player file there is no episode and the cache is as it
      was. */
  lemma MissingPlayerNoEpisode(p: Processor, cache: Cache, url: string, res: Option<Resource>, uuid: Option<Uuid>)
    requires !(uuid.Some? && HasKey(cache, uuid))
    requires GetReference(p.env.src, p.env.store, RelativePath(p.env.src, url + EpisodeFile)) == Ok(None)
    ensures FetchEpisode(p, cache, url, res, uuid) == Ok(Fetched(None, cache))
  {
  }

  /** An episode read without a UUID is returned but not cached; one with
      a UUID is cached under it. */
  lemma EpisodeCachedIffUuid(p: Processor, cache: Cache, url: string, res: Option<Resource>, uuid: Option<Uuid>)
    requires !(uuid.Some? && HasKey(cache, uuid))
    requires FetchEpisode(p, cache, url, res, uuid).Ok?
    requires FetchEpisode(p, cache, url, res, uuid).value.out.Some?
    ensures var f := FetchEpisode(p, cache, url, res, uuid).value;
      f.out.value.EpisodeItem? &&
      (f.out.value.episode.uuid.Some? ==> Dicts.Get(f.cache, f.out.value.episode.uuid) == f.out) &&
      (f.out.value.episode.uuid.None? ==> f.cache == cache)
  {
  }

  // ---------------------------------------------------------------------
  // _parse_hosts
  // ---------------------------------------------------------------------

  /** `uniq_by_uuid(hosts)` where `hosts` came from the cache: a host list
      is deduplicated; a show or an episode cached under the author's UUID
      cannot be indexed. */
  function DedupeHosts(entry: Cached): (r: Result<seq<Host>>)
    ensures entry.HostsItem? ==> r == Ok(Utils.Uniq(entry.hosts, StationCatalog.HostUuid, {}))
    ensures r.Ok? <==> entry.HostsItem?
  {
    match entry
    case HostsItem(hs) => Ok(Utils.Uniq(hs, StationCatalog.HostUuid, {}))
    case ShowItem(_) => Err(TypeError("'Show' object is not subscriptable"))
    case EpisodeItem(_) => Err(TypeError("'Episode' object is not subscriptable"))
  }

  /** The host list of the author: the cached value under the author's UUID
      when there is one, else a one-host list built from the item. */
  function AuthorEntry(cache: Cache, data: Value, a: Value, authorUuid: Option<Uuid>): (r: Result<Cached>)
    requires data.Dict?
    ensures authorUuid.Some? && HasKey(cache, authorUuid) ==> r == Ok(Dicts.Get(cache, authorUuid).value)
    ensures !(authorUuid.Some? && HasKey(cache, authorUuid)) && r.Ok? ==> r.value.HostsItem? && |r.value.hosts| == 1
  {
    if authorUuid.Some? && HasKey(cache, authorUuid) then Ok(Dicts.Get(cache, authorUuid).value)
    else
      var h :- Station.AuthorHost(data, a);
      Ok(HostsItem([h]))
  }

  /** `_parse_hosts(show_data)`: no author gives `[]` and leaves the cache;
      otherwise the author's host list, from the cache or built, is cached
      under the author's UUID when it has one, and deduplicated. */
  function ParseHosts(cache: Cache, data: Value): (r: Result<Fetched<seq<Host>>>)
    requires data.Dict?
    ensures Station.NoAuthor(data) ==> r == Ok(Fetched([], cache))
    ensures r.Ok? ==> Grows(cache, r.value.cache)
    ensures r.Ok? ==> forall i, j :: 0 <= i < j < |r.value.out| && r.value.out[i].uuid.Some? ==> r.value.out[i].uuid != r.value.out[j].uuid
  {
    var author :- Station.GetNested(data, "properties", "author");
    if author.None? || !Truthy(author.value) then Ok(Fetched([], cache))
    else
      var a := author.value;
      if !a.Dict? then Err(NoAttribute(a, "get"))
      else AuthorHosts(cache, data, a)
  }

  /** The hosts of an author given as a dict, cached under its UUID. */
  function AuthorHosts(cache: Cache, data: Value, a: Value): (r: Result<Fetched<seq<Host>>>)
    requires data.Dict? && a.Dict?
    ensures r.Ok? ==> Grows(cache, r.value.cache)
    ensures r.Ok? ==> forall i, j :: 0 <= i < j < |r.value.out| && r.value.out[i].uuid.Some? ==> r.value.out[i].uuid != r.value.out[j].uuid
  {
    var authorUuid :- Utils.ExtractUuidOf(Lookup(a.fields, "id"));
    var entry :- AuthorEntry(cache, data, a, authorUuid);
    var cache' := if authorUuid.Some? then Put(cache, authorUuid, entry) else cache;
    PutGrows(cache, authorUuid, entry);
    var hosts :- DedupeHosts(entry);
    Utils.UniqDistinct(entry.hosts, StationCatalog.HostUuid, {});
    Ok(Fetched(hosts, cache'))
  }

  // ---------------------------------------------------------------------
  // _fetch_show
  // ---------------------------------------------------------------------

  /** The show built from a `RadioSeries` item whose UUID is not cached yet,
      cached under that UUID after the hosts are parsed. */
  function NewShow(cache: Cache, url: string, res: Option<Resource>, data: Value, uuid: Option<Uuid>, lastUpdated: Option<DateTime>)
    : (r: Result<Fetched<Option<Cached>>>)
    requires Station.IsRadioSeries(data)
    ensures r.Ok? ==> r.value.out.Some? && r.value.out.value.ShowItem?
    ensures r.Ok? ==> var s := r.value.out.value.show;
      s.uuid == uuid && s.resource == res && s.episodes == [] && s.kind == Some(Station.RadioSeriesType) && s.lastUpdated == lastUpdated
    ensures r.Ok? ==> Dicts.Get(r.value.cache, uuid) == r.value.out
    ensures r.Ok? ==> Grows(cache, r.value.cache)
  {
    var props := Lookup(data.fields, "properties").GetOr(Dict([]));
    if !props.Dict? then Err(NoAttribute(props, "get"))
    else
      var hosts :- ParseHosts(cache, data);
      var title := match Lookup(data.fields, "name") case Some(Str(s)) => s case _ => AfterLast(url, '/');
      var show := Show(title, Station.AsStr(Lookup(props.fields, "mainEntityOfPage")), uuid, Station.AsStr(Lookup(props.fields, "description")),
        hosts.out, [], Some(Station.RadioSeriesType), lastUpdated, [], [], None, res);
      PutGrows(hosts.cache, uuid, ShowItem(show));
      Ok(Fetched(Some(ShowItem(show)), Put(hosts.cache, uuid, ShowItem(show))))
  }

  /** What a show page gives: no page, a page without a `RadioSeries`
      item, or that item. */
  datatype Page = NoPage | NoSeries | Series(data: Value)

  /** The page `url/index.html`, read and scanned for the show's item. */
  function ReadShowPage(p: Processor, url: string): (r: Result<Page>)
    ensures r.Ok? && r.value.Series? ==> Station.IsRadioSeries(r.value.data)
    ensures r == Ok(NoPage) <==> GetReference(p.env.src, p.env.store, RelativePath(p.env.src, url + ShowFile)) == Ok(None)
  {
    var env := p.env;
    var html :- GetReference(env.src, env.store, RelativePath(env.src, url + ShowFile));
    if html.None? then Ok(NoPage)
    else
      var items :- env.microdata(html.value, url);
      match Station.RadioSeriesItem(items)
      case None => Ok(NoSeries)
      case Some(data) => Ok(Series(data))
  }

  /** The UUID of a show item: its `id` must be present and a string. */
  function ItemUuid(data: Value): (r: Result<Option<Uuid>>)
    requires data.Dict?
    ensures Lookup(data.fields, "id").None? ==> r == Err(AssertionError("Failed to extract UUID!"))
    ensures r.Ok? ==> Station.AsStr(Lookup(data.fields, "id")).Some? && r.value == Utils.ExtractUuid(Station.AsStr(Lookup(data.fields, "id")).value)
  {
    var id := Lookup(data.fields, "id");
    if id.None? || id.value.Null? then Err(AssertionError("Failed to extract UUID!"))
    else Utils.ExtractUuidOf(id)
  }

  /** The show of a page's `RadioSeries` item: the cached value when its
      UUID is cached, else a new show cached under that UUID. */
  function ShowOfItem(p: Processor, cache: Cache, url: string, res: Option<Resource>, data: Value): (r: Result<Fetched<Option<Cached>>>)
    requires Station.IsRadioSeries(data)
    ensures ItemUuid(data).Err? ==> r == Err(ItemUuid(data).error)
    ensures ItemUuid(data).Ok? && HasKey(cache, ItemUuid(data).value) ==>
      r == Ok(Fetched(Dicts.Get(cache, ItemUuid(data).value), cache))
    ensures r.Ok? && !HasKey(cache, ItemUuid(data).value) ==> var f := r.value;
      f.out.Some? && f.out.value.ShowItem? && f.out.value.show.uuid == ItemUuid(data).value &&
      f.out.value.show.resource == res && Dicts.Get(f.cache, ItemUuid(data).value) == f.out
    ensures r.Ok? ==> Grows(cache, r.value.cache)
    ensures r.Ok? ==> r.value.out.Some? && r.value.out.value in Dicts.Values(r.value.cache)
  {
    var uuid :- ItemUuid(data);
    var lastUpdated := if res.Some? then Station.AsTime(Lookup(res.value.metadata, "lastmod")) else Some(p.now);
    if HasKey(cache, uuid) then
      var v := Dicts.Get(cache, uuid).value;
      assert v in Dicts.Values(cache) by {
        var i := FindKey(cache, uuid).value;
        assert Dicts.Values(cache)[i] == v;
      }
      Ok(Fetched(Some(v), cache))
    else
      var f :- NewShow(cache, url, res, data, uuid, lastUpdated);
      assert f.out.value in Dicts.Values(f.cache) by {
        var i := FindKey(f.cache, uuid).value;
        assert Dicts.Values(f.cache)[i] == f.out.value;
      }
      Ok(f)
  }

  /** `_fetch_show(url, resource)`: the page `url/index.html`, `None` when
      it cannot be read; a page without a `RadioSeries` item reaches the
      fallback branch, which reads `last_updated` before it is bound. */
  function FetchShow(p: Processor, cache: Cache, url: string, res: Option<Resource>): (r: Result<Fetched<Option<Cached>>>)
    ensures ReadShowPage(p, url) == Ok(NoPage) ==> r == Ok(Fetched(None, cache))
    ensures ReadShowPage(p, url) == Ok(NoSeries) ==> r == Err(UnboundLocalError("last_updated"))
    ensures ReadShowPage(p, url).Ok? && ReadShowPage(p, url).value.Series? ==> r == ShowOfItem(p, cache, url, res, ReadShowPage(p, url).value.data)
    ensures r.Ok? ==> Grows(cache, r.value.cache)
    ensures r.Ok? && r.value.out.None? ==> r.value.cache == cache
  {
    var page :- ReadShowPage(p, url);
    match page
    case NoPage => Ok(Fetched(None, cache))
    case NoSeries => Err(UnboundLocalError("last_updated"))
    case Series(data) => ShowOfItem(p, cache, url, res, data)
  }

  /** A show whose UUID is already cached is returned unchanged and the
      cache is left as it was, whatever resource is given. */
  lemma CachedShowUnchanged(p: Processor, cache: Cache, url: string, res: Option<Resource>, res': Option<Resource>, data: Value)
    requires ReadShowPage(p, url) == Ok(Series(data))
    requires ItemUuid(data).Ok? && HasKey(cache, ItemUuid(data).value)
    ensures FetchShow(p, cache, url, res) == Ok(Fetched(Dicts.Get(cache, ItemUuid(data).value), cache))
    ensures FetchShow(p, cache, url, res) == FetchShow(p, cache, url, res')
  {
  }

  // ---------------------------------------------------------------------
  // fetch
  // ---------------------------------------------------------------------

  /** `fetch(url, resource)`: a show URL, as the source judges it, is read
      as a show, anything else as an episode. */
  function Fetch(p: Processor, cache: Cache, url: string, res: Option<Resource>): (r: Result<Fetched<Option<Cached>>>)
    ensures p.isShow(url) ==> r == FetchShow(p, cache, url, res)
    ensures !p.isShow(url) ==> r == FetchEpisode(p, cache, url, res, None)
    ensures r.Ok? ==> Grows(cache, r.value.cache)
  {
    if p.isShow(url) then FetchShow(p, cache, url, res) else FetchEpisode(p, cache, url, res, None)
  }

  // ---------------------------------------------------------------------
  // _parse_episodes
  // ---------------------------------------------------------------------

  /** The UUID of a cached value; a host list is rejected before this is
      read. */
  function CachedUuid(c: Cached): Option<Uuid> {
    match c
    case ShowItem(s) => s.uuid
    case EpisodeItem(e) => e.uuid
    case HostsItem(_) => None
  }

  /** All values of the list are of the same kind as the first. */
  predicate SameKind(es: seq<Cached>) {
    forall i :: 0 <= i < |es| ==> (es[i].ShowItem? == es[0].ShowItem? && es[i].EpisodeItem? == es[0].EpisodeItem?)
  }

  /** `uniq_by_uuid` over what `_parse_episodes` collected: mixed kinds
      fail the assertion, a host list has no `uuid`, and otherwise the
      first value for each UUID is kept. */
  function DedupeEntries(es: seq<Cached>): (r: Result<seq<Cached>>)
    ensures r.Ok? ==> r.value == Utils.Uniq(es, CachedUuid, {})
    ensures r.Ok? <==> |es| == 0 || (SameKind(es) && !es[0].HostsItem?)
    ensures |es| > 0 && !SameKind(es) ==> r == Err(AssertionError("Mixed types provided to uniq_by_uuid"))
  {
    if |es| == 0 then Ok([])
    else if !SameKind(es) then Err(AssertionError("Mixed types provided to uniq_by_uuid"))
    else if es[0].HostsItem? then Err(AttributeError("'list' object has no attribute 'uuid'"))
    else Ok(Utils.Uniq(es, CachedUuid, {}))
  }

  /** One `ListItem` of the episode list: it must carry an `id`; one with
      neither a URL nor a UUID is skipped, and with both the UUID is passed
      on so that a cached episode is not fetched again. What the fetch
      gives is kept when it is truthy. */
  function ParseItem(p: Processor, cache: Cache, item: Value): (r: Result<Fetched<seq<Cached>>>)
    requires Station.IsListItem(item)
    ensures r.Ok? ==> Grows(cache, r.value.cache) && |r.value.out| <= 1
    ensures r.Ok? ==> forall c :: c in r.value.out ==> CachedTruthy(c)
    ensures Lookup(item.fields, "id").None? && Station.GetNested(item, "properties", "url").Ok? ==>
      r == Err(AssertionError("Failed to extract episode UUID!"))
  {
    var url :- Station.GetNested(item, "properties", "url");
    var id := Lookup(item.fields, "id");
    if id.None? || id.value.Null? then Err(AssertionError("Failed to extract episode UUID!"))
    else
      var u :- Utils.ExtractUuidOf(id);
      var hasUrl := url.Some? && Truthy(url.value);
      if !hasUrl && u.None? then Ok(Fetched([], cache))
      else
        var ep :- FetchEpisodeOf(p, cache, url, None, if hasUrl then u else None);
        Ok(Fetched(if ep.out.Some? && CachedTruthy(ep.out.value) then [ep.out.value] else [], ep.cache))
  }

  /** The loop of `_parse_episodes` over the listed items, in order; items
      that are not `ListItem` dicts are passed over. */
  function ParseItems(p: Processor, cache: Cache, items: seq<Value>): (r: Result<Fetched<seq<Cached>>>)
    ensures r.Ok? ==> Grows(cache, r.value.cache)
    ensures r.Ok? ==> |r.value.out| <= |items|
    ensures r.Ok? ==> forall c :: c in r.value.out ==> CachedTruthy(c)
    ensures (forall i :: 0 <= i < |items| ==> !Station.IsListItem(items[i])) ==> r == Ok(Fetched([], cache))
    decreases |items|
  {
    if |items| == 0 then Ok(Fetched([], cache))
    else
      assert forall i :: 1 <= i < |items| ==> items[i] == items[1..][i - 1];
      if !Station.IsListItem(items[0]) then ParseItems(p, cache, items[1..])
      else
        var one :- ParseItem(p, cache, items[0]);
        var rest :- ParseItems(p, one.cache, items[1..]);
        Ok(Fetched(one.out + rest.out, rest.cache))
  }

  /** `_parse_episodes(episode_data)`: the values the listed items give,
      deduplicated by UUID. */
  function ParseEpisodes(p: Processor, cache: Cache, data: Value): (r: Result<Fetched<seq<Cached>>>)
    ensures !Truthy(data) ==> r == Ok(Fetched([], cache))
    ensures r.Ok? ==> Grows(cache, r.value.cache)
    ensures r.Ok? ==> forall i, j :: 0 <= i < j < |r.value.out| && CachedUuid(r.value.out[i]).Some? ==>
      CachedUuid(r.value.out[i]) != CachedUuid(r.value.out[j])
  {
    if !Truthy(data) then Ok(Fetched([], cache))
    else
      var listed :- Station.GetNested(data, "properties", "itemListElement");
      var items :- Iterate(listed.GetOr(List([])));
      var st :- ParseItems(p, cache, items);
      var deduped :- DedupeEntries(st.out);
      Utils.UniqDistinct(st.out, CachedUuid, {});
      Ok(Fetched(deduped, st.cache))
  }
}

=== FILE: sitemap_processor.dfy ===
/** `SitemapProcessor` (kcrw_feed/sitemap_processor.py), the second
    generation of the sitemap reader: it walks every parsed sitemap for
    dicts carrying a `loc` key and keeps those of the music sections,
    keyed by their `loc`, as small entry dicts. */
module SitemapProcessor {
  import opened Wrappers
  import opened Text
  import opened Values
  import opened Dicts
  import opened Lists
  import opened Sorting
  import opened SourceManager
  import opened Classifiers
  import opened Documents

  const RobotsFile: string := "robots.txt"

  /** The keys an entry dict may carry, `loc` always. */
  predicate EntryKey(k: string) {
    k == "loc" || k == "lastmod" || k == "changefreq" || k == "priority"
  }

  /** `self._sitemap_entries`: `loc` to entry dict. */
  type EntryMap = PyDict<string, seq<Field>>

  // ---------------------------------------------------------------------
  // Entry dicts
  // ---------------------------------------------------------------------

  /** The key of `fields[i]` lowers to `name`. */
  predicate LowersTo(fields: seq<Field>, i: int, name: string)
    requires 0 <= i < |fields|
  {
    LowerStr(fields[i].key) == name
  }

  /** `{k.lower(): k for k in data.keys()}[name]`, as a position: of the
      keys that lower to `name`, the comprehension keeps the last. */
  function LastLower(fields: seq<Field>, name: string): (r: Option<nat>)
    ensures r.None? <==> forall i :: 0 <= i < |fields| ==> !LowersTo(fields, i, name)
    ensures r.Some? ==> r.value < |fields| && LowersTo(fields, r.value, name)
    ensures r.Some? ==> forall j :: r.value < j < |fields| ==> !LowersTo(fields, j, name)
  {
    if |fields| == 0 then None
    else
      var last := |fields| - 1;
      if LowersTo(fields, last, name) then Some(last)
      else
        var r := LastLower(fields[..last], name);
        assert forall i :: 0 <= i < last ==> LowersTo(fields[..last], i, name) == LowersTo(fields, i, name);
        r
  }

  /** `data[lower_keys[name]]`, when some key lowers to `name`. */
  function Pick(fields: seq<Field>, name: string): (r: Option<Value>)
    ensures r.Some? <==> LastLower(fields, name).Some?
  {
    match LastLower(fields, name)
    case None => None
    case Some(i) => Lookup(fields, fields[i].key)
  }

  /** The value under the `loc` key, if the dict is an entry. */
  function LocValue(fields: seq<Field>): Option<Value> {
    Pick(fields, "loc")
  }

  /** `entry[name] = data[lower_keys[name]]` when the key is there. */
  function Optional(fields: seq<Field>, name: string): (r: seq<Field>)
    ensures |r| <= 1 && forall j :: 0 <= j < |r| ==> r[j].key == name
  {
    match Pick(fields, name)
    case Some(v) => [Field(name, v)]
    case None => []
  }

  /** The entry dict built from a dict with a `loc` key: lower-case keys,
      `loc` first, then each optional key the dict has. */
  function Entry(fields: seq<Field>, loc: Value): (r: seq<Field>)
    ensures |r| > 0 && r[0] == Field("loc", loc)
    ensures forall j :: 0 <= j < |r| ==> EntryKey(r[j].key)
  {
    var a, b, c := Optional(fields, "lastmod"), Optional(fields, "changefreq"), Optional(fields, "priority");
    assert forall j :: 0 <= j < |b + c| ==> EntryKey((b + c)[j].key);
    assert forall j :: 0 <= j < |a + (b + c)| ==> EntryKey((a + (b + c))[j].key);
    assert [Field("loc", loc)] + a + b + c == [Field("loc", loc)] + (a + (b + c));
    [Field("loc", loc)] + a + b + c
  }

  /** An optional key is in the entry exactly when the dict has a key that
      lowers to it, and then with that key's value; `loc` is the value
      given. */
  lemma EntryOptional(fields: seq<Field>, loc: Value, name: string)
    requires name in {"lastmod", "changefreq", "priority"}
    ensures Lookup(Entry(fields, loc), name) == Pick(fields, name)
    ensures Lookup(Entry(fields, loc), "loc") == Some(loc)
  {
    var a, b, c := Optional(fields, "lastmod"), Optional(fields, "changefreq"), Optional(fields, "priority");
    var head := [Field("loc", loc)];
    LookupAppend(head + a + b, c, name);
    LookupAppend(head + a, b, name);
    LookupAppend(head, a, name);
    LookupAppend(head + a + b, c, "loc");
    LookupAppend(head + a, b, "loc");
    LookupAppend(head, a, "loc");
  }

  /** An entry stored under `k`: its `loc` is `k`, a music URL, and it has
      only entry keys. */
  predicate EntryShaped(k: string, e: seq<Field>) {
    |e| > 0 && e[0] == Field("loc", Str(k)) && MusicFilter(k) &&
    forall j :: 0 <= j < |e| ==> EntryKey(e[j].key)
  }

  /** Every stored entry is shaped, and no `loc` is stored twice. */
  predicate Shaped(d: EntryMap) {
    KeysUnique(d) && forall i :: 0 <= i < |d| ==> EntryShaped(d[i].0, d[i].1)
  }

  lemma PutShaped(d: EntryMap, fields: seq<Field>, s: string)
    requires Shaped(d) && MusicFilter(s)
    ensures Shaped(Put(d, s, Entry(fields, Str(s))))
  {
    var e := Entry(fields, Str(s));
    var r := Put(d, s, e);
    assert EntryShaped(s, e);
    PutPairs(d, s, e);
    forall i | 0 <= i < |r| ensures EntryShaped(r[i].0, r[i].1) {
      assert r[i] in r;
    }
  }

  /** `MUSIC_FILTER_RE.search(v)` on something that is not a string. */
  function SearchError(v: Value): PyError {
    TypeError("expected string or bytes-like object, got '" + TypeName(v) + "'")
  }

  // ---------------------------------------------------------------------
  // _extract_entries
  // ---------------------------------------------------------------------

  /** `_extract_entries(data)`: an entry dict is stored (when its `loc` is
      a music URL) and not looked into; the values of any other dict and
      the items of a list are walked in order. */
  function ExtractEntries(v: Value, d: EntryMap): (r: Result<EntryMap>)
    ensures r.Ok? ==> forall k :: HasKey(d, k) ==> HasKey(r.value, k)
    ensures r.Ok? && Shaped(d) ==> Shaped(r.value)
    decreases v
  {
    match v
    case Dict(fields) =>
      (match LocValue(fields)
       case Some(loc) =>
         if !loc.Str? then Err(SearchError(loc))
         else if MusicFilter(loc.s) then
           var r := Put(d, loc.s, Entry(fields, loc));
           assert forall k :: HasKey(d, k) ==> Dicts.Get(r, k).Some?;
           if Shaped(d) then PutShaped(d, fields, loc.s); Ok(r) else Ok(r)
         else Ok(d)
       case None => FieldsEntries(fields, d))
    case List(items) => ItemsEntries(items, d)
    case _ => Ok(d)
  }

  function FieldsEntries(fields: seq<Field>, d: EntryMap): (r: Result<EntryMap>)
    ensures r.Ok? ==> forall k :: HasKey(d, k) ==> HasKey(r.value, k)
    ensures r.Ok? && Shaped(d) ==> Shaped(r.value)
    decreases fields
  {
    if |fields| == 0 then Ok(d)
    else
      var d' :- ExtractEntries(fields[0].val, d);
      FieldsEntries(fields[1..], d')
  }

  function ItemsEntries(items: seq<Value>, d: EntryMap): (r: Result<EntryMap>)
    ensures r.Ok? ==> forall k :: HasKey(d, k) ==> HasKey(r.value, k)
    ensures r.Ok? && Shaped(d) ==> Shaped(r.value)
    decreases items
  {
    if |items| == 0 then Ok(d)
    else
      var d' :- ExtractEntries(items[0], d);
      ItemsEntries(items[1..], d')
  }

  /** `e` is an entry dict the walk reaches in `v`. */
  ghost predicate HasEntry(v: Value, e: seq<Field>)
    decreases v
  {
    match v
    case Dict(fields) =>
      if LocValue(fields).Some? then e == fields
      else exists i :: 0 <= i < |fields| && HasEntry(fields[i].val, e)
    case List(items) => exists i :: 0 <= i < |items| && HasEntry(items[i], e)
    case _ => false
  }

  predicate StrLoc(e: seq<Field>) {
    LocValue(e).Some? && LocValue(e).value.Str?
  }

  /** `k` is the `loc` of a reachable entry, and a music URL. */
  ghost predicate MusicLocIn(v: Value, k: string) {
    exists e :: HasEntry(v, e) && LocValue(e) == Some(Str(k)) && MusicFilter(k)
  }

  /** The walk raises exactly when some reachable entry's `loc` is not a
      string. */
  lemma {:induction false} ExtractEntriesOk(v: Value, d: EntryMap)
    ensures ExtractEntries(v, d).Ok? <==> forall e :: HasEntry(v, e) ==> StrLoc(e)
    decreases v, 1, 0
  {
    match v
    case Dict(fields) =>
      if LocValue(fields).None? {
        assert fields[0..] == fields;
        FieldsEntriesOk(v, 0, d);
        assert ExtractEntries(v, d) == FieldsEntries(fields, d);
        assert forall e :: HasEntry(v, e) <==> exists i :: 0 <= i < |fields| && HasEntry(fields[i].val, e);
      } else {
        assert HasEntry(v, fields);
        assert ExtractEntries(v, d).Ok? <==> StrLoc(fields);
      }
    case List(items) =>
      ItemsEntriesOk(v, 0, d);
      assert items[0..] == items;
    case _ =>
  }

  lemma {:induction false} FieldsEntriesOk(v: Value, k: nat, d: EntryMap)
    requires v.Dict? && k <= |v.fields|
    ensures FieldsEntries(v.fields[k..], d).Ok? <==>
      forall i, e :: k <= i < |v.fields| && HasEntry(v.fields[i].val, e) ==> StrLoc(e)
    decreases v, 0, |v.fields| - k
  {
    if k < |v.fields| {
      var f := v.fields[k];
      assert v.fields[k..][0] == f && v.fields[k..][1..] == v.fields[k + 1..];
      ExtractEntriesOk(f.val, d);
      match ExtractEntries(f.val, d)
      case Err(_) =>
      case Ok(d') => FieldsEntriesOk(v, k + 1, d');
    }
  }

  lemma {:induction false} ItemsEntriesOk(v: Value, k: nat, d: EntryMap)
    requires v.List? && k <= |v.items|
    ensures ItemsEntries(v.items[k..], d).Ok? <==>
      forall i, e :: k <= i < |v.items| && HasEntry(v.items[i], e) ==> StrLoc(e)
    decreases v, 0, |v.items| - k
  {
    if k < |v.items| {
      assert v.items[k..][0] == v.items[k] && v.items[k..][1..] == v.items[k + 1..];
      ExtractEntriesOk(v.items[k], d);
      match ExtractEntries(v.items[k], d)
      case Err(_) =>
      case Ok(d') => ItemsEntriesOk(v, k + 1, d');
    }
  }

  /** After the walk the map holds what it held before plus exactly the
      music `loc`s of the reachable entries. */
  lemma {:induction false} ExtractEntriesKeys(v: Value, d: EntryMap, key: string)
    requires ExtractEntries(v, d).Ok?
    ensures HasKey(ExtractEntries(v, d).value, key) <==> HasKey(d, key) || MusicLocIn(v, key)
    decreases v, 1, 0
  {
    match v
    case Dict(fields) =>
      if LocValue(fields).Some? {
        EntryDictKeys(fields, d, key);
      } else {
        assert fields[0..] == fields;
        FieldsEntriesKeys(v, 0, d, key);
        MusicLocInFields(fields, key);
      }
    case List(items) =>
      assert items[0..] == items;
      ItemsEntriesKeys(v, 0, d, key);
      MusicLocInItems(items, key);
    case _ =>
  }

  /** An entry dict adds its own `loc` when that is a music URL. */
  lemma EntryDictKeys(fields: seq<Field>, d: EntryMap, key: string)
    requires LocValue(fields).Some? && ExtractEntries(Dict(fields), d).Ok?
    ensures HasKey(ExtractEntries(Dict(fields), d).value, key) <==> HasKey(d, key) || MusicLocIn(Dict(fields), key)
  {
    var loc := LocValue(fields).value;
    assert forall e :: HasEntry(Dict(fields), e) <==> e == fields;
    if MusicFilter(loc.s) {
      var r := Put(d, loc.s, Entry(fields, loc));
      assert HasKey(r, key) <==> Dicts.Get(r, key).Some?;
      assert HasKey(d, key) <==> Dicts.Get(d, key).Some?;
    }
  }

  lemma MusicLocInFields(fields: seq<Field>, key: string)
    requires LocValue(fields).None?
    ensures MusicLocIn(Dict(fields), key) <==> exists i :: 0 <= i < |fields| && MusicLocIn(fields[i].val, key)
  {
    if MusicLocIn(Dict(fields), key) {
      var e :| HasEntry(Dict(fields), e) && LocValue(e) == Some(Str(key)) && MusicFilter(key);
      var i :| 0 <= i < |fields| && HasEntry(fields[i].val, e);
      assert MusicLocIn(fields[i].val, key);
    }
  }

  lemma MusicLocInItems(items: seq<Value>, key: string)
    ensures MusicLocIn(List(items), key) <==> exists i :: 0 <= i < |items| && MusicLocIn(items[i], key)
  {
    if MusicLocIn(List(items), key) {
      var e :| HasEntry(List(items), e) && LocValue(e) == Some(Str(key)) && MusicFilter(key);
      var i :| 0 <= i < |items| && HasEntry(items[i], e);
      assert MusicLocIn(items[i], key);
    }
  }

  lemma {:induction false} FieldsEntriesKeys(v: Value, k: nat, d: EntryMap, key: string)
    requires v.Dict? && k <= |v.fields|
    requires FieldsEntries(v.fields[k..], d).Ok?
    ensures HasKey(FieldsEntries(v.fields[k..], d).value, key) <==>
      HasKey(d, key) || exists i :: k <= i < |v.fields| && MusicLocIn(v.fields[i].val, key)
    decreases v, 0, |v.fields| - k
  {
    if k < |v.fields| {
      var f := v.fields[k];
      assert v.fields[k..][0] == f && v.fields[k..][1..] == v.fields[k + 1..];
      var d' := ExtractEntries(f.val, d).value;
      ExtractEntriesKeys(f.val, d, key);
      FieldsEntriesKeys(v, k + 1, d', key);
    }
  }

  lemma {:induction false} ItemsEntriesKeys(v: Value, k: nat, d: EntryMap, key: string)
    requires v.List? && k <= |v.items|
    requires ItemsEntries(v.items[k..], d).Ok?
    ensures HasKey(ItemsEntries(v.items[k..], d).value, key) <==>
      HasKey(d, key) || exists i :: k <= i < |v.items| && MusicLocIn(v.items[i], key)
    decreases v, 0, |v.items| - k
  {
    if k < |v.items| {
      assert v.items[k..][0] == v.items[k] && v.items[k..][1..] == v.items[k + 1..];
      var d' := ExtractEntries(v.items[k], d).value;
      ExtractEntriesKeys(v.items[k], d, key);
      ItemsEntriesKeys(v, k + 1, d', key);
    }
  }

  // ---------------------------------------------------------------------
  // find_sitemaps, read_sitemap, gather_shows
  // ---------------------------------------------------------------------

  /** `normalize_location(source_url, _)`, as a value: the processors
      below take it in place of the source URL. */
  type Locate = string -> Result<string>

  function Locator(base: string): Locate {
    s => NormalizeLocation(base, s)
  }

  /** `find_sitemaps`: the robots.txt sitemaps plus the extra ones resolved
      against the base, those naming a sitemap file, without repeats. An
      unreadable or empty robots.txt raises `FileNotFoundError`. */
  function FindSitemaps(locate: Locate, extras: seq<string>, store: Store, readers: Readers): (r: Result<seq<string>>)
    ensures r.Ok? ==> NoDuplicates(r.value) && forall u :: u in r.value ==> SitemapRe(u)
  {
    var path :- locate(RobotsFile);
    var b := GetFile(store, path);
    if Missing(b) then Err(FileNotFoundError("robots.txt not found at " + path))
    else
      var listed :- readers.robots(b.value);
      var added :- MapResult(extras, locate);
      SearchSitemapAllRe(listed + added);
      Ok(Distinct(Filter(listed + added, SearchSitemap)))
  }

  /** A missing robots.txt, or a base the location cannot be resolved
      against, is an error. */
  lemma FindSitemapsRobots(locate: Locate, extras: seq<string>, store: Store, readers: Readers)
    ensures locate(RobotsFile).Err? ==> FindSitemaps(locate, extras, store, readers) == Err(locate(RobotsFile).error)
    ensures locate(RobotsFile).Ok? && Missing(GetFile(store, locate(RobotsFile).value)) ==>
      FindSitemaps(locate, extras, store, readers) == Err(FileNotFoundError("robots.txt not found at " + locate(RobotsFile).value))
  {
  }

  /** The sitemaps found are exactly the robots.txt ones and the resolved
      extra ones that name a sitemap file. */
  lemma FindSitemapsMembers(locate: Locate, extras: seq<string>, store: Store, readers: Readers, u: string)
    requires FindSitemaps(locate, extras, store, readers).Ok?
    ensures locate(RobotsFile).Ok? && store[locate(RobotsFile).value] == GetFile(store, locate(RobotsFile).value).value
    ensures var listed := readers.robots(store[locate(RobotsFile).value]);
      var added := MapResult(extras, locate);
      listed.Ok? && added.Ok? &&
      (u in FindSitemaps(locate, extras, store, readers).value <==> (u in listed.value || u in added.value) && SitemapRe(u))
  {
    var path := locate(RobotsFile).value;
    var listed := readers.robots(store[path]).value;
    var added := MapResult(extras, locate).value;
    SearchSitemapAllRe(listed + added);
  }

  lemma SearchSitemapAllRe(urls: seq<string>)
    ensures forall u :: u in urls ==> (SearchSitemap(u) <==> SitemapRe(u))
  {
    forall u | u in urls {
      SearchSitemapIsRe(u);
    }
  }

  /** `read_sitemap`: an unreadable or empty file leaves the entries as
      they are; otherwise the parsed document is walked, and a parser
      error propagates. */
  function ReadSitemap(store: Store, readers: Readers, sitemap: string, d: EntryMap): (r: Result<EntryMap>)
    ensures Missing(GetFile(store, sitemap)) ==> r == Ok(d)
    ensures !Missing(GetFile(store, sitemap)) && readers.xml(store[sitemap]).Err?
      ==> r == Err(readers.xml(store[sitemap]).error)
    ensures r.Ok? ==> forall k :: HasKey(d, k) ==> HasKey(r.value, k)
    ensures r.Ok? && Shaped(d) ==> Shaped(r.value)
  {
    var b := GetFile(store, sitemap);
    if Missing(b) then Ok(d)
    else
      var doc :- readers.xml(b.value);
      ExtractEntries(Dict(doc), d)
  }

  /** `key` is the `loc` of a music entry in the readable sitemap. */
  ghost predicate SitemapMusicLoc(store: Store, readers: Readers, sitemap: string, key: string) {
    !Missing(GetFile(store, sitemap)) && readers.xml(store[sitemap]).Ok? &&
    MusicLocIn(Dict(readers.xml(store[sitemap]).value), key)
  }

  lemma ReadSitemapKeys(store: Store, readers: Readers, sitemap: string, d: EntryMap, key: string)
    requires ReadSitemap(store, readers, sitemap, d).Ok?
    ensures HasKey(ReadSitemap(store, readers, sitemap, d).value, key) <==>
      HasKey(d, key) || SitemapMusicLoc(store, readers, sitemap, key)
  {
    if !Missing(GetFile(store, sitemap)) {
      ExtractEntriesKeys(Dict(readers.xml(store[sitemap]).value), d, key);
    }
  }

  /** The loop of `gather_shows` over the sitemaps found. */
  function ReadSitemaps(store: Store, readers: Readers, sitemaps: seq<string>, d: EntryMap): (r: Result<EntryMap>)
    ensures r.Ok? ==> forall k :: HasKey(d, k) ==> HasKey(r.value, k)
    ensures r.Ok? && Shaped(d) ==> Shaped(r.value)
  {
    if |sitemaps| == 0 then Ok(d)
    else
      var d' :- ReadSitemap(store, readers, sitemaps[0], d);
      ReadSitemaps(store, readers, sitemaps[1..], d')
  }

  /** After the loop the entries are those from before plus exactly the
      music `loc`s of the sitemaps read. */
  lemma {:induction false} ReadSitemapsKeys(store: Store, readers: Readers, sitemaps: seq<string>, d: EntryMap, key: string)
    requires ReadSitemaps(store, readers, sitemaps, d).Ok?
    ensures HasKey(ReadSitemaps(store, readers, sitemaps, d).value, key) <==>
      HasKey(d, key) || exists i :: 0 <= i < |sitemaps| && SitemapMusicLoc(store, readers, sitemaps[i], key)
  {
    if |sitemaps| > 0 {
      var d' := ReadSitemap(store, readers, sitemaps[0], d).value;
      ReadSitemapKeys(store, readers, sitemaps[0], d, key);
      ReadSitemapsKeys(store, readers, sitemaps[1..], d', key);
      assert forall i :: 1 <= i < |sitemaps| ==> sitemaps[i] == sitemaps[1..][i - 1];
    }
  }

  /** `gather_shows(source)`: for `"sitemap"` the sorted `loc`s of all
      entries gathered so far; `"feed"` is a placeholder returning
      nothing; any other source raises `ValueError`. */
  function GatherShows(source: string, locate: Locate, extras: seq<string>, store: Store, readers: Readers, d: EntryMap)
    : (r: Result<seq<string>>)
    ensures source == "feed" ==> r == Ok([])
    ensures source != "sitemap" && source != "feed" ==> r == Err(ValueError("Unknown source type"))
    ensures r.Ok? ==> StringsSorted(r.value)
    ensures r.Ok? && Shaped(d) ==> NoDuplicates(r.value) && forall k :: k in r.value ==> MusicFilter(k)
  {
    if source == "sitemap" then
      var sitemaps :- FindSitemaps(locate, extras, store, readers);
      var entries :- ReadSitemaps(store, readers, sitemaps, d);
      var keys := Keys(entries);
      if Shaped(entries) then
        KeysOfShaped(entries);
        NoDuplicatesPerm(keys, SortStrings(keys));
        PermMembers(keys, SortStrings(keys));
        Ok(SortStrings(keys))
      else Ok(SortStrings(keys))
    else if source == "feed" then Ok([])
    else Err(ValueError("Unknown source type"))
  }

  lemma KeysOfShaped(d: EntryMap)
    requires Shaped(d)
    ensures NoDuplicates(Keys(d)) && forall k :: k in Keys(d) ==> MusicFilter(k)
  {
  }

  /** The shows gathered from the sitemaps are the entries held before
      and the music `loc`s of every sitemap found. */
  lemma GatherShowsMembers(locate: Locate, extras: seq<string>, store: Store, readers: Readers, d: EntryMap, key: string)
    requires GatherShows("sitemap", locate, extras, store, readers, d).Ok?
    ensures FindSitemaps(locate, extras, store, readers).Ok?
    ensures key in GatherShows("sitemap", locate, extras, store, readers, d).value <==>
      HasKey(d, key) || exists i :: (0 <= i < |FindSitemaps(locate, extras, store, readers).value| &&
        SitemapMusicLoc(store, readers, FindSitemaps(locate, extras, store, readers).value[i], key))
  {
    var sitemaps := FindSitemaps(locate, extras, store, readers).value;
    var entries := ReadSitemaps(store, readers, sitemaps, d).value;
    ReadSitemapsKeys(store, readers, sitemaps, d, key);
    PermMembers(Keys(entries), SortStrings(Keys(entries)));
    assert HasKey(entries, key) <==> key in Keys(entries);
  }
}

=== FILE: sorting.dfy ===
/** Python's `sorted` on a key: keys are compared lexicographically as
    integer sequences, which covers strings (code points), timestamps (one
    instant) and reversed timestamps (its negation). The sort is stable.
    Dataclasses declared with `order=True` compare as tuples of their
    fields, which can raise: `TupleLt` states that comparison and
    `SortTuples` the `sorted` built on it. */
module Sorting {
  import opened Wrappers

  /** Lexicographic order on integer sequences, as Python compares tuples
      and strings. */
  predicate LexLe(a: seq<int>, b: seq<int>)
    decreases |a|
  {
    if |a| == 0 then true
    else if |b| == 0 then false
    else if a[0] != b[0] then a[0] < b[0]
    else LexLe(a[1..], b[1..])
  }

  lemma {:induction false} LexTotal(a: seq<int>, b: seq<int>)
    ensures LexLe(a, b) || LexLe(b, a)
    decreases |a|
  {
    if |a| > 0 && |b| > 0 && a[0] == b[0] {
      LexTotal(a[1..], b[1..]);
    }
  }

  lemma {:induction false} LexTrans(a: seq<int>, b: seq<int>, c: seq<int>)
    requires LexLe(a, b) && LexLe(b, c)
    ensures LexLe(a, c)
    decreases |a|
  {
    if |a| > 0 && |b| > 0 && |c| > 0 && a[0] == b[0] && b[0] == c[0] {
      LexTrans(a[1..], b[1..], c[1..]);
    }
  }

  lemma {:induction false} LexAntisymmetric(a: seq<int>, b: seq<int>)
    requires LexLe(a, b) && LexLe(b, a)
    ensures a == b
    decreases |a|
  {
    if |a| > 0 && |b| > 0 {
      LexAntisymmetric(a[1..], b[1..]);
      assert a == [a[0]] + a[1..] && b == [b[0]] + b[1..];
    }
  }

  /** The code points of a string, its comparison key. */
  function Ords(s: string): (r: seq<int>)
    ensures |r| == |s|
    ensures forall i :: 0 <= i < |s| ==> r[i] == s[i] as int
  {
    if |s| == 0 then [] else [s[0] as int] + Ords(s[1..])
  }

  lemma {:induction false} OrdsInjective(a: string, b: string)
    requires Ords(a) == Ords(b)
    ensures a == b
  {
    assert |a| == |b|;
    forall i | 0 <= i < |a| ensures a[i] == b[i] {
      assert Ords(a)[i] == Ords(b)[i];
    }
  }

  /** Python's `str` ordering, character by character. */
  predicate StrLe(a: string, b: string)
    decreases |a|
  {
    if |a| == 0 then true
    else if |b| == 0 then false
    else if a[0] != b[0] then a[0] < b[0]
    else StrLe(a[1..], b[1..])
  }

  /** Comparing code-point keys is comparing the strings. */
  lemma {:induction false} LexOrdsIsStrLe(a: string, b: string)
    ensures LexLe(Ords(a), Ords(b)) <==> StrLe(a, b)
    decreases |a|
  {
    if |a| > 0 && |b| > 0 {
      assert Ords(a)[1..] == Ords(a[1..]);
      assert Ords(b)[1..] == Ords(b[1..]);
      LexOrdsIsStrLe(a[1..], b[1..]);
    }
  }

  predicate SortedBy<T>(xs: seq<T>, key: T -> seq<int>) {
    forall i, j :: 0 <= i < j < |xs| ==> LexLe(key(xs[i]), key(xs[j]))
  }

  /** Insert `x` after every element whose key is not greater (stable). */
  function Insert<T(==)>(x: T, xs: seq<T>, key: T -> seq<int>): (r: seq<T>)
    requires SortedBy(xs, key)
    ensures SortedBy(r, key)
    ensures multiset(r) == multiset(xs) + multiset{x}
    ensures |r| == |xs| + 1
  {
    if |xs| == 0 then [x]
    else
      var last := xs[|xs| - 1];
      var init := xs[..|xs| - 1];
      assert xs == init + [last];
      if LexLe(key(last), key(x)) then
        InsertAtEnd(x, xs, key);
        xs + [x]
      else
        LexTotal(key(last), key(x));
        var r' := Insert(x, init, key);
        InsertBelow(x, init, last, r', key);
        r' + [last]
  }

  lemma InsertAtEnd<T>(x: T, xs: seq<T>, key: T -> seq<int>)
    requires SortedBy(xs, key) && |xs| > 0
    requires LexLe(key(xs[|xs| - 1]), key(x))
    ensures SortedBy(xs + [x], key)
  {
    var r := xs + [x];
    forall i, j | 0 <= i < j < |r| ensures LexLe(key(r[i]), key(r[j])) {
      if j == |xs| && i < |xs| - 1 {
        LexTrans(key(xs[i]), key(xs[|xs| - 1]), key(x));
      }
    }
  }

  lemma InsertBelow<T>(x: T, init: seq<T>, last: T, r': seq<T>, key: T -> seq<int>)
    requires SortedBy(init + [last], key)
    requires LexLe(key(x), key(last))
    requires SortedBy(r', key)
    requires multiset(r') == multiset(init) + multiset{x}
    ensures SortedBy(r' + [last], key)
  {
    var xs := init + [last];
    forall y | y in r' ensures LexLe(key(y), key(last)) {
      assert y in multiset(r');
      if y != x {
        assert y in multiset(init);
        var k :| 0 <= k < |init| && init[k] == y;
        assert xs[k] == y && xs[|init|] == last;
      }
    }
    var r := r' + [last];
    forall i, j | 0 <= i < j < |r| ensures LexLe(key(r[i]), key(r[j])) {
      if j == |r'| {
        assert r[i] in r';
      }
    }
  }

  /** `sorted(xs, key=...)`. */
  function SortBy<T(==)>(xs: seq<T>, key: T -> seq<int>): (r: seq<T>)
    ensures SortedBy(r, key)
    ensures multiset(r) == multiset(xs)
    ensures |r| == |xs|
  {
    if |xs| == 0 then []
    else
      assert xs == xs[..|xs| - 1] + [xs[|xs| - 1]];
      Insert(xs[|xs| - 1], SortBy(xs[..|xs| - 1], key), key)
  }

  /** Sortedness of string keys, reading each key as its code points. */
  predicate StringsSorted(xs: seq<string>) {
    SortedBy(xs, Ords)
  }

  /** `sorted(xs)` on strings. */
  function SortStrings(xs: seq<string>): (r: seq<string>)
    ensures StringsSorted(r)
    ensures multiset(r) == multiset(xs)
  {
    SortBy(xs, Ords)
  }

  // ---------------------------------------------------------------------
  // Dataclass ordering: tuples of fields

  /** One field of a comparison tuple, by what Python can order it
      against: `None`, a `str`, a `uuid.UUID` (its hexadecimal digits), a
      naive `datetime` (its reading) or an aware one (its instant). */
  datatype Atom = NoneAtom | StrAtom(s: string) | IdAtom(hex: string) | NaiveAtom(t: int) | AwareAtom(t: int)

  function KindName(a: Atom): string {
    match a
    case NoneAtom => "NoneType"
    case StrAtom(_) => "str"
    case IdAtom(_) => "UUID"
    case NaiveAtom(_) => "datetime.datetime"
    case AwareAtom(_) => "datetime.datetime"
  }

  /** Python's `<` on two fields. Only fields of one kind are ordered;
      a naive and an aware datetime, or `None` and anything, raise. */
  function AtomLt(a: Atom, b: Atom): (r: Result<bool>)
    ensures r.Ok? <==> ((a.StrAtom? && b.StrAtom?) || (a.IdAtom? && b.IdAtom?)
      || (a.NaiveAtom? && b.NaiveAtom?) || (a.AwareAtom? && b.AwareAtom?))
    ensures r.Err? ==> r.error.TypeError?
  {
    match (a, b)
    case (StrAtom(x), StrAtom(y)) => Ok(x != y && StrLe(x, y))
    case (IdAtom(x), IdAtom(y)) => Ok(x != y && StrLe(x, y))
    case (NaiveAtom(x), NaiveAtom(y)) => Ok(x < y)
    case (AwareAtom(x), AwareAtom(y)) => Ok(x < y)
    case (NaiveAtom(_), AwareAtom(_)) => Err(TypeError("can't compare offset-naive and offset-aware datetimes"))
    case (AwareAtom(_), NaiveAtom(_)) => Err(TypeError("can't compare offset-naive and offset-aware datetimes"))
    case _ => Err(TypeError("'<' not supported between instances of '" + KindName(a) + "' and '" + KindName(b) + "'"))
  }

  /** Python's `<` on tuples: the first pair of fields that differ decides,
      and a tuple that runs out first is the smaller. */
  function TupleLt(a: seq<Atom>, b: seq<Atom>): Result<bool>
    decreases |a|
  {
    if |a| == 0 || |b| == 0 then Ok(|a| < |b|)
    else if a[0] != b[0] then AtomLt(a[0], b[0])
    else TupleLt(a[1..], b[1..])
  }

  /** Two tuples Python can order. */
  predicate Comparable(a: seq<Atom>, b: seq<Atom>) {
    TupleLt(a, b).Ok?
  }

  /** Code points shifted up by one, so that 0 can end a string. */
  function Shifted(s: string): (r: seq<int>)
    ensures |r| == |s|
    ensures forall i :: 0 <= i < |s| ==> r[i] == s[i] as int + 1
  {
    if |s| == 0 then [] else [s[0] as int + 1] + Shifted(s[1..])
  }

  /** A field as integers: a kind tag, then the value; no field's code is
      a proper prefix of another's. */
  function AtomCode(a: Atom): (r: seq<int>)
    ensures |r| > 0
  {
    match a
    case NoneAtom => [0]
    case StrAtom(x) => [1] + Shifted(x) + [0]
    case IdAtom(x) => [2] + Shifted(x) + [0]
    case NaiveAtom(t) => [3, t]
    case AwareAtom(t) => [4, t]
  }

  /** A tuple as integers: its fields' codes in order. */
  function TupleCode(a: seq<Atom>): seq<int>
    decreases |a|
  {
    if |a| == 0 then [] else AtomCode(a[0]) + TupleCode(a[1..])
  }

  lemma LexCons(x: int, u: seq<int>, y: int, v: seq<int>)
    ensures LexLe([x] + u, [y] + v) <==> x < y || (x == y && LexLe(u, v))
  {
    assert ([x] + u)[1..] == u && ([y] + v)[1..] == v;
  }

  /** A common prefix does not decide. */
  lemma {:induction false} LexPrefix(p: seq<int>, u: seq<int>, v: seq<int>)
    ensures LexLe(p + u, p + v) <==> LexLe(u, v)
    decreases |p|
  {
    if |p| > 0 {
      assert (p + u)[0] == (p + v)[0] == p[0];
      assert (p + u)[1..] == p[1..] + u && (p + v)[1..] == p[1..] + v;
      LexPrefix(p[1..], u, v);
    } else {
      assert p + u == u && p + v == v;
    }
  }

  /** Two different strings, each ended by 0, are decided inside their
      codes, the way Python orders them. */
  lemma {:induction false} LexShifted(x: string, y: string, u: seq<int>, v: seq<int>)
    requires x != y
    ensures LexLe(Shifted(x) + [0] + u, Shifted(y) + [0] + v) <==> StrLe(x, y)
    decreases |x|
  {
    if |x| == 0 {
      assert Shifted(x) + [0] + u == [0] + u;
      assert Shifted(y) + [0] + v == [y[0] as int + 1] + (Shifted(y)[1..] + [0] + v);
      LexCons(0, u, y[0] as int + 1, Shifted(y)[1..] + [0] + v);
    } else if |y| == 0 {
      assert Shifted(y) + [0] + v == [0] + v;
      assert Shifted(x) + [0] + u == [x[0] as int + 1] + (Shifted(x)[1..] + [0] + u);
      LexCons(x[0] as int + 1, Shifted(x)[1..] + [0] + u, 0, v);
    } else {
      assert Shifted(x)[1..] == Shifted(x[1..]) && Shifted(y)[1..] == Shifted(y[1..]);
      assert Shifted(x) + [0] + u == [x[0] as int + 1] + (Shifted(x[1..]) + [0] + u);
      assert Shifted(y) + [0] + v == [y[0] as int + 1] + (Shifted(y[1..]) + [0] + v);
      LexCons(x[0] as int + 1, Shifted(x[1..]) + [0] + u, y[0] as int + 1, Shifted(y[1..]) + [0] + v);
      if x[0] == y[0] {
        assert x == [x[0]] + x[1..] && y == [y[0]] + y[1..];
        LexShifted(x[1..], y[1..], u, v);
      }
    }
  }

  /** Different fields of one kind are decided inside their codes, as
      Python's `<` decides them. */
  lemma AtomCodeOrder(a: Atom, b: Atom, u: seq<int>, v: seq<int>)
    requires a != b && AtomLt(a, b).Ok?
    ensures LexLe(AtomCode(a) + u, AtomCode(b) + v) <==> AtomLt(a, b) == Ok(true)
  {
    match (a, b)
    case (StrAtom(x), StrAtom(y)) =>
      assert AtomCode(a) + u == [1] + (Shifted(x) + [0] + u);
      assert AtomCode(b) + v == [1] + (Shifted(y) + [0] + v);
      LexCons(1, Shifted(x) + [0] + u, 1, Shifted(y) + [0] + v);
      LexShifted(x, y, u, v);
    case (IdAtom(x), IdAtom(y)) =>
      assert AtomCode(a) + u == [2] + (Shifted(x) + [0] + u);
      assert AtomCode(b) + v == [2] + (Shifted(y) + [0] + v);
      LexCons(2, Shifted(x) + [0] + u, 2, Shifted(y) + [0] + v);
      LexShifted(x, y, u, v);
    case (NaiveAtom(x), NaiveAtom(y)) =>
      assert AtomCode(a) + u == [3] + ([x] + u) && AtomCode(b) + v == [3] + ([y] + v);
      LexCons(3, [x] + u, 3, [y] + v);
      LexCons(x, u, y, v);
    case (AwareAtom(x), AwareAtom(y)) =>
      assert AtomCode(a) + u == [4] + ([x] + u) && AtomCode(b) + v == [4] + ([y] + v);
      LexCons(4, [x] + u, 4, [y] + v);
      LexCons(x, u, y, v);
  }

  lemma {:induction false} StrLeRefl(x: string)
    ensures StrLe(x, x)
    decreases |x|
  {
    if |x| > 0 {
      StrLeRefl(x[1..]);
    }
  }

  /** Python's `<` on fields of one kind is a strict total order. */
  lemma AtomLtTotal(a: Atom, b: Atom)
    requires a != b && AtomLt(a, b).Ok?
    ensures AtomLt(b, a).Ok? && (AtomLt(a, b) == Ok(true) <==> AtomLt(b, a) == Ok(false))
  {
    match (a, b)
    case (StrAtom(x), StrAtom(y)) => StrLeTotal(x, y);
    case (IdAtom(x), IdAtom(y)) => StrLeTotal(x, y);
    case (NaiveAtom(x), NaiveAtom(y)) =>
    case (AwareAtom(x), AwareAtom(y)) =>
  }

  lemma StrLeTotal(x: string, y: string)
    requires x != y
    ensures StrLe(x, y) <==> !StrLe(y, x)
  {
    LexOrdsIsStrLe(x, y);
    LexOrdsIsStrLe(y, x);
    LexTotal(Ords(x), Ords(y));
    if StrLe(x, y) && StrLe(y, x) {
      LexAntisymmetric(Ords(x), Ords(y));
      OrdsInjective(x, y);
    }
  }

  /** A tuple's code: its first field's, then the rest's. */
  lemma TupleCodeCons(a: seq<Atom>)
    requires |a| > 0
    ensures TupleCode(a) == AtomCode(a[0]) + TupleCode(a[1..])
  {
  }

  /** Tuples whose first fields differ are decided there. */
  lemma TupleCodeHead(a: seq<Atom>, b: seq<Atom>)
    requires |a| > 0 && |b| > 0 && a[0] != b[0] && AtomLt(a[0], b[0]).Ok?
    ensures TupleLt(a, b) == Ok(true) <==> LexLe(TupleCode(a), TupleCode(b)) && TupleCode(a) != TupleCode(b)
  {
    var (u, v) := (TupleCode(a[1..]), TupleCode(b[1..]));
    TupleCodeCons(a);
    TupleCodeCons(b);
    AtomCodeOrder(a[0], b[0], u, v);
    AtomLtTotal(a[0], b[0]);
    AtomCodeOrder(b[0], a[0], v, u);
  }

  /** The codes order comparable tuples exactly as Python's `<` does:
      strictly below in the code order is `<`. */
  lemma {:induction false} TupleCodeOrder(a: seq<Atom>, b: seq<Atom>)
    requires Comparable(a, b)
    ensures TupleLt(a, b) == Ok(true) <==> LexLe(TupleCode(a), TupleCode(b)) && TupleCode(a) != TupleCode(b)
    decreases |a|
  {
    if |a| == 0 || |b| == 0 {
      if |b| > 0 {
        TupleCodeCons(b);
      }
      if |a| > 0 {
        TupleCodeCons(a);
      }
    } else if a[0] != b[0] {
      TupleCodeHead(a, b);
    } else {
      var (p, u, v) := (AtomCode(a[0]), TupleCode(a[1..]), TupleCode(b[1..]));
      TupleCodeOrder(a[1..], b[1..]);
      LexPrefix(p, u, v);
      TupleCodeCons(a);
      TupleCodeCons(b);
      assert (p + u)[|p|..] == u && (p + v)[|p|..] == v;
      assert TupleLt(a, b) == TupleLt(a[1..], b[1..]);
    }
  }

  /** What a tuple comparison raises is a TypeError. */
  lemma {:induction false} TupleLtRaisesTypeError(a: seq<Atom>, b: seq<Atom>)
    ensures TupleLt(a, b).Err? ==> TupleLt(a, b).error.TypeError?
    decreases |a|
  {
    if |a| > 0 && |b| > 0 && a[0] == b[0] {
      TupleLtRaisesTypeError(a[1..], b[1..]);
    }
  }

  /** Comparability does not depend on the order of the operands. */
  lemma {:induction false} ComparableSymmetric(a: seq<Atom>, b: seq<Atom>)
    requires Comparable(a, b)
    ensures Comparable(b, a)
    decreases |a|
  {
    if |a| > 0 && |b| > 0 {
      if a[0] != b[0] {
        AtomLtTotal(a[0], b[0]);
      } else {
        ComparableSymmetric(a[1..], b[1..]);
      }
    }
  }

  /** In the code order, an earlier comparable tuple is never `>` a later
      one. */
  lemma NotBelow(a: seq<Atom>, b: seq<Atom>)
    requires Comparable(a, b) && LexLe(TupleCode(a), TupleCode(b))
    ensures TupleLt(b, a) == Ok(false)
  {
    ComparableSymmetric(a, b);
    TupleCodeOrder(b, a);
    if TupleLt(b, a) == Ok(true) {
      LexAntisymmetric(TupleCode(a), TupleCode(b));
      assert false;
    }
    assert TupleLt(b, a).Ok? && TupleLt(b, a).value != true;
  }

  /** A tuple is comparable with itself (and not below itself). */
  lemma {:induction false} ComparableSelf(t: seq<Atom>)
    ensures TupleLt(t, t) == Ok(false)
    decreases |t|
  {
    if |t| > 0 {
      ComparableSelf(t[1..]);
    }
  }

  /** Every two of the values can be ordered by their tuples. */
  predicate Orderable<T>(xs: seq<T>, fields: T -> seq<Atom>) {
    forall i, j :: 0 <= i < j < |xs| ==> Comparable(fields(xs[i]), fields(xs[j]))
  }

  /** The TypeError of the first value of `xs` whose tuple `t` cannot be
      ordered against. */
  function ClashWith<T>(t: seq<Atom>, xs: seq<T>, fields: T -> seq<Atom>): (r: Option<PyError>)
    ensures r.None? <==> forall j :: 0 <= j < |xs| ==> Comparable(t, fields(xs[j]))
    ensures r.Some? ==> exists j :: 0 <= j < |xs| && TupleLt(t, fields(xs[j])) == Err(r.value)
    decreases |xs|
  {
    if |xs| == 0 then None
    else if !Comparable(t, fields(xs[0])) then Some(TupleLt(t, fields(xs[0])).error)
    else
      var rest := ClashWith(t, xs[1..], fields);
      assert forall j :: 1 <= j < |xs| ==> xs[j] == xs[1..][j - 1];
      rest
  }

  /** The first pair of values, in input order, that cannot be ordered:
      its TypeError. */
  function Clash<T>(xs: seq<T>, fields: T -> seq<Atom>): (r: Option<PyError>)
    ensures r.None? <==> Orderable(xs, fields)
    ensures r.Some? ==> exists i, j :: 0 <= i < j < |xs| && TupleLt(fields(xs[i]), fields(xs[j])) == Err(r.value)
    decreases |xs|
  {
    if |xs| == 0 then None
    else
      var first := ClashWith(fields(xs[0]), xs[1..], fields);
      var rest := Clash(xs[1..], fields);
      assert forall i :: 1 <= i < |xs| ==> xs[i] == xs[1..][i - 1];
      if first.Some? then
        var j :| 0 <= j < |xs[1..]| && TupleLt(fields(xs[0]), fields(xs[1..][j])) == Err(first.value);
        assert TupleLt(fields(xs[0]), fields(xs[j + 1])) == Err(first.value);
        first
      else if rest.Some? then
        var i, j :| 0 <= i < j < |xs[1..]| && TupleLt(fields(xs[1..][i]), fields(xs[1..][j])) == Err(rest.value);
        assert TupleLt(fields(xs[i + 1]), fields(xs[j + 1])) == Err(rest.value);
        rest
      else
        assert Orderable(xs, fields) by {
          forall i, j | 0 <= i < j < |xs| ensures Comparable(fields(xs[i]), fields(xs[j])) {
            if i > 0 {
              assert Comparable(fields(xs[1..][i - 1]), fields(xs[1..][j - 1]));
            } else {
              assert Comparable(fields(xs[0]), fields(xs[1..][j - 1]));
            }
          }
        }
        None
  }

  /** Any two values drawn from an orderable sequence can be ordered. */
  lemma MembersComparable<T>(xs: seq<T>, fields: T -> seq<Atom>, a: T, b: T)
    requires Orderable(xs, fields) && a in xs && b in xs
    ensures Comparable(fields(a), fields(b))
  {
    var p :| 0 <= p < |xs| && xs[p] == a;
    var q :| 0 <= q < |xs| && xs[q] == b;
    if p == q {
      ComparableSelf(fields(a));
    } else if q < p {
      ComparableSymmetric(fields(b), fields(a));
    }
  }

  /** `sorted(xs)` on dataclass values whose comparison tuples `fields`
      gives: a TypeError when two of them cannot be ordered, else the
      stable sort, in which no value is `<` one before it. */
  function SortTuples<T(==)>(xs: seq<T>, fields: T -> seq<Atom>): (r: Result<seq<T>>)
    ensures r.Err? <==> !Orderable(xs, fields)
    ensures r.Err? ==> exists i, j :: 0 <= i < j < |xs| && TupleLt(fields(xs[i]), fields(xs[j])) == Err(r.error)
    ensures r.Err? ==> r.error.TypeError?
    ensures r.Ok? ==> multiset(r.value) == multiset(xs)
    ensures r.Ok? ==> forall i, j :: 0 <= i < j < |r.value| ==> TupleLt(fields(r.value[j]), fields(r.value[i])) == Ok(false)
  {
    var c := Clash(xs, fields);
    if c.Some? then
      var i, j :| 0 <= i < j < |xs| && TupleLt(fields(xs[i]), fields(xs[j])) == Err(c.value);
      TupleLtRaisesTypeError(fields(xs[i]), fields(xs[j]));
      Err(c.value)
    else
      var r := SortBy(xs, x => TupleCode(fields(x)));
      forall i, j | 0 <= i < j < |r| ensures TupleLt(fields(r[j]), fields(r[i])) == Ok(false) {
        assert r[i] in multiset(xs) && r[j] in multiset(xs);
        MembersComparable(xs, fields, r[i], r[j]);
        NotBelow(fields(r[i]), fields(r[j]));
      }
      Ok(r)
  }

  /** Two values whose tuples are strictly ordered come out in that order,
      whichever order they came in. */
  lemma SortTwo<T>(a: T, b: T, fields: T -> seq<Atom>)
    requires TupleLt(fields(a), fields(b)) == Ok(true)
    ensures SortTuples([a, b], fields) == Ok([a, b]) && SortTuples([b, a], fields) == Ok([a, b])
    ensures SortTuplesDescending([a, b], fields) == Ok([b, a]) && SortTuplesDescending([b, a], fields) == Ok([b, a])
  {
    ComparableSymmetric(fields(a), fields(b));
    ComparableSelf(fields(a));
    assert Orderable([a, b], fields) && Orderable([b, a], fields);
    SortTwoUp(a, b, fields, [a, b]);
    SortTwoUp(a, b, fields, [b, a]);
    SortTwoDown(a, b, fields, [a, b]);
    SortTwoDown(a, b, fields, [b, a]);
  }

  lemma SortTwoUp<T>(a: T, b: T, fields: T -> seq<Atom>, xs: seq<T>)
    requires TupleLt(fields(a), fields(b)) == Ok(true) && a != b
    requires xs == [a, b] || xs == [b, a]
    requires Orderable(xs, fields)
    ensures SortTuples(xs, fields) == Ok([a, b])
  {
    var r := SortTuples(xs, fields).value;
    assert multiset(xs) == multiset{a, b};
    TwoOf(r, a, b);
  }

  lemma SortTwoDown<T>(a: T, b: T, fields: T -> seq<Atom>, xs: seq<T>)
    requires TupleLt(fields(a), fields(b)) == Ok(true) && a != b
    requires xs == [a, b] || xs == [b, a]
    requires Orderable(xs, fields)
    ensures SortTuplesDescending(xs, fields) == Ok([b, a])
  {
    var r := SortTuplesDescending(xs, fields).value;
    assert multiset(xs) == multiset{a, b};
    TwoOf(r, a, b);
  }

  /** A sequence holding exactly `a` and `b` is one of their two orders. */
  lemma TwoOf<T>(r: seq<T>, a: T, b: T)
    requires a != b && multiset(r) == multiset{a, b}
    ensures r == [a, b] || r == [b, a]
  {
    assert |r| == 2;
    assert r[0] in multiset(r) && r[1] in multiset(r);
  }

  function Reverse<T>(xs: seq<T>): (r: seq<T>)
    ensures |r| == |xs| && forall i :: 0 <= i < |xs| ==> r[i] == xs[|xs| - 1 - i]
  {
    seq(|xs|, i requires 0 <= i < |xs| => xs[|xs| - 1 - i])
  }

  lemma {:induction false} ReverseMultiset<T>(xs: seq<T>)
    ensures multiset(Reverse(xs)) == multiset(xs)
    decreases |xs|
  {
    if |xs| > 0 {
      var r := Reverse(xs);
      assert r == Reverse(xs[1..]) + [xs[0]];
      ReverseMultiset(xs[1..]);
      assert xs == [xs[0]] + xs[1..];
    }
  }

  /** Reversing a sequence sorted by code gives one in which no value is
      `<` a later one. */
  lemma ReversedNotBelow<T>(xs: seq<T>, fields: T -> seq<Atom>, s: seq<T>)
    requires Orderable(xs, fields) && multiset(s) == multiset(xs)
    requires forall i, j :: 0 <= i < j < |s| ==> LexLe(TupleCode(fields(s[i])), TupleCode(fields(s[j])))
    ensures forall i, j :: 0 <= i < j < |s| ==> TupleLt(fields(Reverse(s)[i]), fields(Reverse(s)[j])) == Ok(false)
  {
    var r := Reverse(s);
    forall i, j | 0 <= i < j < |r| ensures TupleLt(fields(r[i]), fields(r[j])) == Ok(false) {
      var (p, q) := (|s| - 1 - j, |s| - 1 - i);
      assert r[i] == s[q] && r[j] == s[p] && p < q;
      assert s[p] in multiset(xs) && s[q] in multiset(xs);
      MembersComparable(xs, fields, s[p], s[q]);
      NotBelow(fields(s[p]), fields(s[q]));
    }
  }

  /** `sorted(xs, reverse=True)`, which CPython computes by reversing,
      sorting stably and reversing again: the same TypeErrors, and no
      value is `<` one after it. */
  function SortTuplesDescending<T(==)>(xs: seq<T>, fields: T -> seq<Atom>): (r: Result<seq<T>>)
    ensures r.Err? <==> !Orderable(xs, fields)
    ensures r.Err? ==> exists i, j :: 0 <= i < j < |xs| && TupleLt(fields(xs[i]), fields(xs[j])) == Err(r.error)
    ensures r.Err? ==> r.error.TypeError?
    ensures r.Ok? ==> multiset(r.value) == multiset(xs)
    ensures r.Ok? ==> forall i, j :: 0 <= i < j < |r.value| ==> TupleLt(fields(r.value[i]), fields(r.value[j])) == Ok(false)
  {
    var c := Clash(xs, fields);
    if c.Some? then
      var i, j :| 0 <= i < j < |xs| && TupleLt(fields(xs[i]), fields(xs[j])) == Err(c.value);
      TupleLtRaisesTypeError(fields(xs[i]), fields(xs[j]));
      Err(c.value)
    else
      ReverseMultiset(xs);
      var s := SortBy(Reverse(xs), x => TupleCode(fields(x)));
      ReverseMultiset(s);
      ReversedNotBelow(xs, fields, s);
      Ok(Reverse(s))
  }
}

=== FILE: sources.dfy ===
/** Where documents come from (kcrw_feed/source_manager.py): a live site or
    a local mirror, each mapping a catalog URL to the reference it reads. The
    reading itself is the partial map `Store`, from reference to contents. */
module SourceManager {
  import opened Wrappers
  import opened Text
  import opened Values
  import Urls
  import Paths

  /** The prefixes `REWRITE_RE` recognises at the start of a URL. */
  const KcrwPrefix: string := "https://www.kcrw.com/"
  const LocalPrefix: string := "http://localhost:8888/"

  /** What a fetch of each reference would return; a missing key is a
      failed fetch (`None`). */
  type Store = map<string, Bytes>

  predicate IsHttp(s: string) {
    StartsWith(s, "http://") || StartsWith(s, "https://")
  }

  /** `REWRITE_RE.sub(rep, url)`: the pattern is anchored, so at most the
      one leading prefix is replaced. Putting the prefix back in place of
      `rep` gives the URL again; any other URL is left alone. */
  function Rewrite(url: string, rep: string): (r: string)
    ensures StartsWith(url, KcrwPrefix) ==> StartsWith(r, rep) && KcrwPrefix + r[|rep|..] == url
    ensures StartsWith(url, LocalPrefix) ==> StartsWith(r, rep) && LocalPrefix + r[|rep|..] == url
    ensures !StartsWith(url, KcrwPrefix) && !StartsWith(url, LocalPrefix) ==> r == url
  {
    if StartsWith(url, KcrwPrefix) then
      assert (rep + url[|KcrwPrefix|..])[|rep|..] == url[|KcrwPrefix|..];
      assert url[4] == KcrwPrefix[4] != LocalPrefix[4];
      rep + url[|KcrwPrefix|..]
    else if StartsWith(url, LocalPrefix) then
      assert (rep + url[|LocalPrefix|..])[|rep|..] == url[|LocalPrefix|..];
      rep + url[|LocalPrefix|..]
    else url
  }

  /** A replacement that cannot start a prefix makes the rewrite idempotent. */
  lemma RewriteIdempotent(url: string, rep: string)
    requires |rep| > 0 && rep[0] != 'h'
    ensures Rewrite(Rewrite(url, rep), rep) == Rewrite(url, rep)
  {
    var r := Rewrite(url, rep);
    if r != url {
      assert r[0] == rep[0];
      assert !StartsWith(r, KcrwPrefix) && !StartsWith(r, LocalPrefix);
    }
  }

  /** `normalize_location(base, loc)`: reference resolution against an
      http(s) base, otherwise a file-path join (after stripping leading
      separators from `loc`) and normalisation. */
  function NormalizeLocation(base: string, loc: string): (r: Result<string>)
    ensures !IsHttp(base) ==> r.Ok? && Paths.NormPath(r.value) == r.value
  {
    if IsHttp(base) then Urls.UrlJoin(base, loc)
    else
      var p := Paths.NormPath(Paths.OsJoin(base, LStrip(loc, {'/'})));
      Paths.NormPathIdempotent(Paths.OsJoin(base, LStrip(loc, {'/'})));
      Ok(p)
  }

  /** Leading separators of `loc` do not matter for a file-path base. */
  lemma NormalizeLocationIgnoresRoot(base: string, loc: string)
    requires !IsHttp(base)
    ensures NormalizeLocation(base, "/" + loc) == NormalizeLocation(base, loc)
  {
    assert ("/" + loc)[1..] == loc;
  }

  /** An absolute-path `loc` against an http(s) base keeps the base's scheme
      and host and takes `loc`'s path. */
  lemma NormalizeLocationRooted(base: string, loc: string, b: Urls.UrlParts, u: Urls.UrlParts)
    requires base != "" && loc != "" && IsHttp(base)
    requires Urls.Parse(base, "") == Ok(b) && b.scheme in {"http", "https"}
    requires Urls.Parse(loc, b.scheme) == Ok(u) && u.scheme == b.scheme && u.netloc == ""
    requires |u.path| > 0 && u.path[0] == '/' && Urls.NoDotSegments(Split(u.path, '/'))
    ensures NormalizeLocation(base, loc) == Ok(Urls.Unparse(u.(netloc := b.netloc)))
  {
    Urls.JoinRootedPath(base, loc, b, u);
  }

  /** `validate_source_root`: an http(s) URL, or a path `exists` accepts. */
  function ValidateSourceRoot(sourceRoot: string, pathExists: string -> bool): (r: Result<bool>)
    ensures r.Ok? ==> r.value
    ensures r.Ok? <==> (Urls.Parse(sourceRoot, "").Ok? &&
      (Urls.Parse(sourceRoot, "").value.scheme in {"http", "https"} || pathExists(sourceRoot)))
    ensures Urls.Parse(sourceRoot, "").Ok? && r.Err? ==>
      r.error == ValueError("Invalid source_root: " + sourceRoot +
        ". It must be a valid HTTP URL or a valid local file path.")
  {
    var parsed :- Urls.Parse(sourceRoot, "");
    if parsed.scheme in {"http", "https"} then Ok(true)
    else if pathExists(sourceRoot) then Ok(true)
    else Err(ValueError("Invalid source_root: " + sourceRoot +
      ". It must be a valid HTTP URL or a valid local file path."))
  }

  /** A source: the live site (`HttpsSource`) or a local mirror
      (`CacheSource`), each remembering its root. */
  datatype Source = HttpsSource(base: string) | CacheSource(base: string)
  {
    /** Only the local mirror sets `uses_sitemap`. */
    predicate UsesSitemap() { CacheSource? }
  }

  /** The constructors validate their root first. */
  function NewSource(cache: bool, root: string, pathExists: string -> bool): (r: Result<Source>)
    ensures r.Ok? <==> ValidateSourceRoot(root, pathExists).Ok?
    ensures r.Ok? ==> r.value.base == root && r.value.CacheSource? == cache
  {
    var _ :- ValidateSourceRoot(root, pathExists);
    Ok(if cache then CacheSource(root) else HttpsSource(root))
  }

  /** `HttpsSource.relative_path`: a site prefix becomes `/`. */
  function HttpsRelativePath(url: string): string {
    Rewrite(url, "/")
  }

  /** `CacheSource.relative_path`: a site prefix becomes `./`, the rest is
      normalised, and `./` is put in front. */
  function CacheRelativePath(path: string): (r: string)
    ensures StartsWith(r, "./") && |r| > 2
  {
    "./" + Paths.NormPath(Rewrite(path, "./"))
  }

  /** Taking the relative path of a relative path changes nothing, as long
      as the first one is not rooted after the `./`. */
  lemma CacheRelativeIdempotent(path: string)
    requires !StartsWith(Paths.NormPath(Rewrite(path, "./")), "/")
    ensures CacheRelativePath(CacheRelativePath(path)) == CacheRelativePath(path)
  {
    var n := Paths.NormPath(Rewrite(path, "./"));
    var r := "./" + n;
    assert r[0] == '.' && KcrwPrefix[0] == 'h' && LocalPrefix[0] == 'h';
    assert !StartsWith(r, KcrwPrefix) && !StartsWith(r, LocalPrefix);
    Paths.NormPathDotPrefix(n);
    Paths.NormPathIdempotent(Rewrite(path, "./"));
  }

  /** A site URL's relative path in the mirror is never rooted. */
  lemma CacheRelativeOfSiteUrl(url: string)
    requires StartsWith(url, KcrwPrefix) || StartsWith(url, LocalPrefix)
    ensures !StartsWith(Paths.NormPath(Rewrite(url, "./")), "/")
    ensures CacheRelativePath(CacheRelativePath(url)) == CacheRelativePath(url)
  {
    var x := Rewrite(url, "./");
    assert x[0] == '.';
    assert Paths.InitialSlashes(x) == 0;
    NormPathRelative(x);
    CacheRelativeIdempotent(url);
  }

  lemma NormPathRelative(x: string)
    requires !StartsWith(x, "/")
    ensures !StartsWith(Paths.NormPath(x), "/")
  {
    if x != "" {
      var comps := Paths.Normalize([], Split(x, '/'), false);
      if |comps| > 0 {
        Paths.JoinHead(comps);
      }
    }
  }

  /** `relative_path` of either source. */
  function RelativePath(src: Source, url: string): string {
    match src
    case HttpsSource(_) => HttpsRelativePath(url)
    case CacheSource(_) => CacheRelativePath(url)
  }

  /** The reference a source reads for a catalog URL. */
  function Reference(src: Source, url: string): (r: Result<string>)
  {
    match src
    case HttpsSource(base) =>
      var rel := HttpsRelativePath(url);
      if IsHttp(base) then Urls.UrlJoin(base, rel) else NormalizeLocation(base, rel)
    case CacheSource(base) => NormalizeLocation(base, CacheRelativePath(url))
  }

  /** A fetch of one reference: its contents, or `None`. */
  function GetFile(store: Store, ref: string): Option<Bytes> {
    if ref in store then Some(store[ref]) else None
  }

  /** `get_reference`: the contents stored under the reference, or `None`. */
  function GetReference(src: Source, store: Store, url: string): (r: Result<Option<Bytes>>)
    ensures r.Err? <==> Reference(src, url).Err?
    ensures r.Ok? && r.value.Some? <==> Reference(src, url).Ok? && Reference(src, url).value in store
    ensures r.Ok? && r.value.Some? ==> r.value.value == store[Reference(src, url).value]
  {
    var ref :- Reference(src, url);
    Ok(GetFile(store, ref))
  }

  /** A mirror on a file path reads normalised paths. */
  lemma CacheReferenceNormal(base: string, url: string)
    requires !IsHttp(base)
    ensures Reference(CacheSource(base), url).Ok?
    ensures Paths.NormPath(Reference(CacheSource(base), url).value) == Reference(CacheSource(base), url).value
  {
  }
}

=== FILE: station.dfy ===
/** Enrichment of catalog resources into shows and episodes
    (kcrw_feed/processing/station.py): classification by URL shape, the show
    page and episode player fetches with their catalog short cuts, and the
    association of an episode with its show. Fetching goes through the
    source's byte store; the microdata extractor and the JSON reader are
    supplied from outside. Every operation takes the catalog and returns
    the catalog as the call leaves it. */
module Station {
  import opened Wrappers
  import opened Text
  import opened Values
  import opened Dicts
  import opened Models
  import opened Documents
  import opened SourceManager
  import opened StationCatalog
  import Urls
  import Classifiers
  import Utils
  import Lists
  import Sorting

  const ShowFilename := "index.html"
  const EpisodeFilename := "player.json"
  const RadioSeriesType := "http://schema.org/RadioSeries"
  const ListItemType := "http://schema.org/ListItem"

  /** What the processor reads besides the catalog: the source and its
      byte store, `extruct`'s microdata items for a page (given its base
      URL), and `json.loads` on the UTF-8 text of a file, which gives
      `None` for the `JSONDecodeError` the code catches and an error for
      anything it lets through. */
  datatype Env = Env(
    src: Source,
    store: Store,
    microdata: (Bytes, string) -> Result<seq<Value>>,
    json: Bytes -> Result<Option<Value>>,
    iso: Iso)

  /** A result together with the catalog as the call leaves it. */
  datatype Step<T> = Step(out: T, catalog: Catalog)

  // ---------------------------------------------------------------------
  // Reading free-form values
  // ---------------------------------------------------------------------

  /** A string value, if it is one. */
  function AsStr(v: Option<Value>): Option<string> {
    match v
    case Some(Str(s)) => Some(s)
    case _ => None
  }

  /** A timestamp value, if it is one. */
  function AsTime(v: Option<Value>): Option<DateTime> {
    match v
    case Some(Time(t)) => Some(t)
    case _ => None
  }

  /** A number value, if it is one. */
  function AsNum(v: Option<Value>): Option<real> {
    match v
    case Some(Num(n)) => Some(n)
    case _ => None
  }

  /** `v.get(outer, {}).get(key)`: `v` and whatever is under `outer` must
      be dicts. */
  function GetNested(v: Value, outer: string, key: string): (r: Result<Option<Value>>)
    ensures r.Ok? <==> v.Dict? && (Lookup(v.fields, outer).None? || Lookup(v.fields, outer).value.Dict?)
    ensures r.Ok? && Lookup(v.fields, outer).None? ==> r.value.None?
  {
    var o :- PyGet(v, outer);
    PyGet(o.GetOr(Dict([])), key)
  }

  /** `utils.parse_date(v)`: a falsy value is no date, a string goes to
      `fromisoformat`, and any other value makes `fromisoformat` raise. */
  function ParseDateOf(iso: Iso, v: Option<Value>): (r: Result<Option<DateTime>>)
    ensures (v.None? || !Truthy(v.value)) ==> r == Ok(None)
    ensures r.Err? <==> v.Some? && Truthy(v.value) && !v.value.Str?
    ensures r.Ok? && v.Some? && v.value.Str? ==> r.value == Utils.ParseDate(iso, Some(v.value.s))
  {
    match v
    case None => Ok(None)
    case Some(x) =>
      if !Truthy(x) then Ok(None)
      else if x.Str? then Ok(Utils.ParseDate(iso, Some(x.s)))
      else Err(TypeError("fromisoformat: argument must be str"))
  }

  // ---------------------------------------------------------------------
  // is_episode_resource, is_show_resource, _resolve_parent
  // ---------------------------------------------------------------------

  /** `is_episode_resource`: `EPISODE_URL_REGEX` searched in the path that
      `urlparse` finds; `urlparse` itself raises on a malformed network
      location. */
  function IsEpisodeUrl(url: string): (r: Result<bool>)
    ensures r.Err? <==> Urls.Parse(url, "").Err?
  {
    var p :- Urls.Parse(url, "");
    Ok(Classifiers.EpisodePath(p.path))
  }

  /** `is_show_resource`: whatever is not an episode. */
  function IsShowUrl(url: string): (r: Result<bool>)
    ensures r.Ok? <==> IsEpisodeUrl(url).Ok?
    ensures r.Ok? ==> (r.value <==> !IsEpisodeUrl(url).value)
  {
    var e :- IsEpisodeUrl(url);
    Ok(!e)
  }

  /** For a URL `urlparse` reads back into its parts, the classification
      depends on the path alone. */
  lemma EpisodeUrlOfParts(p: Urls.UrlParts)
    requires Urls.Regular(p)
    ensures IsEpisodeUrl(Urls.Unparse(p)) == Ok(Classifiers.EpisodePath(p.path))
  {
    Urls.ParseUnparse(p);
  }

  /** Two path segments below the shows section make an episode. */
  lemma EpisodeShapeIsEpisode(p: Urls.UrlParts, pre: string, show: string, rest: string)
    requires Urls.Regular(p)
    requires show != "" && '/' !in show && rest != "" && rest[0] != '/'
    requires p.path == pre + Classifiers.MusicShowsSection + show + "/" + rest
    ensures IsEpisodeUrl(Urls.Unparse(p)) == Ok(true)
    ensures IsShowUrl(Urls.Unparse(p)) == Ok(false)
  {
    EpisodeUrlOfParts(p);
    Classifiers.EpisodePathOfSegments(pre, show, rest);
  }

  /** A show's own page, with or without the trailing slash, is a show. */
  lemma ShowShapeIsShow(p: Urls.UrlParts, show: string, trailing: bool)
    requires Urls.Regular(p)
    requires show != "" && '/' !in show
    requires p.path == Classifiers.MusicShowsSection + show + (if trailing then "/" else "")
    ensures IsEpisodeUrl(Urls.Unparse(p)) == Ok(false)
    ensures IsShowUrl(Urls.Unparse(p)) == Ok(true)
  {
    EpisodeUrlOfParts(p);
    Classifiers.ShowPathIsNotEpisode(show, trailing);
  }

  /** A path outside the shows section, like `/invalid/path`, is a show. */
  lemma OtherPathIsShow(p: Urls.UrlParts)
    requires Urls.Regular(p)
    requires !Contains(p.path, Classifiers.MusicShowsSection)
    ensures IsShowUrl(Urls.Unparse(p)) == Ok(true)
  {
    EpisodeUrlOfParts(p);
  }

  /** `_resolve_parent` with `_episode_to_show_resource`: a show resource is
      its own parent; an episode's parent is the catalog's resource at the
      `scheme://host/music/shows/<segment>` prefix of its URL, or `None`
      when the URL has no such prefix or the catalog has no resource there. */
  function ResolveParent(c: Catalog, res: Resource): (r: Result<Option<Resource>>)
    ensures r.Err? <==> IsEpisodeUrl(res.url).Err?
    ensures IsEpisodeUrl(res.url) == Ok(false) ==> r == Ok(Some(res))
    ensures IsEpisodeUrl(res.url) == Ok(true) ==>
      (r.value.Some? <==> Classifiers.ShowFromEpisode(res.url).Some? && HasKey(c.resources, Classifiers.ShowFromEpisode(res.url).value))
    ensures IsEpisodeUrl(res.url) == Ok(true) && r.value.Some? && Filed(c) ==>
      r.value.value.url != res.url ==> StartsWith(res.url, r.value.value.url)
  {
    var episode :- IsEpisodeUrl(res.url);
    if !episode then Ok(Some(res))
    else
      match Classifiers.ShowFromEpisode(res.url)
      case None => Ok(None)
      case Some(u) =>
        Ok(Dicts.Get(c.resources, u))
  }

  /** An episode page below a show page resolves to the show's resource. */
  lemma ParentOfEpisodePage(c: Catalog, show: string, x: string, source: string, lastUpdated: Option<DateTime>, metadata: seq<Field>)
    requires Classifiers.ShowFromEpisode(show) == Some(show) && '\n' !in x
    requires IsEpisodeUrl(show + "/" + x) == Ok(true)
    ensures ResolveParent(c, Resource(show + "/" + x, source, lastUpdated, metadata)) == Ok(Dicts.Get(c.resources, show))
  {
    Classifiers.ShowFromEpisodeOfChild(show, x);
  }

  // ---------------------------------------------------------------------
  // Catalog look-ups by URL
  // ---------------------------------------------------------------------

  /** The first record of a listing whose URL is `u`. */
  function FirstWithUrl<T>(xs: seq<T>, url: T -> Option<string>, u: string): (r: Option<T>)
    ensures r.Some? <==> exists i :: 0 <= i < |xs| && url(xs[i]) == Some(u)
    ensures r.Some? ==> r.value in xs && url(r.value) == Some(u)
  {
    if |xs| == 0 then None
    else if url(xs[0]) == Some(u) then Some(xs[0])
    else
      var r := FirstWithUrl(xs[1..], url, u);
      assert forall i :: 1 <= i < |xs| ==> xs[i] == xs[1..][i - 1];
      r
  }

  /** The catalog's show with this URL, found the way `_process_show`
      scans `list_shows()`. */
  function CachedShow(c: Catalog, url: string): Option<Show> {
    FirstWithUrl(Dicts.Values(c.shows), ShowUrl, url)
  }

  /** The catalog's episode with this URL, as `_process_episode` scans
      `list_episodes()`. */
  function CachedEpisode(c: Catalog, url: string): Option<Episode> {
    FirstWithUrl(Dicts.Values(c.episodes), EpisodeUrl, url)
  }

  // ---------------------------------------------------------------------
  // _process_hosts
  // ---------------------------------------------------------------------

  /** One pass of the loop of `_process_hosts`: a host equal to one already
      listed is skipped, any other is filed under its UUID. */
  function AddHost(d: PyDict<Uuid, Host>, h: Host): (r: PyDict<Uuid, Host>)
    ensures FiledBy(d, HostUuid) ==> FiledBy(r, HostUuid)
    ensures h in Dicts.Values(d) ==> r == d
    ensures forall k :: HasKey(d, k) ==> HasKey(r, k)
  {
    if h in Dicts.Values(d) then d else PutKeyed(d, h, HostUuid)
  }

  /** The loop of `_process_hosts` over the deduplicated hosts. */
  function AddHosts(d: PyDict<Uuid, Host>, hs: seq<Host>): (r: PyDict<Uuid, Host>)
    ensures FiledBy(d, HostUuid) ==> FiledBy(r, HostUuid)
    ensures (forall i :: 0 <= i < |hs| ==> hs[i] in Dicts.Values(d)) ==> r == d
    ensures forall k :: HasKey(d, k) ==> HasKey(r, k)
    decreases |hs|
  {
    if |hs| == 0 then d else AddHosts(AddHost(d, hs[0]), hs[1..])
  }

  /** Under filing, a host with a UUID is found under it once added. */
  lemma AddHostFiles(d: PyDict<Uuid, Host>, h: Host)
    requires FiledBy(d, HostUuid) && h.uuid.Some?
    ensures Dicts.Get(AddHost(d, h), h.uuid.value) == Some(h)
  {
    if h in Dicts.Values(d) {
      var i :| 0 <= i < |d| && Dicts.Values(d)[i] == h;
      assert d[i].1 == h && HostUuid(d[i].1) == Some(d[i].0);
      FindKeyIs(d, d[i].0, i);
    }
  }

  /** A host with a UUID that no later host repeats is what the catalog
      holds under that UUID afterwards. */
  lemma {:induction false} AddHostsFiles(d: PyDict<Uuid, Host>, hs: seq<Host>, i: nat)
    requires FiledBy(d, HostUuid)
    requires i < |hs| && hs[i].uuid.Some?
    requires forall j :: i < j < |hs| ==> hs[j].uuid != hs[i].uuid
    ensures Dicts.Get(AddHosts(d, hs), hs[i].uuid.value) == Some(hs[i])
    decreases |hs|
  {
    var d' := AddHost(d, hs[0]);
    var u := hs[i].uuid.value;
    if i == 0 {
      AddHostFiles(d, hs[0]);
      forall j | 0 <= j < |hs[1..]| ensures hs[1..][j].uuid != Some(u) {
        assert hs[1..][j] == hs[j + 1];
      }
      AddHostsKeeps(d', hs[1..], u);
    } else {
      assert hs[1..][i - 1] == hs[i];
      forall j | i - 1 < j < |hs[1..]| ensures hs[1..][j].uuid != hs[i].uuid {
        assert hs[1..][j] == hs[j + 1];
      }
      AddHostsFiles(d', hs[1..], i - 1);
    }
  }

  /** Hosts under other UUIDs leave a key's entry alone. */
  lemma {:induction false} AddHostsKeeps(d: PyDict<Uuid, Host>, hs: seq<Host>, u: Uuid)
    requires forall j :: 0 <= j < |hs| ==> hs[j].uuid != Some(u)
    ensures Dicts.Get(AddHosts(d, hs), u) == Dicts.Get(d, u)
    decreases |hs|
  {
    if |hs| > 0 {
      assert Dicts.Get(AddHost(d, hs[0]), u) == Dicts.Get(d, u);
      forall j | 0 <= j < |hs[1..]| ensures hs[1..][j].uuid != Some(u) {
        assert hs[1..][j] == hs[j + 1];
      }
      AddHostsKeeps(AddHost(d, hs[0]), hs[1..], u);
    }
  }

  /** The item has no author: `properties.author` is missing or falsy. */
  predicate NoAuthor(data: Value) {
    var a := GetNested(data, "properties", "author");
    a.Ok? && (a.value.None? || !Truthy(a.value.value))
  }

  /** The host `_process_hosts` builds from a truthy author item: its UUID
      is extracted from the item's `id`, which must be a string. */
  function AuthorHost(data: Value, a: Value): (r: Result<Host>)
    requires data.Dict?
    ensures r.Ok? ==> a.Dict? && AsStr(Lookup(a.fields, "id")).Some?
    ensures r.Ok? ==> r.value.uuid == Utils.ExtractUuid(AsStr(Lookup(a.fields, "id")).value)
  {
    if !a.Dict? then Err(NoAttribute(a, "get"))
    else
      var uuid :- Utils.ExtractUuidOf(Lookup(a.fields, "id"));
      var props := Lookup(a.fields, "properties").GetOr(Dict([]));
      if !props.Dict? then Err(NoAttribute(props, "get"))
      else
        var socials :- GetNested(data, "properties", "sameAs");
        Ok(Host(AsStr(Lookup(props.fields, "name")), uuid, None, AsStr(Lookup(props.fields, "url")), None,
          socials.GetOr(List([])), None, AsStr(Lookup(a.fields, "type")), []))
  }

  /** Filing one deduplicated host into the catalog. */
  function HostsStep(c: Catalog, host: Host): (r: Step<seq<Host>>)
    ensures r.out == [host]
    ensures r.catalog == c.(hosts := r.catalog.hosts)
    ensures host in Dicts.Values(c.hosts) ==> r.catalog == c
    ensures Filed(c) ==> Filed(r.catalog)
    ensures Filed(c) && host.uuid.Some? ==> Dicts.Get(r.catalog.hosts, host.uuid.value) == Some(host)
  {
    assert [host][1..] == [];
    assert HostUuid(host) == host.uuid;
    assert Utils.Uniq([host], HostUuid, {}) == [host] + Utils.Uniq([], HostUuid, if host.uuid.Some? then {host.uuid.value} else {});
    var hosts := Utils.Uniq([host], HostUuid, {});
    assert hosts == [host];
    var added := AddHosts(c.hosts, hosts);
    if Filed(c) && host.uuid.Some? then
      AddHostsFiles(c.hosts, hosts, 0);
      Step(hosts, c.(hosts := added))
    else Step(hosts, c.(hosts := added))
  }

  /** `_process_hosts(show_data)`: no author gives `[]`; otherwise one host
      built from the author item, deduplicated by UUID and added to the
      catalog unless an equal host is already listed. */
  function ProcessHosts(c: Catalog, data: Value): (r: Result<Step<seq<Host>>>)
    requires data.Dict?
    ensures NoAuthor(data) ==> r == Ok(Step([], c))
    ensures r.Ok? ==> |r.value.out| <= 1
    ensures r.Ok? ==> r.value.catalog == c.(hosts := r.value.catalog.hosts)
    ensures r.Ok? && Filed(c) ==> Filed(r.value.catalog)
    ensures r.Ok? && Filed(c) ==> forall h :: h in r.value.out && h.uuid.Some? ==> Dicts.Get(r.value.catalog.hosts, h.uuid.value) == Some(h)
  {
    var author :- GetNested(data, "properties", "author");
    if author.None? || !Truthy(author.value) then Ok(Step([], c))
    else
      var host :- AuthorHost(data, author.value);
      Ok(HostsStep(c, host))
  }

  // ---------------------------------------------------------------------
  // _process_episode
  // ---------------------------------------------------------------------

  /** `v[0]` on the value under `media` (an empty string when absent). */
  function FirstItem(v: Value): (r: Result<Value>)
    ensures v.List? && v.items != [] ==> r == Ok(v.items[0])
    ensures r.Ok? ==> v.List? || v.Str?
  {
    match v
    case Str(s) => if s == "" then Err(IndexError("string index out of range")) else Ok(Str([s[0]]))
    case List(items) => if items == [] then Err(IndexError("list index out of range")) else Ok(items[0])
    case Dict(_) => Err(KeyError("0"))
    case _ => Err(TypeError("'" + TypeName(v) + "' object is not subscriptable"))
  }

  /** `strip_query_params(v)`: a string loses its query; `urlparse` reads
      any falsy value as empty text, and calls `decode` on anything else. */
  function StripQueryOf(v: Option<Value>): (r: Result<string>)
    ensures v.Some? && v.value.Str? ==> r == Urls.StripQueryParams(v.value.s)
    ensures v.None? || (!Truthy(v.value) && !v.value.Str?) ==> r == Ok("")
  {
    match v
    case None => Ok("")
    case Some(x) =>
      if x.Str? then Urls.StripQueryParams(x.s)
      else if !Truthy(x) then Ok("")
      else Err(NoAttribute(x, "decode"))
  }

  /** One entry of the player's `hosts`: the UUID of its `uuid` string, or
      `None` when the string holds none. */
  function HostRefOf(item: Value): (r: Result<HostRef>)
    ensures r.Ok? ==> item.Dict? && AsStr(Lookup(item.fields, "uuid")).Some?
    ensures r.Ok? ==> (r.value.HostId? <==> Utils.ExtractUuid(AsStr(Lookup(item.fields, "uuid")).value).Some?)
    ensures r.Ok? && r.value.HostId? ==> Some(r.value.id) == Utils.ExtractUuid(AsStr(Lookup(item.fields, "uuid")).value)
  {
    var id :- PyGet(item, "uuid");
    var u :- Utils.ExtractUuidOf(id);
    Ok(if u.Some? then HostId(u.value) else NoHost)
  }

  /** The media URL the player lists first, as `media[0].get("url")`. */
  function MediaUrlValue(f: seq<Field>): Result<Option<Value>> {
    var first :- FirstItem(Lookup(f, "media").GetOr(Str("")));
    PyGet(first, "url")
  }

  /** The `Episode` built from truthy player data: a dict whose uuids are
      extracted from their strings and whose first media URL loses its
      query. Python evaluates the keyword arguments in order, so the first
      failing one raises. */
  function EpisodeFromJson(iso: Iso, data: Value, res: Option<Resource>): (r: Result<Episode>)
    ensures r.Ok? ==> data.Dict?
    ensures r.Ok? ==> r.value.resource == res
    ensures r.Ok? ==> (AsStr(Lookup(data.fields, "uuid")).Some?
      && r.value.uuid == Utils.ExtractUuid(AsStr(Lookup(data.fields, "uuid")).value))
    ensures r.Ok? ==> (AsStr(Lookup(data.fields, "show_uuid")).Some?
      && r.value.showUuid == Utils.ExtractUuid(AsStr(Lookup(data.fields, "show_uuid")).value))
    ensures r.Ok? ==> MediaUrlValue(data.fields).Ok?
    ensures r.Ok? && AsStr(MediaUrlValue(data.fields).value).Some? ==>
      Urls.StripQueryParams(AsStr(MediaUrlValue(data.fields).value).value) == Ok(r.value.mediaUrl)
    ensures r.Ok? ==> r.value.url == AsStr(Lookup(data.fields, "url"))
  {
    if !data.Dict? then Err(NoAttribute(data, "get"))
    else
      var f := data.fields;
      var airdate :- ParseDateOf(iso, Lookup(f, "airdate"));
      var media :- MediaUrlValue(f);
      var mediaUrl :- StripQueryOf(media);
      var uuid :- Utils.ExtractUuidOf(Lookup(f, "uuid"));
      var showUuid :- Utils.ExtractUuidOf(Lookup(f, "show_uuid"));
      var items :- Iterate(Lookup(f, "hosts").GetOr(List([])));
      var hosts :- MapResult(items, HostRefOf);
      var ending :- ParseDateOf(iso, Lookup(f, "ending"));
      var modified :- ParseDateOf(iso, Lookup(f, "modified"));
      Ok(Episode(AsStr(Lookup(f, "title")).GetOr(""), airdate, AsStr(Lookup(f, "url")), mediaUrl, uuid, showUuid, hosts,
        AsStr(Lookup(f, "html_description")), AsStr(Lookup(f, "songlist")), AsStr(Lookup(f, "image")),
        AsStr(Lookup(f, "content_type")), AsNum(Lookup(f, "duration")), ending, modified, [], [], res))
  }

  /** What reading an episode's player file gives: no file, a file the
      code cannot use (JSON it cannot decode, or falsy data), or an
      episode. */
  datatype Player = NoPlayer | Unreadable | Read(episode: Episode)

  /** The reference of an episode's player file. */
  function PlayerPath(src: Source, url: string): string {
    RelativePath(src, url + "/" + EpisodeFilename)
  }

  /** The player file of an episode page, read and decoded. */
  function ReadPlayer(env: Env, res: Resource): (r: Result<Player>)
    ensures r == Ok(NoPlayer) <==> GetReference(env.src, env.store, PlayerPath(env.src, res.url)) == Ok(None)
    ensures r.Ok? && r.value.Read? ==> r.value.episode.resource == Some(res)
  {
    var bytes :- GetReference(env.src, env.store, PlayerPath(env.src, res.url));
    if bytes.None? then Ok(NoPlayer)
    else
      var data :- env.json(bytes.value);
      if data.None? || !Truthy(data.value) then Ok(Unreadable)
      else
        var e :- EpisodeFromJson(env.iso, data.value, Some(res));
        Ok(Read(e))
  }

  /** An episode read from its player belongs to the resource it was read
      for, or is the catalog's own episode at that URL. */
  predicate BelongsTo(e: Episode, res: Resource) {
    e.url == Some(res.url) || e.resource == Some(res)
  }

  /** `_process_episode`: the catalog's episode with the resource's URL if
      there is one, with no fetch; otherwise the episode the player file
      describes, filed under its UUID; `None` when there is no usable
      player file. */
  function ProcessEpisode(env: Env, c: Catalog, res: Resource): (r: Result<Step<Option<Episode>>>)
    ensures CachedEpisode(c, res.url).Some? ==> r == Ok(Step(CachedEpisode(c, res.url), c))
    ensures r.Ok? && r.value.out.Some? ==> BelongsTo(r.value.out.value, res)
    ensures r.Ok? && r.value.out.None? ==> r.value.catalog == c
    ensures r.Ok? ==> r.value.catalog == c.(episodes := r.value.catalog.episodes)
    ensures r.Ok? && Filed(c) ==> Filed(r.value.catalog)
    ensures r.Ok? && r.value.out.Some? && r.value.out.value.uuid.Some? && Filed(c) ==>
      Dicts.Get(r.value.catalog.episodes, r.value.out.value.uuid.value) == r.value.out
  {
    match CachedEpisode(c, res.url)
    case Some(e) =>
      if e.uuid.Some? && Filed(c) then
        CachedIsFiled(c.episodes, EpisodeUuid, EpisodeUrl, res.url);
        Ok(Step(Some(e), c))
      else Ok(Step(Some(e), c))
    case None =>
      var p :- ReadPlayer(env, res);
      match p
      case Read(e) =>
        var episodes := PutKeyed(c.episodes, e, EpisodeUuid);
        assert e.uuid.Some? ==> HasKey(episodes, e.uuid.value);
        Ok(Step(Some(e), c.(episodes := episodes)))
      case _ => Ok(Step(None, c))
  }

  /** A listed record found by URL sits under its own key. */
  lemma CachedIsFiled<K, V>(d: PyDict<K, V>, key: V -> Option<K>, url: V -> Option<string>, u: string)
    requires FiledBy(d, key)
    requires FirstWithUrl(Dicts.Values(d), url, u).Some? && key(FirstWithUrl(Dicts.Values(d), url, u).value).Some?
    ensures Dicts.Get(d, key(FirstWithUrl(Dicts.Values(d), url, u).value).value) == FirstWithUrl(Dicts.Values(d), url, u)
  {
    var v := FirstWithUrl(Dicts.Values(d), url, u).value;
    var i :| 0 <= i < |d| && Dicts.Values(d)[i] == v;
    FindKeyIs(d, d[i].0, i);
  }

  /** A cached episode is returned whatever the store holds: nothing is
      fetched. */
  lemma CachedEpisodeNoFetch(env: Env, env': Env, c: Catalog, res: Resource)
    requires CachedEpisode(c, res.url).Some?
    ensures ProcessEpisode(env, c, res) == ProcessEpisode(env', c, res)
  {
  }

  /** Without a player file there is no episode, and the catalog is left
      as it was. */
  lemma MissingPlayerNoEpisode(env: Env, c: Catalog, res: Resource)
    requires CachedEpisode(c, res.url).None?
    requires GetReference(env.src, env.store, PlayerPath(env.src, res.url)) == Ok(None)
    ensures ProcessEpisode(env, c, res) == Ok(Step(None, c))
  {
  }

  // ---------------------------------------------------------------------
  // _parse_show_episodes
  // ---------------------------------------------------------------------

  /** An item of the episode list is a `ListItem` dict. */
  predicate IsListItem(item: Value) {
    item.Dict? && Values.Get(item, "type") == Some(Str(ListItemType))
  }

  /** The non-empty string under `properties.url`, if that is what is there. */
  function ListedUrl(item: Value): Option<string> {
    match GetNested(item, "properties", "url")
    case Ok(Some(Str(s))) => if s != "" then Some(s) else None
    case _ => None
  }

  /** The URL a `ListItem` contributes: a truthy string under
      `properties.url`. A list or dict there cannot go into the set and
      raises; any other truthy value is never a catalog key, so it adds
      nothing. */
  function ItemUrl(item: Value): (r: Result<Option<string>>)
    ensures !IsListItem(item) ==> r == Ok(None)
    ensures r.Ok? ==> r.value == if IsListItem(item) then ListedUrl(item) else None
    ensures IsListItem(item) && ListedUrl(item).Some? ==> r == Ok(ListedUrl(item))
  {
    if !IsListItem(item) then Ok(None)
    else
      var u :- GetNested(item, "properties", "url");
      match u
      case None => Ok(None)
      case Some(v) =>
        if !Truthy(v) then Ok(None)
        else if v.Str? then Ok(Some(v.s))
        else if v.List? || v.Dict? then Err(TypeError("unhashable type: '" + TypeName(v) + "'"))
        else Ok(None)
  }

  /** The URLs of the episode list's `ListItem` entries, in list order. */
  function ListItemUrls(items: seq<Value>): (r: Result<seq<string>>)
    ensures r.Ok? ==> forall u :: u in r.value <==> exists i :: 0 <= i < |items| && ItemUrl(items[i]) == Ok(Some(u))
    ensures r.Ok? <==> forall i :: 0 <= i < |items| ==> ItemUrl(items[i]).Ok?
  {
    if |items| == 0 then Ok([])
    else
      assert forall i :: 1 <= i < |items| ==> items[i] == items[1..][i - 1];
      var head :- ItemUrl(items[0]);
      var rest :- ListItemUrls(items[1..]);
      Ok((if head.Some? then [head.value] else []) + rest)
  }

  /** The episode loop of `_parse_show_episodes`: each URL with a catalog
      resource is processed, and the episodes that come back are kept. */
  function ProcessEpisodeUrls(env: Env, c: Catalog, urls: seq<string>): (r: Result<Step<seq<Episode>>>)
    ensures r.Ok? ==> |r.value.out| <= |urls|
    ensures r.Ok? ==> r.value.catalog == c.(episodes := r.value.catalog.episodes)
    ensures r.Ok? && Filed(c) ==> Filed(r.value.catalog)
    ensures (forall i :: 0 <= i < |urls| ==> !HasKey(c.resources, urls[i])) ==> r == Ok(Step([], c))
    decreases |urls|
  {
    if |urls| == 0 then Ok(Step([], c))
    else
      assert forall i :: 1 <= i < |urls| ==> urls[i] == urls[1..][i - 1];
      var first :- match Dicts.Get(c.resources, urls[0])
        case None => Ok(Step(None, c))
        case Some(res) => ProcessEpisode(env, c, res);
      var rest :- ProcessEpisodeUrls(env, first.catalog, urls[1..]);
      Ok(Step((if first.out.Some? then [first.out.value] else []) + rest.out, rest.catalog))
  }

  /** `_parse_show_episodes(episode_data)`: the `ListItem` URLs of
      `properties.itemListElement`, once each, processed as episodes where
      the catalog has their resource, and the results sorted. */
  function ParseShowEpisodes(env: Env, c: Catalog, data: Value): (r: Result<Step<seq<Episode>>>)
    requires data.Dict?
    ensures r.Ok? ==> forall i, j :: 0 <= i < j < |r.value.out| && r.value.out[i].airdate.Some? ==>
      r.value.out[j].airdate.Some? && TimeLe(r.value.out[i].airdate.value, r.value.out[j].airdate.value)
    ensures r.Ok? ==> r.value.catalog == c.(episodes := r.value.catalog.episodes)
    ensures r.Ok? && Filed(c) ==> Filed(r.value.catalog)
  {
    var list :- GetNested(data, "properties", "itemListElement");
    var items :- Iterate(list.GetOr(List([])));
    var urls :- ListItemUrls(items);
    var st :- ProcessEpisodeUrls(env, c, Lists.Distinct(urls));
    var sorted :- SortEpisodes(st.out);
    Ok(Step(sorted, st.catalog))
  }

  /** Items that are not `ListItem`s, or whose URL has no catalog resource,
      contribute nothing. */
  lemma ParseShowEpisodesUnlisted(env: Env, c: Catalog, data: Value, urls: seq<string>)
    requires data.Dict?
    requires GetNested(data, "properties", "itemListElement").Ok?
    requires Iterate(GetNested(data, "properties", "itemListElement").value.GetOr(List([]))).Ok?
    requires ListItemUrls(Iterate(GetNested(data, "properties", "itemListElement").value.GetOr(List([]))).value) == Ok(urls)
    requires forall u :: u in urls ==> !HasKey(c.resources, u)
    ensures ParseShowEpisodes(env, c, data) == Ok(Step([], c))
  {
    var d := Lists.Distinct(urls);
    assert forall i :: 0 <= i < |d| ==> !HasKey(c.resources, d[i]) by {
      forall i | 0 <= i < |d| ensures !HasKey(c.resources, d[i]) {
        assert d[i] in d;
      }
    }
    assert SortEpisodes([]) == Ok([]) by {
      assert multiset(SortEpisodes([]).value) == multiset([]);
    }
  }

  // ---------------------------------------------------------------------
  // _process_show
  // ---------------------------------------------------------------------

  /** A microdata item describing the show itself. */
  predicate IsRadioSeries(item: Value) {
    item.Dict? && Values.Get(item, "type") == Some(Str(RadioSeriesType))
  }

  /** The first `RadioSeries` item of the page. */
  function RadioSeriesItem(items: seq<Value>): (r: Option<Value>)
    ensures r.Some? ==> r.value in items && IsRadioSeries(r.value)
    ensures r.None? ==> forall i :: 0 <= i < |items| ==> !IsRadioSeries(items[i])
  {
    if |items| == 0 then None
    else if IsRadioSeries(items[0]) then Some(items[0])
    else
      assert forall i :: 1 <= i < |items| ==> items[i] == items[1..][i - 1];
      RadioSeriesItem(items[1..])
  }

  /** The `id` of a dict item, `""` when it has none. */
  function ItemId(item: Value): Value
    requires item.Dict?
  {
    Lookup(item.fields, "id").GetOr(Str(""))
  }

  /** A dict item whose `id` ends in `-episodes` lists the show's episodes. */
  predicate IsEpisodeList(item: Value) {
    item.Dict? && ItemId(item).Str? && EndsWith(ItemId(item).s, "-episodes")
  }

  /** The first episode-list item; a dict met before it whose `id` is not a
      string has no `endswith` and raises. */
  function EpisodeListItem(items: seq<Value>): (r: Result<Option<Value>>)
    ensures r.Ok? && r.value.Some? ==> r.value.value in items && IsEpisodeList(r.value.value)
    ensures r.Ok? && r.value.None? ==> forall i :: 0 <= i < |items| ==> !IsEpisodeList(items[i])
    ensures (forall i :: 0 <= i < |items| && items[i].Dict? ==> ItemId(items[i]).Str?) ==> r.Ok?
  {
    if |items| == 0 then Ok(None)
    else
      assert forall i :: 1 <= i < |items| ==> items[i] == items[1..][i - 1];
      var item := items[0];
      if !item.Dict? then EpisodeListItem(items[1..])
      else if !ItemId(item).Str? then Err(NoAttribute(ItemId(item), "endswith"))
      else if EndsWith(ItemId(item).s, "-episodes") then Ok(Some(item))
      else EpisodeListItem(items[1..])
  }

  /** `resource.metadata.get("image:image", {}).get("image:loc")`. */
  function ImageLoc(metadata: seq<Field>): (r: Result<Option<Value>>)
    ensures Lookup(metadata, "image:image").None? ==> r == Ok(None)
  {
    PyGet(Lookup(metadata, "image:image").GetOr(Dict([])), "image:loc")
  }

  /** The show page: `relative_path(url + "/")` fetched and, when that gives
      nothing or empty contents, the same reference with `/index.html`
      appended; whatever comes back was read from the store. */
  function FetchShowPage(env: Env, url: string): (r: Result<Option<Bytes>>)
    ensures r.Ok? && r.value.Some? ==> r.value.value in env.store.Values
  {
    var ref := RelativePath(env.src, url + "/");
    var first :- GetReference(env.src, env.store, ref);
    if !Missing(first) then Ok(first)
    else GetReference(env.src, env.store, ref + "/" + ShowFilename)
  }

  /** A page the first reference serves is used as it is. */
  lemma ShowPageFirst(env: Env, url: string)
    requires GetReference(env.src, env.store, RelativePath(env.src, url + "/")).Ok?
    requires !Missing(GetReference(env.src, env.store, RelativePath(env.src, url + "/")).value)
    ensures FetchShowPage(env, url) == GetReference(env.src, env.store, RelativePath(env.src, url + "/"))
  {
  }

  /** When the first reference serves nothing, or empty contents, the
      `index.html` under it is read instead, and its absence means no page. */
  lemma ShowPageFallback(env: Env, url: string)
    requires GetReference(env.src, env.store, RelativePath(env.src, url + "/")).Ok?
    requires Missing(GetReference(env.src, env.store, RelativePath(env.src, url + "/")).value)
    ensures FetchShowPage(env, url) == GetReference(env.src, env.store, RelativePath(env.src, url + "/") + "/" + ShowFilename)
  {
  }

  /** The `Show` built from the `RadioSeries` item: the item's `id` must be
      present, its UUID is extracted from it, and the show is filed under
      that UUID after its hosts are processed. A missing `name` falls back
      to the last segment of the resource URL. The title, page URL,
      description, image and date come from the item, its `properties`
      and the resource's metadata, and the hosts from `_process_hosts`. */
  function ShowFromData(c: Catalog, res: Resource, data: Value, episodes: seq<Episode>, imageLoc: Option<Value>): (r: Result<Step<Show>>)
    requires IsRadioSeries(data)
    ensures r.Ok? ==> r.value.out.resource == Some(res) && r.value.out.episodes == episodes
    ensures r.Ok? ==> r.value.out.kind == Some(RadioSeriesType)
    ensures r.Ok? ==> (AsStr(Lookup(data.fields, "id")).Some?
      && r.value.out.uuid == Utils.ExtractUuid(AsStr(Lookup(data.fields, "id")).value))
    ensures Lookup(data.fields, "id").None? ==> r == Err(AssertionError("Failed to extract UUID!"))
    ensures r.Ok? ==> r.value.catalog == c.(hosts := r.value.catalog.hosts, shows := r.value.catalog.shows)
    ensures r.Ok? && Filed(c) ==> Filed(r.value.catalog)
    ensures r.Ok? && r.value.out.uuid.Some? ==> Dicts.Get(r.value.catalog.shows, r.value.out.uuid.value) == Some(r.value.out)
    ensures r.Ok? && Lookup(data.fields, "name").None? ==> r.value.out.title == AfterLast(res.url, '/')
    ensures r.Ok? ==> forall t :: Lookup(data.fields, "name") == Some(Str(t)) ==> r.value.out.title == t
    ensures r.Ok? ==> var props := Lookup(data.fields, "properties").GetOr(Dict([]));
      && props.Dict?
      && r.value.out.url == AsStr(Lookup(props.fields, "mainEntityOfPage"))
      && r.value.out.description == AsStr(Lookup(props.fields, "description"))
    ensures r.Ok? ==> r.value.out.image == AsStr(imageLoc) && r.value.out.lastUpdated == AsTime(Lookup(res.metadata, "lastmod"))
    ensures r.Ok? ==> ProcessHosts(c, data).Ok? && r.value.out.hosts == ProcessHosts(c, data).value.out
  {
    var id := Lookup(data.fields, "id");
    if id.None? || id.value.Null? then Err(AssertionError("Failed to extract UUID!"))
    else
      var uuid :- Utils.ExtractUuidOf(id);
      var props := Lookup(data.fields, "properties").GetOr(Dict([]));
      if !props.Dict? then Err(NoAttribute(props, "get"))
      else
        var hosts :- ProcessHosts(c, data);
        var title := match Lookup(data.fields, "name") case Some(Str(s)) => s case _ => AfterLast(res.url, '/');
        var show := Show(title, AsStr(Lookup(props.fields, "mainEntityOfPage")), uuid, AsStr(Lookup(props.fields, "description")),
          hosts.out, episodes, Some(RadioSeriesType), AsTime(Lookup(res.metadata, "lastmod")), [], [], AsStr(imageLoc), Some(res));
        var shows := PutKeyed(hosts.catalog.shows, show, ShowUuid);
        assert uuid.Some? ==> HasKey(shows, uuid.value);
        Ok(Step(show, hosts.catalog.(shows := shows)))
  }

  /** `_process_show` once the page is read: the microdata items are
      scanned for the show and for its episode list, the episodes are
      processed first, then the image location is read and checked, and the
      show is built. Without a `RadioSeries` item the fallback branch reads
      the unbound name `url` and raises. */
  function BuildShow(env: Env, c: Catalog, res: Resource, html: Bytes): (r: Result<Step<Option<Show>>>)
    ensures r.Ok? ==> r.value.out.Some? && r.value.out.value.resource == Some(res)
    ensures r.Ok? ==> r.value.catalog.resources == c.resources
    ensures r.Ok? && Filed(c) ==> Filed(r.value.catalog)
    ensures r.Ok? ==> env.microdata(html, res.url).Ok? && RadioSeriesItem(env.microdata(html, res.url).value).Some?
    ensures r.Ok? ==> var d := RadioSeriesItem(env.microdata(html, res.url).value).value;
      && (Lookup(d.fields, "name").None? ==> r.value.out.value.title == AfterLast(res.url, '/'))
      && (forall t :: Lookup(d.fields, "name") == Some(Str(t)) ==> r.value.out.value.title == t)
  {
    var items :- env.microdata(html, res.url);
    var showData := RadioSeriesItem(items);
    var listItem :- EpisodeListItem(items);
    var episodes :- if listItem.Some? then ParseShowEpisodes(env, c, listItem.value) else Ok(Step([], c));
    var imageLoc :- ImageLoc(res.metadata);
    if imageLoc == Some(Str("DEADBEEF")) then Err(AssertionError(""))
    else if showData.None? then Err(NameError("url"))
    else
      var st :- ShowFromData(episodes.catalog, res, showData.value, episodes.out, imageLoc);
      Ok(Step(Some(st.out), st.catalog))
  }

  /** `_process_show`: the catalog's show with the resource's URL if there
      is one, with no fetch; otherwise the show read from its page, or
      `None` when no page can be read. */
  function ProcessShow(env: Env, c: Catalog, res: Resource): (r: Result<Step<Option<Show>>>)
    ensures CachedShow(c, res.url).Some? ==> r == Ok(Step(CachedShow(c, res.url), c))
    ensures r.Ok? && r.value.out.Some? ==> r.value.out.value.url == Some(res.url) || r.value.out.value.resource == Some(res)
    ensures r.Ok? && r.value.out.None? ==> r.value.catalog == c
    ensures r.Ok? && r.value.out.Some? && CachedShow(c, res.url).None? ==> r.value.out.value.resource == Some(res)
    ensures r.Ok? ==> r.value.catalog.resources == c.resources
    ensures r.Ok? && Filed(c) ==> Filed(r.value.catalog)
  {
    match CachedShow(c, res.url)
    case Some(s) => Ok(Step(Some(s), c))
    case None =>
      var html :- FetchShowPage(env, res.url);
      if html.None? then Ok(Step(None, c)) else BuildShow(env, c, res, html.value)
  }

  /** A cached show is returned whatever the store holds: nothing is
      fetched. */
  lemma CachedShowNoFetch(env: Env, env': Env, c: Catalog, res: Resource)
    requires CachedShow(c, res.url).Some?
    ensures ProcessShow(env, c, res) == ProcessShow(env', c, res)
  {
  }

  /** With neither the page nor its `index.html` there is no show, and the
      catalog is left as it was. */
  lemma MissingPageNoShow(env: Env, c: Catalog, res: Resource)
    requires CachedShow(c, res.url).None?
    requires FetchShowPage(env, res.url) == Ok(None)
    ensures ProcessShow(env, c, res) == Ok(Step(None, c))
  {
  }

  // ---------------------------------------------------------------------
  // process_resource and associate_entity
  // ---------------------------------------------------------------------

  /** `process_resource`: an episode page is read as an episode, anything
      else as a show. */
  function ProcessResource(env: Env, c: Catalog, res: Resource): (r: Result<Step<Option<Entity>>>)
    ensures r.Err? && IsEpisodeUrl(res.url).Err? ==> r == Err(IsEpisodeUrl(res.url).error)
    ensures r.Ok? && r.value.out.Some? ==> (r.value.out.value.EpisodeEntity? <==> IsEpisodeUrl(res.url) == Ok(true))
    ensures r.Ok? && r.value.out.Some? && r.value.out.value.ShowEntity? && CachedShow(c, res.url).None? ==>
      r.value.out.value.show.resource == Some(res)
    ensures r.Ok? ==> r.value.catalog.resources == c.resources
    ensures r.Ok? && Filed(c) ==> Filed(r.value.catalog)
  {
    var episode :- IsEpisodeUrl(res.url);
    if episode then
      var st :- ProcessEpisode(env, c, res);
      Ok(Step(if st.out.Some? then Some(EpisodeEntity(st.out.value)) else None, st.catalog))
    else
      var st :- ProcessShow(env, c, res);
      Ok(Step(if st.out.Some? then Some(ShowEntity(st.out.value)) else None, st.catalog))
  }

  /** The error `_resolve_parent(None)` raises. */
  const NoResource: PyError := AttributeError("'NoneType' object has no attribute 'url'")

  /** `catalog.get_show(episode.show_uuid)`. */
  function ShowOf(c: Catalog, e: Episode): Option<Show> {
    if e.showUuid.Some? then Dicts.Get(c.shows, e.showUuid.value) else None
  }

  /** The show an episode is attached to: the catalog's show with its show
      UUID, or else the show processed from the parent of the episode's
      resource. An episode without a resource, or whose parent resource is
      unknown, makes the code read `.url` of `None`. */
  function ParentShow(env: Env, c: Catalog, e: Episode): (r: Result<Step<Show>>)
    ensures ShowOf(c, e).Some? ==> r == Ok(Step(ShowOf(c, e).value, c))
    ensures ShowOf(c, e).None? && e.resource.None? ==> r == Err(NoResource)
    ensures ShowOf(c, e).None? && e.resource.Some? && ResolveParent(c, e.resource.value) == Ok(None) ==> r == Err(NoResource)
    ensures r.Ok? ==> r.value.catalog.resources == c.resources
    ensures r.Ok? && Filed(c) ==> Filed(r.value.catalog)
  {
    match ShowOf(c, e)
    case Some(show) => Ok(Step(show, c))
    case None =>
      if e.resource.None? then Err(NoResource)
      else
        var parent :- ResolveParent(c, e.resource.value);
        if parent.None? then Err(NoResource)
        else
          var st :- ProcessResource(env, c, parent.value);
          match st.out
          case Some(ShowEntity(show)) => Ok(Step(show, st.catalog))
          case _ => Err(AssertionError("We got something other than a Show!?"))
  }

  /** The show with the episode among its episodes: a new episode is
      appended and the list sorted again, and the show in the catalog is
      the one changed; an episode already listed changes nothing. Sorting
      raises when two of the episodes cannot be ordered. */
  function Attach(c: Catalog, show: Show, e: Episode): (r: Result<Step<Show>>)
    ensures e in show.episodes ==> r == Ok(Step(show, c))
    ensures e !in show.episodes ==> (r.Err? <==> !Sorting.Orderable(show.episodes + [e], EpisodeTuple))
    ensures r.Err? ==> r.error.TypeError?
    ensures r.Ok? ==> e in r.value.out.episodes
    ensures r.Ok? && e !in show.episodes ==> multiset(r.value.out.episodes) == multiset(show.episodes) + multiset{e}
    ensures r.Ok? ==> r.value.out == show.(episodes := r.value.out.episodes)
    ensures r.Ok? ==> r.value.catalog == c.(shows := r.value.catalog.shows)
    ensures r.Ok? && Filed(c) ==> Filed(r.value.catalog)
    ensures r.Ok? && e !in show.episodes && show.uuid.Some? ==> Dicts.Get(r.value.catalog.shows, show.uuid.value) == Some(r.value.out)
  {
    if e in show.episodes then Ok(Step(show, c))
    else
      var episodes :- SortEpisodes(show.episodes + [e]);
      assert e in multiset(show.episodes + [e]);
      var s := show.(episodes := episodes);
      Ok(Step(s, c.(shows := PutKeyed(c.shows, s, ShowUuid))))
  }

  /** `associate_entity` with the set of touched entities replaced by a
      list: a show is returned as it is; an episode is attached to its
      show, and is the one entity returned. */
  function AssociateEntity(env: Env, c: Catalog, entity: Entity): (r: Result<Step<seq<Entity>>>)
    ensures r.Ok? ==> r.value.out == [entity]
    ensures entity.ShowEntity? ==> r == Ok(Step([entity], c))
    ensures r.Ok? ==> r.value.catalog.resources == c.resources
    ensures r.Ok? && Filed(c) ==> Filed(r.value.catalog)
    ensures entity.EpisodeEntity? && ShowOf(c, entity.episode).Some? ==>
      var (e, show) := (entity.episode, ShowOf(c, entity.episode).value);
      (r.Ok? <==> e in show.episodes || Sorting.Orderable(show.episodes + [e], EpisodeTuple))
  {
    match entity
    case ShowEntity(_) => Ok(Step([entity], c))
    case EpisodeEntity(e) =>
      var parent :- ParentShow(env, c, e);
      var st :- Attach(parent.catalog, parent.out, e);
      Ok(Step([entity], st.catalog))
  }

  /** Once an episode is attached to a show the catalog files under its
      UUID, attaching it again changes nothing. */
  lemma AssociateIdempotent(env: Env, c: Catalog, e: Episode)
    requires Filed(c) && ShowOf(c, e).Some? && AssociateEntity(env, c, EpisodeEntity(e)).Ok?
    ensures var c' := AssociateEntity(env, c, EpisodeEntity(e)).value.catalog;
      AssociateEntity(env, c', EpisodeEntity(e)) == Ok(Step([EpisodeEntity(e)], c'))
  {
    var show := ShowOf(c, e).value;
    var k := e.showUuid.value;
    assert (k, show) in c.shows;
    assert show.uuid == Some(k);
    var st := Attach(c, show, e).value;
    if e !in show.episodes {
      assert Dicts.Get(st.catalog.shows, k) == Some(st.out);
    }
    assert ShowOf(st.catalog, e) == Some(st.out);
  }

  /** Attaching an episode to a show whose episodes all have airdates
      fails when the new one has none: `sorted` cannot order `None`
      against a `datetime`. */
  lemma AttachUndatedFails(env: Env, c: Catalog, e: Episode)
    requires ShowOf(c, e).Some? && e.airdate.None?
    requires |ShowOf(c, e).value.episodes| > 0
    requires forall k :: 0 <= k < |ShowOf(c, e).value.episodes| ==> ShowOf(c, e).value.episodes[k].airdate.Some?
    ensures AssociateEntity(env, c, EpisodeEntity(e)).Err?
  {
    var eps := ShowOf(c, e).value.episodes;
    var k := 0;
    assert e !in eps;
    var all := eps + [e];
    assert all[k] == eps[k] && all[|eps|] == e;
    assert !Sorting.Comparable(EpisodeTuple(all[k]), EpisodeTuple(all[|eps|]));
  }

  // ---------------------------------------------------------------------
  // The code as written, where it departs from the behaviour above
  // ---------------------------------------------------------------------

  /** `associate_entity` as written: the entities touched are gathered in a
      `set`, but `Show` and `Episode` are dataclasses with `eq` and without
      `frozen`, so they have no hash and `touched.add(entity)` raises once
      the association work is done. */
  function AssociateAsWritten(env: Env, c: Catalog, entity: Entity): (r: Result<Step<seq<Entity>>>)
    ensures r.Err?
    ensures entity.ShowEntity? ==> r == Err(TypeError("unhashable type: 'Show'"))
    ensures entity.EpisodeEntity? && ParentShow(env, c, entity.episode).Ok? ==> r == Err(TypeError("unhashable type: 'Episode'"))
  {
    match entity
    case ShowEntity(_) => Err(TypeError("unhashable type: 'Show'"))
    case EpisodeEntity(e) =>
      var _ :- ParentShow(env, c, e);
      Err(TypeError("unhashable type: 'Episode'"))
  }

  /** Every association the corrected code completes fails as written. */
  lemma AsWrittenAssociateFails(env: Env, c: Catalog, entity: Entity)
    requires AssociateEntity(env, c, entity).Ok?
    ensures AssociateAsWritten(env, c, entity).Err? && AssociateAsWritten(env, c, entity).error.TypeError?
  {
  }

  /** `_process_episode` as written. The loop over `list_episodes()` leaves
      `episode` bound to the last listed episode, so when the player file
      is read but holds no usable data the function files and returns that
      unrelated episode; with no episode listed the name is unbound. */
  function ProcessEpisodeAsWritten(env: Env, c: Catalog, res: Resource): (r: Result<Step<Option<Episode>>>)
    ensures CachedEpisode(c, res.url).None? && ReadPlayer(env, res) == Ok(Unreadable) ==>
      (|c.episodes| == 0 <==> r == Err(UnboundLocalError("episode")))
    ensures CachedEpisode(c, res.url).None? && ReadPlayer(env, res) == Ok(Unreadable) && |c.episodes| > 0 ==>
      r.Ok? && r.value.out == Some(c.episodes[|c.episodes| - 1].1)
  {
    match CachedEpisode(c, res.url)
    case Some(e) => Ok(Step(Some(e), c))
    case None =>
      var p :- ReadPlayer(env, res);
      match p
      case NoPlayer => Ok(Step(None, c))
      case Read(e) => Ok(Step(Some(e), c.(episodes := PutKeyed(c.episodes, e, EpisodeUuid))))
      case Unreadable =>
        if |c.episodes| == 0 then Err(UnboundLocalError("episode"))
        else
          var last := c.episodes[|c.episodes| - 1].1;
          Ok(Step(Some(last), c.(episodes := PutKeyed(c.episodes, last, EpisodeUuid))))
  }

  /** An unreadable player file makes the code as written return an episode
      that does not belong to the resource, where the corrected function
      returns none. */
  lemma StaleEpisodeReturned(env: Env, c: Catalog, res: Resource)
    requires CachedEpisode(c, res.url).None? && ReadPlayer(env, res) == Ok(Unreadable)
    requires |c.episodes| > 0 && c.episodes[|c.episodes| - 1].1.resource != Some(res)
    ensures ProcessEpisodeAsWritten(env, c, res).Ok?
    ensures !BelongsTo(ProcessEpisodeAsWritten(env, c, res).value.out.value, res)
    ensures ProcessEpisode(env, c, res) == Ok(Step(None, c))
  {
    var last := c.episodes[|c.episodes| - 1].1;
    assert Dicts.Values(c.episodes)[|c.episodes| - 1] == last;
  }
}

=== FILE: station_catalog.dfy ===
/** The catalog of shows, episodes, hosts and resources
    (kcrw_feed/station_catalog.py): filtered listings, the diff between two
    catalogs, and the two ways a catalog is loaded. */
module StationCatalog {
  import opened Wrappers
  import opened Values
  import opened Dicts
  import opened Lists
  import opened Models
  import opened Documents
  import opened SourceManager
  import Resources
  import Config

  /** `Catalog`: shows, episodes and hosts keyed by UUID, resources by URL. */
  datatype Catalog = Catalog(
    shows: PyDict<Uuid, Show>,
    episodes: PyDict<Uuid, Episode>,
    hosts: PyDict<Uuid, Host>,
    resources: PyDict<string, Resource>)

  const EmptyCatalog := Catalog([], [], [], [])

  // ---------------------------------------------------------------------
  // _filter_items
  // ---------------------------------------------------------------------

  /** The `key` argument: a string-valued accessor, or none, in which case
      the pattern is searched in `str(item)`, rendered by the caller. */
  datatype ItemKey<!T> = Key(get: T -> Option<string>) | Repr(render: T -> string)

  /** `pattern.search(s)`: `None` is not a string. */
  function Search(p: Pattern, s: Option<string>): (r: Result<bool>)
    ensures r.Ok? <==> s.Some?
    ensures r == Ok(true) <==> s.Some? && p(s.value)
  {
    if s.Some? then Ok(p(s.value))
    else Err(TypeError("expected string or bytes-like object, got 'NoneType'"))
  }

  /** A date value can be ordered against `bound`: it is `None` (which the
      filter drops before comparing) or a datetime of the same awareness. */
  predicate Comparable(v: Value, bound: DateTime) {
    v.Null? || (v.Time? && v.t.offset.Some? == bound.offset.Some?)
  }

  /** `v is not None and v >= bound`. */
  function NotBefore(v: Value, bound: DateTime): (r: Result<bool>)
    ensures r.Ok? <==> Comparable(v, bound)
    ensures r == Ok(true) <==> v.Time? && Comparable(v, bound) && TimeLe(bound, v.t)
  {
    match v
    case Null => Ok(false)
    case Time(t) =>
      if t.offset.Some? != bound.offset.Some? then Err(TypeError("can't compare offset-naive and offset-aware datetimes"))
      else Ok(TimeLe(bound, t))
    case _ => Err(TypeError("'>=' not supported between instances of '" + TypeName(v) + "' and 'datetime.datetime'"))
  }

  /** `v is not None and v <= bound`. */
  function NotAfter(v: Value, bound: DateTime): (r: Result<bool>)
    ensures r.Ok? <==> Comparable(v, bound)
    ensures r == Ok(true) <==> v.Time? && Comparable(v, bound) && TimeLe(v.t, bound)
  {
    match v
    case Null => Ok(false)
    case Time(t) =>
      if t.offset.Some? != bound.offset.Some? then Err(TypeError("can't compare offset-naive and offset-aware datetimes"))
      else Ok(TimeLe(t, bound))
    case _ => Err(TypeError("'<=' not supported between instances of '" + TypeName(v) + "' and 'datetime.datetime'"))
  }

  /** The item passes the match filter: there is no pattern, or the
      pattern occurs in its key (or its rendering). */
  predicate Matches<T>(o: FilterOptions, key: ItemKey<T>, x: T) {
    o.compiledMatch.None? || Found(o.compiledMatch.value, key, x)
  }

  /** The pattern occurs in the item's key, which is a string, or in its
      rendering. */
  predicate Found<T>(p: Pattern, key: ItemKey<T>, x: T) {
    match key
    case Key(get) => get(x).Some? && p(get(x).value)
    case Repr(render) => p(render(x))
  }

  /** The item's date is a datetime no earlier than the start bound. */
  predicate AfterStart<T>(o: FilterOptions, dateKey: Option<T -> Value>, x: T) {
    dateKey.None? || o.startDate.None? || (dateKey.value(x).Time? && TimeLe(o.startDate.value, dateKey.value(x).t))
  }

  /** The item's date is a datetime no later than the end bound. */
  predicate BeforeEnd<T>(o: FilterOptions, dateKey: Option<T -> Value>, x: T) {
    dateKey.None? || o.endDate.None? || (dateKey.value(x).Time? && TimeLe(dateKey.value(x).t, o.endDate.value))
  }

  /** The item lies in the inclusive date window and matches. */
  predicate Kept<T>(o: FilterOptions, key: ItemKey<T>, dateKey: Option<T -> Value>, x: T) {
    Matches(o, key, x) && AfterStart(o, dateKey, x) && BeforeEnd(o, dateKey, x)
  }

  /** Testing the item raises nothing: a keyed search needs a string key,
      and each date comparison the item reaches needs a comparable date. */
  predicate Safe<T>(o: FilterOptions, key: ItemKey<T>, dateKey: Option<T -> Value>, x: T) {
    && (o.compiledMatch.None? || !key.Key? || key.get(x).Some?)
    && (Matches(o, key, x) && dateKey.Some? && o.startDate.Some? ==> Comparable(dateKey.value(x), o.startDate.value))
    && (Matches(o, key, x) && AfterStart(o, dateKey, x) && dateKey.Some? && o.endDate.Some?
        ==> Comparable(dateKey.value(x), o.endDate.value))
  }

  /** The match comprehension. */
  function MatchStage<T(!new)>(items: seq<T>, o: FilterOptions, key: ItemKey<T>): (r: Result<seq<T>>)
    ensures r.Ok? <==> o.compiledMatch.None? || !key.Key? || forall x :: x in items ==> key.get(x).Some?
    ensures r.Ok? ==> forall x :: x in r.value <==> x in items && Matches(o, key, x)
  {
    match o.compiledMatch
    case None => Ok(items)
    case Some(p) =>
      match key
      case Key(get) => FilterResult(items, x => Search(p, get(x)))
      case Repr(render) => Ok(Filter(items, x => p(render(x))))
  }

  /** The start-date comprehension. */
  function StartStage<T(!new)>(items: seq<T>, o: FilterOptions, dateKey: Option<T -> Value>): (r: Result<seq<T>>)
    ensures r.Ok? <==> (dateKey.None? || o.startDate.None? ||
      forall x :: x in items ==> Comparable(dateKey.value(x), o.startDate.value))
    ensures r.Ok? ==> forall x :: x in r.value <==> x in items && AfterStart(o, dateKey, x)
  {
    if dateKey.None? || o.startDate.None? then Ok(items)
    else FilterResult(items, x => NotBefore(dateKey.value(x), o.startDate.value))
  }

  /** The end-date comprehension. */
  function EndStage<T(!new)>(items: seq<T>, o: FilterOptions, dateKey: Option<T -> Value>): (r: Result<seq<T>>)
    ensures r.Ok? <==> (dateKey.None? || o.endDate.None? ||
      forall x :: x in items ==> Comparable(dateKey.value(x), o.endDate.value))
    ensures r.Ok? ==> forall x :: x in r.value <==> x in items && BeforeEnd(o, dateKey, x)
  {
    if dateKey.None? || o.endDate.None? then Ok(items)
    else FilterResult(items, x => NotAfter(dateKey.value(x), o.endDate.value))
  }

  /** `_filter_items`: without options every item is kept in order;
      otherwise exactly the items that match and lie in the inclusive date
      window remain, and the call fails exactly when some item reaches a
      test it cannot take. */
  function FilterItems<T(!new)>(items: seq<T>, opts: Option<FilterOptions>, key: ItemKey<T>, dateKey: Option<T -> Value>)
    : (r: Result<seq<T>>)
    ensures opts.None? ==> r == Ok(items)
    ensures opts.Some? ==> (r.Ok? <==> forall x :: x in items ==> Safe(opts.value, key, dateKey, x))
    ensures opts.Some? && r.Ok? ==> forall x :: x in r.value <==> x in items && Kept(opts.value, key, dateKey, x)
  {
    if opts.None? then Ok(items)
    else
      var o := opts.value;
      var a := MatchStage(items, o, key);
      if a.Err? then Err(a.error)
      else
        var b := StartStage(a.value, o, dateKey);
        if b.Err? then
          assert exists x :: x in a.value && !Comparable(dateKey.value(x), o.startDate.value);
          Err(b.error)
        else
          var c := EndStage(b.value, o, dateKey);
          if c.Err? then
            assert exists x :: x in b.value && !Comparable(dateKey.value(x), o.endDate.value);
            c
          else c
  }

  /** Each comprehension keeps order. */
  lemma MatchStageSubseq<T(!new)>(items: seq<T>, o: FilterOptions, key: ItemKey<T>)
    requires MatchStage(items, o, key).Ok?
    ensures SubseqOf(MatchStage(items, o, key).value, items)
  {
    match o.compiledMatch
    case None => SubseqOfSelf(items);
    case Some(p) =>
      match key
      case Key(get) => FilterResultSubseq(items, x => Search(p, get(x)));
      case Repr(render) => FilterSubseq(items, x => p(render(x)));
  }

  lemma StartStageSubseq<T(!new)>(items: seq<T>, o: FilterOptions, dateKey: Option<T -> Value>)
    requires StartStage(items, o, dateKey).Ok?
    ensures SubseqOf(StartStage(items, o, dateKey).value, items)
  {
    if dateKey.None? || o.startDate.None? {
      SubseqOfSelf(items);
    } else {
      FilterResultSubseq(items, x => NotBefore(dateKey.value(x), o.startDate.value));
    }
  }

  lemma EndStageSubseq<T(!new)>(items: seq<T>, o: FilterOptions, dateKey: Option<T -> Value>)
    requires EndStage(items, o, dateKey).Ok?
    ensures SubseqOf(EndStage(items, o, dateKey).value, items)
  {
    if dateKey.None? || o.endDate.None? {
      SubseqOfSelf(items);
    } else {
      FilterResultSubseq(items, x => NotAfter(dateKey.value(x), o.endDate.value));
    }
  }

  /** The filtered list is the input with items left out, order kept. */
  lemma FilterItemsSubseq<T(!new)>(items: seq<T>, opts: Option<FilterOptions>, key: ItemKey<T>, dateKey: Option<T -> Value>)
    requires FilterItems(items, opts, key, dateKey).Ok?
    ensures SubseqOf(FilterItems(items, opts, key, dateKey).value, items)
  {
    if opts.None? {
      SubseqOfSelf(items);
    } else {
      var o := opts.value;
      var a := MatchStage(items, o, key).value;
      var b := StartStage(a, o, dateKey).value;
      MatchStageSubseq(items, o, key);
      StartStageSubseq(a, o, dateKey);
      EndStageSubseq(b, o, dateKey);
      SubseqOfTrans(b, a, items);
      SubseqOfTrans(EndStage(b, o, dateKey).value, b, items);
    }
  }

  /** A comprehension over items that all pass keeps them all. */
  lemma MatchStageKeeps<T(!new)>(items: seq<T>, o: FilterOptions, key: ItemKey<T>)
    requires forall x :: x in items ==> Matches(o, key, x)
    ensures MatchStage(items, o, key) == Ok(items)
  {
    match o.compiledMatch
    case None =>
    case Some(p) =>
      match key
      case Key(get) =>
        assert forall i :: 0 <= i < |items| ==> Matches(o, key, items[i]);
        FilterResultAll(items, x => Search(p, get(x)));
      case Repr(render) =>
        assert forall i :: 0 <= i < |items| ==> Matches(o, key, items[i]);
        FilterAll(items, x => p(render(x)));
  }

  lemma StartStageKeeps<T(!new)>(items: seq<T>, o: FilterOptions, dateKey: Option<T -> Value>)
    requires forall x :: x in items ==> AfterStart(o, dateKey, x) && (dateKey.Some? && o.startDate.Some? ==> Comparable(dateKey.value(x), o.startDate.value))
    ensures StartStage(items, o, dateKey) == Ok(items)
  {
    if dateKey.Some? && o.startDate.Some? {
      assert forall i :: 0 <= i < |items| ==> AfterStart(o, dateKey, items[i]) && Comparable(dateKey.value(items[i]), o.startDate.value);
      FilterResultAll(items, x => NotBefore(dateKey.value(x), o.startDate.value));
    }
  }

  lemma EndStageKeeps<T(!new)>(items: seq<T>, o: FilterOptions, dateKey: Option<T -> Value>)
    requires forall x :: x in items ==> BeforeEnd(o, dateKey, x) && (dateKey.Some? && o.endDate.Some? ==> Comparable(dateKey.value(x), o.endDate.value))
    ensures EndStage(items, o, dateKey) == Ok(items)
  {
    if dateKey.Some? && o.endDate.Some? {
      assert forall i :: 0 <= i < |items| ==> BeforeEnd(o, dateKey, items[i]) && Comparable(dateKey.value(items[i]), o.endDate.value);
      FilterResultAll(items, x => NotAfter(dateKey.value(x), o.endDate.value));
    }
  }

  /** Filtering a filtered list changes nothing. */
  lemma FilterItemsIdempotent<T(!new)>(items: seq<T>, opts: Option<FilterOptions>, key: ItemKey<T>, dateKey: Option<T -> Value>)
    requires FilterItems(items, opts, key, dateKey).Ok?
    ensures FilterItems(FilterItems(items, opts, key, dateKey).value, opts, key, dateKey) == FilterItems(items, opts, key, dateKey)
  {
    if opts.Some? {
      var o := opts.value;
      var r := FilterItems(items, opts, key, dateKey).value;
      assert forall x :: x in r ==> x in items && Kept(o, key, dateKey, x) && Safe(o, key, dateKey, x);
      MatchStageKeeps(r, o, key);
      StartStageKeeps(r, o, dateKey);
      EndStageKeeps(r, o, dateKey);
    }
  }
  /** What the command line asks of an item: a given `--match`, wrapped
      and compiled, occurs in its key; a given `--since` or `--until`,
      parsed, bounds its date (when the listing has one). */
  predicate Wanted<T>(args: Config.Args, compile: string -> Config.Compiled, parse: string -> Option<DateTime>,
                      localOffset: int, key: ItemKey<T>, dateKey: Option<T -> Value>, x: T)
    requires Config.GetFilterOptions(args, compile, parse, localOffset).Ok?
  {
    && (Config.Given(args.matchArg) ==> Found(compile(Config.WrapMatch(args.matchArg.value)).pattern, key, x))
    && (Config.Given(args.since) && dateKey.Some? ==>
          dateKey.value(x).Time? && TimeLe(Config.ParseDatetime(parse, localOffset, args.since.value).value, dateKey.value(x).t))
    && (Config.Given(args.until) && dateKey.Some? ==>
          dateKey.value(x).Time? && TimeLe(dateKey.value(x).t, Config.ParseDatetime(parse, localOffset, args.until.value).value))
  }

  /** The options `get_filter_options` builds from the command line keep
      exactly the items the arguments ask for: an empty `--match`,
      `--since` or `--until` filters nothing. */
  lemma ArgsFilter<T(!new)>(args: Config.Args, compile: string -> Config.Compiled, parse: string -> Option<DateTime>,
                            localOffset: int, items: seq<T>, key: ItemKey<T>, dateKey: Option<T -> Value>, x: T)
    requires Config.GetFilterOptions(args, compile, parse, localOffset).Ok?
    requires FilterItems(items, Some(Config.GetFilterOptions(args, compile, parse, localOffset).value), key, dateKey).Ok?
    ensures x in FilterItems(items, Some(Config.GetFilterOptions(args, compile, parse, localOffset).value), key, dateKey).value
      <==> x in items && Wanted(args, compile, parse, localOffset, key, dateKey, x)
  {
  }


  // ---------------------------------------------------------------------
  // list_resources, list_shows, list_episodes, list_hosts
  // ---------------------------------------------------------------------

  /** The pattern, if any, occurs in `s`. */
  predicate PatternMatches(o: FilterOptions, s: Option<string>) {
    o.compiledMatch.None? || (s.Some? && o.compiledMatch.value(s.value))
  }

  /** The value is a datetime inside the window the options set, bounds
      included; with no bounds any value is inside. */
  predicate InWindow(o: FilterOptions, v: Value) {
    && (o.startDate.Some? ==> v.Time? && TimeLe(o.startDate.value, v.t))
    && (o.endDate.Some? ==> v.Time? && TimeLe(v.t, o.endDate.value))
  }

  /** A resource's date: `metadata.get("lastmod", None)`. */
  function Lastmod(r: Resource): Value {
    Lookup(r.metadata, "lastmod").GetOr(Null)
  }

  function ResourceUrl(r: Resource): Option<string> { Some(r.url) }
  function ShowUrl(s: Show): Option<string> { s.url }
  function ShowDate(s: Show): Value { DateValue(s.lastUpdated) }
  function EpisodeUrl(e: Episode): Option<string> { e.url }
  function EpisodeDate(e: Episode): Value { DateValue(e.lastUpdated) }
  function HostName(h: Host): Option<string> { h.name }

  /** `list_resources`: the catalog's resources whose URL matches and whose
      `lastmod` lies in the window. */
  function ListResources(c: Catalog, opts: Option<FilterOptions>): (r: Result<seq<Resource>>)
    ensures opts.None? ==> r == Ok(Dicts.Values(c.resources))
    ensures opts.Some? && r.Ok? ==> forall x :: x in r.value <==>
      x in Dicts.Values(c.resources) && PatternMatches(opts.value, Some(x.url)) && InWindow(opts.value, Lastmod(x))
  {
    FilterItems(Dicts.Values(c.resources), opts, Key(ResourceUrl), Some(Lastmod))
  }

  /** `list_shows`: the catalog's shows whose URL matches and whose
      `last_updated` lies in the window; a pattern meets a show without a
      URL as `None` and raises. */
  function ListShows(c: Catalog, opts: Option<FilterOptions>): (r: Result<seq<Show>>)
    ensures opts.None? ==> r == Ok(Dicts.Values(c.shows))
    ensures opts.Some? && r.Ok? ==> forall x :: x in r.value <==>
      x in Dicts.Values(c.shows) && PatternMatches(opts.value, x.url) && InWindow(opts.value, DateValue(x.lastUpdated))
    ensures opts.Some? && opts.value.compiledMatch.Some? && (exists x :: x in Dicts.Values(c.shows) && x.url.None?) ==> r.Err?
  {
    FilterItems(Dicts.Values(c.shows), opts, Key(ShowUrl), Some(ShowDate))
  }

  /** `list_episodes`, like `list_shows`. */
  function ListEpisodes(c: Catalog, opts: Option<FilterOptions>): (r: Result<seq<Episode>>)
    ensures opts.None? ==> r == Ok(Dicts.Values(c.episodes))
    ensures opts.Some? && r.Ok? ==> forall x :: x in r.value <==>
      x in Dicts.Values(c.episodes) && PatternMatches(opts.value, x.url) && InWindow(opts.value, DateValue(x.lastUpdated))
    ensures opts.Some? && opts.value.compiledMatch.Some? && (exists x :: x in Dicts.Values(c.episodes) && x.url.None?) ==> r.Err?
  {
    FilterItems(Dicts.Values(c.episodes), opts, Key(EpisodeUrl), Some(EpisodeDate))
  }

  /** `list_hosts`: filtered by name only; the date bounds are ignored. */
  function ListHosts(c: Catalog, opts: Option<FilterOptions>): (r: Result<seq<Host>>)
    ensures opts.None? ==> r == Ok(Dicts.Values(c.hosts))
    ensures opts.Some? ==> (r.Ok? <==> opts.value.compiledMatch.None? || forall x :: x in Dicts.Values(c.hosts) ==> x.name.Some?)
    ensures opts.Some? && r.Ok? ==> forall x :: x in r.value <==> x in Dicts.Values(c.hosts) && PatternMatches(opts.value, x.name)
  {
    FilterItems(Dicts.Values(c.hosts), opts, Key(HostName), None)
  }

  /** With bounds and dates that are all timezone-aware (as parsed
      sitemap `lastmod` values are), listing resources cannot fail. */
  lemma ListResourcesAware(c: Catalog, o: FilterOptions)
    requires o.startDate.Some? ==> o.startDate.value.offset.Some?
    requires o.endDate.Some? ==> o.endDate.value.offset.Some?
    requires forall x :: x in Dicts.Values(c.resources) ==> Lastmod(x).Null? || (Lastmod(x).Time? && Lastmod(x).t.offset.Some?)
    ensures ListResources(c, Some(o)).Ok?
  {
    assert forall x :: x in Dicts.Values(c.resources) ==> Safe(o, Key(ResourceUrl), Some(Lastmod), x);
  }

  // ---------------------------------------------------------------------
  // diff
  // ---------------------------------------------------------------------

  /** `ModifiedEntry`, without the DeepDiff report. */
  datatype ModifiedEntry = ModifiedEntry(current: Resource, updated: Resource)

  datatype CatalogDiff = CatalogDiff(added: seq<Resource>, removed: seq<Resource>, modified: seq<ModifiedEntry>)

  const NoChanges := CatalogDiff([], [], [])

  const Unhashable := TypeError("unhashable type: 'Resource'")

  /** `diff` as written: `set(...)` of a listing hashes `Resource` records,
      and a dataclass that defines equality without `frozen=True` has no
      hash, so any non-empty listing raises. */
  function DiffAsWritten(mine: Catalog, theirs: Catalog, opts: Option<FilterOptions>): (r: Result<CatalogDiff>)
    ensures r.Ok? ==> r.value == NoChanges
  {
    var a :- ListResources(mine, opts);
    if |a| > 0 then Err(Unhashable)
    else
      var b :- ListResources(theirs, opts);
      if |b| > 0 then Err(Unhashable) else Ok(NoChanges)
  }

  /** Diffing any catalog that holds a resource against itself raises
      instead of reporting no change. */
  lemma AsWrittenSelfDiffFails(c: Catalog)
    requires |c.resources| > 0
    ensures DiffAsWritten(c, c, None) == Err(Unhashable)
  {
  }

  /** The URLs of a list of resources, in order. */
  function Urls(rs: seq<Resource>): (r: seq<string>)
    ensures |r| == |rs|
    ensures forall i :: 0 <= i < |rs| ==> r[i] == rs[i].url
  {
    seq(|rs|, i requires 0 <= i < |rs| => rs[i].url)
  }

  /** A URL of the list is the URL of one of its resources. */
  lemma UrlsMember(rs: seq<Resource>, u: string)
    ensures u in Urls(rs) <==> exists x :: x in rs && x.url == u
  {
    if u in Urls(rs) {
      var i :| 0 <= i < |rs| && Urls(rs)[i] == u;
      assert rs[i] in rs;
    }
  }

  /** A set of resources told apart by URL, as the tests of `diff` expect:
      the first resource for each URL. */
  function FirstPerUrl(rs: seq<Resource>): (r: seq<Resource>)
    ensures forall x :: x in r ==> x in rs
    ensures forall u :: u in Urls(r) <==> u in Urls(rs)
    ensures NoDuplicates(Urls(r))
  {
    if |rs| == 0 then []
    else
      var init := rs[..|rs| - 1];
      var last := rs[|rs| - 1];
      var t := FirstPerUrl(init);
      assert forall x :: x in rs <==> x in init || x == last;
      assert forall u :: u in Urls(rs) <==> u in Urls(init) || u == last.url;
      if last.url in Urls(t) then t
      else
        assert Urls(t + [last]) == Urls(t) + [last.url];
        t + [last]
  }

  /** The change at URL `u`: both catalogs hold a resource there and the
      two records differ. */
  function ModifiedAt(mine: PyDict<string, Resource>, theirs: PyDict<string, Resource>, u: string): Option<ModifiedEntry> {
    var cur := Dicts.Get(mine, u);
    var other := Dicts.Get(theirs, u);
    if cur.Some? && other.Some? && cur.value != other.value then Some(ModifiedEntry(cur.value, other.value)) else None
  }

  /** The loop over the intersection: `asdict(None)` raises when a URL is
      not a key of one of the catalogs. */
  function Modifications(mine: PyDict<string, Resource>, theirs: PyDict<string, Resource>, urls: seq<string>)
    : (r: Result<seq<ModifiedEntry>>)
    ensures r.Ok? <==> forall i :: 0 <= i < |urls| ==> HasKey(mine, urls[i]) && HasKey(theirs, urls[i])
    ensures r.Ok? ==> forall m :: m in r.value <==> exists i :: 0 <= i < |urls| && ModifiedAt(mine, theirs, urls[i]) == Some(m)
  {
    if |urls| == 0 then Ok([])
    else
      assert forall i :: 1 <= i < |urls| ==> urls[i] == urls[1..][i - 1];
      var cur := Dicts.Get(mine, urls[0]);
      var other := Dicts.Get(theirs, urls[0]);
      if cur.None? || other.None? then Err(TypeError("asdict() should be called on dataclass instances"))
      else
        var rest :- Modifications(mine, theirs, urls[1..]);
        Ok(if cur.value != other.value then [ModifiedEntry(cur.value, other.value)] + rest else rest)
  }

  /** `b - a` on resources told apart by URL. */
  function Minus(b: seq<Resource>, a: seq<Resource>): (r: seq<Resource>)
    ensures forall u :: u in Urls(r) <==> u in Urls(b) && u !in Urls(a)
    ensures forall x :: x in r ==> x in b
  {
    var kept := Filter(b, (x: Resource) => x.url !in Urls(a));
    var r := FirstPerUrl(kept);
    forall u ensures u in Urls(kept) <==> u in Urls(b) && u !in Urls(a) {
      UrlsMember(kept, u);
      UrlsMember(b, u);
    }
    r
  }

  /** The URLs of `a & b`. */
  function Shared(a: seq<Resource>, b: seq<Resource>): (r: seq<string>)
    ensures forall u :: u in r <==> u in Urls(a) && u in Urls(b)
  {
    var r := Distinct(FilterMap(a, (x: Resource) => x.url in Urls(b), (x: Resource) => x.url));
    SharedSound(a, b, r);
    r
  }

  lemma SharedSound(a: seq<Resource>, b: seq<Resource>, r: seq<string>)
    requires r == Distinct(FilterMap(a, (x: Resource) => x.url in Urls(b), (x: Resource) => x.url))
    ensures forall u :: u in r <==> u in Urls(a) && u in Urls(b)
  {
    forall u ensures u in r <==> u in Urls(a) && u in Urls(b) {
      if u in r {
        FilterMapSound(a, (x: Resource) => x.url in Urls(b), (x: Resource) => x.url, u);
      }
      UrlsMember(a, u);
    }
  }

  /** The diff of two listings. */
  function DiffListings(mine: Catalog, theirs: Catalog, a: seq<Resource>, b: seq<Resource>): Result<CatalogDiff> {
    var modified :- Modifications(mine.resources, theirs.resources, Shared(a, b));
    Ok(CatalogDiff(Minus(b, a), Minus(a, b), modified))
  }

  /** `diff`, corrected: resources are told apart by URL, and both sides
      are listed with the same filter. */
  function Diff(mine: Catalog, theirs: Catalog, opts: Option<FilterOptions>): (r: Result<CatalogDiff>)
    ensures ListResources(mine, opts).Err? ==> r == Err(ListResources(mine, opts).error)
    ensures ListResources(mine, opts).Ok? && ListResources(theirs, opts).Err? ==> r == Err(ListResources(theirs, opts).error)
    ensures r.Ok? ==> forall u :: u in Urls(r.value.added) ==> u !in Urls(r.value.removed)
  {
    var a :- ListResources(mine, opts);
    var b :- ListResources(theirs, opts);
    DiffListings(mine, theirs, a, b)
  }

  /** `added` is the other catalog's listing less this one's, `removed` the
      converse, by URL; every reported resource comes from its listing. */
  lemma DiffSides(mine: Catalog, theirs: Catalog, opts: Option<FilterOptions>, u: string)
    requires Diff(mine, theirs, opts).Ok?
    ensures u in Urls(Diff(mine, theirs, opts).value.added) <==>
      u in Urls(ListResources(theirs, opts).value) && u !in Urls(ListResources(mine, opts).value)
    ensures u in Urls(Diff(mine, theirs, opts).value.removed) <==>
      u in Urls(ListResources(mine, opts).value) && u !in Urls(ListResources(theirs, opts).value)
    ensures forall x :: x in Diff(mine, theirs, opts).value.added ==> x in ListResources(theirs, opts).value
    ensures forall x :: x in Diff(mine, theirs, opts).value.removed ==> x in ListResources(mine, opts).value
  {
    var a := ListResources(mine, opts).value;
    var b := ListResources(theirs, opts).value;
    assert Diff(mine, theirs, opts) == DiffListings(mine, theirs, a, b);
  }

  /** `modified` holds exactly the changes at URLs both listings contain. */
  lemma DiffModified(mine: Catalog, theirs: Catalog, opts: Option<FilterOptions>, m: ModifiedEntry)
    requires Diff(mine, theirs, opts).Ok?
    ensures m in Diff(mine, theirs, opts).value.modified <==>
      exists u :: u in Urls(ListResources(mine, opts).value) && u in Urls(ListResources(theirs, opts).value)
        && ModifiedAt(mine.resources, theirs.resources, u) == Some(m)
  {
    var a := ListResources(mine, opts).value;
    var b := ListResources(theirs, opts).value;
    assert Diff(mine, theirs, opts) == DiffListings(mine, theirs, a, b);
    ListingsModified(mine.resources, theirs.resources, a, b, Shared(a, b), m);
  }

  lemma ListingsModified(mine: PyDict<string, Resource>, theirs: PyDict<string, Resource>, a: seq<Resource>, b: seq<Resource>,
                         common: seq<string>, m: ModifiedEntry)
    requires forall u :: u in common <==> u in Urls(a) && u in Urls(b)
    requires Modifications(mine, theirs, common).Ok?
    ensures m in Modifications(mine, theirs, common).value <==>
      exists u :: u in Urls(a) && u in Urls(b) && ModifiedAt(mine, theirs, u) == Some(m)
  {
    if m in Modifications(mine, theirs, common).value {
      var i :| 0 <= i < |common| && ModifiedAt(mine, theirs, common[i]) == Some(m);
      assert common[i] in common;
    }
    if exists u :: u in Urls(a) && u in Urls(b) && ModifiedAt(mine, theirs, u) == Some(m) {
      var u :| u in Urls(a) && u in Urls(b) && ModifiedAt(mine, theirs, u) == Some(m);
      var i :| 0 <= i < |common| && common[i] == u;
    }
  }

  /** A catalog diffed with itself reports nothing. */
  lemma DiffSelf(c: Catalog, opts: Option<FilterOptions>)
    requires Diff(c, c, opts).Ok?
    ensures Diff(c, c, opts).value == NoChanges
  {
    SelfNothingAdded(c, opts);
    SelfNothingRemoved(c, opts);
    var d := Diff(c, c, opts).value;
    if |d.modified| > 0 {
      DiffModified(c, c, opts, d.modified[0]);
    }
  }

  lemma SelfNothingAdded(c: Catalog, opts: Option<FilterOptions>)
    requires Diff(c, c, opts).Ok?
    ensures Diff(c, c, opts).value.added == []
  {
    var d := Diff(c, c, opts).value;
    if |d.added| > 0 {
      DiffSides(c, c, opts, d.added[0].url);
    }
  }

  lemma SelfNothingRemoved(c: Catalog, opts: Option<FilterOptions>)
    requires Diff(c, c, opts).Ok?
    ensures Diff(c, c, opts).value.removed == []
  {
    var d := Diff(c, c, opts).value;
    if |d.removed| > 0 {
      DiffSides(c, c, opts, d.removed[0].url);
    }
  }

  /** When each catalog files every resource under its own URL, the diff
      fails only where a listing does. */
  lemma DiffOfIndexed(mine: Catalog, theirs: Catalog, opts: Option<FilterOptions>)
    requires forall i :: 0 <= i < |mine.resources| ==> mine.resources[i].1.url == mine.resources[i].0
    requires forall i :: 0 <= i < |theirs.resources| ==> theirs.resources[i].1.url == theirs.resources[i].0
    requires ListResources(mine, opts).Ok? && ListResources(theirs, opts).Ok?
    ensures Diff(mine, theirs, opts).Ok?
  {
    var a := ListResources(mine, opts).value;
    var b := ListResources(theirs, opts).value;
    var common := Shared(a, b);
    forall i | 0 <= i < |common| ensures HasKey(mine.resources, common[i]) && HasKey(theirs.resources, common[i]) {
      var u := common[i];
      UrlsMember(a, u);
      UrlsMember(b, u);
      var x :| x in a && x.url == u;
      var y :| y in b && y.url == u;
      ListedIsStored(mine, opts, x);
      ListedIsStored(theirs, opts, y);
    }
    assert Diff(mine, theirs, opts) == DiffListings(mine, theirs, a, b);
  }

  /** A listed resource is a value of the catalog, filed under its URL
      when the catalog is indexed by URL. */
  lemma ListedIsStored(c: Catalog, opts: Option<FilterOptions>, x: Resource)
    requires forall i :: 0 <= i < |c.resources| ==> c.resources[i].1.url == c.resources[i].0
    requires ListResources(c, opts).Ok? && x in ListResources(c, opts).value
    ensures HasKey(c.resources, x.url)
  {
    FilterItemsSubseq(Dicts.Values(c.resources), opts, Key(ResourceUrl), Some(Lastmod));
    SubseqOfMembers(ListResources(c, opts).value, Dicts.Values(c.resources));
    var i :| 0 <= i < |c.resources| && Dicts.Values(c.resources)[i] == x;
    assert c.resources[i].0 == x.url;
  }

  /** The corrected diff on the catalogs of the repository's own test: a
      new URL is added and a changed record at a shared URL is modified. */
  lemma DiffExample(before: Resource, changed: Resource, added: Resource)
    requires before.url == changed.url && before != changed && added.url != before.url
    ensures Diff(Catalog([], [], [], [(before.url, before)]), Catalog([], [], [], [(added.url, added), (before.url, changed)]), None)
      == Ok(CatalogDiff([added], [], [ModifiedEntry(before, changed)]))
  {
    var mine := Catalog([], [], [], [(before.url, before)]);
    var theirs := Catalog([], [], [], [(added.url, added), (before.url, changed)]);
    var a := [before];
    var b := [added, changed];
    assert Dicts.Values(mine.resources) == a;
    assert Dicts.Values(theirs.resources) == b;
    MinusExample(before, changed, added);
    MinusNone(before, changed, added);
    SharedExample(before, changed, added);
    ModificationsExample(mine.resources, theirs.resources, before, changed, added);
    assert Diff(mine, theirs, None) == DiffListings(mine, theirs, a, b);
  }

  lemma ModificationsExample(mine: PyDict<string, Resource>, theirs: PyDict<string, Resource>, before: Resource, changed: Resource, added: Resource)
    requires before.url == changed.url && before != changed && added.url != before.url
    requires mine == [(before.url, before)] && theirs == [(added.url, added), (before.url, changed)]
    ensures Modifications(mine, theirs, [before.url]) == Ok([ModifiedEntry(before, changed)])
  {
    assert Dicts.Get(mine, before.url) == Some(before);
    FindKeyIs(theirs, before.url, 1);
    assert Dicts.Get(theirs, before.url) == Some(changed);
    assert [before.url][1..] == [];
    assert Modifications(mine, theirs, []) == Ok([]);
    assert [ModifiedEntry(before, changed)] + [] == [ModifiedEntry(before, changed)];
  }

  lemma MinusExample(before: Resource, changed: Resource, added: Resource)
    requires before.url == changed.url && added.url != before.url
    ensures Minus([added, changed], [before]) == [added]
  {
    var keep := (x: Resource) => x.url !in Urls([before]);
    assert Urls([before]) == [before.url];
    assert [added, changed][1..] == [changed];
    assert [changed][1..] == [];
    assert Filter([changed], keep) == [];
    assert Filter([added, changed], keep) == [added];
    assert [added][..0] == [];
    assert FirstPerUrl([]) == [];
    assert FirstPerUrl([added]) == [added];
  }

  lemma MinusNone(before: Resource, changed: Resource, added: Resource)
    requires before.url == changed.url
    ensures Minus([before], [added, changed]) == []
  {
    var keep := (x: Resource) => x.url !in Urls([added, changed]);
    assert Urls([added, changed])[1] == before.url;
    assert [before][1..] == [];
    assert Filter([before], keep) == [];
  }

  lemma SharedExample(before: Resource, changed: Resource, added: Resource)
    requires before.url == changed.url
    ensures Shared([before], [added, changed]) == [before.url]
  {
    var keep := (x: Resource) => x.url in Urls([added, changed]);
    assert Urls([added, changed])[1] == before.url;
    assert [before][1..] == [];
    assert FilterMap([before], keep, (x: Resource) => x.url) == [before.url];
    assert [before.url][..0] == [];
  }

  // ---------------------------------------------------------------------
  // LocalStationCatalog.load, LiveStationCatalog.load
  // ---------------------------------------------------------------------

  function ShowUuid(s: Show): Option<Uuid> { s.uuid }
  function EpisodeUuid(e: Episode): Option<Uuid> { e.uuid }
  function HostUuid(h: Host): Option<Uuid> { h.uuid }

  /** Every map of the catalog files its records under their own UUID or,
      for resources, URL. */
  predicate Filed(c: Catalog) {
    && FiledBy(c.shows, ShowUuid)
    && FiledBy(c.episodes, EpisodeUuid)
    && FiledBy(c.hosts, HostUuid)
    && FiledBy(c.resources, ResourceUrl)
  }

  /** The uuid of a bare `None` in an episode's host list. */
  const NoUuid := AttributeError("'NoneType' object has no attribute 'uuid'")

  /** The host loop of an episode: host records with a UUID are filed,
      bare UUIDs skipped, and `None` raises. */
  function EpisodeHosts(hosts: PyDict<Uuid, Host>, refs: seq<HostRef>): (r: Result<PyDict<Uuid, Host>>)
    ensures r.Ok? <==> NoHost !in refs
    ensures r.Err? ==> r.error == NoUuid
    ensures r.Ok? && FiledBy(hosts, HostUuid) ==> FiledBy(r.value, HostUuid)
    decreases |refs|
  {
    if |refs| == 0 then Ok(hosts)
    else
      assert forall x :: x in refs <==> x == refs[0] || x in refs[1..];
      match refs[0]
      case NoHost => Err(NoUuid)
      case HostId(_) => EpisodeHosts(hosts, refs[1..])
      case HostObj(h) => EpisodeHosts(PutKeyed(hosts, h, HostUuid), refs[1..])
  }

  /** The host loop of a show. */
  function ShowHosts(hosts: PyDict<Uuid, Host>, hs: seq<Host>): (r: PyDict<Uuid, Host>)
    ensures FiledBy(hosts, HostUuid) ==> FiledBy(r, HostUuid)
    decreases |hs|
  {
    if |hs| == 0 then hosts else ShowHosts(PutKeyed(hosts, hs[0], HostUuid), hs[1..])
  }

  /** One pass of the episode loop. */
  function LoadEpisode(c: Catalog, e: Episode): (r: Result<Catalog>)
    ensures r.Ok? <==> NoHost !in e.hosts
    ensures r.Ok? ==> r.value.shows == c.shows
    ensures r.Ok? ==> forall u :: HasKey(r.value.episodes, u) <==> HasKey(c.episodes, u) || e.uuid == Some(u)
    ensures r.Ok? ==> forall u :: HasKey(r.value.resources, u) <==> HasKey(c.resources, u) || (e.resource.Some? && e.resource.value.url == u)
    ensures r.Ok? && Filed(c) ==> Filed(r.value)
  {
    var episodes := PutKeyed(c.episodes, e, EpisodeUuid);
    var hosts :- EpisodeHosts(c.hosts, e.hosts);
    Ok(Catalog(c.shows, episodes, hosts, if e.resource.Some? then PutKeyed(c.resources, e.resource.value, ResourceUrl) else c.resources))
  }

  /** Some episode of the list has UUID `u`. */
  ghost predicate EpisodeUuidIn(es: seq<Episode>, u: Uuid) {
    exists j :: 0 <= j < |es| && es[j].uuid == Some(u)
  }

  /** Some episode of the list carries a resource at `url`. */
  ghost predicate EpisodeResourceIn(es: seq<Episode>, url: string) {
    exists j :: 0 <= j < |es| && es[j].resource.Some? && es[j].resource.value.url == url
  }

  /** No episode of the list names a host `None`. */
  predicate HostsNamed(es: seq<Episode>) {
    forall j :: 0 <= j < |es| ==> NoHost !in es[j].hosts
  }

  /** The episode loop of one show. */
  function LoadEpisodes(c: Catalog, es: seq<Episode>): (r: Result<Catalog>)
    ensures r.Ok? <==> HostsNamed(es)
    ensures r.Ok? ==> r.value.shows == c.shows
    ensures r.Ok? ==> forall u :: HasKey(r.value.episodes, u) <==> HasKey(c.episodes, u) || EpisodeUuidIn(es, u)
    ensures r.Ok? ==> forall u :: HasKey(r.value.resources, u) <==> HasKey(c.resources, u) || EpisodeResourceIn(es, u)
    ensures r.Ok? && Filed(c) ==> Filed(r.value)
    decreases |es|
  {
    if |es| == 0 then Ok(c)
    else
      assert forall j :: 1 <= j < |es| ==> es[j] == es[1..][j - 1];
      var c1 :- LoadEpisode(c, es[0]);
      LoadEpisodes(c1, es[1..])
  }

  /** The show, or one of its episodes, carries a resource at `url`. */
  ghost predicate ShowResourceIn(s: Show, url: string) {
    (s.resource.Some? && s.resource.value.url == url) || EpisodeResourceIn(s.episodes, url)
  }

  /** One pass of the show loop: the show, its episodes with their hosts
      and resources, its own hosts, its resource. */
  function LoadShow(c: Catalog, s: Show): (r: Result<Catalog>)
    ensures r.Ok? <==> HostsNamed(s.episodes)
    ensures r.Ok? ==> forall u :: HasKey(r.value.shows, u) <==> HasKey(c.shows, u) || s.uuid == Some(u)
    ensures r.Ok? ==> forall u :: HasKey(r.value.episodes, u) <==> HasKey(c.episodes, u) || EpisodeUuidIn(s.episodes, u)
    ensures r.Ok? ==> forall u :: HasKey(r.value.resources, u) <==> HasKey(c.resources, u) || ShowResourceIn(s, u)
    ensures r.Ok? && Filed(c) ==> Filed(r.value)
  {
    var c1 := c.(shows := PutKeyed(c.shows, s, ShowUuid));
    var c2 :- LoadEpisodes(c1, s.episodes);
    var c3 := c2.(hosts := ShowHosts(c2.hosts, s.hosts));
    Ok(if s.resource.Some? then c3.(resources := PutKeyed(c3.resources, s.resource.value, ResourceUrl)) else c3)
  }

  ghost predicate ShowUuidIn(shows: seq<Show>, u: Uuid) {
    exists i :: 0 <= i < |shows| && shows[i].uuid == Some(u)
  }

  ghost predicate EpisodeUuidInShows(shows: seq<Show>, u: Uuid) {
    exists i :: 0 <= i < |shows| && EpisodeUuidIn(shows[i].episodes, u)
  }

  ghost predicate ResourceInShows(shows: seq<Show>, url: string) {
    exists i :: 0 <= i < |shows| && ShowResourceIn(shows[i], url)
  }

  /** No episode of any show names a host `None`. */
  predicate AllHostsNamed(shows: seq<Show>) {
    forall i :: 0 <= i < |shows| ==> HostsNamed(shows[i].episodes)
  }

  /** The show loop. */
  function LoadShows(c: Catalog, shows: seq<Show>): (r: Result<Catalog>)
    ensures r.Ok? <==> AllHostsNamed(shows)
    ensures r.Ok? ==> forall u :: HasKey(r.value.shows, u) <==> HasKey(c.shows, u) || ShowUuidIn(shows, u)
    ensures r.Ok? ==> forall u :: HasKey(r.value.episodes, u) <==> HasKey(c.episodes, u) || EpisodeUuidInShows(shows, u)
    ensures r.Ok? ==> forall u :: HasKey(r.value.resources, u) <==> HasKey(c.resources, u) || ResourceInShows(shows, u)
    ensures r.Ok? && Filed(c) ==> Filed(r.value)
    decreases |shows|
  {
    if |shows| == 0 then Ok(c)
    else
      ShowsCons(shows);
      var c1 :- LoadShow(c, shows[0]);
      LoadShows(c1, shows[1..])
  }

  /** The show predicates of a list, split at its first show. */
  lemma ShowsCons(shows: seq<Show>)
    requires |shows| > 0
    ensures AllHostsNamed(shows) <==> HostsNamed(shows[0].episodes) && AllHostsNamed(shows[1..])
    ensures forall u :: ShowUuidIn(shows, u) <==> shows[0].uuid == Some(u) || ShowUuidIn(shows[1..], u)
    ensures forall u :: EpisodeUuidInShows(shows, u) <==> EpisodeUuidIn(shows[0].episodes, u) || EpisodeUuidInShows(shows[1..], u)
    ensures forall u :: ResourceInShows(shows, u) <==> ShowResourceIn(shows[0], u) || ResourceInShows(shows[1..], u)
  {
    assert forall i :: 1 <= i < |shows| ==> shows[i] == shows[1..][i - 1];
  }

  /** `LocalStationCatalog.load` on the directory the state file holds:
      shows and episodes with a UUID are filed under it, resources under
      their URL, and a `None` in an episode's host list raises. */
  function LocalLoad(dir: ShowDirectory): (r: Result<Catalog>)
    ensures r.Ok? <==> AllHostsNamed(dir.shows)
    ensures r.Ok? ==> Filed(r.value)
    ensures r.Ok? ==> forall u :: HasKey(r.value.shows, u) <==> ShowUuidIn(dir.shows, u)
    ensures r.Ok? ==> forall u :: HasKey(r.value.episodes, u) <==> EpisodeUuidInShows(dir.shows, u)
    ensures r.Ok? ==> forall u :: HasKey(r.value.resources, u) <==> ResourceInShows(dir.shows, u)
  {
    LoadShows(EmptyCatalog, dir.shows)
  }

  /** `LiveStationCatalog.load`: only the resources of the live site, read
      through the sitemap processor. */
  function LiveLoad(src: Source, store: Store, readers: Readers, iso: Iso): (r: Result<Catalog>)
    ensures r.Ok? ==> r.value.shows == [] && r.value.episodes == [] && r.value.hosts == []
    ensures r.Ok? ==> Resources.Indexed(r.value.resources)
    ensures Resources.SitemapsFromRobots(src, store, readers).Err? ==> r.Err?
  {
    var res :- Resources.FetchResources(src, store, readers, iso, []);
    Ok(Catalog([], [], [], res))
  }
}

=== FILE: text.dfy ===
/** String helpers mirroring the Python `str` methods the repository uses.
    Case mapping covers the ASCII letters only: any other character is
    left as it is. */
module Text {
  import opened Wrappers

  predicate IsUpper(c: char) { 'A' <= c <= 'Z' }

  /** `c.lower()` restricted to ASCII letters. */
  function Lower(c: char): (r: char)
    ensures !IsUpper(r)
    ensures !IsUpper(c) ==> r == c
  {
    if IsUpper(c) then (c as int + 32) as char else c
  }

  /** `s.lower()`. */
  function LowerStr(s: string): (r: string)
    ensures |r| == |s|
    ensures forall i :: 0 <= i < |s| ==> r[i] == Lower(s[i])
  {
    if |s| == 0 then "" else [Lower(s[0])] + LowerStr(s[1..])
  }

  lemma LowerStrIdempotent(s: string)
    ensures LowerStr(LowerStr(s)) == LowerStr(s)
  {
  }

  lemma LowerStrAppend(a: string, b: string)
    ensures LowerStr(a + b) == LowerStr(a) + LowerStr(b)
  {
  }

  lemma LowerStrSlice(s: string, i: int, j: int)
    requires 0 <= i <= j <= |s|
    ensures LowerStr(s[i..j]) == LowerStr(s)[i..j]
  {
  }

  predicate StartsWith(s: string, p: string) {
    |p| <= |s| && s[..|p|] == p
  }

  predicate EndsWith(s: string, p: string) {
    |p| <= |s| && s[|s| - |p|..] == p
  }

  /** `p` occurs in `s` starting at index `i`. */
  predicate OccursAt(s: string, p: string, i: int) {
    0 <= i && i + |p| <= |s| && s[i..i + |p|] == p
  }

  /** `p in s`, and `re.search` of a pattern without metacharacters. */
  predicate Contains(s: string, p: string) {
    exists i :: 0 <= i <= |s| - |p| && OccursAt(s, p, i)
  }

  /** `re.search(p, s, re.IGNORECASE)` for a pattern without metacharacters. */
  predicate ContainsNoCase(s: string, p: string) {
    Contains(LowerStr(s), LowerStr(p))
  }

  lemma ContainsNoCaseOfLower(s: string, p: string)
    ensures ContainsNoCase(LowerStr(s), p) == ContainsNoCase(s, p)
  {
    LowerStrIdempotent(s);
  }

  /** Index of the first occurrence of `c` in `s`. */
  function IndexOf(s: string, c: char): (r: Option<nat>)
    ensures r.None? <==> c !in s
    ensures r.Some? ==> r.value < |s| && s[r.value] == c && c !in s[..r.value]
  {
    if |s| == 0 then None
    else if s[0] == c then Some(0)
    else
      match IndexOf(s[1..], c)
      case None => None
      case Some(k) =>
        assert s[1..][..k] == s[1..k + 1];
        Some(k + 1)
  }

  /** `s.find(c, from)`. */
  function IndexOfFrom(s: string, c: char, from: nat): (r: Option<nat>)
    ensures r.Some? ==> from <= r.value < |s| && s[r.value] == c
    ensures r.Some? ==> forall k :: from <= k < r.value ==> s[k] != c
    ensures r.None? ==> forall k :: from <= k < |s| ==> s[k] != c
    decreases |s| - from
  {
    if from >= |s| then None
    else if s[from] == c then Some(from)
    else IndexOfFrom(s, c, from + 1)
  }

  /** `s.rfind(c)`, as an option. */
  function LastIndexOf(s: string, c: char): (r: Option<nat>)
    ensures r.None? <==> c !in s
    ensures r.Some? ==> r.value < |s| && s[r.value] == c
    ensures r.Some? ==> forall k :: r.value < k < |s| ==> s[k] != c
  {
    if |s| == 0 then None
    else if s[|s| - 1] == c then Some(|s| - 1)
    else
      var r := LastIndexOf(s[..|s| - 1], c);
      assert forall k :: 0 <= k < |s| - 1 ==> s[k] == s[..|s| - 1][k];
      assert c in s[..|s| - 1] ==> c in s;
      r
  }

  lemma LastIndexOfIs(s: string, c: char, i: nat)
    requires i < |s| && s[i] == c && forall k :: i < k < |s| ==> s[k] != c
    ensures LastIndexOf(s, c) == Some(i)
  {
    assert s[i] in s;
  }

  /** No character of `x` is in `cs`. */
  predicate NoneOf(x: string, cs: set<char>) {
    forall k :: 0 <= k < |x| ==> x[k] !in cs
  }

  lemma NoneOfAppend(a: string, b: string, cs: set<char>)
    ensures NoneOf(a + b, cs) <==> NoneOf(a, cs) && NoneOf(b, cs)
  {
    if NoneOf(a, cs) && NoneOf(b, cs) {
      forall k | 0 <= k < |a + b| ensures (a + b)[k] !in cs {
        if k >= |a| { assert (a + b)[k] == b[k - |a|]; }
      }
    }
    if NoneOf(a + b, cs) {
      forall k | 0 <= k < |a| ensures a[k] !in cs {
        assert (a + b)[k] == a[k];
      }
      forall k | 0 <= k < |b| ensures b[k] !in cs {
        assert (a + b)[k + |a|] == b[k];
      }
    }
  }

  lemma NoneOfSlice(x: string, i: int, j: int, cs: set<char>)
    requires 0 <= i <= j <= |x| && NoneOf(x, cs)
    ensures NoneOf(x[i..j], cs)
  {
  }

  lemma IndexOfIs(s: string, c: char, i: nat)
    requires i < |s| && s[i] == c && forall k :: 0 <= k < i ==> s[k] != c
    ensures IndexOf(s, c) == Some(i)
  {
    assert s[i] == c;
    var r := IndexOf(s, c);
    assert forall k :: 0 <= k < r.value ==> s[..r.value][k] == s[k];
  }

  /** Characters removed by a bare `str.strip()`, those `str.isspace()`
      accepts: the ASCII whitespace, the information separators, and the
      Unicode spaces and line and paragraph separators. */
  const Whitespace: set<char> :=
    {' ', '\t', '\n', '\U{b}', '\U{c}', '\r', '\U{1c}', '\U{1d}', '\U{1e}', '\U{1f}',
     '\U{85}', '\U{a0}', '\U{1680}', '\U{2000}', '\U{2001}', '\U{2002}', '\U{2003}', '\U{2004}',
     '\U{2005}', '\U{2006}', '\U{2007}', '\U{2008}', '\U{2009}', '\U{200a}', '\U{2028}', '\U{2029}',
     '\U{202f}', '\U{205f}', '\U{3000}'}

  /** `s.lstrip(cs)`. */
  function LStrip(s: string, cs: set<char>): (r: string)
    ensures |r| <= |s| && r == s[|s| - |r|..]
    ensures |r| > 0 ==> r[0] !in cs
    ensures forall i :: 0 <= i < |s| - |r| ==> s[i] in cs
  {
    if |s| > 0 && s[0] in cs then
      var r := LStrip(s[1..], cs);
      assert r == s[|s| - |r|..];
      assert forall i :: 1 <= i < |s| - |r| ==> s[i] == s[1..][i - 1];
      r
    else s
  }

  /** `s.rstrip(cs)`. */
  function RStrip(s: string, cs: set<char>): (r: string)
    ensures |r| <= |s| && r == s[..|r|]
    ensures |r| > 0 ==> r[|r| - 1] !in cs
    ensures forall i :: |r| <= i < |s| ==> s[i] in cs
  {
    if |s| > 0 && s[|s| - 1] in cs then
      var r := RStrip(s[..|s| - 1], cs);
      assert r == s[..|r|];
      assert forall i :: |r| <= i < |s| - 1 ==> s[i] == s[..|s| - 1][i];
      r
    else s
  }

  /** `s.strip(cs)`. */
  function StripSet(s: string, cs: set<char>): (r: string)
    ensures |r| > 0 ==> r[0] !in cs && r[|r| - 1] !in cs
    ensures OccursAt(s, r, |s| - |LStrip(s, cs)|)
  {
    RStrip(LStrip(s, cs), cs)
  }

  /** `s.strip()`. Its properties are `StripFacts`, kept apart because
      they are rarely needed and costly wherever a stripped value appears. */
  function Strip(s: string): string {
    StripSet(s, Whitespace)
  }

  /** The stripped text neither starts nor ends with whitespace, and sits
      inside the original. */
  lemma StripFacts(s: string)
    ensures var r := Strip(s);
      (|r| > 0 ==> r[0] !in Whitespace && r[|r| - 1] !in Whitespace) && Contains(s, r)
  {
    assert OccursAt(s, Strip(s), |s| - |LStrip(s, Whitespace)|);
  }

  /** `s.replace(old, new)`: every non-overlapping occurrence, left to right. */
  function ReplaceAll(s: string, pat: string, rep: string): (r: string)
    requires |pat| > 0
    decreases |s|
  {
    if |s| < |pat| then s
    else if s[..|pat|] == pat then rep + ReplaceAll(s[|pat|..], pat, rep)
    else [s[0]] + ReplaceAll(s[1..], pat, rep)
  }

  lemma ReplaceAllAbsent(s: string, pat: string, rep: string)
    requires |pat| > 0
    requires !Contains(s, pat)
    ensures ReplaceAll(s, pat, rep) == s
    decreases |s|
  {
    if |s| >= |pat| {
      assert !OccursAt(s, pat, 0);
      if !Contains(s[1..], pat) {
        ReplaceAllAbsent(s[1..], pat, rep);
      } else {
        var i :| 0 <= i <= |s[1..]| - |pat| && OccursAt(s[1..], pat, i);
        assert s[1..][i..i + |pat|] == s[i + 1..i + 1 + |pat|];
        assert OccursAt(s, pat, i + 1);
      }
    }
  }

  /** Replacing a pattern by itself changes nothing. */
  lemma {:induction false} ReplaceAllSelf(s: string, pat: string)
    requires |pat| > 0
    ensures ReplaceAll(s, pat, pat) == s
    decreases |s|
  {
    if |s| >= |pat| {
      if s[..|pat|] == pat {
        ReplaceAllSelf(s[|pat|..], pat);
        assert s == s[..|pat|] + s[|pat|..];
      } else {
        ReplaceAllSelf(s[1..], pat);
        assert s == [s[0]] + s[1..];
      }
    }
  }

  /** `s.split(sep)[-1]`: the text after the last separator. */
  function AfterLast(s: string, sep: char): (r: string)
    ensures sep !in r
    ensures EndsWith(s, r)
    ensures |r| < |s| ==> s[|s| - |r| - 1] == sep
  {
    if |s| == 0 then ""
    else if s[|s| - 1] == sep then ""
    else AfterLast(s[..|s| - 1], sep) + [s[|s| - 1]]
  }

  lemma {:induction false} AfterLastAbsent(s: string, sep: char)
    requires sep !in s
    ensures AfterLast(s, sep) == s
    decreases |s|
  {
    if |s| > 0 {
      assert sep !in s[..|s| - 1];
      AfterLastAbsent(s[..|s| - 1], sep);
      assert s[..|s| - 1] + [s[|s| - 1]] == s;
    }
  }

  /** `sep.join(parts)`. */
  function Join(parts: seq<string>, sep: char): (r: string)
    decreases |parts|
  {
    if |parts| == 0 then ""
    else if |parts| == 1 then parts[0]
    else parts[0] + [sep] + Join(parts[1..], sep)
  }

  /** `s.split(sep)`: never empty, no part holds the separator, and joining
      the parts gives `s` back. */
  function Split(s: string, sep: char): (r: seq<string>)
    ensures |r| >= 1
    ensures forall i :: 0 <= i < |r| ==> sep !in r[i]
    ensures Join(r, sep) == s
    decreases |s|
  {
    match IndexOf(s, sep)
    case None => [s]
    case Some(i) =>
      var rest := Split(s[i + 1..], sep);
      assert s == s[..i] + [sep] + s[i + 1..];
      assert ([s[..i]] + rest)[1..] == rest;
      [s[..i]] + rest
  }

  lemma SplitAfter(a: string, sep: char, b: string)
    requires sep !in a
    ensures Split(a + [sep] + b, sep) == [a] + Split(b, sep)
  {
    var s := a + [sep] + b;
    assert forall k :: 0 <= k < |a| ==> s[k] == a[k];
    IndexOfIs(s, sep, |a|);
    assert s[..|a|] == a && s[|a| + 1..] == b;
  }

  /** Splitting a join gives the parts back, when none holds the separator. */
  lemma {:induction false} SplitJoin(parts: seq<string>, sep: char)
    requires |parts| >= 1
    requires forall i :: 0 <= i < |parts| ==> sep !in parts[i]
    ensures Split(Join(parts, sep), sep) == parts
    decreases |parts|
  {
    if |parts| > 1 {
      assert Join(parts, sep) == parts[0] + [sep] + Join(parts[1..], sep);
      SplitAfter(parts[0], sep, Join(parts[1..], sep));
      SplitJoin(parts[1..], sep);
      assert parts == [parts[0]] + parts[1..];
    } else {
      assert sep !in parts[0];
      assert Join(parts, sep) == parts[0];
    }
  }

  /** `s.split(c, 1)` when `c in s`, else the whole string and "". */
  function SplitFirst(s: string, c: char): (r: (string, string))
    ensures c !in r.0
    ensures c in s ==> s == r.0 + [c] + r.1
    ensures c !in s ==> r == (s, "")
  {
    match IndexOf(s, c)
    case None => (s, "")
    case Some(i) =>
      assert s == s[..i] + [c] + s[i + 1..];
      (s[..i], s[i + 1..])
  }

  lemma SplitFirstOf(a: string, c: char, b: string)
    requires c !in a
    ensures SplitFirst(a + [c] + b, c) == (a, b)
  {
    var s := a + [c] + b;
    assert forall k :: 0 <= k < |a| ==> s[k] == a[k];
    IndexOfIs(s, c, |a|);
    assert s[..|a|] == a && s[|a| + 1..] == b;
  }

  /** `repr(s)` for text without quotes, backslashes or unprintable
      characters. */
  function Quoted(s: string): string {
    "'" + s + "'"
  }

  lemma LowerStrNoUpper(s: string)
    requires forall k :: 0 <= k < |s| ==> !IsUpper(s[k])
    ensures LowerStr(s) == s
  {
  }
}

=== FILE: updater.dfy ===
/** `CatalogUpdater` (kcrw_feed/updater.py): enrich the live catalog's
    resources through the station processor, diff the two catalogs, and
    unless this is a dry run merge the results into the local catalog,
    save it and write the feeds.

    `add_show`, `add_episode`, `save_state` and `generate_feeds` of the
    local catalog are not part of this model; their calls are recorded,
    in order, as effects. Python sets are kept as lists in first-insertion
    order. */
module Updater {
  import opened Wrappers
  import opened Lists
  import opened Dicts
  import opened Models
  import opened StationCatalog
  import Station

  /** The station-processor calls the updater makes, as functions of the
      live catalog: `process_resource`, `associate_entity` and the URL
      test of `is_episode_resource`. */
  datatype Processor = Processor(
    process: (Catalog, Resource) -> Result<Station.Step<Option<Entity>>>,
    associate: (Catalog, Entity) -> Result<Station.Step<seq<Entity>>>,
    isEpisode: string -> Result<bool>)

  /** `StationProcessor(live_catalog)` over the given fetch environment. */
  function StationProcessor(env: Station.Env): (r: Processor)
    ensures forall c, res :: r.process(c, res) == Station.ProcessResource(env, c, res)
    ensures forall c, e :: r.associate(c, e) == Station.AssociateEntity(env, c, e)
    ensures forall url :: r.isEpisode(url) == Station.IsEpisodeUrl(url)
  {
    Processor(
      (c, res) => Station.ProcessResource(env, c, res),
      (c, e) => Station.AssociateEntity(env, c, e),
      url => Station.IsEpisodeUrl(url))
  }

  /** Association touches only the entity itself, as the station
      processor's does. */
  ghost predicate TouchesOnly(p: Processor) {
    forall c, e :: p.associate(c, e).Ok? ==> p.associate(c, e).value.out == [e]
  }

  lemma StationTouchesOnly(env: Station.Env)
    ensures TouchesOnly(StationProcessor(env))
  {
  }

  /** A call on the local catalog. */
  datatype Effect =
    | AddShow(entity: Entity)
    | AddEpisode(entity: Entity)
    | SaveState
    | GenerateFeeds

  /** The updater's fields. `diffTaken` records that `diff()` has rebound
      the attribute `diff` to its result. */
  datatype Updater = Updater(
    local: Catalog,
    live: Catalog,
    opts: Option<FilterOptions>,
    dryRun: bool,
    diffTaken: bool,
    effects: seq<Effect>)

  /** `CatalogUpdater(local, live, filter_opts)`: a dry run only when the
      options ask for one. */
  function NewUpdater(local: Catalog, live: Catalog, opts: Option<FilterOptions>): (r: Updater)
    ensures r.dryRun <==> opts.Some? && opts.value.dryRun
    ensures r.local == local && r.live == live && r.opts == opts
    ensures !r.diffTaken && r.effects == []
  {
    Updater(local, live, opts, opts.Some? && opts.value.dryRun, false, [])
  }

  /** Calling the attribute after it holds a `CatalogDiff`. */
  const NotCallable: PyError := TypeError("'CatalogDiff' object is not callable")

  /** `diff()`: the local catalog diffed against the live one; the method
      replaces itself by its result, so only the first call succeeds. */
  function TakeDiff(u: Updater): (r: Result<(CatalogDiff, Updater)>)
    ensures u.diffTaken ==> r == Err(NotCallable)
    ensures !u.diffTaken ==> (r.Ok? <==> Diff(u.local, u.live, u.opts).Ok?)
    ensures r.Ok? ==> r.value.0 == Diff(u.local, u.live, u.opts).value
    ensures r.Ok? ==> r.value.1 == u.(diffTaken := true)
  {
    if u.diffTaken then Err(NotCallable)
    else
      var d :- Diff(u.local, u.live, u.opts);
      Ok((d, u.(diffTaken := true)))
  }

  /** A second `diff()` always fails. */
  lemma DiffOnce(u: Updater)
    requires TakeDiff(u).Ok?
    ensures TakeDiff(TakeDiff(u).value.1) == Err(NotCallable)
  {
  }

  // ---------------------------------------------------------------------
  // _enrich_resources
  // ---------------------------------------------------------------------

  /** The state of the enrichment loop: every processing result in order,
      the distinct entities among them, the checkpoint saves made, and the
      live catalog as processing leaves it. */
  datatype Enriched = Enriched(results: seq<Option<Entity>>, entities: seq<Entity>, saves: nat, live: Catalog)

  /** The number of truthy results. */
  function Hits(results: seq<Option<Entity>>): nat {
    if |results| == 0 then 0
    else Hits(results[..|results| - 1]) + (if results[|results| - 1].Some? then 1 else 0)
  }

  /** The entities are exactly the truthy results, each once. */
  predicate Collected(acc: Enriched) {
    && NoDuplicates(acc.entities)
    && (forall i :: 0 <= i < |acc.entities| ==> Some(acc.entities[i]) in acc.results)
    && (forall j :: 0 <= j < |acc.results| && acc.results[j].Some? ==> acc.results[j].value in acc.entities)
  }

  /** The body of the loop after processing: keep a truthy result, count
      it, and at the checkpoint save (unless dry) and restart the count.
      Returns the new state and count. */
  function Absorb(acc: Enriched, st: Station.Step<Option<Entity>>, dryRun: bool, checkpoint: int, count: int)
    : (r: (Enriched, int))
    ensures r.0.results == acc.results + [st.out] && r.0.live == st.catalog
    ensures Collected(acc) ==> Collected(r.0)
    ensures dryRun ==> r.0.saves == acc.saves
  {
    var results := acc.results + [st.out];
    var entities := if st.out.Some? && st.out.value !in acc.entities then acc.entities + [st.out.value] else acc.entities;
    var count' := if st.out.Some? then count + 1 else count;
    var hit := count' == checkpoint;
    var r := Enriched(results, entities, if hit && !dryRun then acc.saves + 1 else acc.saves, st.catalog);
    assert forall x :: x in results <==> x in acc.results || x == st.out;
    (r, if hit then 1 else count')
  }

  /** The loop of `_enrich_resources` from a given state and count: it
      stops at the first resource whose processing raises, with the saves
      made before it. */
  function EnrichFrom(p: Processor, dryRun: bool, checkpoint: int, resources: seq<Resource>, acc: Enriched, count: int)
    : (r: Stopped<Enriched>)
    ensures r.error.None? ==> |r.state.results| == |acc.results| + |resources|
    ensures r.error.Some? ==> |r.state.results| < |acc.results| + |resources|
    ensures Collected(acc) ==> Collected(r.state)
    ensures r.state.saves >= acc.saves
    ensures dryRun ==> r.state.saves == acc.saves
    decreases |resources|
  {
    if |resources| == 0 then Stopped(acc, None)
    else
      match p.process(acc.live, resources[0])
      case Err(e) => Stopped(acc, Some(e))
      case Ok(st) =>
        var step := Absorb(acc, st, dryRun, checkpoint, count);
        EnrichFrom(p, dryRun, checkpoint, resources[1..], step.0, step.1)
  }

  /** `_enrich_resources(resources, checkpoint)` before association: the
      count starts at one. */
  function Enrich(p: Processor, dryRun: bool, checkpoint: int, live: Catalog, resources: seq<Resource>)
    : (r: Stopped<Enriched>)
    ensures r.error.None? ==> |r.state.results| == |resources|
    ensures Collected(r.state)
    ensures dryRun ==> r.state.saves == 0
  {
    EnrichFrom(p, dryRun, checkpoint, resources, Enriched([], [], 0, live), 1)
  }

  lemma HitsAppend(results: seq<Option<Entity>>, x: Option<Entity>)
    ensures Hits(results + [x]) == Hits(results) + (if x.Some? then 1 else 0)
  {
    assert (results + [x])[..|results|] == results;
  }

  /** The checkpoint invariant across one pass: saves times the period,
      plus the count less one, is the number of truthy results so far. */
  lemma AbsorbCounts(acc: Enriched, st: Station.Step<Option<Entity>>, checkpoint: int, count: int)
    requires checkpoint >= 2 && 1 <= count < checkpoint
    requires acc.saves * (checkpoint - 1) + count - 1 == Hits(acc.results)
    ensures var (acc', count') := Absorb(acc, st, false, checkpoint, count);
      1 <= count' < checkpoint && acc'.saves * (checkpoint - 1) + count' - 1 == Hits(acc'.results)
  {
    HitsAppend(acc.results, st.out);
    if st.out.Some? && count + 1 == checkpoint {
      assert (acc.saves + 1) * (checkpoint - 1) == acc.saves * (checkpoint - 1) + checkpoint - 1;
    }
  }

  lemma {:induction false} EnrichFromCounts(p: Processor, checkpoint: int, resources: seq<Resource>, acc: Enriched, count: int)
    requires checkpoint >= 2 && 1 <= count < checkpoint
    requires acc.saves * (checkpoint - 1) + count - 1 == Hits(acc.results)
    ensures var r := EnrichFrom(p, false, checkpoint, resources, acc, count).state;
      r.saves * (checkpoint - 1) <= Hits(r.results) < r.saves * (checkpoint - 1) + checkpoint - 1
    decreases |resources|
  {
    if |resources| > 0 && p.process(acc.live, resources[0]).Ok? {
      var st := p.process(acc.live, resources[0]).value;
      var step := Absorb(acc, st, false, checkpoint, count);
      AbsorbCounts(acc, st, checkpoint, count);
      EnrichFromCounts(p, checkpoint, resources[1..], step.0, step.1);
    }
  }

  /** Outside a dry run the loop saves once per `checkpoint - 1` truthy
      results (once per five with the default of six): the number of saves
      is the number of truthy results divided by `checkpoint - 1`, rounded
      down, also when an exception stops the loop. */
  lemma CheckpointSaves(p: Processor, checkpoint: int, live: Catalog, resources: seq<Resource>)
    requires checkpoint >= 2
    ensures var r := Enrich(p, false, checkpoint, live, resources).state;
      r.saves * (checkpoint - 1) <= Hits(r.results) < r.saves * (checkpoint - 1) + checkpoint - 1
  {
    EnrichFromCounts(p, checkpoint, resources, Enriched([], [], 0, live), 1);
  }

  /** The loop as written adds each truthy result to a Python set, and
      neither `Show` nor `Episode` can be hashed: the first truthy result
      raises. It succeeds only when nothing is enriched, returning the
      checkpoint saves and the live catalog. */
  function EnrichAsWritten(p: Processor, dryRun: bool, checkpoint: int, resources: seq<Resource>,
                           live: Catalog, saves: nat, count: int): (r: Result<(nat, Catalog)>)
    decreases |resources|
  {
    if |resources| == 0 then Ok((saves, live))
    else
      var st :- p.process(live, resources[0]);
      match st.out
      case Some(ShowEntity(_)) => Err(TypeError("unhashable type: 'Show'"))
      case Some(EpisodeEntity(_)) => Err(TypeError("unhashable type: 'Episode'"))
      case None =>
        var hit := count == checkpoint;
        EnrichAsWritten(p, dryRun, checkpoint, resources[1..], st.catalog,
          if hit && !dryRun then saves + 1 else saves, if hit then 1 else count)
  }

  /** One resource that enriches to anything makes the written loop raise. */
  lemma AsWrittenEnrichFails(p: Processor, live: Catalog, res: Resource)
    requires p.process(live, res).Ok?
    requires p.process(live, res).value.out.Some?
    ensures EnrichAsWritten(p, false, 6, [res], live, 0, 1).Err?
  {
  }

  /** The corrected loop collects that one entity. */
  lemma EnrichCollectsOne(p: Processor, live: Catalog, res: Resource)
    requires p.process(live, res).Ok?
    requires p.process(live, res).value.out.Some?
    ensures Enrich(p, false, 6, live, [res]).error.None?
    ensures Enrich(p, false, 6, live, [res]).state.entities == [p.process(live, res).value.out.value]
  {
    var st := p.process(live, res).value;
    var acc := Enriched([], [], 0, live);
    var step := Absorb(acc, st, false, 6, 1);
    assert [res][1..] == [];
    assert EnrichFrom(p, false, 6, [res][1..], step.0, step.1) == Stopped(step.0, None);
  }

  // ---------------------------------------------------------------------
  // _associate_episodes
  // ---------------------------------------------------------------------

  /** The first loop: associate each entity with its show, collecting
      every touched entity once. */
  function AssociateAll(p: Processor, c: Catalog, xs: seq<Entity>, acc: seq<Entity>): (r: Result<Station.Step<seq<Entity>>>)
    ensures r.Ok? && TouchesOnly(p) ==> forall x :: x in r.value.out <==> x in acc || x in xs
    ensures r.Ok? && NoDuplicates(acc) ==> NoDuplicates(r.value.out)
    decreases |xs|
  {
    if |xs| == 0 then Ok(Station.Step(acc, c))
    else
      var st :- p.associate(c, xs[0]);
      assert forall x :: x in xs <==> x == xs[0] || x in xs[1..];
      AssociateAll(p, st.catalog, xs[1..], AddAll(acc, st.out))
  }

  /** A show replaced by the live catalog's copy under its uuid (None when
      it has no uuid or the catalog has none under it); episodes stay. */
  function Refreshed(c: Catalog, e: Entity): (r: Option<Entity>)
    ensures e.EpisodeEntity? ==> r == Some(e)
    ensures e.ShowEntity? && r.Some? ==>
      r.value.ShowEntity? && e.show.uuid.Some? && Dicts.Get(c.shows, e.show.uuid.value) == Some(r.value.show)
    ensures e.ShowEntity? && r.None? ==> e.show.uuid.None? || !HasKey(c.shows, e.show.uuid.value)
  {
    match e
    case EpisodeEntity(_) => Some(e)
    case ShowEntity(s) =>
      if s.uuid.None? then None
      else match Dicts.Get(c.shows, s.uuid.value)
        case None => None
        case Some(current) => Some(ShowEntity(current))
  }

  /** A show in the result is one the catalog currently holds. */
  ghost predicate Current(c: Catalog, x: Option<Entity>) {
    x.Some? && x.value.ShowEntity? ==> exists k :: Dicts.Get(c.shows, k) == Some(x.value.show)
  }

  /** The second loop: every show swapped for the live copy; as a set,
      a swapped show equal to one already present is kept once. */
  function RefreshAll(c: Catalog, xs: seq<Entity>): (r: seq<Option<Entity>>)
    ensures NoDuplicates(r)
    ensures forall i :: 0 <= i < |xs| ==> Refreshed(c, xs[i]) in r
    ensures forall x :: x in r ==> exists i :: 0 <= i < |xs| && Refreshed(c, xs[i]) == x
    ensures forall x :: x in r ==> Current(c, x)
  {
    var mapped := seq(|xs|, i requires 0 <= i < |xs| => Refreshed(c, xs[i]));
    forall x | x in mapped ensures exists i :: 0 <= i < |xs| && Refreshed(c, xs[i]) == x {
      var i :| 0 <= i < |mapped| && mapped[i] == x;
    }
    var r := Distinct(mapped);
    assert forall i :: 0 <= i < |xs| ==> mapped[i] == Refreshed(c, xs[i]) && mapped[i] in mapped && mapped[i] in r;
    forall x | x in r ensures Current(c, x) {
      var i :| 0 <= i < |xs| && Refreshed(c, xs[i]) == x;
    }
    r
  }

  /** `_associate_episodes(entities)`: every episode keeps its place in
      the result, and every show in the result is the live catalog's
      current copy under its uuid. */
  function AssociateEpisodes(p: Processor, c: Catalog, xs: seq<Entity>): (r: Result<Station.Step<seq<Option<Entity>>>>)
    ensures r.Ok? ==> NoDuplicates(r.value.out)
    ensures r.Ok? && TouchesOnly(p) ==> forall e :: e in xs && e.EpisodeEntity? ==> Some(e) in r.value.out
    ensures r.Ok? ==> forall x :: x in r.value.out ==> Current(r.value.catalog, x)
  {
    var st :- AssociateAll(p, c, xs, []);
    var out := RefreshAll(st.catalog, st.out);
    assert TouchesOnly(p) ==> forall e :: e in xs && e.EpisodeEntity? ==> Some(e) in out by {
      if TouchesOnly(p) {
        forall e | e in xs && e.EpisodeEntity? ensures Some(e) in out {
          var i :| 0 <= i < |st.out| && st.out[i] == e;
          assert Refreshed(st.catalog, st.out[i]) == Some(e);
        }
      }
    }
    Ok(Station.Step(out, st.catalog))
  }

  // ---------------------------------------------------------------------
  // _merge and update
  // ---------------------------------------------------------------------

  /** `is_episode_resource(entity)` as `_merge` calls it on an entity:
      `None` has no `url`, and `urlparse(None)` yields bytes that the
      string pattern cannot search. */
  function EntityIsEpisode(p: Processor, x: Option<Entity>): (r: Result<bool>)
    ensures x.None? ==> r == Err(AttributeError("'NoneType' object has no attribute 'url'"))
    ensures x.Some? && x.value.Url().None? ==> r == Err(TypeError("cannot use a string pattern on a bytes-like object"))
    ensures x.Some? && x.value.Url().Some? ==> r == p.isEpisode(x.value.Url().value)
  {
    match x
    case None => Err(AttributeError("'NoneType' object has no attribute 'url'"))
    case Some(e) =>
      match e.Url()
      case None => Err(TypeError("cannot use a string pattern on a bytes-like object"))
      case Some(url) => p.isEpisode(url)
  }

  /** The call `_merge` makes for one entity: `add_episode` when its URL
      is an episode URL, `add_show` otherwise. */
  function MergeOne(p: Processor, x: Option<Entity>): (r: Result<Effect>)
    ensures r.Ok? <==> EntityIsEpisode(p, x).Ok?
    ensures r.Ok? ==> x.Some? && (r.value.AddShow? || r.value.AddEpisode?) && r.value.entity == x.value
    ensures r.Ok? ==> (r.value.AddEpisode? <==> EntityIsEpisode(p, x) == Ok(true))
    ensures r.Ok? ==> (r.value.AddShow? <==> EntityIsEpisode(p, x) == Ok(false))
  {
    var episode :- EntityIsEpisode(p, x);
    Ok(if episode then AddEpisode(x.value) else AddShow(x.value))
  }

  /** `_merge(entities)`: one call per entity, in order, until the first
      exception, which propagates; the calls made before it stay made. */
  function Merge(p: Processor, xs: seq<Option<Entity>>): (r: Stopped<seq<Effect>>)
    ensures r.error.None? <==> forall i :: 0 <= i < |xs| ==> MergeOne(p, xs[i]).Ok?
    ensures r.error.None? ==> |r.state| == |xs|
    ensures r.error.Some? ==> |r.state| < |xs| && MergeOne(p, xs[|r.state|]) == Err(r.error.value)
    ensures forall i :: 0 <= i < |r.state| ==> MergeOne(p, xs[i]) == Ok(r.state[i])
    decreases |xs|
  {
    if |xs| == 0 then Stopped([], None)
    else
      match MergeOne(p, xs[0])
      case Err(e) => Stopped([], Some(e))
      case Ok(call) =>
        var rest := Merge(p, xs[1..]);
        assert forall i :: 0 < i < |xs| ==> xs[1..][i - 1] == xs[i];
        Stopped([call] + rest.state, rest.error)
  }

  /** `save_state()` repeated `n` times. */
  function Saves(n: nat): (r: seq<Effect>)
    ensures |r| == n && forall i :: 0 <= i < n ==> r[i] == SaveState
  {
    seq(n, _ => SaveState)
  }

  /** What `update()` returns or raises, with the updater as it leaves it
      either way. */
  datatype Outcome = Outcome(result: Result<seq<Option<Entity>>>, updater: Updater)

  /** `update()` with `_enrich_resources`' checkpoint period: list the
      live catalog's resources, enrich and associate them, take the diff,
      and outside a dry run merge, save and write the feeds. An exception
      ends the update; the checkpoint saves and the adds made before it
      stay recorded. */
  function Update(p: Processor, u: Updater, checkpoint: int): (r: Outcome)
    ensures u.diffTaken ==> r.result.Err?
    ensures r.updater.local == u.local
    ensures r.result.Ok? ==> r.updater.diffTaken
    ensures u.dryRun ==> r.updater.effects == u.effects
    ensures r.result.Ok? && !u.dryRun ==>
      Merge(p, r.result.value).error.None? && exists k :: r.updater.effects == u.effects + Saves(k) + Merge(p, r.result.value).state + [SaveState, GenerateFeeds]
    ensures r.result.Err? ==> exists k, xs :: r.updater.effects == u.effects + Saves(k) + Merge(p, xs).state
  {
    match ListResources(u.live, u.opts)
    case Err(e) =>
      assert u.effects == u.effects + Saves(0) + Merge(p, []).state;
      Outcome(Err(e), u)
    case Ok(resources) =>
      var en := Enrich(p, u.dryRun, checkpoint, u.live, resources);
      var saved := u.(live := en.state.live, effects := u.effects + Saves(en.state.saves));
      assert saved.effects == u.effects + Saves(en.state.saves) + Merge(p, []).state;
      if en.error.Some? then Outcome(Err(en.error.value), saved)
      else
        match AssociateEpisodes(p, en.state.live, en.state.entities)
        case Err(e) => Outcome(Err(e), saved)
        case Ok(assoc) =>
          match TakeDiff(saved.(live := assoc.catalog))
          case Err(e) => Outcome(Err(e), saved.(live := assoc.catalog))
          case Ok((_, u')) =>
            if u.dryRun then Outcome(Ok(assoc.out), u')
            else
              var merged := Merge(p, assoc.out);
              if merged.error.Some? then
                Outcome(Err(merged.error.value), u'.(effects := saved.effects + merged.state))
              else
                Outcome(Ok(assoc.out), u'.(effects := saved.effects + merged.state + [SaveState, GenerateFeeds]))
  }

  /** When processing a resource raises, the update raises that exception
      and the checkpoint saves made before it are all the effects. */
  lemma EnrichFailureKeepsSaves(p: Processor, u: Updater, checkpoint: int)
    requires ListResources(u.live, u.opts).Ok?
    requires Enrich(p, u.dryRun, checkpoint, u.live, ListResources(u.live, u.opts).value).error.Some?
    ensures var en := Enrich(p, u.dryRun, checkpoint, u.live, ListResources(u.live, u.opts).value);
      && Update(p, u, checkpoint).result == Err(en.error.value)
      && Update(p, u, checkpoint).updater.effects == u.effects + Saves(en.state.saves)
  {
  }

  /** Outside a dry run the calls come in order: checkpoint saves, then
      one add per returned entity, then a save, then the feeds. */
  lemma UpdateOrder(p: Processor, u: Updater, checkpoint: int)
    requires !u.dryRun && Update(p, u, checkpoint).result.Ok?
    ensures var o := Update(p, u, checkpoint);
      InOrder(u.effects, o.updater.effects, Merge(p, o.result.value))
  {
    var o := Update(p, u, checkpoint);
    var merged := Merge(p, o.result.value).state;
    var k :| o.updater.effects == u.effects + Saves(k) + merged + [SaveState, GenerateFeeds];
    LogInOrder(u.effects, k, merged);
  }

  /** `log` extends `before` by checkpoint saves, then the calls `merged`
      holds, then a save, then the feeds. */
  predicate InOrder(before: seq<Effect>, log: seq<Effect>, merged: Stopped<seq<Effect>>) {
    && merged.error.None?
    && |log| >= |before| + |merged.state| + 2
    && log[..|before|] == before
    && log[|log| - 2..] == [SaveState, GenerateFeeds]
    && log[|log| - 2 - |merged.state|..|log| - 2] == merged.state
    && (forall i :: |before| <= i < |log| - 2 - |merged.state| ==> log[i] == SaveState)
  }

  lemma LogInOrder(before: seq<Effect>, k: nat, merged: seq<Effect>)
    ensures InOrder(before, before + Saves(k) + merged + [SaveState, GenerateFeeds], Stopped(merged, None))
  {
    var log := before + Saves(k) + merged + [SaveState, GenerateFeeds];
    assert log[..|before|] == before;
    assert log[|log| - 2..] == [SaveState, GenerateFeeds];
    assert log[|log| - 2 - |merged|..|log| - 2] == merged;
    assert forall i :: |before| <= i < |before| + k ==> log[i] == Saves(k)[i - |before|];
  }

  /** `diff()` inside `update()` rebinds the attribute, so the same
      updater cannot update twice. */
  lemma UpdateTwiceFails(p: Processor, u: Updater, checkpoint: int, checkpoint': int)
    requires Update(p, u, checkpoint).result.Ok?
    ensures Update(p, Update(p, u, checkpoint).updater, checkpoint').result.Err?
  {
  }
}

=== FILE: urls.dfy ===
/** The parts of `urllib.parse` the repository relies on: `urlparse`,
    `urlunparse` and `urljoin`, following CPython 3.12. */
module Urls {
  import opened Wrappers
  import opened Text
  import IpAddress

  /** The six fields of a `ParseResult`. */
  datatype UrlParts = UrlParts(
    scheme: string,
    netloc: string,
    path: string,
    params: string,
    query: string,
    fragment: string)

  /** Leading characters `urlsplit` strips: C0 controls and space. */
  const C0OrSpace: set<char> := set i: int | 0 <= i <= 32 :: i as char

  /** Characters `urlsplit` deletes wherever they occur. */
  const Unsafe: set<char> := {'\t', '\r', '\n'}

  /** Characters that end the network location. */
  const NetlocEnd: set<char> := {'/', '?', '#'}

  const UsesNetloc: set<string> := {"", "ftp", "http", "gopher", "nntp", "telnet", "imap", "wais",
    "file", "mms", "https", "shttp", "snews", "prospero", "rtsp", "rtsps", "rtspu", "rsync",
    "svn", "svn+ssh", "sftp", "nfs", "git", "git+ssh", "ws", "wss", "itms-services"}

  const UsesParams: set<string> := {"", "ftp", "hdl", "prospero", "http", "imap", "https",
    "shttp", "rtsp", "rtsps", "rtspu", "sip", "sips", "mms", "sftp", "tel"}

  const UsesRelative: set<string> := {"", "ftp", "http", "gopher", "nntp", "imap", "wais", "file",
    "https", "shttp", "mms", "prospero", "rtsp", "rtsps", "rtspu", "sftp", "svn", "svn+ssh",
    "ws", "wss"}

  predicate IsAsciiAlpha(c: char) { 'a' <= c <= 'z' || 'A' <= c <= 'Z' }

  /** `scheme_chars`: letters, digits and `+-.`. */
  predicate SchemeChar(c: char) {
    IsAsciiAlpha(c) || '0' <= c <= '9' || c == '+' || c == '-' || c == '.'
  }

  /** `s` with every character of `cs` deleted. */
  function RemoveAll(s: string, cs: set<char>): (r: string)
    ensures forall k :: 0 <= k < |r| ==> r[k] !in cs
    ensures (forall k :: 0 <= k < |s| ==> s[k] !in cs) ==> r == s
  {
    if |s| == 0 then ""
    else if s[0] in cs then RemoveAll(s[1..], cs)
    else [s[0]] + RemoveAll(s[1..], cs)
  }

  /** Index of the first character of `cs` at or after `from`, else `|s|`. */
  function FirstOf(s: string, from: nat, cs: set<char>): (r: nat)
    requires from <= |s|
    ensures from <= r <= |s|
    ensures forall k :: from <= k < r ==> s[k] !in cs
    ensures r < |s| ==> s[r] in cs
    decreases |s| - from
  {
    if from == |s| || s[from] in cs then from else FirstOf(s, from + 1, cs)
  }

  /** The scheme `urlsplit` recognises: a letter, then scheme characters up
      to the first colon. */
  function SplitScheme(url: string, default: string): (r: (string, string))
  {
    match IndexOf(url, ':')
    case Some(i) =>
      if i > 0 && IsAsciiAlpha(url[0]) && forall k :: 0 <= k < i ==> SchemeChar(url[k])
      then (LowerStr(url[..i]), url[i + 1..])
      else (default, url)
    case None => (default, url)
  }

  /** `_splitparams`: parameters start at the first `;` after the last `/`. */
  function SplitParams(path: string): (r: (string, string))
    requires ';' in path
  {
    match LastIndexOf(path, '/')
    case Some(j) =>
      (match IndexOfFrom(path, ';', j)
       case None => (path, "")
       case Some(i) => (path[..i], path[i + 1..]))
    case None =>
      var (a, b) := SplitFirst(path, ';');
      (a, b)
  }

  /** `urlsplit`'s clean-up: leading C0 controls and spaces stripped, tabs
      and newlines deleted. */
  function Clean(url: string): (r: string)
    ensures NoneOf(r, Unsafe)
  {
    RemoveAll(LStrip(url, C0OrSpace), Unsafe)
  }

  /** The network location after a leading `//`, up to the first `/?#`. */
  function SplitNetloc(s: string): (r: (string, string))
    ensures r.0 + r.1 == s || "//" + r.0 + r.1 == s
  {
    if StartsWith(s, "//") then
      var d := FirstOf(s, 2, NetlocEnd);
      assert s == "//" + s[2..d] + s[d..];
      (s[2..d], s[d..])
    else ("", s)
  }

  /** Parameters are split off only for the schemes in `uses_params`. */
  function SplitPath(scheme: string, path: string): (r: (string, string)) {
    if scheme in UsesParams && ';' in path then SplitParams(path) else (path, "")
  }

  /** `_check_bracketed_host`: a host starting with `v` must be an IPvFuture
      literal, `v`, hexadecimal digits, a dot and at least one character
      other than a newline; any other host must be an IPv6 address. The
      complaint, or None. */
  function BracketedHostError(host: string): (r: Option<string>)
    ensures |host| > 0 && host[0] == 'v' ==> (r.None? <==> IpvFuture(host))
    ensures !(|host| > 0 && host[0] == 'v') ==>
      (r.None? <==> !IpAddress.IsIPv4(host) && IpAddress.IsIPv6(host))
  {
    if |host| > 0 && host[0] == 'v' then
      if IpvFuture(host) then None else Some("IPvFuture address is invalid")
    else
      match IpAddress.IpAddress(host)
      case Err(e) => Some(e.msg)
      case Ok(V4) => Some("An IPv4 address cannot be in brackets")
      case Ok(V6) => None
  }

  /** `\Av[a-fA-F0-9]+\..+\Z`: the hexadecimal run ends at the first dot. */
  predicate IpvFuture(host: string) {
    match IndexOf(host, '.')
    case None => false
    case Some(j) =>
      && j >= 2 && host[0] == 'v'
      && (forall k :: 1 <= k < j ==> IpAddress.IsHexDigit(host[k]))
      && j + 1 < |host| && '\n' !in host[j + 1..]
  }

  /** `_check_bracketed_netloc`: after the last `@`, a `[` must open the
      host, and only a `:` port may follow its `]`; the host inside (or,
      with no `[` after the `@`, the text before the first `:`) must pass
      `_check_bracketed_host`. The complaint, or None. */
  function BracketedNetlocError(netloc: string): (r: Option<string>)
  {
    var hostAndPort := AfterLast(netloc, '@');
    match IndexOf(hostAndPort, '[')
    case Some(i) =>
      if i > 0 then Some("Invalid IPv6 URL")
      else
        var (host, port) := SplitFirst(hostAndPort[1..], ']');
        if port != "" && port[0] != ':' then Some("Invalid IPv6 URL")
        else BracketedHostError(host)
    case None => BracketedHostError(SplitFirst(hostAndPort, ':').0)
  }

  /** The network location passes `urlsplit`'s bracket checks: `[` and `]`
      both absent, or both present around an acceptable host. */
  predicate NetlocOk(netloc: string) {
    ('[' in netloc) == (']' in netloc) && ('[' in netloc ==> BracketedNetlocError(netloc).None?)
  }

  /** `urlparse(url, scheme=default)`. An unbalanced `[` or `]` in the
      network location, or a bracketed host that is not an IPv6 address or
      an IPvFuture literal, raises `ValueError`. */
  function Parse(url: string, default: string): (r: Result<UrlParts>)
  {
    var (scheme, s1) := SplitScheme(Clean(url), default);
    ParseAfterScheme(scheme, s1)
  }

  /** The rest of `urlparse` once the scheme is known. */
  function ParseAfterScheme(scheme: string, s1: string): (r: Result<UrlParts>)
  {
    var (netloc, s2) := SplitNetloc(s1);
    if ('[' in netloc) != (']' in netloc) then Err(ValueError("Invalid IPv6 URL"))
    else if '[' in netloc && BracketedNetlocError(netloc).Some? then Err(ValueError(BracketedNetlocError(netloc).value))
    else
      var (s3, fragment) := SplitFirst(s2, '#');
      var (path0, query) := SplitFirst(s3, '?');
      var (path, params) := SplitPath(scheme, path0);
      Ok(UrlParts(scheme, netloc, path, params, query, fragment))
  }

  /** `path;params`, or the bare path when there are no parameters. */
  function JoinParams(path: string, params: string): string {
    if params != "" then path + ";" + params else path
  }

  /** `url` with `;params` restored. */
  function PathWithParams(p: UrlParts): string {
    JoinParams(p.path, p.params)
  }

  /** `urlunparse(parts)`: each of the scheme, query and fragment is added
      with its separator only when it is not empty. */
  function Unparse(p: UrlParts): string {
    ((SchemePrefix(p) + NetlocPath(p)) + QueryPart(p)) + FragmentPart(p)
  }

  /** The middle of `urlunparse`: `//netloc` is written when there is a
      network location, or when the scheme uses one and the path does not
      already start with `//`; a path without a leading `/` then gets one. */
  function NetlocPath(p: UrlParts): string {
    var u1 := PathWithParams(p);
    if p.netloc != "" || (p.scheme != "" && p.scheme in UsesNetloc && !StartsWith(u1, "//")) then
      "//" + p.netloc + (if u1 != "" && u1[0] != '/' then "/" + u1 else u1)
    else u1
  }

  /** `strip_query_params(url)`: parse, blank the query, unparse. */
  function StripQueryParams(url: string): (r: Result<string>)
    ensures r.Err? <==> Parse(url, "").Err?
  {
    var p :- Parse(url, "");
    Ok(Unparse(p.(query := "")))
  }

  /** A scheme as `urlsplit` returns it: empty, or lower-case scheme
      characters starting with a letter. */
  predicate SchemeOk(scheme: string) {
    scheme == "" ||
    (IsAsciiAlpha(scheme[0]) && forall k :: 0 <= k < |scheme| ==> SchemeChar(scheme[k]) && !IsUpper(scheme[k]))
  }

  /** Re-splitting the rebuilt `path;params` gives the same two fields. */
  predicate ParamsStable(p: UrlParts) {
    SplitPath(p.scheme, JoinParams(p.path, p.params)) == (p.path, p.params)
  }

  /** The parts `urlparse` returns for a URL with a network location. */
  predicate Regular(p: UrlParts) {
    Layout(p) && ParamsStable(p)
  }

  /** Field contents that keep every separator where `urlsplit` expects it. */
  predicate Layout(p: UrlParts) {
    HeadLayout(p) && TailLayout(p)
  }

  /** The scheme and the network location. */
  predicate HeadLayout(p: UrlParts) {
    && SchemeOk(p.scheme)
    && p.netloc != "" && NoneOf(p.netloc, NetlocEnd) && NetlocOk(p.netloc)
    && NoneOf(p.netloc, Unsafe)
  }

  /** The path, parameters, query and fragment. */
  predicate TailLayout(p: UrlParts) {
    && (p.path == "" || p.path[0] == '/')
    && (p.path == "" ==> p.params == "")
    && '?' !in p.path && '#' !in p.path && '?' !in p.params && '#' !in p.params && '#' !in p.query
    && NoneOf(p.path, Unsafe) && NoneOf(p.params, Unsafe)
    && NoneOf(p.query, Unsafe) && NoneOf(p.fragment, Unsafe)
  }

  function SchemePrefix(p: UrlParts): string {
    if p.scheme != "" then p.scheme + ":" else ""
  }

  function QueryPart(p: UrlParts): string {
    if p.query != "" then "?" + p.query else ""
  }

  function FragmentPart(p: UrlParts): string {
    if p.fragment != "" then "#" + p.fragment else ""
  }

  function QueryFragment(p: UrlParts): string {
    QueryPart(p) + FragmentPart(p)
  }

  /** With a network location, `urlunparse` simply concatenates. */
  lemma UnparseRegular(p: UrlParts)
    requires p.netloc != ""
    requires PathWithParams(p) == "" || PathWithParams(p)[0] == '/'
    ensures Unparse(p) == SchemePrefix(p) + ("//" + p.netloc + (PathWithParams(p) + QueryFragment(p)))
  {
    Regroup(SchemePrefix(p), "//" + p.netloc, PathWithParams(p), QueryPart(p), FragmentPart(p));
  }

  lemma Regroup(sp: string, a: string, u1: string, q: string, f: string)
    ensures ((sp + (a + u1)) + q) + f == sp + (a + (u1 + (q + f)))
  {
    var l := ((sp + (a + u1)) + q) + f;
    var r := sp + (a + (u1 + (q + f)));
    assert |l| == |r|;
    forall k | 0 <= k < |l| ensures l[k] == r[k] {
    }
  }

  lemma PathWithParamsRooted(p: UrlParts)
    requires Layout(p)
    ensures PathWithParams(p) == "" || PathWithParams(p)[0] == '/'
  {
  }

  lemma NotC0(c: char)
    requires c as int > 32
    ensures c !in C0OrSpace
  {
  }

  lemma FirstOfIs(s: string, from: nat, cs: set<char>, d: nat)
    requires from <= d <= |s|
    requires forall k :: from <= k < d ==> s[k] !in cs
    requires d < |s| ==> s[d] in cs
    ensures FirstOf(s, from, cs) == d
  {
  }

  /** The text `Unparse` builds for regular parts survives `urlsplit`'s
      clean-up unchanged. */
  lemma CleanUnparse(p: UrlParts)
    requires Layout(p)
    ensures Clean(Unparse(p)) == Unparse(p)
  {
    var url := Unparse(p);
    PathWithParamsRooted(p);
    UnparseRegular(p);
    var u1 := PathWithParams(p);
    var sp := SchemePrefix(p);
    assert url[0] !in C0OrSpace by {
      if p.scheme != "" { NotC0(p.scheme[0]); } else { NotC0('/'); }
    }
    assert LStrip(url, C0OrSpace) == url;
    assert NoneOf(sp, Unsafe) by {
      if p.scheme != "" {
        assert forall k :: 0 <= k < |p.scheme| ==> SchemeChar(p.scheme[k]);
      }
    }
    SafePathWithParams(p);
    SafeQueryFragment(p);
    SafeJoin(sp, p.netloc, u1, QueryFragment(p));
  }

  lemma SafePathWithParams(p: UrlParts)
    requires NoneOf(p.path, Unsafe) && NoneOf(p.params, Unsafe)
    ensures NoneOf(PathWithParams(p), Unsafe)
  {
    if p.params != "" {
      NoneOfAppend(p.path, ";", Unsafe);
      NoneOfAppend(p.path + ";", p.params, Unsafe);
    }
  }

  lemma SafeQueryFragment(p: UrlParts)
    requires NoneOf(p.query, Unsafe) && NoneOf(p.fragment, Unsafe)
    ensures NoneOf(QueryFragment(p), Unsafe)
  {
    NoneOfAppend("?", p.query, Unsafe);
    NoneOfAppend("#", p.fragment, Unsafe);
    NoneOfAppend(if p.query != "" then "?" + p.query else "",
      if p.fragment != "" then "#" + p.fragment else "", Unsafe);
  }

  lemma SafeJoin(sp: string, netloc: string, u1: string, qf: string)
    requires NoneOf(sp, Unsafe) && NoneOf(netloc, Unsafe) && NoneOf(u1, Unsafe) && NoneOf(qf, Unsafe)
    ensures NoneOf(sp + ("//" + netloc + (u1 + qf)), Unsafe)
  {
    NoneOfAppend(u1, qf, Unsafe);
    NoneOfAppend("//", netloc, Unsafe);
    NoneOfAppend("//" + netloc, u1 + qf, Unsafe);
    NoneOfAppend(sp, "//" + netloc + (u1 + qf), Unsafe);
  }

  /** `urlsplit` finds the scheme `Unparse` wrote. */
  lemma SchemeOfUnparse(p: UrlParts, after: string)
    requires SchemeOk(p.scheme) && |after| > 0 && after[0] == '/'
    ensures SplitScheme(SchemePrefix(p) + after, "") == (p.scheme, after)
  {
    var url := SchemePrefix(p) + after;
    if p.scheme != "" {
      assert url == p.scheme + [':'] + after;
      assert forall k :: 0 <= k < |p.scheme| ==> url[k] == p.scheme[k] && url[k] != ':';
      IndexOfIs(url, ':', |p.scheme|);
      assert url[..|p.scheme|] == p.scheme && url[|p.scheme| + 1..] == after;
      LowerStrNoUpper(p.scheme);
    } else {
      assert url == after && !IsAsciiAlpha(url[0]);
    }
  }

  /** `urlparse` inverts `urlunparse` on the parts it produces itself. */
  lemma ParseUnparse(p: UrlParts)
    requires Regular(p)
    ensures Parse(Unparse(p), "") == Ok(p)
  {
    ParseLayout(p);
  }

  lemma ParseLayout(p: UrlParts)
    requires Layout(p)
    ensures Parse(Unparse(p), "") ==
      Ok(p.(path := SplitPath(p.scheme, PathWithParams(p)).0, params := SplitPath(p.scheme, PathWithParams(p)).1))
  {
    var url := Unparse(p);
    PathWithParamsRooted(p);
    UnparseRegular(p);
    CleanUnparse(p);
    var after := "//" + p.netloc + (PathWithParams(p) + QueryFragment(p));
    SchemeOfUnparse(p, after);
    ParseAfterLayout(p);
  }

  lemma ParseAfterLayout(p: UrlParts)
    requires Layout(p)
    ensures ParseAfterScheme(p.scheme, "//" + p.netloc + (PathWithParams(p) + QueryFragment(p))) ==
      Ok(p.(path := SplitPath(p.scheme, PathWithParams(p)).0, params := SplitPath(p.scheme, PathWithParams(p)).1))
  {
    PathWithParamsRooted(p);
    var u1 := PathWithParams(p);
    TailSplits(u1, p.query, p.fragment);
    assert QueryFragment(p) == (if p.query != "" then "?" + p.query else "") + (if p.fragment != "" then "#" + p.fragment else "");
    NetlocOfLayout(p.netloc, u1 + QueryFragment(p));
  }

  /** Fragment and query come off the tail `Unparse` wrote. */
  lemma TailSplits(u1: string, query: string, fragment: string)
    requires u1 == "" || u1[0] == '/'
    requires '?' !in u1 && '#' !in u1 && '#' !in query
    ensures var q := if query != "" then "?" + query else "";
      var f := if fragment != "" then "#" + fragment else "";
      && (u1 + (q + f) == "" || (u1 + (q + f))[0] in NetlocEnd)
      && SplitFirst(u1 + (q + f), '#') == (u1 + q, fragment)
      && SplitFirst(u1 + q, '?') == (u1, query)
  {
    var q := if query != "" then "?" + query else "";
    var f := if fragment != "" then "#" + fragment else "";
    assert u1 + (q + f) == (u1 + q) + f;
    SplitOptional(u1 + q, '#', fragment);
    SplitOptional(u1, '?', query);
  }

  /** Splitting `a` or `a + c + b` (when `b` is not empty) at the first `c`. */
  lemma SplitOptional(a: string, c: char, b: string)
    requires c !in a
    ensures SplitFirst(a + (if b != "" then [c] + b else ""), c) == (a, b)
  {
    if b != "" {
      assert a + ([c] + b) == a + [c] + b;
      SplitFirstOf(a, c, b);
    } else {
      assert a + "" == a;
    }
  }

  lemma NetlocOfLayout(netloc: string, rest: string)
    requires NoneOf(netloc, NetlocEnd)
    requires rest == "" || rest[0] in NetlocEnd
    ensures SplitNetloc("//" + netloc + rest) == (netloc, rest)
  {
    var after := "//" + netloc + rest;
    var d := 2 + |netloc|;
    assert forall k :: 2 <= k < d ==> after[k] == netloc[k - 2];
    assert d < |after| ==> after[d] == rest[0];
    FirstOfIs(after, 2, NetlocEnd, d);
    assert after[2..d] == netloc && after[d..] == rest;
  }

  /** Every field `urlparse` returns keeps its separators out. */
  lemma ParseRegular(url: string, p: UrlParts)
    requires Parse(url, "") == Ok(p) && p.netloc != ""
    ensures Regular(p)
  {
    var s0 := Clean(url);
    var (scheme, s1) := SplitScheme(s0, "");
    SchemeOfSplit(s0, "");
    AfterSchemeRegular(scheme, s1, p);
  }

  lemma SchemeOfSplit(s0: string, default: string)
    requires SchemeOk(default) && NoneOf(s0, Unsafe)
    ensures SchemeOk(SplitScheme(s0, default).0)
    ensures NoneOf(SplitScheme(s0, default).1, Unsafe)
  {
    match IndexOf(s0, ':')
    case None =>
    case Some(i) =>
      if i > 0 && IsAsciiAlpha(s0[0]) && forall k :: 0 <= k < i ==> SchemeChar(s0[k]) {
        var sc := LowerStr(s0[..i]);
        assert forall k :: 0 <= k < |sc| ==> sc[k] == Lower(s0[k]);
        assert SchemeOk(sc);
        NoneOfSlice(s0, i + 1, |s0|, Unsafe);
      }
  }

  /** The fields `ParseAfterScheme` produces when it finds a network
      location, with the intermediate strings named. */
  lemma AfterSchemeParts(scheme: string, s1: string, p: UrlParts)
    returns (d: nat, s2: string, s3: string, path0: string)
    requires ParseAfterScheme(scheme, s1) == Ok(p) && p.netloc != ""
    ensures StartsWith(s1, "//") && d == FirstOf(s1, 2, NetlocEnd)
    ensures p.scheme == scheme
    ensures p.netloc == s1[2..d] && NetlocOk(p.netloc)
    ensures s2 == s1[d..]
    ensures s3 == SplitFirst(s2, '#').0 && p.fragment == SplitFirst(s2, '#').1
    ensures path0 == SplitFirst(s3, '?').0 && p.query == SplitFirst(s3, '?').1
    ensures (p.path, p.params) == SplitPath(scheme, path0)
  {
    d := FirstOf(s1, 2, NetlocEnd);
    s2 := s1[d..];
    s3 := SplitFirst(s2, '#').0;
    path0 := SplitFirst(s3, '?').0;
  }

  lemma AfterSchemeRegular(scheme: string, s1: string, p: UrlParts)
    requires SchemeOk(scheme) && NoneOf(s1, Unsafe)
    requires ParseAfterScheme(scheme, s1) == Ok(p) && p.netloc != ""
    ensures Regular(p)
  {
    var d, s2, s3, path0 := AfterSchemeParts(scheme, s1, p);
    NoneOfSlice(s1, 2, d, Unsafe);
    NoneOfSlice(s1, d, |s1|, Unsafe);
    HeadOfNetloc(p, s1, d);
    AfterNetlocRegular(s2, s3, path0, p);
  }

  lemma HeadOfNetloc(p: UrlParts, s1: string, d: nat)
    requires 2 <= d <= |s1| && d == FirstOf(s1, 2, NetlocEnd)
    requires SchemeOk(p.scheme) && p.netloc != "" && p.netloc == s1[2..d]
    requires NetlocOk(p.netloc) && NoneOf(p.netloc, Unsafe)
    ensures HeadLayout(p)
  {
    assert forall k :: 0 <= k < |p.netloc| ==> p.netloc[k] == s1[k + 2];
  }

  /** Everything after the network location lands in the right fields. */
  lemma AfterNetlocRegular(s2: string, s3: string, path0: string, p: UrlParts)
    requires s2 == "" || s2[0] in NetlocEnd
    requires NoneOf(s2, Unsafe)
    requires (s3, p.fragment) == SplitFirst(s2, '#')
    requires (path0, p.query) == SplitFirst(s3, '?')
    requires (p.path, p.params) == SplitPath(p.scheme, path0)
    ensures TailLayout(p) && ParamsStable(p)
  {
    TailRegular(s2, s3, path0, p.query, p.fragment);
    SplitPathRegular(p.scheme, path0, p.path, p.params);
  }

  /** What the fragment and query splits leave for the path. */
  lemma TailRegular(s2: string, s3: string, path0: string, query: string, fragment: string)
    requires s2 == "" || s2[0] in NetlocEnd
    requires NoneOf(s2, Unsafe)
    requires (s3, fragment) == SplitFirst(s2, '#')
    requires (path0, query) == SplitFirst(s3, '?')
    ensures path0 == "" || path0[0] == '/'
    ensures '?' !in path0 && '#' !in path0 && '#' !in query
    ensures NoneOf(path0, Unsafe) && NoneOf(query, Unsafe) && NoneOf(fragment, Unsafe)
  {
    SplitFirstParts(s2, '#');
    SplitFirstParts(s3, '?');
    assert '#' !in path0 && '#' !in query by {
      if '?' in s3 { assert s3 == path0 + ['?'] + query; }
    }
    if path0 != "" {
      assert path0[0] == s3[0] == s2[0];
    }
  }

  /** The first part of a split is a prefix, and both parts keep clear of
      characters the whole avoids. */
  lemma SplitFirstParts(s: string, c: char)
    requires NoneOf(s, Unsafe)
    ensures NoneOf(SplitFirst(s, c).0, Unsafe) && NoneOf(SplitFirst(s, c).1, Unsafe)
    ensures s[..|SplitFirst(s, c).0|] == SplitFirst(s, c).0
  {
    var r := SplitFirst(s, c);
    if c in s {
      NoneOfAppend(r.0 + [c], r.1, Unsafe);
      NoneOfAppend(r.0, [c], Unsafe);
    }
  }

  /** The parameters split off a rooted path re-split the same way. */
  lemma SplitPathRegular(scheme: string, path0: string, path: string, params: string)
    requires path0 == "" || path0[0] == '/'
    requires '?' !in path0 && '#' !in path0 && NoneOf(path0, Unsafe)
    requires (path, params) == SplitPath(scheme, path0)
    ensures path == "" || path[0] == '/'
    ensures path == "" ==> params == ""
    ensures '?' !in path && '#' !in path && '?' !in params && '#' !in params
    ensures NoneOf(path, Unsafe) && NoneOf(params, Unsafe)
    ensures SplitPath(scheme, JoinParams(path, params)) == (path, params)
  {
    if scheme in UsesParams && ';' in path0 {
      var j := LastIndexOf(path0, '/').value;
      match IndexOfFrom(path0, ';', j)
      case None =>
      case Some(i) =>
        assert path == path0[..i] && params == path0[i + 1..];
        NoneOfSlice(path0, 0, i, Unsafe);
        NoneOfSlice(path0, i + 1, |path0|, Unsafe);
        assert '?' !in path && '#' !in path && '?' !in params && '#' !in params by {
          assert path0 == path + [';'] + params;
        }
        if params != "" {
          assert JoinParams(path, params) == path0;
        } else if ';' in path {
          LastIndexOfIs(path, '/', j);
          assert IndexOfFrom(path, ';', j).None?;
        }
    }
  }

  /** Stripping the query keeps every other field: the result parses to the
      same parts with an empty query. */
  lemma StripQueryKeepsParts(url: string, p: UrlParts)
    requires Parse(url, "") == Ok(p) && p.netloc != ""
    ensures StripQueryParams(url).Ok?
    ensures Parse(StripQueryParams(url).value, "") == Ok(p.(query := ""))
  {
    ParseRegular(url, p);
    ParseUnparse(p.(query := ""));
  }

  /** Stripping the query twice is stripping it once. */
  lemma StripQueryIdempotent(url: string)
    requires Parse(url, "").Ok? && Parse(url, "").value.netloc != ""
    ensures StripQueryParams(url).Ok?
    ensures StripQueryParams(StripQueryParams(url).value) == StripQueryParams(url)
  {
    var p := Parse(url, "").value;
    StripQueryKeepsParts(url, p);
    assert p.(query := "").(query := "") == p.(query := "");
  }

  /** A bracketed host must be an address: a name in brackets makes
      `urlparse` raise, so the query cannot be stripped. */
  lemma BracketedNameRejected()
    ensures StripQueryParams("http://[x]/p?q") == Err(ValueError(Quoted("x") + " does not appear to be an IPv4 or IPv6 address"))
  {
    CleanOfExample();
    SchemeOfExample();
    NetlocOfExample();
    HostOfExample();
  }

  lemma CleanOfExample()
    ensures Clean("http://[x]/p?q") == "http://[x]/p?q"
  {
    var url := "http://[x]/p?q";
    NotC0('h');
    assert LStrip(url, C0OrSpace) == url;
    assert forall k :: 0 <= k < |url| ==> url[k] !in Unsafe;
  }

  lemma SchemeOfExample()
    ensures SplitScheme("http://[x]/p?q", "") == ("http", "//[x]/p?q")
  {
    var p := UrlParts("http", "", "", "", "", "");
    assert SchemeOk(p.scheme) by {
      assert forall k :: 0 <= k < 4 ==> SchemeChar("http"[k]) && !IsUpper("http"[k]);
    }
    SchemeOfUnparse(p, "//[x]/p?q");
    assert SchemePrefix(p) + "//[x]/p?q" == "http://[x]/p?q";
  }

  lemma NetlocOfExample()
    ensures SplitNetloc("//[x]/p?q") == ("[x]", "/p?q")
  {
    var s := "//[x]/p?q";
    assert StartsWith(s, "//") by { assert s[..2] == "//"; }
    FirstOfIs(s, 2, NetlocEnd, 5);
    assert s[2..5] == "[x]" && s[5..] == "/p?q";
  }

  lemma HostOfExample()
    ensures BracketedNetlocError("[x]") == Some(Quoted("x") + " does not appear to be an IPv4 or IPv6 address")
  {
    AfterLastAbsent("[x]", '@');
    IndexOfIs("[x]", '[', 0);
    assert "[x]"[1..] == "x" + [']'] + "";
    SplitFirstOf("x", ']', "");
    XIsNoAddress();
  }

  lemma XIsNoAddress()
    ensures !IpAddress.IsIPv4("x") && !IpAddress.IsIPv6("x")
  {
    assert IndexOf("x", '.') == None;
    assert Split("x", '.') == ["x"];
    assert IndexOf("x", '%') == None;
    assert SplitFirst("x", '%') == ("x", "");
    assert IndexOf("x", ':') == None;
    assert Split("x", ':') == ["x"];
  }

  /** Eight hextets in brackets, with or without a port, pass the checks. */
  lemma BracketedIPv6Accepted(hs: seq<string>, port: string)
    requires |hs| == 8 && forall i :: 0 <= i < 8 ==> IpAddress.Hextet(hs[i])
    requires '@' !in port && '[' !in port && ']' !in port
    ensures NetlocOk("[" + Join(hs, ':') + "]" + (if port != "" then ":" + port else ""))
  {
    var a := Join(hs, ':');
    IpAddress.FullFormIsIPv6(hs);
    assert forall i :: 0 <= i < 8 ==> '@' !in hs[i] && '[' !in hs[i] && ']' !in hs[i];
    IpAddress.JoinAvoids(hs, ':', '@');
    IpAddress.JoinAvoids(hs, ':', '[');
    IpAddress.JoinAvoids(hs, ':', ']');
    assert !IpAddress.IsIPv4(a) by {
      if IpAddress.IsIPv4(a) { IpAddress.IPv4NotIPv6(a); }
    }
    assert |a| > 0 ==> a[0] != 'v' by {
      if |a| > 0 { assert a == hs[0] + [':'] + Join(hs[1..], ':'); assert a[0] == hs[0][0]; }
    }
    var tail := if port != "" then ":" + port else "";
    BracketedHostOf(a, tail);
  }

  /** A bracketed host, optionally followed by a `:` port, is what the
      host check sees. */
  lemma BracketedHostOf(a: string, tail: string)
    requires '@' !in a && '[' !in a && ']' !in a
    requires '@' !in tail && '[' !in tail && ']' !in tail && (tail == "" || tail[0] == ':')
    ensures var n := "[" + a + "]" + tail;
      '[' in n && ']' in n && BracketedNetlocError(n) == BracketedHostError(a)
  {
    var n := "[" + a + "]" + tail;
    assert n[0] == '[' && n[|a| + 1] == ']';
    assert '@' !in n by {
      assert NoneOf(a, {'@'}) && NoneOf(tail, {'@'});
      NoneOfAppend("[", a, {'@'});
      NoneOfAppend("[" + a, "]", {'@'});
      NoneOfAppend("[" + a + "]", tail, {'@'});
    }
    AfterLastAbsent(n, '@');
    IndexOfIs(n, '[', 0);
    assert n[1..] == a + [']'] + tail;
    SplitFirstOf(a, ']', tail);
  }

  /** A path segment that names the current or the parent directory. */
  predicate IsDotSegment(seg: string) {
    seg == "." || seg == ".."
  }

  predicate NoDotSegments(segs: seq<string>) {
    forall i :: 0 <= i < |segs| ==> !IsDotSegment(segs[i])
  }

  /** `urljoin`'s segment walk: `..` pops (never past the start), `.` is
      dropped, anything else is pushed onto `stack`. */
  function ResolveSegments(stack: seq<string>, segs: seq<string>): (r: seq<string>)
    requires NoDotSegments(stack)
    ensures NoDotSegments(r)
    decreases |segs|
  {
    if |segs| == 0 then stack
    else if segs[0] == ".." then
      ResolveSegments(if |stack| > 0 then stack[..|stack| - 1] else stack, segs[1..])
    else if segs[0] == "." then ResolveSegments(stack, segs[1..])
    else ResolveSegments(stack + [segs[0]], segs[1..])
  }

  /** Without dot segments the walk copies its input. */
  lemma {:induction false} ResolveWithoutDots(stack: seq<string>, segs: seq<string>)
    requires NoDotSegments(stack) && NoDotSegments(segs)
    ensures ResolveSegments(stack, segs) == stack + segs
    decreases |segs|
  {
    if |segs| > 0 {
      assert !IsDotSegment(segs[0]);
      assert NoDotSegments(segs[1..]);
      ResolveWithoutDots(stack + [segs[0]], segs[1..]);
      assert stack + [segs[0]] + segs[1..] == stack + segs;
    }
  }

  /** `segments[1:-1] = filter(None, segments[1:-1])`. */
  function DropInnerEmpty(segs: seq<string>): (r: seq<string>)
    ensures |segs| >= 2 ==> |r| >= 2 && r[0] == segs[0] && r[|r| - 1] == segs[|segs| - 1]
    ensures |segs| < 2 ==> r == segs
    ensures forall i :: 0 < i < |r| - 1 ==> r[i] != ""
  {
    if |segs| < 2 then segs
    else [segs[0]] + NonEmpty(segs[1..|segs| - 1]) + [segs[|segs| - 1]]
  }

  function NonEmpty(xs: seq<string>): (r: seq<string>)
    ensures forall i :: 0 <= i < |r| ==> r[i] != "" && r[i] in xs
    ensures forall x :: x in xs && x != "" ==> x in r
  {
    if |xs| == 0 then []
    else if xs[0] == "" then NonEmpty(xs[1..])
    else [xs[0]] + NonEmpty(xs[1..])
  }

  /** The merged, resolved path of a relative reference against a base path. */
  function MergePath(basePath: string, path: string): (r: string)
  {
    var baseParts := Split(basePath, '/');
    var dirParts := if baseParts[|baseParts| - 1] != "" then baseParts[..|baseParts| - 1] else baseParts;
    var segments :=
      if |path| > 0 && path[0] == '/' then Split(path, '/')
      else DropInnerEmpty(dirParts + Split(path, '/'));
    var resolved := ResolveSegments([], segments);
    var resolved' := if IsDotSegment(segments[|segments| - 1]) then resolved + [""] else resolved;
    var joined := Join(resolved', '/');
    if joined == "" then "/" else joined
  }

  /** `urljoin(base, url)`, CPython 3.12. */
  function UrlJoin(base: string, url: string): (r: Result<string>)
  {
    if base == "" then Ok(url)
    else if url == "" then Ok(base)
    else
      var b :- Parse(base, "");
      var u :- Parse(url, b.scheme);
      if u.scheme != b.scheme || u.scheme !in UsesRelative then Ok(url)
      else if u.scheme in UsesNetloc && u.netloc != "" then Ok(Unparse(u))
      else
        var netloc := if u.scheme in UsesNetloc then b.netloc else u.netloc;
        if u.path == "" && u.params == "" then
          Ok(Unparse(UrlParts(u.scheme, netloc, b.path, b.params, if u.query != "" then u.query else b.query, u.fragment)))
        else
          Ok(Unparse(UrlParts(u.scheme, netloc, MergePath(b.path, u.path), u.params, u.query, u.fragment)))
  }

  /** A reference with its own, different scheme is returned as given. */
  lemma JoinOtherScheme(base: string, url: string)
    requires base != "" && url != ""
    requires Parse(base, "").Ok? && Parse(url, Parse(base, "").value.scheme).Ok?
    requires Parse(url, Parse(base, "").value.scheme).value.scheme != Parse(base, "").value.scheme
    ensures UrlJoin(base, url) == Ok(url)
  {
  }

  /** A rooted path with no dot segments replaces the base's path and keeps
      its scheme and network location. */
  lemma JoinRootedPath(base: string, url: string, b: UrlParts, u: UrlParts)
    requires base != "" && url != ""
    requires Parse(base, "") == Ok(b) && b.scheme in {"http", "https"}
    requires Parse(url, b.scheme) == Ok(u) && u.scheme == b.scheme && u.netloc == ""
    requires |u.path| > 0 && u.path[0] == '/' && NoDotSegments(Split(u.path, '/'))
    ensures UrlJoin(base, url) == Ok(Unparse(u.(netloc := b.netloc)))
  {
    var segs := Split(u.path, '/');
    ResolveWithoutDots([], segs);
    assert [] + segs == segs;
    assert !IsDotSegment(segs[|segs| - 1]);
    assert MergePath(b.path, u.path) == u.path;
  }
}

=== FILE: utils.dfy ===
/** kcrw_feed/utils.py: UUID extraction, dedupe by UUID and lenient date
    parsing. `uuid.UUID` and `datetime.fromisoformat` are modelled here too:
    the first from its text, including the leniency of the `int(hex, 16)`
    it ends in, the second as the supplied `Iso` parser. */
module Utils {
  import opened Wrappers
  import opened Text
  import opened Values
  import opened Lists

  predicate IsHex(c: char) {
    '0' <= c <= '9' || 'a' <= c <= 'f' || 'A' <= c <= 'F'
  }

  predicate IsLowerHex(c: char) {
    '0' <= c <= '9' || 'a' <= c <= 'f'
  }

  /** `n` hexadecimal digits start at index `i` of `s`. */
  predicate HexRun(s: string, i: int, n: nat) {
    0 <= i && i + n <= |s| && forall k :: i <= k < i + n ==> IsHex(s[k])
  }

  /** The first alternative of the pattern, `[0-9a-fA-F]{32}`, matches at `i`. */
  predicate PlainAt(s: string, i: int) {
    HexRun(s, i, 32)
  }

  /** The second alternative, `[0-9a-fA-F]{8}(?:-[0-9a-fA-F]{4}){3}-[0-9a-fA-F]{12}`. */
  predicate DashedAt(s: string, i: int) {
    HexRun(s, i, 8) && i + 36 <= |s|
    && s[i + 8] == '-' && HexRun(s, i + 9, 4)
    && s[i + 13] == '-' && HexRun(s, i + 14, 4)
    && s[i + 18] == '-' && HexRun(s, i + 19, 4)
    && s[i + 23] == '-' && HexRun(s, i + 24, 12)
  }

  predicate MatchAt(s: string, i: int) {
    PlainAt(s, i) || DashedAt(s, i)
  }

  /** The text the pattern captures at `i`: the alternation tries the
      32-digit form first. */
  function Candidate(s: string, i: int): (r: string)
    requires MatchAt(s, i)
    ensures |r| == 32 || |r| == 36
  {
    if PlainAt(s, i) then s[i..i + 32] else s[i..i + 36]
  }

  /** The leftmost index at or after `from` where the pattern matches:
      what `re.search` finds. */
  function FirstMatch(s: string, from: nat): (r: Option<nat>)
    ensures r.Some? ==> from <= r.value < |s| && MatchAt(s, r.value)
    ensures r.Some? ==> forall j :: from <= j < r.value ==> !MatchAt(s, j)
    ensures r.None? ==> forall j :: from <= j ==> !MatchAt(s, j)
    decreases |s| - from
  {
    if from >= |s| then None
    else if MatchAt(s, from) then Some(from)
    else FirstMatch(s, from + 1)
  }

  /** `s` with every `c` removed (`s.replace(c, "")` for one character). */
  function RemoveChar(s: string, c: char): (r: string)
    ensures |r| <= |s|
    ensures c !in s ==> r == s
  {
    if |s| == 0 then ""
    else if s[0] == c then RemoveChar(s[1..], c)
    else [s[0]] + RemoveChar(s[1..], c)
  }

  lemma {:induction false} RemoveCharMembers(s: string, c: char)
    ensures forall x :: x in RemoveChar(s, c) <==> x in s && x != c
  {
    if |s| > 0 {
      RemoveCharMembers(s[1..], c);
      assert forall x :: x in s <==> x == s[0] || x in s[1..];
    }
  }

  lemma {:induction false} RemoveCharAppend(a: string, b: string, c: char)
    ensures RemoveChar(a + b, c) == RemoveChar(a, c) + RemoveChar(b, c)
  {
    if |a| > 0 {
      assert (a + b)[1..] == a[1..] + b;
      RemoveCharAppend(a[1..], b, c);
    } else {
      assert a + b == b;
    }
  }

  /** The 32-digit text of a UUID, as `uuid.UUID` stores it. */
  predicate ValidUuid(u: Uuid) {
    |u.hex| == 32 && forall k :: 0 <= k < 32 ==> IsLowerHex(u.hex[k])
  }

  const Braces: set<char> := {'{', '}'}

  predicate AllHex(s: string) {
    forall k :: 0 <= k < |s| ==> IsHex(s[k])
  }

  predicate HexOrDash(s: string) {
    forall k :: 0 <= k < |s| ==> IsHex(s[k]) || s[k] == '-'
  }

  /** The text `uuid.UUID(hex)` reads digits from: `urn:` and `uuid:`
      removed, braces stripped from both ends, dashes removed. */
  function LiteralDigits(text: string): string {
    var a := ReplaceAll(ReplaceAll(text, "urn:", ""), "uuid:", "");
    RemoveChar(StripSet(a, Braces), '-')
  }

  /** The characters `int()` skips around a literal: ASCII spaces, tabs
      and line breaks, and every non-ASCII character `str.isspace()`
      accepts. The ASCII information separators are not skipped. */
  const IntSpace: set<char> := Whitespace - {'\U{1c}', '\U{1d}', '\U{1e}', '\U{1f}'}

  /** Hexadecimal digits with single underscores between them: the digits
      they spell, or None when the text has another shape. */
  function Grouped(s: string): (r: Option<string>)
    ensures r.Some? ==> 0 < |r.value| <= |s| && AllHex(r.value)
    decreases |s|
  {
    if |s| == 0 || !IsHex(s[0]) then None
    else if |s| == 1 then Some(s)
    else
      var rest := if s[1] == '_' then s[2..] else s[1..];
      match Grouped(rest)
      case None => None
      case Some(d) => Some([s[0]] + d)
  }

  /** Digits without underscores spell themselves. */
  lemma {:induction false} GroupedPlain(s: string)
    requires |s| > 0 && AllHex(s)
    ensures Grouped(s) == Some(s)
    decreases |s|
  {
    if |s| > 1 {
      assert AllHex(s[1..]) by {
        forall k | 0 <= k < |s| - 1 ensures IsHex(s[1..][k]) {
          assert s[1..][k] == s[k + 1];
        }
      }
      GroupedPlain(s[1..]);
      assert [s[0]] + s[1..] == s;
    }
  }

  /** What `int(s, 16)` reads: a sign and the digits of the value. */
  datatype HexInt = HexInt(negative: bool, digits: string)

  /** The text after an optional sign. */
  function Unsigned(t: string): (r: string)
    ensures |r| <= |t|
  {
    if |t| > 0 && (t[0] == '+' || t[0] == '-') then t[1..] else t
  }

  /** The text after an optional `0x` or `0X` prefix and the one
      underscore that may follow it. */
  function Unprefixed(u: string): (r: string)
    ensures |r| <= |u|
  {
    if |u| >= 2 && u[0] == '0' && (u[1] == 'x' || u[1] == 'X') then
      if |u| >= 3 && u[2] == '_' then u[3..] else u[2..]
    else u
  }

  /** `int(s, 16)`: surrounding spaces, an optional sign, an optional
      prefix, then digits with single underscores between them. None when
      it raises `ValueError`. */
  function IntHex(s: string): (r: Option<HexInt>)
    ensures r.Some? ==> 0 < |r.value.digits| <= |s| && AllHex(r.value.digits)
  {
    var t := StripSet(s, IntSpace);
    assert |t| <= |s|;
    var d :- Grouped(Unprefixed(Unsigned(t)));
    Some(HexInt(|t| > 0 && t[0] == '-', d))
  }

  lemma HexNotSpace(c: char)
    requires IsHex(c)
    ensures c !in IntSpace
  {
  }

  lemma StripHex(h: string)
    requires |h| > 0 && AllHex(h)
    ensures StripSet(h, IntSpace) == h
  {
    HexNotSpace(h[0]);
    HexNotSpace(h[|h| - 1]);
    assert LStrip(h, IntSpace) == h;
  }

  /** A string of hexadecimal digits is read as itself. */
  lemma IntHexPlain(h: string)
    requires |h| > 0 && AllHex(h)
    ensures IntHex(h) == Some(HexInt(false, h))
  {
    StripHex(h);
    assert Unprefixed(Unsigned(h)) == h;
    GroupedPlain(h);
  }

  /** `"%032x" % value` for a value of at most 32 digits: the digits in
      lower case, with zeros in front. */
  function Padded(d: string): (r: string)
    requires |d| <= 32
    ensures |r| == 32
  {
    seq(32 - |d|, _ => '0') + LowerStr(d)
  }

  /** Zero-padded lower-cased digits are a valid UUID text. */
  lemma PaddedValid(d: string)
    requires |d| <= 32 && AllHex(d)
    ensures ValidUuid(Uuid(Padded(d)))
  {
    var r := Padded(d);
    forall k | 0 <= k < 32 ensures IsLowerHex(r[k]) {
      if k >= 32 - |d| {
        assert r[k] == LowerStr(d)[k - (32 - |d|)];
        assert IsHex(d[k - (32 - |d|)]);
      }
    }
  }

  predicate AllZero(d: string) {
    forall k :: 0 <= k < |d| ==> d[k] == '0'
  }

  /** Thirty-two digits need no padding. */
  lemma PaddedFull(d: string)
    requires |d| == 32
    ensures Padded(d) == LowerStr(d)
  {
    assert seq(32 - |d|, _ => '0') == [];
  }

  /** The `int(hex, 16)` step of `uuid.UUID(hex)` on the 32 cleaned
      characters: the value must be read and lie in `0 <= value < 2**128`,
      and the UUID's text is the value in 32 lower-case digits. */
  function UuidOfDigits(h: string): (r: Result<Uuid>)
    requires |h| == 32
    ensures IntHex(h).None? ==> r == Err(ValueError("invalid literal for int() with base 16: " + Quoted(h)))
    ensures r.Ok? <==> IntHex(h).Some? && !(IntHex(h).value.negative && !AllZero(IntHex(h).value.digits))
    ensures r.Ok? ==> ValidUuid(r.value) && r.value == Uuid(Padded(IntHex(h).value.digits))
    ensures AllHex(h) ==> r == Ok(Uuid(LowerStr(h)))
  {
    if AllHex(h) then
      IntHexPlain(h);
      PaddedValid(h);
      PaddedFull(h);
      Ok(Uuid(Padded(h)))
    else
      match IntHex(h)
      case None => Err(ValueError("invalid literal for int() with base 16: " + Quoted(h)))
      case Some(n) =>
        if n.negative && !AllZero(n.digits) then Err(ValueError("int is out of range (need a 128-bit value)"))
        else
          PaddedValid(n.digits);
          Ok(Uuid(Padded(n.digits)))
  }

  /** `uuid.UUID(hex)`: after the cleaning, 32 characters must remain, and
      `int(hex, 16)` must read them as a value below 2**128. */
  function UuidFromLiteral(text: string): (r: Result<Uuid>)
    ensures |LiteralDigits(text)| != 32 ==> r == Err(ValueError("badly formed hexadecimal UUID string"))
    ensures |LiteralDigits(text)| == 32 ==> r == UuidOfDigits(LiteralDigits(text))
    ensures r.Ok? ==> ValidUuid(r.value)
    ensures |LiteralDigits(text)| == 32 && AllHex(LiteralDigits(text)) ==> r == Ok(Uuid(LowerStr(LiteralDigits(text))))
  {
    var h := LiteralDigits(text);
    if |h| != 32 then Err(ValueError("badly formed hexadecimal UUID string"))
    else UuidOfDigits(h)
  }

  /** The cleaning removes every dash, so `int()` never sees a minus sign
      and the range check never fails. */
  lemma {:induction false} LiteralNeverNegative(text: string)
    ensures UuidFromLiteral(text) != Err(ValueError("int is out of range (need a 128-bit value)"))
  {
    var h := LiteralDigits(text);
    var a := ReplaceAll(ReplaceAll(text, "urn:", ""), "uuid:", "");
    RemoveCharMembers(StripSet(a, Braces), '-');
    assert '-' !in h;
    if |h| == 32 && IntHex(h).Some? {
      var t := StripSet(h, IntSpace);
      assert OccursAt(h, t, |h| - |LStrip(h, IntSpace)|);
      if |t| > 0 {
        assert t[0] in h;
      }
    }
  }

  lemma PrefixedClean(d: string)
    requires |d| == 30 && AllHex(d)
    ensures LiteralDigits("0x" + d) == "0x" + d
  {
    var text := "0x" + d;
    assert ':' !in text && '-' !in text;
    NoPrefixes(text);
    NoBraces(text);
  }

  lemma PrefixedRead(d: string)
    requires |d| == 30 && AllHex(d)
    ensures IntHex("0x" + d) == Some(HexInt(false, d))
  {
    var text := "0x" + d;
    HexNotSpace(d[29]);
    assert LStrip(text, IntSpace) == text;
    assert StripSet(text, IntSpace) == text;
    assert Unprefixed(Unsigned(text)) == d;
    GroupedPlain(d);
  }

  /** `int()` accepts a `0x` prefix: 30 digits after it give a UUID whose
      text starts with two zeros. */
  lemma PrefixedLiteral(d: string)
    requires |d| == 30 && AllHex(d)
    ensures UuidFromLiteral("0x" + d) == Ok(Uuid("00" + LowerStr(d)))
  {
    PrefixedClean(d);
    PrefixedRead(d);
    PaddedThirty(d);
  }

  lemma PaddedThirty(d: string)
    requires |d| == 30
    ensures Padded(d) == "00" + LowerStr(d)
  {
    assert seq(2, _ => '0') == "00";
  }

  lemma MinusClean(d: string)
    requires |d| == 31 && AllHex(d)
    ensures LiteralDigits("-" + d) == d
  {
    var text := "-" + d;
    assert ':' !in text;
    NoPrefixes(text);
    MinusBraces(d);
    assert '-' !in d;
    assert text[1..] == d;
    assert RemoveChar(text, '-') == RemoveChar(d, '-');
  }

  lemma MinusBraces(d: string)
    requires |d| == 31 && AllHex(d)
    ensures StripSet("-" + d, Braces) == "-" + d
  {
    var text := "-" + d;
    assert text[0] !in Braces;
    assert LStrip(text, Braces) == text;
    assert text[|text| - 1] == d[30];
    assert text[|text| - 1] !in Braces;
  }

  /** A leading minus sign is one of the dashes the cleaning removes: one
      followed by 31 digits leaves too few characters. */
  lemma MinusIsDash(d: string)
    requires |d| == 31 && AllHex(d)
    ensures UuidFromLiteral("-" + d) == Err(ValueError("badly formed hexadecimal UUID string"))
  {
    MinusClean(d);
  }

  /** `str(u)`: the canonical 8-4-4-4-12 form. */
  function UuidStr(u: Uuid): (r: string)
    requires ValidUuid(u)
    ensures |r| == 36 && r[8] == '-' && r[13] == '-' && r[18] == '-' && r[23] == '-'
  {
    u.hex[..8] + "-" + u.hex[8..12] + "-" + u.hex[12..16] + "-" + u.hex[16..20] + "-" + u.hex[20..]
  }

  lemma NoColonNoOccurrence(s: string, p: string)
    requires ':' in p && ':' !in s
    ensures !Contains(s, p)
  {
    var k :| 0 <= k < |p| && p[k] == ':';
    forall i | 0 <= i <= |s| - |p| ensures !OccursAt(s, p, i) {
      assert s[i + k] in s;
      assert s[i..i + |p|][k] != p[k];
    }
  }

  /** Dropping the dashes of `g1-g2-g3-g4-g5` joins the groups. */
  lemma RemoveDashesOfGroups(g1: string, g2: string, g3: string, g4: string, g5: string)
    requires '-' !in g1 && '-' !in g2 && '-' !in g3 && '-' !in g4 && '-' !in g5
    ensures RemoveChar(g1 + "-" + g2 + "-" + g3 + "-" + g4 + "-" + g5, '-') == g1 + g2 + g3 + g4 + g5
  {
    var p1 := g1 + "-";
    var p2 := p1 + g2;
    var p3 := p2 + "-";
    var p4 := p3 + g3;
    var p5 := p4 + "-";
    var p6 := p5 + g4;
    var p7 := p6 + "-";
    assert RemoveChar("-", '-') == "";
    RemoveCharAppend(g1, "-", '-');
    assert RemoveChar(p1, '-') == g1;
    RemoveCharAppend(p1, g2, '-');
    assert RemoveChar(p2, '-') == g1 + g2;
    RemoveCharAppend(p2, "-", '-');
    assert RemoveChar(p3, '-') == g1 + g2;
    RemoveCharAppend(p3, g3, '-');
    assert RemoveChar(p4, '-') == g1 + g2 + g3;
    RemoveCharAppend(p4, "-", '-');
    assert RemoveChar(p5, '-') == g1 + g2 + g3;
    RemoveCharAppend(p5, g4, '-');
    assert RemoveChar(p6, '-') == g1 + g2 + g3 + g4;
    RemoveCharAppend(p6, "-", '-');
    assert RemoveChar(p7, '-') == g1 + g2 + g3 + g4;
    RemoveCharAppend(p7, g5, '-');
  }

  /** A string of hex digits and dashes that starts and ends with a digit
      loses only its dashes. */
  lemma LiteralDigitsOfHexDash(text: string)
    requires |text| > 0 && HexOrDash(text)
    requires IsHex(text[0]) && IsHex(text[|text| - 1])
    ensures LiteralDigits(text) == RemoveChar(text, '-')
  {
    assert ':' !in text;
    NoPrefixes(text);
    NoBraces(text);
  }

  lemma NoPrefixes(text: string)
    requires ':' !in text
    ensures ReplaceAll(ReplaceAll(text, "urn:", ""), "uuid:", "") == text
  {
    NoColonNoOccurrence(text, "urn:");
    ReplaceAllAbsent(text, "urn:", "");
    NoColonNoOccurrence(text, "uuid:");
    ReplaceAllAbsent(text, "uuid:", "");
  }

  lemma NoBraces(text: string)
    requires |text| > 0 && IsHex(text[0]) && IsHex(text[|text| - 1])
    ensures StripSet(text, Braces) == text
  {
    assert LStrip(text, Braces) == text;
  }

  lemma JoinSlices(s: string, i: int, j: int, k: int)
    requires 0 <= i <= j <= k <= |s|
    ensures s[i..j] + s[j..k] == s[i..k]
  {
  }

  /** The dashed form `8-4-4-4-12` yields its 32 digits. */
  lemma DashedDigits(c: string)
    requires |c| == 36 && HexOrDash(c)
    requires c[8] == '-' && c[13] == '-' && c[18] == '-' && c[23] == '-'
    requires forall k :: 0 <= k < 36 && k != 8 && k != 13 && k != 18 && k != 23 ==> IsHex(c[k])
    ensures |RemoveChar(c, '-')| == 32 && AllHex(RemoveChar(c, '-'))
  {
    var g1, g2, g3, g4, g5 := c[..8], c[9..13], c[14..18], c[19..23], c[24..];
    assert c[..9] == g1 + "-";
    JoinSlices(c, 0, 9, 13);
    assert c[..14] == c[..13] + "-";
    JoinSlices(c, 0, 14, 18);
    assert c[..19] == c[..18] + "-";
    JoinSlices(c, 0, 19, 23);
    assert c[..24] == c[..23] + "-";
    JoinSlices(c, 0, 24, 36);
    assert c == g1 + "-" + g2 + "-" + g3 + "-" + g4 + "-" + g5;
    assert AllHex(g1) && AllHex(g2) && AllHex(g3) && AllHex(g4) && AllHex(g5);
    RemoveDashesOfGroups(g1, g2, g3, g4, g5);
    var h := g1 + g2 + g3 + g4 + g5;
    assert forall k :: 0 <= k < 32 ==> h[k] in g1 || h[k] in g2 || h[k] in g3 || h[k] in g4 || h[k] in g5;
  }

  lemma UuidStrDigits(u: Uuid)
    requires ValidUuid(u)
    ensures HexOrDash(UuidStr(u))
    ensures RemoveChar(UuidStr(u), '-') == u.hex
  {
    var h := u.hex;
    assert '-' !in h;
    RemoveDashesOfGroups(h[..8], h[8..12], h[12..16], h[16..20], h[20..]);
    JoinSlices(h, 0, 8, 12);
    JoinSlices(h, 0, 12, 16);
    JoinSlices(h, 0, 16, 20);
    JoinSlices(h, 0, 20, 32);
  }

  lemma LowerOfValid(u: Uuid)
    requires ValidUuid(u)
    ensures LowerStr(u.hex) == u.hex && AllHex(u.hex)
  {
  }

  /** Parsing the canonical form gives the UUID back. */
  lemma UuidStrRoundTrip(u: Uuid)
    requires ValidUuid(u)
    ensures UuidFromLiteral(UuidStr(u)) == Ok(u)
  {
    UuidStrDigits(u);
    LiteralDigitsOfHexDash(UuidStr(u));
    LowerOfValid(u);
  }

  /** Every candidate the pattern can capture is a valid `uuid.UUID` literal. */
  lemma CandidateIsLiteral(s: string, i: int)
    requires MatchAt(s, i)
    ensures UuidFromLiteral(Candidate(s, i)).Ok?
    ensures LiteralDigits(Candidate(s, i)) == RemoveChar(Candidate(s, i), '-')
    ensures |LiteralDigits(Candidate(s, i))| == 32 && AllHex(LiteralDigits(Candidate(s, i)))
  {
    if PlainAt(s, i) {
      PlainIsLiteral(s, i);
    } else {
      DashedIsLiteral(s, i);
    }
  }

  lemma PlainIsLiteral(s: string, i: int)
    requires PlainAt(s, i)
    ensures LiteralDigits(s[i..i + 32]) == RemoveChar(s[i..i + 32], '-')
    ensures |LiteralDigits(s[i..i + 32])| == 32 && AllHex(LiteralDigits(s[i..i + 32]))
  {
    var c := s[i..i + 32];
    assert AllHex(c) by {
      forall k | 0 <= k < 32 ensures IsHex(c[k]) {
        assert c[k] == s[i + k];
      }
    }
    LiteralDigitsOfHexDash(c);
    assert '-' !in c;
  }

  lemma DashedIsLiteral(s: string, i: int)
    requires DashedAt(s, i)
    ensures LiteralDigits(s[i..i + 36]) == RemoveChar(s[i..i + 36], '-')
    ensures |LiteralDigits(s[i..i + 36])| == 32 && AllHex(LiteralDigits(s[i..i + 36]))
  {
    var c := s[i..i + 36];
    assert c[8] == '-' && c[13] == '-' && c[18] == '-' && c[23] == '-';
    assert forall k :: 0 <= k < 36 && k != 8 && k != 13 && k != 18 && k != 23 ==> IsHex(c[k]) by {
      forall k | 0 <= k < 36 && k != 8 && k != 13 && k != 18 && k != 23 ensures IsHex(c[k]) {
        assert c[k] == s[i + k];
      }
    }
    assert HexOrDash(c);
    LiteralDigitsOfHexDash(c);
    DashedDigits(c);
  }


  /** `extract_uuid(text)`: the UUID of the leftmost match, or None. */
  function ExtractUuid(text: string): (r: Option<Uuid>)
    ensures r.Some? <==> exists i :: 0 <= i < |text| && MatchAt(text, i)
    ensures r.Some? ==> ValidUuid(r.value)
    ensures r.Some? ==> exists i :: (0 <= i < |text| && MatchAt(text, i)
      && (forall j :: 0 <= j < i ==> !MatchAt(text, j))
      && UuidFromLiteral(Candidate(text, i)) == Ok(r.value))
  {
    var m := FirstMatch(text, 0);
    if m.None? then None
    else
      var i := m.value;
      CandidateIsLiteral(text, i);
      Some(UuidFromLiteral(Candidate(text, i)).value)
  }

  /** `extract_uuid(v)` on a value read from a parsed document: anything but
      a string makes `re.search` raise `TypeError`. */
  function ExtractUuidOf(v: Option<Value>): (r: Result<Option<Uuid>>)
    ensures r.Err? <==> !(v.Some? && v.value.Str?)
    ensures r.Ok? ==> r.value == ExtractUuid(v.value.s)
  {
    match v
    case Some(Str(s)) => Ok(ExtractUuid(s))
    case _ => Err(TypeError("expected string or bytes-like object"))
  }

  lemma IsHexLower(c: char)
    ensures IsHex(Lower(c)) <==> IsHex(c)
    ensures Lower(c) == '-' <==> c == '-'
  {
  }

  lemma MatchAtLower(s: string, i: int)
    ensures PlainAt(LowerStr(s), i) <==> PlainAt(s, i)
    ensures MatchAt(LowerStr(s), i) <==> MatchAt(s, i)
  {
    forall k | 0 <= k < |s| ensures IsHex(LowerStr(s)[k]) <==> IsHex(s[k]) {
      IsHexLower(s[k]);
    }
  }

  lemma {:induction false} FirstMatchLower(s: string, from: nat)
    ensures FirstMatch(LowerStr(s), from) == FirstMatch(s, from)
    decreases |s| - from
  {
    MatchAtLower(s, from);
    if from < |s| && !MatchAt(s, from) {
      FirstMatchLower(s, from + 1);
    }
  }

  lemma {:induction false} RemoveCharLower(s: string)
    ensures RemoveChar(LowerStr(s), '-') == LowerStr(RemoveChar(s, '-'))
  {
    if |s| > 0 {
      IsHexLower(s[0]);
      assert LowerStr(s)[1..] == LowerStr(s[1..]);
      RemoveCharLower(s[1..]);
      if s[0] != '-' {
        LowerStrAppend([s[0]], RemoveChar(s[1..], '-'));
      }
    }
  }

  lemma CandidateLower(text: string, i: int)
    requires MatchAt(text, i)
    ensures MatchAt(LowerStr(text), i)
    ensures Candidate(LowerStr(text), i) == LowerStr(Candidate(text, i))
  {
    MatchAtLower(text, i);
    var c := Candidate(text, i);
    LowerStrSlice(text, i, i + |c|);
  }

  lemma LiteralLower(c: string)
    requires LiteralDigits(c) == RemoveChar(c, '-')
    requires LiteralDigits(LowerStr(c)) == RemoveChar(LowerStr(c), '-')
    requires |LiteralDigits(c)| == 32 && AllHex(LiteralDigits(c))
    requires |LiteralDigits(LowerStr(c))| == 32 && AllHex(LiteralDigits(LowerStr(c)))
    ensures UuidFromLiteral(LowerStr(c)) == UuidFromLiteral(c)
  {
    RemoveCharLower(c);
    LowerStrIdempotent(RemoveChar(c, '-'));
  }

  /** The pattern ignores case and `uuid.UUID` normalises it: an input and
      its lower-case form give the same UUID. */
  lemma ExtractUuidIgnoresCase(text: string)
    ensures ExtractUuid(LowerStr(text)) == ExtractUuid(text)
  {
    FirstMatchLower(text, 0);
    match FirstMatch(text, 0)
    case None =>
    case Some(i) =>
      CandidateLower(text, i);
      CandidateIsLiteral(text, i);
      CandidateIsLiteral(LowerStr(text), i);
      LiteralLower(Candidate(text, i));
  }

  /** `uniq_by_uuid` as a loop over the entities: each element with no UUID
      is kept, and of several elements sharing a UUID only the first. The
      elements must all be of one kind (`kindOf`), or the entry assertion
      fails. */
  method UniqByUuid<T>(entities: seq<T>, kindOf: T -> nat, uuidOf: T -> Option<Uuid>)
    returns (r: Result<seq<T>>)
    ensures r.Err? <==> exists i :: 0 <= i < |entities| && kindOf(entities[i]) != kindOf(entities[0])
    ensures r.Err? ==> r.error == AssertionError("Mixed types provided to uniq_by_uuid")
    ensures r.Ok? ==> r.value == Uniq(entities, uuidOf, {})
  {
    var same := SameKind(entities, kindOf);
    if !same {
      return Err(AssertionError("Mixed types provided to uniq_by_uuid"));
    }
    var deduped := DedupeByUuid(entities, uuidOf);
    return Ok(deduped);
  }

  /** The entry check of `uniq_by_uuid`: every element has the first one's
      kind. */
  method SameKind<T>(entities: seq<T>, kindOf: T -> nat) returns (same: bool)
    ensures same <==> forall i :: 0 <= i < |entities| ==> kindOf(entities[i]) == kindOf(entities[0])
  {
    if |entities| > 0 {
      var first := kindOf(entities[0]);
      for i := 0 to |entities|
        invariant forall j :: 0 <= j < i ==> kindOf(entities[j]) == first
      {
        if kindOf(entities[i]) != first {
          return false;
        }
      }
    }
    return true;
  }

  /** The loop of `uniq_by_uuid`, with `seen` the set of UUIDs taken so far. */
  method DedupeByUuid<T>(entities: seq<T>, uuidOf: T -> Option<Uuid>) returns (deduped: seq<T>)
    ensures deduped == Uniq(entities, uuidOf, {})
  {
    var seen: set<Uuid> := {};
    deduped := [];
    for i := 0 to |entities|
      invariant deduped + Uniq(entities[i..], uuidOf, seen) == Uniq(entities, uuidOf, {})
    {
      var e := entities[i];
      UniqStep(deduped, entities[i..], uuidOf, seen);
      assert entities[i..][1..] == entities[i + 1..];
      match uuidOf(e)
      case None =>
        deduped := deduped + [e];
      case Some(u) =>
        if u !in seen {
          seen := seen + {u};
          deduped := deduped + [e];
        }
    }
  }

  /** One step of the dedupe loop: the first element is taken, unless its
      UUID was seen, and the rest is deduplicated after it. */
  lemma UniqStep<T>(done: seq<T>, xs: seq<T>, uuidOf: T -> Option<Uuid>, seen: set<Uuid>)
    requires |xs| > 0
    ensures uuidOf(xs[0]).None? ==> done + Uniq(xs, uuidOf, seen) == (done + [xs[0]]) + Uniq(xs[1..], uuidOf, seen)
    ensures uuidOf(xs[0]).Some? && uuidOf(xs[0]).value in seen ==> done + Uniq(xs, uuidOf, seen) == done + Uniq(xs[1..], uuidOf, seen)
    ensures uuidOf(xs[0]).Some? && uuidOf(xs[0]).value !in seen ==>
      done + Uniq(xs, uuidOf, seen) == (done + [xs[0]]) + Uniq(xs[1..], uuidOf, seen + {uuidOf(xs[0]).value})
  {
  }

  /** The reference definition of the dedupe: `seen` holds the UUIDs already
      taken. */
  function Uniq<T>(xs: seq<T>, uuidOf: T -> Option<Uuid>, seen: set<Uuid>): seq<T>
  {
    if |xs| == 0 then []
    else match uuidOf(xs[0])
      case None => [xs[0]] + Uniq(xs[1..], uuidOf, seen)
      case Some(u) =>
        if u in seen then Uniq(xs[1..], uuidOf, seen)
        else [xs[0]] + Uniq(xs[1..], uuidOf, seen + {u})
  }

  /** Element `i` is the first of `xs` with its UUID. */
  predicate FirstWithUuid<T>(xs: seq<T>, uuidOf: T -> Option<Uuid>, i: int)
    requires 0 <= i < |xs|
  {
    forall j :: 0 <= j < i ==> uuidOf(xs[j]) != uuidOf(xs[i])
  }

  /** The dedupe keeps elements in order and invents none. */
  lemma {:induction false} UniqSubseq<T>(xs: seq<T>, uuidOf: T -> Option<Uuid>, seen: set<Uuid>)
    ensures SubseqOf(Uniq(xs, uuidOf, seen), xs)
  {
    if |xs| > 0 {
      var r := Uniq(xs, uuidOf, seen);
      match uuidOf(xs[0])
      case None =>
        UniqSubseq(xs[1..], uuidOf, seen);
      case Some(u) =>
        if u in seen {
          UniqSubseq(xs[1..], uuidOf, seen);
          SubseqOfTail(r, xs);
        } else {
          UniqSubseq(xs[1..], uuidOf, seen + {u});
        }
    }
  }

  /** No UUID the dedupe returns was in `seen`. */
  lemma {:induction false} UniqAvoidsSeen<T>(xs: seq<T>, uuidOf: T -> Option<Uuid>, seen: set<Uuid>)
    ensures forall i :: 0 <= i < |Uniq(xs, uuidOf, seen)| && uuidOf(Uniq(xs, uuidOf, seen)[i]).Some? ==>
      uuidOf(Uniq(xs, uuidOf, seen)[i]).value !in seen
  {
    if |xs| > 0 {
      var r := Uniq(xs, uuidOf, seen);
      match uuidOf(xs[0])
      case None =>
        UniqAvoidsSeen(xs[1..], uuidOf, seen);
        assert r[1..] == Uniq(xs[1..], uuidOf, seen);
      case Some(u) =>
        if u in seen {
          UniqAvoidsSeen(xs[1..], uuidOf, seen);
        } else {
          UniqAvoidsSeen(xs[1..], uuidOf, seen + {u});
          assert r[1..] == Uniq(xs[1..], uuidOf, seen + {u});
        }
    }
  }

  /** No two elements the dedupe returns share a UUID. */
  lemma {:induction false} UniqDistinct<T>(xs: seq<T>, uuidOf: T -> Option<Uuid>, seen: set<Uuid>)
    ensures forall i, j :: 0 <= i < j < |Uniq(xs, uuidOf, seen)| && uuidOf(Uniq(xs, uuidOf, seen)[i]).Some? ==>
      uuidOf(Uniq(xs, uuidOf, seen)[i]) != uuidOf(Uniq(xs, uuidOf, seen)[j])
  {
    if |xs| > 0 {
      var r := Uniq(xs, uuidOf, seen);
      match uuidOf(xs[0])
      case None =>
        var t := Uniq(xs[1..], uuidOf, seen);
        UniqDistinct(xs[1..], uuidOf, seen);
        assert r[1..] == t;
        forall i, j | 0 <= i < j < |r| && uuidOf(r[i]).Some?
          ensures uuidOf(r[i]) != uuidOf(r[j])
        {
          assert i > 0 && r[i] == t[i - 1] && r[j] == t[j - 1];
        }
      case Some(u) =>
        if u in seen {
          UniqDistinct(xs[1..], uuidOf, seen);
        } else {
          var t := Uniq(xs[1..], uuidOf, seen + {u});
          UniqDistinct(xs[1..], uuidOf, seen + {u});
          UniqAvoidsSeen(xs[1..], uuidOf, seen + {u});
          assert r[1..] == t;
          forall i, j | 0 <= i < j < |r| && uuidOf(r[i]).Some?
            ensures uuidOf(r[i]) != uuidOf(r[j])
          {
            if i == 0 {
              assert r[j] == t[j - 1];
            }
          }
        }
    }
  }

  /** Every element without a UUID is kept. */
  lemma {:induction false} UniqKeepsNone<T>(xs: seq<T>, uuidOf: T -> Option<Uuid>, seen: set<Uuid>)
    ensures forall i :: 0 <= i < |xs| && uuidOf(xs[i]).None? ==> xs[i] in Uniq(xs, uuidOf, seen)
  {
    if |xs| > 0 {
      var rest := xs[1..];
      assert forall i :: 1 <= i < |xs| ==> xs[i] == rest[i - 1];
      match uuidOf(xs[0])
      case None =>
        UniqKeepsNone(rest, uuidOf, seen);
      case Some(u) =>
        if u in seen {
          UniqKeepsNone(rest, uuidOf, seen);
        } else {
          UniqKeepsNone(rest, uuidOf, seen + {u});
        }
    }
  }

  /** The first holder of each UUID not in `seen` is kept. */
  lemma {:induction false} UniqKeepsFirst<T>(xs: seq<T>, uuidOf: T -> Option<Uuid>, seen: set<Uuid>)
    ensures forall i :: (0 <= i < |xs| && uuidOf(xs[i]).Some? && uuidOf(xs[i]).value !in seen
      && FirstWithUuid(xs, uuidOf, i)) ==> xs[i] in Uniq(xs, uuidOf, seen)
  {
    if |xs| > 0 {
      var rest := xs[1..];
      var r := Uniq(xs, uuidOf, seen);
      assert forall i :: 1 <= i < |xs| ==> xs[i] == rest[i - 1];
      match uuidOf(xs[0])
      case None =>
        UniqKeepsFirst(rest, uuidOf, seen);
        forall i | 0 <= i < |xs| && uuidOf(xs[i]).Some? && uuidOf(xs[i]).value !in seen
            && FirstWithUuid(xs, uuidOf, i)
          ensures xs[i] in r
        {
          assert i > 0 && FirstWithUuid(rest, uuidOf, i - 1);
        }
      case Some(u) =>
        if u in seen {
          UniqKeepsFirst(rest, uuidOf, seen);
          forall i | 0 <= i < |xs| && uuidOf(xs[i]).Some? && uuidOf(xs[i]).value !in seen
              && FirstWithUuid(xs, uuidOf, i)
            ensures xs[i] in r
          {
            assert i > 0 && FirstWithUuid(rest, uuidOf, i - 1);
          }
        } else {
          UniqKeepsFirst(rest, uuidOf, seen + {u});
          forall i | 0 <= i < |xs| && uuidOf(xs[i]).Some? && uuidOf(xs[i]).value !in seen
              && FirstWithUuid(xs, uuidOf, i)
            ensures xs[i] in r
          {
            if i > 0 {
              assert uuidOf(xs[0]) != uuidOf(xs[i]);
              assert FirstWithUuid(rest, uuidOf, i - 1);
            }
          }
        }
    }
  }

  /** Every element with a UUID that the dedupe returns is the first holder
      of that UUID. */
  lemma {:induction false} UniqOnlyFirst<T>(xs: seq<T>, uuidOf: T -> Option<Uuid>, seen: set<Uuid>)
    ensures forall y :: y in Uniq(xs, uuidOf, seen) && uuidOf(y).Some? ==>
      exists i :: 0 <= i < |xs| && xs[i] == y && FirstWithUuid(xs, uuidOf, i)
  {
    if |xs| > 0 {
      var x := xs[0];
      var rest := xs[1..];
      var r := Uniq(xs, uuidOf, seen);
      assert forall i :: 1 <= i < |xs| ==> xs[i] == rest[i - 1];
      match uuidOf(x)
      case None =>
        var t := Uniq(rest, uuidOf, seen);
        UniqOnlyFirst(rest, uuidOf, seen);
        assert r == [x] + t;
        forall y | y in r && uuidOf(y).Some?
          ensures exists i :: 0 <= i < |xs| && xs[i] == y && FirstWithUuid(xs, uuidOf, i)
        {
          assert y in t;
          var i :| 0 <= i < |rest| && rest[i] == y && FirstWithUuid(rest, uuidOf, i);
          assert xs[i + 1] == y && FirstWithUuid(xs, uuidOf, i + 1);
        }
      case Some(u) =>
        var seen' := if u in seen then seen else seen + {u};
        var t := Uniq(rest, uuidOf, seen');
        UniqOnlyFirst(rest, uuidOf, seen');
        UniqAvoidsSeen(rest, uuidOf, seen');
        assert r == (if u in seen then t else [x] + t);
        forall y | y in r && uuidOf(y).Some?
          ensures exists i :: 0 <= i < |xs| && xs[i] == y && FirstWithUuid(xs, uuidOf, i)
        {
          if y in t {
            var k :| 0 <= k < |t| && t[k] == y;
            assert uuidOf(y).value !in seen';
            var i :| 0 <= i < |rest| && rest[i] == y && FirstWithUuid(rest, uuidOf, i);
            assert xs[i + 1] == y && FirstWithUuid(xs, uuidOf, i + 1);
          } else {
            assert y == x && FirstWithUuid(xs, uuidOf, 0);
          }
        }
    }
  }

  /** What the dedupe returns: an order-preserving subsequence, no UUID
      twice, no UUID from `seen`, every UUID-less element, and for each
      other UUID its first holder. */
  lemma UniqFacts<T>(xs: seq<T>, uuidOf: T -> Option<Uuid>, seen: set<Uuid>)
    ensures var r := Uniq(xs, uuidOf, seen);
      && SubseqOf(r, xs)
      && (forall i, j :: 0 <= i < j < |r| && uuidOf(r[i]).Some? ==> uuidOf(r[i]) != uuidOf(r[j]))
      && (forall i :: 0 <= i < |r| && uuidOf(r[i]).Some? ==> uuidOf(r[i]).value !in seen)
      && (forall i :: 0 <= i < |xs| && uuidOf(xs[i]).None? ==> xs[i] in r)
      && (forall i :: (0 <= i < |xs| && uuidOf(xs[i]).Some? && uuidOf(xs[i]).value !in seen
            && FirstWithUuid(xs, uuidOf, i)) ==> xs[i] in r)
      && (forall y :: y in r && uuidOf(y).Some? ==>
            exists i :: 0 <= i < |xs| && xs[i] == y && FirstWithUuid(xs, uuidOf, i))
  {
    UniqSubseq(xs, uuidOf, seen);
    UniqDistinct(xs, uuidOf, seen);
    UniqAvoidsSeen(xs, uuidOf, seen);
    UniqKeepsNone(xs, uuidOf, seen);
    UniqKeepsFirst(xs, uuidOf, seen);
    UniqOnlyFirst(xs, uuidOf, seen);
  }

  /** A list whose UUIDs are already distinct, none in `seen`, comes back
      unchanged. */
  lemma {:induction false} UniqOfDistinct<T>(xs: seq<T>, uuidOf: T -> Option<Uuid>, seen: set<Uuid>)
    requires forall i, j :: 0 <= i < j < |xs| && uuidOf(xs[i]).Some? ==> uuidOf(xs[i]) != uuidOf(xs[j])
    requires forall i :: 0 <= i < |xs| && uuidOf(xs[i]).Some? ==> uuidOf(xs[i]).value !in seen
    ensures Uniq(xs, uuidOf, seen) == xs
  {
    if |xs| > 0 {
      var rest := xs[1..];
      assert forall i :: 1 <= i < |xs| ==> xs[i] == rest[i - 1];
      match uuidOf(xs[0])
      case None =>
        UniqOfDistinct(rest, uuidOf, seen);
      case Some(u) =>
        forall i | 0 <= i < |rest| && uuidOf(rest[i]).Some?
          ensures uuidOf(rest[i]).value !in seen + {u}
        {
          assert uuidOf(xs[0]) != uuidOf(xs[i + 1]);
        }
        UniqOfDistinct(rest, uuidOf, seen + {u});
    }
  }

  /** Deduping twice is deduping once. */
  lemma UniqIdempotent<T>(xs: seq<T>, uuidOf: T -> Option<Uuid>)
    ensures Uniq(Uniq(xs, uuidOf, {}), uuidOf, {}) == Uniq(xs, uuidOf, {})
  {
    UniqDistinct(xs, uuidOf, {});
    UniqOfDistinct(Uniq(xs, uuidOf, {}), uuidOf, {});
  }

  /** `parse_date(date_str)`: None for a missing or empty string, otherwise
      whatever `datetime.fromisoformat` gives (None for the `ValueError` it
      raises on malformed text). */
  function ParseDate(iso: Iso, dateStr: Option<string>): (r: Option<DateTime>)
    ensures (dateStr.None? || dateStr.value == "") ==> r.None?
    ensures dateStr.Some? && dateStr.value != "" ==> r == iso.parse(dateStr.value)
  {
    match dateStr
    case Some(s) => if s != "" then iso.parse(s) else None
    case None => None
  }

  /** A date written by `isoformat` is read back by `parse_date`. */
  lemma ParseDateRoundTrip(iso: Iso, d: DateTime)
    requires Faithful(iso)
    ensures ParseDate(iso, Some(iso.format(d))) == Some(d)
  {
  }
}

=== FILE: values.dfy ===
/** Values the repository passes around untyped: timestamps, UUIDs and the
    dict/list trees produced by xmltodict, extruct and json. */
module Values {
  import opened Wrappers

  /** A `datetime`: an instant on an ordered time line plus the optional UTC
      offset (in seconds) of an aware value. Ordering is by instant. */
  datatype DateTime = DateTime(instant: int, offset: Option<int>)

  predicate TimeLe(a: DateTime, b: DateTime) { a.instant <= b.instant }

  /** An optional `datetime` as a free-form value: `None` or the time. */
  function DateValue(d: Option<DateTime>): (r: Value)
    ensures r.Time? <==> d.Some?
    ensures d.Some? ==> r.t == d.value
  {
    if d.Some? then Time(d.value) else Null
  }

  /** Raw document contents. */
  type Bytes = seq<bv8>

  /** A `uuid.UUID`, held as its 32 lower-case hexadecimal digits. */
  datatype Uuid = Uuid(hex: string)

  /** A parsed document node or a free-form metadata value. `Time` and `Id`
      are the Python objects json cannot serialise on its own. */
  datatype Value =
    | Null
    | Bool(b: bool)
    | Num(n: real)
    | Str(s: string)
    | Time(t: DateTime)
    | Id(u: Uuid)
    | List(items: seq<Value>)
    | Dict(fields: seq<Field>)

  /** `type(v).__name__`, as error messages print it. */
  function TypeName(v: Value): string {
    match v
    case Null => "NoneType"
    case Bool(_) => "bool"
    case Num(_) => "float"
    case Str(_) => "str"
    case Time(_) => "datetime"
    case Id(_) => "UUID"
    case List(_) => "list"
    case Dict(_) => "dict"
  }

  /** One key of a Python dict; a dict keeps its keys in insertion order. */
  datatype Field = Field(key: string, val: Value)

  /** `d.get(key)` on the fields of a dict. */
  function Lookup(fields: seq<Field>, key: string): (r: Option<Value>)
    ensures r.Some? <==> exists i :: 0 <= i < |fields| && fields[i].key == key
    ensures r.Some? ==> exists i :: 0 <= i < |fields| && fields[i] == Field(key, r.value)
  {
    if |fields| == 0 then None
    else if fields[0].key == key then Some(fields[0].val)
    else
      var r := Lookup(fields[1..], key);
      assert forall i :: 1 <= i < |fields| ==> fields[i] == fields[1..][i - 1];
      r
  }

  /** Looking a key up in two runs of fields: the first run wins. */
  lemma {:induction false} LookupAppend(a: seq<Field>, b: seq<Field>, key: string)
    ensures Lookup(a + b, key) == if Lookup(a, key).Some? then Lookup(a, key) else Lookup(b, key)
  {
    if |a| == 0 {
      assert a + b == b;
    } else {
      assert (a + b)[1..] == a[1..] + b;
      LookupAppend(a[1..], b, key);
    }
  }

  /** `v.get(key)` when `v` is a dict; anything else has no keys. */
  function Get(v: Value, key: string): Option<Value> {
    if v.Dict? then Lookup(v.fields, key) else None
  }

  /** `v.get(key, default)`. */
  function GetOr(v: Value, key: string, default: Value): Value {
    Get(v, key).GetOr(default)
  }

  /** The string under `key`, if the value there is a string. */
  function GetStr(v: Value, key: string): Option<string> {
    match Get(v, key)
    case Some(Str(s)) => Some(s)
    case _ => None
  }

  /** Python truthiness. */
  predicate Truthy(v: Value) {
    match v
    case Null => false
    case Bool(b) => b
    case Num(n) => n != 0.0
    case Str(s) => s != ""
    case Time(_) => true
    case Id(_) => true
    case List(items) => items != []
    case Dict(fields) => fields != []
  }

  /** `d[key] = val`: an existing key keeps its position, a new key is appended. */
  function Assign(fields: seq<Field>, key: string, val: Value): (r: seq<Field>)
    ensures Lookup(r, key) == Some(val)
    ensures forall k :: k != key ==> Lookup(r, k) == Lookup(fields, k)
  {
    if |fields| == 0 then [Field(key, val)]
    else if fields[0].key == key then [Field(key, val)] + fields[1..]
    else [fields[0]] + Assign(fields[1..], key, val)
  }

  /** A value json can write without a `default` hook. */
  predicate JsonNative(v: Value) {
    match v
    case Time(_) => false
    case Id(_) => false
    case List(items) => forall i :: 0 <= i < |items| ==> JsonNative(items[i])
    case Dict(fields) => forall i :: 0 <= i < |fields| ==> JsonNative(fields[i].val)
    case _ => true
  }

  /** `datetime.isoformat` and `datetime.fromisoformat`, supplied from outside. */
  datatype Iso = Iso(format: DateTime -> string, parse: string -> Option<DateTime>)

  /** The property Python documents for the pair: parsing a formatted value
      gives it back, and a formatted value is never the empty string. */
  ghost predicate Faithful(iso: Iso) {
    forall d :: iso.parse(iso.format(d)) == Some(d) && iso.format(d) != ""
  }
}

=== FILE: wrappers.dfy ===
/** Failure-compatible wrappers and the Python exception kinds the model
    propagates instead of raising. */
module Wrappers {

  datatype Option<+T> = None | Some(value: T) {
    predicate IsFailure() { None? }

    function PropagateFailure<U>(): Option<U>
      requires None?
    {
      None
    }

    function Extract(): T
      requires Some?
    {
      value
    }

    function GetOr(default: T): T {
      match this
      case Some(v) => v
      case None => default
    }
  }

  /** The exception classes the modelled Python code can raise. */
  datatype PyError =
    | ValueError(msg: string)
    | TypeError(msg: string)
    | KeyError(key: string)
    | AttributeError(msg: string)
    | AssertionError(msg: string)
    | IndexError(msg: string)
    | FileNotFoundError(msg: string)
    | ParseError(msg: string)
    | RecursionError(msg: string)
    | NotImplementedError
    | UnboundLocalError(name: string)
    | NameError(name: string)
    | SystemExit(code: int)

  /** A value, or the exception the Python code raises instead of returning it. */
  datatype Result<+T> = Ok(value: T) | Err(error: PyError) {
    predicate IsFailure() { Err? }

    function PropagateFailure<U>(): Result<U>
      requires Err?
    {
      Err(error)
    }

    function Extract(): T
      requires Ok?
    {
      value
    }
  }

  /** A loop's state when it stops: at the end, or at the exception that
      ends it early, with everything done before it kept. */
  datatype Stopped<T> = Stopped(state: T, error: Option<PyError>)

  /** `[f(x) for x in xs]` where `f` may raise: the first exception
      propagates. */
  function MapResult<T, U>(xs: seq<T>, f: T -> Result<U>): (r: Result<seq<U>>)
    ensures r.Ok? <==> forall i :: 0 <= i < |xs| ==> f(xs[i]).Ok?
    ensures r.Ok? ==> |r.value| == |xs| && (forall i :: 0 <= i < |xs| ==> r.value[i] == f(xs[i]).value)
  {
    if |xs| == 0 then Ok([])
    else
      assert forall i :: 1 <= i < |xs| ==> xs[i] == xs[1..][i - 1];
      var first :- f(xs[0]);
      var rest :- MapResult(xs[1..], f);
      Ok([first] + rest)
  }

  /** When every item maps to its counterpart, the whole list does. */
  lemma MapResultAll<T, U>(xs: seq<T>, f: T -> Result<U>, ys: seq<U>)
    requires |xs| == |ys| && forall i :: 0 <= i < |xs| ==> f(xs[i]) == Ok(ys[i])
    ensures MapResult(xs, f) == Ok(ys)
  {
    assert MapResult(xs, f).value == ys;
  }
}
